=== FILE: README.md ===
# BLazy agent loop, modelled in Dafny

BLazy is an agent loop around a chat model with tools. It keeps the
conversation in memory as a Python list of `{role, content}` messages, where
the content is a string or a list of typed blocks (`text`, `tool_use`,
`tool_result` with nested text and image parts). Each iteration does four
things:

- it edits that list: cache breakpoints, image pruning, the rewrite of empty
  content;
- it sends the list to the model and appends the assistant turn;
- it runs every tool call through a `ToolCollection`;
- it appends the tool results, asks the operator whether to go on, or stops.

Five copies of the loop (`loop_gfix.py`, `loop_WEB.py`, `loop_live.py`,
`loop_live_new.py`, `looptemp.py`) differ in a few switches: the prompt gate,
per-call tool-result turns, summarising past a threshold, and the empty-content
rewrite. Around the loop sit the event channels that feed the terminal and web
views, and the deterministic parts of the tools:

- a file editor with an undo stack, in two versions;
- a shell tool that has a model write a script and then parses it, in two
  versions;
- a project set-up tool;
- a chat manager with callable functions;
- a keyboard-shortcut navigator.

The project has one module per component:

- `Wrappers`, `Text` and `JsonValue` hold the values and the Python string
  and dict primitives the rest is written in (CPython's slicing, `count`,
  `replace`, `split`, `expandtabs`, `strip`; dicts as insertion-ordered lists
  of pairs).
- `Conversation` holds the messages, blocks and parts. A block carries
  `cached` for its `cache_control` key.
- `CachePolicy`, `ImagePolicy`, `ToolResults` and `Summary` model the
  conversation policies. Each is a specification function, and a method that
  loops over the shared list in place is proved against it.
- `SamplingLoop` models the loop: one iteration as a transition over the list,
  and the `while` loop as a method proved against the trace of iterations.
  The model's response, the tools' outcomes, the operator's answer and the
  model-written summary are parameters.
- `TokenTracking`, `OutputBuffering` and `Display` model the token counters
  and the two event channels, as classes whose fields change in place.
- `Render` models the text and HTML views of the conversation.
- `ToolDispatch` models the tool collection.
- `Editing` holds the editor state and transitions that both editors share.
  `EditTool` is the editor of `tools/edit.py`; `TestEditTool` is the editor of
  `tools/test_edit.py` and its `edit_file`.
- `BashTool` and `TestBashTool` model the two shell tools.
- `ProjectSetup`, `ChatManagerModel` and `Navigation` model the remaining tools.

The model does not perform I/O. Wherever the source talks to the outside
world, the model takes the outcome as a parameter: model replies, subprocess
and `exec` outcomes, file reads, window lookups, key presses and the clock.

## Model

| member | source | states |
|---|---|---|
| JsonValue.EscapeStringRoundTrip | loop_live.py:446 | the body `json.dumps` writes for a string reads back, under the escapes of section 7 of RFC 8259, to exactly that string: quotes, backslashes and control characters are escaped, and characters outside the Basic Multilingual Plane become surrogate pairs |
| JsonValue.EscapeStringAscii | loop_live.py:446 | with `ensure_ascii`, every character `json.dumps` writes for a string is printable ASCII (U+0020 to U+007E), so DEL and every non-ASCII character are escaped |
| JsonValue.QuoteReprRoundTrip | loop_live_new.py:230-231 | `repr` of a string, as an f-string shows a string inside a dict, is the string between two equal quotes: double quotes exactly when it holds `'` and no `"`, otherwise single. Its body reads back to the string, with the chosen quote, backslash, tab, line feed and carriage return escaped |
| JsonValue.PyReprOneLine | loop_live_new.py:230-231 | the `repr` of any value, such as a tool input dict, has no raw line break: line breaks in nested strings are written as `\n` |
| CachePolicy.SetLastCached | loop_gfix.py:870-874 | setting or popping `cache_control` on `content[-1]` keeps the message a qualifying user turn with the same number of blocks |
| CachePolicy.InjectPromptCaching | loop_gfix.py:863-875 | the reverse scan with a `breakpoints_remaining` counter leaves the conversation exactly as the per-message specification `WithBreakpoints` describes: the two newest user turns with list content get a marker on their last block, the third loses its marker, older turns are untouched |
| CachePolicy.OlderUnmarked | loop_gfix.py:873-875 | every message older than the third qualifying one has more than two newer qualifying messages, so the scan's `break` leaves it alone |
| CachePolicy.PassKeepsRanks | loop_gfix.py:866-867 | a pass keeps the length, which messages qualify, and each message's rank among the qualifying ones |
| CachePolicy.CachingIdempotent | loop_live_new.py:639-661 | running the pass twice on an unchanged list places the same markers as running it once |
| CachePolicy.CachingOnlyTouchesMarkers | loop_gfix.py:866-875 | a pass changes nothing but `cache_control` keys: with the markers dropped, every message is as before |
| CachePolicy.MarkAtMarks | loop_gfix.py:868-874 | after the pass a message carries one marker, on its last block, exactly when it qualifies and fewer than two qualifying messages are newer |
| CachePolicy.CachingPlacesNewestTwo | loop_gfix.py:865-875 | when every earlier marker sits within the three newest qualifying turns, afterwards the markers sit exactly on the newest two: `min(2, qualifying turns)` breakpoints |
| CachePolicy.InjectPromptCachingCleared | loop_live.py:509-520 | the corrected scan (no early `break`) leaves the conversation as `WithBreakpointsCleared` describes |
| CachePolicy.MarksOfNewestTwo | loop_gfix.py:865-872 | a list whose newest two qualifying turns carry one marker each and all other messages none holds `min(2, qualifying turns)` markers |
| CachePolicy.ClearedPlacesNewestTwo | loop_live.py:509-520 | from any list with markers on last blocks, the corrected pass leaves exactly `min(2, qualifying turns)` markers, on the newest two qualifying turns |
| CachePolicy.ClearedAgreesWithPass | loop_gfix.py:863-875 | where the source's pass keeps its bound, the corrected pass does exactly what it does |
| CachePolicy.UserTurn | loop_live.py:437-450 | a per-call user turn is a qualifying message with one block |
| CachePolicy.PerCallTurnsOverflowBreakpoints | loop_live.py:419-453 | appending two qualifying turns between passes, as the per-call copy does after two tool calls, leaves three markers after the source's pass: the stale one is never popped |
| ImagePolicy.FilterToMostRecentImages | loop_gfix.py:877-918 | the in-place pass leaves the conversation as `FilterImages` describes: unchanged for `images_to_keep = None`, otherwise without its oldest `max(0, found - keep)` images; `min_removal_threshold` is taken and never read |
| ImagePolicy.CountImages | loop_gfix.py:898-904 | the counting walk over tool results, newest first, finds every image part inside a `tool_result` block |
| ImagePolicy.RemoveOldestImages | loop_gfix.py:908-918 | the removal walk, oldest first, drops images until `toRemove` are gone and keeps every other part |
| ImagePolicy.DropImagesKeepsNewest | loop_gfix.py:908-918 | the images left are the original images without the first `budget` met in (message, block, part) order |
| ImagePolicy.FilterKeepsNewestImages | loop_gfix.py:906-918 | after a pass with `images_to_keep = k` the conversation holds `min(found, k)` images (none for negative `k`), and they are the newest ones |
| ImagePolicy.FilterNoneUnchanged | loop_gfix.py:883-884 | with `images_to_keep = None` nothing changes |
| ImagePolicy.FilterUnderLimitUnchanged | loop_gfix.py:906 | with no more images than `images_to_keep`, a pass changes nothing |
| ImagePolicy.DropWithoutImages | loop_gfix.py:909-918 | a conversation without images is unchanged whatever the budget |
| ImagePolicy.FilterIdempotent | loop_live_new.py:684-704 | a second pass with the same `images_to_keep` removes nothing |
| ImagePolicy.DropImagesKeepsOthers | loop_gfix.py:911-918 | a pass changes nothing but the removed images: roles, blocks, markers and non-image parts stay in place and in order |
| ToolResults.ToolResultShape | loop_gfix.py:480-515 | the block is a `tool_result` for the given `tool_use_id` with no cache marker; it is an error exactly for a failure string, which is then its only (text) part; otherwise it holds a text part only for a non-empty `output`, then an image part only for a non-empty `base64_image` |
| ToolResults.ExtractTextInOrder | loop_gfix.py:594-604 | the text of a block list is taken in block order: the text of `a + b` is the text of `a`, one space, the text of `b` |
| ToolResults.ExtractTextWithoutTexts | loop_gfix.py:596-605 | a list with no text block and no text part reads as `""` |
| ToolResults.ExtractTextOfToolResult | loop_live_new.py:454-469 | reading back a converted outcome gives the failure string, or the result's non-empty `output`, and nothing else: images and the `error` field add no text |
| ToolResults.ToolResultImages | loop_gfix.py:499-507 | a result carries one PNG image holding its `base64_image` exactly when that field is non-empty; a failure string carries none |
| ToolResults.ToolResultIgnoresError | loop_gfix.py:493-507 | the `error` field of a result object is not copied into the block |
| ToolResults.TruncateKeepsShape | loop_gfix.py:686-695 | truncation keeps the structure: list lengths, dict keys in order, the value under `source` untouched, every other value's kind |
| ToolResults.TruncateFits | loop_gfix.py:688-689 | every string left outside `source` is at most `max_length` long, and a truncated string is a prefix of the original |
| ToolResults.TruncateFitting | loop_live.py:254-262 | a value whose strings already fit comes back unchanged |
| ToolResults.TruncateIdempotent | loop_gfix.py:686-695 | with a non-negative limit, truncating twice is truncating once |
| ToolResults.TruncateNegativeCutsAgain | loop_gfix.py:689 | a negative limit counts from the end, as Python slicing does, so a second pass cuts again |
| Summary.SummarizeShape | loop_gfix.py:920-986 | a list of at most `MAX_SUMMARY_MESSAGES` messages is returned as it is; a longer one becomes exactly its first message followed by one user turn whose single text block is `"[CONVERSATION SUMMARY]\n\n"` + the summary |
| Summary.SummarizeIdempotent | loop_live.py:564-629 | with a threshold of at least 2 the result is within the threshold, so summarising it again changes nothing |
| Summary.SummarizeKeepsCacheReady | looptemp.py:589-654 | the summary turn is a non-empty list, so a summarised conversation is still ready for the caching pass |
| Summary.TranscriptAppend | loop_gfix.py:942-955 | the transcript is built message after message: the transcript of `a + b` is that of `a` followed by that of `b` |
| Summary.TranscriptIgnoresImagePruning | loop_gfix.py:945-953 | image pruning never changes the transcript the summary model is shown |
| Summary.TranscriptIgnoresCaching | loop_gfix.py:945-953 | cache markers never change the transcript the summary model is shown |
| Summary.ScanInteraction | loop_live.py:199-205 | the reverse scan keeps overwriting, so the user text is the OLDEST user message's text, and the assistant text is the response's texts joined by spaces once any assistant message exists and the response has content |
| Summary.CreateJournalEntry | loop_live.py:197-228 | the entry is skipped, without a model call, exactly when the user or assistant text is empty; otherwise the prompt is `"Summarize this interaction:\nUser: …\nAssistant: …"`, and exactly when the stripped reply is non-empty the text written is `ftfy.fix_text` (its quote and line-break fixes) of `"\nEntry #n - <timestamp>\n<summary>\n-------------------\n"` |
| Summary.FixedEntry | loop_live.py:221-223 | for a one-line timestamp, the fixed entry is still the frame of an empty line, the (uncurled) header, the fixed summary and the rule |
| Summary.FixTextIdempotent | loop_live.py:223 | the modelled `fix_text` leaves no `\r`, U+2028, U+2029 or curly quote behind, so fixing again changes nothing |
| Text.BreaksAppend | looptemp.py:392-395 | universal-newline translation works piece by piece when the first piece does not end with `\r`, so appending to a journal does not disturb how its earlier lines are read |
| Summary.HeaderOneLine | loop_live.py:221 | an entry's header is one line starting with `Entry #` |
| Summary.EntryLines | loop_live.py:221 | the lines of one entry are an empty line, the header, the summary's lines, the rule and an empty tail |
| Summary.JournalEntryCounted | looptemp.py:392-395 | appending what `create_journal_entry` writes to a journal that ends at a line break raises the next session's `journal_entry_count` (which reads the file with universal newlines) by exactly one, when the timestamp is one line and no line of the fixed summary starts with `Entry #` |
| SamplingLoop.RewriteEmptyKeeps | loop_WEB.py:788-790 | after the rewrite no message has content `""`; roles, the length and every other message are kept, and an empty one holds `"continue"` |
| SamplingLoop.RewriteEmptyContent | loop_WEB.py:788-790 | the in-place pass over the list leaves it as the rewrite describes |
| SamplingLoop.ResponseParamsPlain | loop_gfix.py:777-789 | the assistant turn has at most one block per response block, none with a cache marker and none a tool result |
| SamplingLoop.ToolCallsOfResponse | loop_gfix.py:798-813 | a reply has a tool call exactly when one of its blocks is a `tool_use` |
| SamplingLoop.CallTurn | loop_live.py:436-453 | the per-call user turn holds the call's `tool_result`, then an unmarked text block starting `"Tool '<name>' was called with input: "` |
| SamplingLoop.SamplingLoop | loop_gfix.py:727-852 | the `while running` loop leaves exactly the list and flag that `Run` gives for the rounds supplied; the rendering copy shows every message exactly once, in order, except the closing user turn the next iteration would show. `Run` is the source's loop for `loop_gfix.py`; for the per-call and gated copies it uses the corrected caching pass and closing turn of Findings rows 1 and 2 |
| SamplingLoop.Advance | loop_WEB.py:821-829 | one pass of the loop body moves the trace one state on; in the rendering copy it renders `messages[previous_message_count:]`, the window that starts where the previous one ended |
| SamplingLoop.RunIteration | loop_gfix.py:734-827 | one iteration on the shared list gives the state `Iterate` describes, with a fresh list when it was summarised; for the per-call and gated copies `Iterate` is the corrected iteration of Findings rows 1 and 2, and `loop_live.py`'s display step, which can raise afterwards, is not part of it (see `LiveDisplayStep`) |
| SamplingLoop.LiveDisplayStep | loop_live.py:454-467 | after the closing turn, `loop_live.py` shows `content[0]` of the newest two messages; this raises exactly when the reply made no tool call and either the operator's answer is empty or the reply gave no text or tool block |
| SamplingLoop.IterateIs | loop_gfix.py:825-827 | an iteration is the closing turn on the prepared list plus the assistant turn, then summarising past the threshold in the copies that summarise |
| SamplingLoop.BeginTurn | loop_gfix.py:734-789 | before the tools run the list is the prepared list followed by the assistant turn built from the reply |
| SamplingLoop.FinishTurn | loop_gfix.py:798-821 | after the assistant turn, the list and flag are those of `CloseTurn` for the reply's tool calls |
| SamplingLoop.PrepareRequest | loop_gfix.py:734-750 | the passes before each request leave the list as `Prepare` describes: breakpoints, then the two newest images, then (in the rewriting copy) `"continue"` for empty content; the per-call copy uses the corrected caching pass of Findings row 2 |
| SamplingLoop.CloseTurnIn | loop_gfix.py:814-821 | the closing turn as run: the operator's answer, the merged results, or the corrected `"continue"`, with the stop flag of `CloseTurn` |
| SamplingLoop.CollectParams | loop_gfix.py:777-788 | the loop over `response.content` builds exactly `ResponseParams` |
| SamplingLoop.CollectToolResults | loop_gfix.py:798-813 | the dispatch loop collects one `tool_result` per `tool_use`, in the order of the calls |
| SamplingLoop.DispatchPerCall | loop_live.py:419-453 | the per-call copy collects the same results and appends one user turn per call, in call order |
| SamplingLoop.RunKeepsInv | loop_gfix.py:727-735 | every state the loop passes through keeps the invariant that the caching pass can run on it |
| SamplingLoop.PruningKeepsSkeleton | loop_gfix.py:745-750 | image pruning changes no role, content kind, block count or marker |
| SamplingLoop.RequestMarkers | loop_gfix.py:734-750 | every request carries markers on exactly the newest two user turns with list content: `min(2, such turns)` breakpoints. This holds of `loop_gfix.py` as written; for the per-call copy it holds of the corrected pass only, since the source's pass can leave three (Findings row 2) |
| SamplingLoop.IterateKeepsInv | loop_gfix.py:727-827 | every iteration keeps the invariant, so the caching pass never meets an empty list and the bound holds at every request. This holds of `loop_gfix.py` as written; for the gated copies it holds of the corrected closing turn only, since the source's empty turn makes the next pass raise (Findings row 1) |
| SamplingLoop.CloseTurnStops | loop_gfix.py:814-821 | the closing turn stops the loop exactly when no tool ran, the prompt gate is passed and the answer lowered is `no` or `n`; it only appends |
| SamplingLoop.AnswerAppended | loop_live_new.py:600-613 | when the operator is asked, the answer is appended verbatim as a string user turn whatever it says |
| SamplingLoop.MergedTurnHoldsResults | loop_gfix.py:820-821 | after tool calls the merged copies append one user turn holding one `tool_result` per call, in call order, each for its call's id and an error exactly when the tool returned a string |
| SamplingLoop.PerCallTurnsFollowCalls | loop_live.py:419-462 | after tool calls the per-call copy appends one user turn per call, in call order, each opening with that call's `tool_result`, and goes on |
| SamplingLoop.IterateStops | loop_WEB.py:846-853 | an iteration stops the loop exactly when the reply has no tool call, the list with the assistant turn is longer than the gate (4 in the gated copies) and the answer is `no`/`n` |
| SamplingLoop.IterateSummarizes | loop_gfix.py:825-827 | with a summary threshold the list after an iteration is never longer than the threshold |
| SamplingLoop.GateAppendsEmptyTurn | loop_WEB.py:846-853 | as written, a gated copy with no tool call and a short list appends a user turn whose content is an empty list, which the next caching pass cannot take `content[-1]` of |
| SamplingLoop.GateContinues | loop_WEB.py:846-853 | corrected, that turn is `"continue"`, the loop goes on and the list stays ready for the caching pass |
| Render.FormatMessagesToStringAppend | loop_live_new.py:211-241 | the text of a list is the text of its first part followed by the text of the rest: each message adds its own `"\nROLE:"` section and separator, independently of the others |
| Render.ToolResultShownAsUnknown | loop_live_new.py:218-228 | a tool result never has a `name` key, so it is always shown with the ID `unknown`, followed by its parts |
| Render.PartsToStringIgnoresImageData | loop_live_new.py:225-228 | two part lists with the same texts in the same places render the same: an image is shown by the fixed placeholder, so its data never matters |
| Render.HtmlEscapeSafe | loop_WEB.py:667 | text passed through `html.escape` holds none of `<`, `>`, `"`, `'` |
| Render.HtmlEscapePlain | loop_WEB.py:667 | `html.escape` leaves text without `&` and markup characters as it is |
| Render.OneLine | loop_WEB.py:667 | `replace('\n', ' ')` keeps the length and leaves no line break |
| Render.MessageClassIgnoresCase | loop_WEB.py:638-649 | the role is lower-cased before it is compared: `USER` and `user` both get `user-message`, `Assistant` gets `assistant-message`, `system` gets `unknown-role` |
| Render.DisplayValueBounded | loop_live_new.py:313-319 | a string input over 100 characters is shown as its first 100 and `...` (103 characters); a shorter string or any other value is shown whole |
| Render.FormatMessagesToHtmlAppend | loop_live_new.py:246-330 | the HTML of a list is the HTML of its first part followed by that of the rest |
| Render.StringMessageSafe | loop_WEB.py:698-705 | in the escaping version a string message is one `div` whose body holds no markup character and no line break |
| Render.OneLineSafe | loop_WEB.py:692 | folding line breaks into spaces introduces no markup |
| Render.TruncateForDisplayDefault | looptemp.py:243-246 | with the default limit 500 a longer text becomes exactly 407 characters that keep its first 200 and its last 200; a text within the limit is unchanged |
| TokenTracking.GrandOfSum | loop_WEB.py:589 | the "Total Tokens Used" figure over several responses is the sum of each response's four counters |
| TokenTracking.SumAppend | loop_WEB.py:561-564 | the field-wise totals of two runs of updates add up |
| TokenTracking.TokenTracker.constructor | loop_WEB.py:544-552 | a new tracker has all eight counters at zero and no history |
| TokenTracking.TokenTracker.Update | loop_WEB.py:554-564 | `recent_*` become the latest usage and each `total_*` grows by it, so the totals stay the sum of all updates |
| OutputBuffering.OutputBuffer.constructor | loop_WEB.py:1012 | the buffer starts empty, with nothing written or delivered |
| OutputBuffering.OutputBuffer.Write | loop_WEB.py:1015-1019 | `write_to_buffer` appends one fragment at the tail and delivers nothing |
| OutputBuffering.OutputBuffer.Flush | loop_WEB.py:1021-1028 | `flush_buffer` gives `None` on an empty buffer; otherwise every pending fragment in insertion order, leaving the buffer empty; nothing is lost or repeated |
| Display.RoutedAppend | utils/agent_display.py:111-118 | routing a queue made of two parts routes each part in turn, so contents keep their arrival order |
| Display.RoutedOther | utils/agent_display.py:113-118 | a pair whose type is not `user`, `assistant` or `tool` reaches no list |
| Display.AgentDisplay.constructor | utils/agent_display.py:35-41 | a new display has three empty lists and an empty queue |
| Display.AgentDisplay.AddMessage | utils/agent_display.py:127-139 | `add_message` puts exactly one `(msg_type, content)` pair at the queue tail and touches no list |
| Display.AgentDisplay.Step | utils/agent_display.py:110-125 | one pass: with an empty queue nothing changes; otherwise the head is removed and its content appended to the list of its type, other types dropped |
| Display.AgentDisplay.Drain | utils/agent_display.py:110-125 | stepping until the queue is empty appends, to each list, the contents of its type in queue order |
| Display.AgentDisplay.MessagePanel | utils/agent_display.py:84 | the message panel shows the newest `min(10, n)` messages, oldest first |
| Display.AgentDisplay.ToolPanel | utils/agent_display.py:97 | the tool panel shows the newest `min(5, n)` results, oldest first |
| ToolDispatch.SetFieldLookup | tools/collection.py:24 | inserting a key into a dict makes it look up to the new value and leaves every other key alone |
| ToolDispatch.SetFieldKeys | tools/collection.py:24 | an existing key keeps its place; a new key goes last |
| ToolDispatch.ToolMapLookup | tools/collection.py:21-24 | looking a name up finds the LAST tool registered under it; the keys are the distinct names in first-registration order |
| ToolDispatch.ToParams | tools/collection.py:26-33 | one params dict per tool, in constructor order; all but the last as the tool gives them, the last with `cache_control` ephemeral; `[]` for no tools |
| ToolDispatch.ToParamsLastKeepsKeys | tools/collection.py:31-32 | the last tool keeps every other key and value |
| ToolDispatch.RunUnknown | tools/collection.py:38-41 | an unregistered name gives `ToolFailure(error="Tool <name> is invalid")` without calling any tool |
| ToolDispatch.RunKnown | tools/collection.py:42-46 | a registered name calls the last tool registered under it once: its result comes back unchanged, a `ToolError` becomes a failure carrying its message, any other exception propagates |
| ToolDispatch.ToolNamesFirstSeen | tools/collection.py:47-48 | the names are joined by `", "`, each once, in first-registration order |
| Conversation.MessageList.constructor | loop_gfix.py:698 | the loop works on the caller's list as given |
| Conversation.MessageList.Append | loop_gfix.py:789 | `messages.append(m)` adds exactly `m` at the end and changes nothing else |
| EditTool.FormatOutputLines | tools/edit.py:67-86 | `format_output` gives one line per field: `Command:`, `Status:`, then `File Path:` and `Operation:` only when present |
| EditTool.EditTool.constructor | tools/edit.py:55-56 | a new editor sees the given files and has no edit history |
| EditTool.EditTool.ReadFile | tools/edit.py:328-333 | a present file reads back as `read_text` returns it in text mode, with `\r\n` and a lone `\r` turned into `\n`, and then every non-ASCII character replaced by `?`; a missing one raises the read error |
| EditTool.EditTool.View | tools/edit.py:158-212 | viewing a file gives the numbered listing of the text or of the requested range, or raises the range error; the state is untouched |
| EditTool.EditTool.StrReplace | tools/edit.py:214-261 | `str_replace` performs the replacement step on the state and reports every error in the result instead of raising |
| EditTool.EditTool.Insert | tools/edit.py:263-295 | `insert` performs the insertion step on the state; its errors propagate |
| EditTool.EditTool.UndoEdit | tools/edit.py:315-326 | `undo_edit` raises on an empty stack; otherwise pops the newest text and writes it back |
| EditTool.EditTool.Call | tools/edit.py:88-123 | `__call__`: an empty path fails; `create` without a truthy `file_text` fails; `create` writes the text and pushes it; any other command answers nothing and changes nothing |
| Editing.AfterTabSkips | tools/edit.py:361-366 | a numbered line's text is what follows its tab |
| Editing.ListingRoundTrip | tools/edit.py:348-369 | `_make_output`'s listing has one line per line of the tab-expanded text, each led by its number (counting from `init_line`) in six columns and a tab, and the rest is the line |
| Editing.ViewShowsRange | tools/edit.py:190-211 | a range `[first, last]` is accepted exactly when `1 <= first <= n` and `last` is `-1` or in `[first, n]`; it then shows lines `first` to `last` (to the end for `-1`), numbered from `first` |
| Editing.OccurrenceLinesExact | tools/edit.py:229-237 | the line numbers of a non-unique match are exactly the lines that hold it, strictly increasing |
| Editing.ReplaceOutcome | tools/edit.py:219-246 | only a unique match changes anything: the file becomes the tab-expanded text with that occurrence replaced, and that text is pushed; an empty `old_str` on an empty file writes, pushes, then fails |
| Editing.InsertOutcome | tools/edit.py:263-292 | `insert` fails exactly for a missing file or a line outside `[0, n]`, changing nothing; otherwise the lines become `lines[:k] + new_lines + lines[k:]` and the text before is pushed |
| Editing.UndoAfterPush | tools/edit.py:315-324 | undo is last-in first-out: it writes back the text pushed last and leaves every stack as before that push |
| Editing.UndoEmptyFails | tools/edit.py:318-319 | with nothing pushed, undo fails and changes nothing |
| Editing.ReadTextClean | tools/edit.py:328-333 | what a read returns is ASCII and holds no `\r` |
| Editing.PlainTextExpanded | tools/edit.py:220 | a file of tab-free ASCII is worked on with its line breaks translated by the text-mode read, and exactly as stored when it holds no `\r` |
| Editing.CrlfFileMatches | tools/edit.py:219-246 | a file stored with Windows line endings, `x\r\ny`, holds `x\ny` once as read, so `str_replace` of it succeeds, writes the new text and pushes the text as read |
| Editing.UndoAfterReplace | tools/edit.py:214-246 | undoing a successful replacement writes back the text it edited and restores the stacks; for a tab-free ASCII file that text is the file with its line breaks translated to `\n`, and the file as it was when it holds no `\r` |
| Editing.UndoAfterInsert | tools/edit.py:263-292 | undoing a successful insertion writes back the text it edited and restores the stacks |
| Editing.UndoAfterCreate | tools/edit.py:104-108 | `create` pushes the text it writes, so undoing it leaves the created text in place |
| TestEditTool.Slashed | tools/test_edit.py:98 | every backslash becomes a slash; the length is kept and a text without backslashes is unchanged |
| TestEditTool.NormalizePath | tools/test_edit.py:75-116 | an absent or empty path is refused with `Path cannot be empty`; any other path lands under `C:/repo/` |
| TestEditTool.CleanIsFixed | tools/test_edit.py:98-116 | a relative part that is already clean passes through the five rewrites unchanged |
| TestEditTool.NormalizeIdempotent | tools/test_edit.py:75-116 | a normalised path normalises to itself, and holds no backslash, no run of slashes and no trailing white space |
| TestEditTool.EditTool.constructor | tools/test_edit.py:72-73 | a fresh tool over the given disk with no edit history |
| TestEditTool.EditTool.ReadFile | tools/test_edit.py:320-329 | the path is normalised again; a present file reads back with its line breaks translated to `\n` and `?` for every non-ASCII character, a missing one raises |
| TestEditTool.EditTool.WriteFile | tools/test_edit.py:330-336 | the text is written under the normalised path and the history is untouched |
| TestEditTool.EditTool.View | tools/test_edit.py:151-210 | the path check raises; after it every error (missing file, bad range) is answered in the reply, and the listing is the text or range numbered |
| TestEditTool.EditTool.StrReplace | tools/test_edit.py:211-259 | every error, the path check included, is answered; otherwise it is the same replacement step as the other editor |
| TestEditTool.EditTool.Create | tools/test_edit.py:260-264 | `create` writes and pushes the text and answers `File created successfully at: <path>`; nothing is caught |
| TestEditTool.EditTool.Insert | tools/test_edit.py:266-308 | every error is answered; otherwise the same insertion step as the other editor |
| TestEditTool.EditTool.UndoEdit | tools/test_edit.py:309-319 | an empty stack is answered as an error, not raised; otherwise the newest text is popped and written back |
| TestEditTool.ParseCommand | tools/test_edit.py:379-398 | exactly the five command names are recognised; any other keeps its name for the error |
| TestEditTool.RunCommand | tools/test_edit.py:379-400 | the parameter checks, then the command on the tool: the disk and reply are those of the dispatch |
| TestEditTool.RunCreate | tools/test_edit.py:381-384 | an empty or missing `file_text` is answered as an error with the disk unchanged; otherwise the file is written and its creation reported |
| TestEditTool.RunReplace | tools/test_edit.py:385-388 | an empty or missing `old_str` is answered as an error with the disk unchanged; otherwise the disk and reply are those of one `str_replace` step on a tool with no history |
| TestEditTool.RunInsert | tools/test_edit.py:389-394 | a missing `insert_line` and then an empty `new_str` are answered as errors with the disk unchanged; otherwise the disk and reply are those of one `insert` step |
| TestEditTool.RunUndo | tools/test_edit.py:395-396 | the disk and reply are those of `undo_edit` on a tool with no history |
| TestEditTool.EditFile | tools/test_edit.py:359-400 | a fresh tool per call; an empty path is the only error that escapes; otherwise the disk and reply are those of the dispatch on the normalised path |
| TestEditTool.EditFileCannotUndo | tools/test_edit.py:375-396 | since every call starts a fresh tool, `undo_edit` through `edit_file` always answers `No edit history found` and leaves the disk alone |
| TestEditTool.MissingParametersRefused | tools/test_edit.py:381-393 | a command missing `file_text`, `old_str`, `insert_line` or `new_str` is answered with its error and leaves the disk alone |
| TestEditTool.UnknownCommandRefused | tools/test_edit.py:397-398 | any other command is answered with `Unrecognized command …` and leaves the disk alone |
| BashTool.FencedCodeShortest | tools/bash.py:113-116 | the lazy `(.*?)` group never holds a closing fence: it is the shortest code up to one |
| BashTool.SearchFrom | tools/bash.py:113-116 | `re.search` finds the match at the leftmost index that has one, and none when no index has one |
| BashTool.ParseLlmResponse | tools/bash.py:111-124 | a reply fails with `No valid script found in the response.` exactly when no index holds a labelled fenced block; otherwise the label is one of the two script types and the code is the leftmost block's, stripped |
| BashTool.ParseLabelledBlock | tools/bash.py:111-124 | a reply that opens with a labelled block, tagged or not, parses back to that label and the stripped code, whatever follows |
| BashTool.CapturedSuccess | tools/bash.py:138-180 | a Python script succeeds exactly when its error stream stayed empty, and one that raised never does; a PowerShell script succeeds exactly when it exits with status zero |
| BashTool.ExecuteScript | tools/bash.py:126-183 | a supported type gives the captured streams and success flag; any other type raises `Unsupported script type: <type>` |
| BashTool.RunCommandAsWritten | tools/bash.py:201-218 | as written, every failure (the model call, the parser) happens before `output` is assigned, so the handler's read of `output` raises instead of reporting; a parsed script gives `output: …\nerror: …` |
| BashTool.EmptyReplyRaises | tools/bash.py:117-118 | an empty reply holds no labelled block, so it reaches the failing handler |
| BashTool.RunCommand | tools/bash.py:201-218 | as the handler intends: every failure becomes an error result carrying the exception's message and nothing escapes; a parsed script reports `output: …\nerror: …` |
| BashTool.Call | tools/bash.py:194-199 | over the intended handler of Findings row 3: a missing command raises `no command provided.`; any other is run, and its result carries an error exactly when the model call or the parser failed |
| BashTool.CallAsWritten | tools/bash.py:194-218 | as written: a missing command raises `no command provided.`; a failing model call or parse makes the call raise the handler's unbound-local error; a parsed script gives `output: …\nerror: …` |
| BashTool.ToParams | tools/bash.py:191-192 | `to_params` holds exactly `type` `bash_20241022` and `name` `bash`, in that order |
| TestBashTool.FirstBlock | tools/test_bash.py:160-169 | `re.search` finds the leftmost fenced block, or none when no index holds one |
| TestBashTool.ParseLlmResponse | tools/test_bash.py:138-173 | a missing label is reported first, then a missing block; Python wins when its label occurs anywhere; the code is the leftmost block anywhere, stripped |
| TestBashTool.BlockBeforeLabel | tools/test_bash.py:152-169 | a reply whose fenced block comes before any label still parses, to that block's stripped code |
| TestBashTool.ExecutedAgreesWithBashTool | tools/test_bash.py:175-218 | against the other runner: the same streams for every run both report; only a PowerShell run that fails without exiting becomes an error here |
| TestBashTool.ExecuteScript | tools/test_bash.py:175-218 | the type decides the runner; a failing Python run is reported in the error entry, a non-zero PowerShell exit is reported like a zero one, and an unsupported type raises |
| TestBashTool.BashCommand | tools/test_bash.py:220-234 | every exception from the model call, the parser or the runner becomes an `error` entry with its message; otherwise both streams are returned |
| ProjectSetup.FormatOutput | tools/venvsetup.py:62-90 | the report is the collected lines joined with newlines |
| ProjectSetup.FormatOutputSections | tools/venvsetup.py:62-90 | the report is the package list followed by the script's sections: the output and the errors each only when present and non-empty, the error of a failed run whenever it is present |
| ProjectSetup.ReportStartsWithHeader | tools/venvsetup.py:66-76 | the report's lines start with the header's, and are all of them when no script ran |
| ProjectSetup.FormatOutputLines | tools/venvsetup.py:66-76 | when no field holds a newline the lines start with `Status: …`, `Project Path: …`, `Packages Installed:` and one `  - <package>` line per package, in order |
| ProjectSetup.FirstFailure | tools/venvsetup.py:123-124 | no failure exactly when no package's `uv add` raises; otherwise the message of the first that does |
| ProjectSetup.FirstFailedAdd | tools/venvsetup.py:123-124 | the install loop stops at the first package whose command raises and yields its message |
| ProjectSetup.Call | tools/venvsetup.py:92-156 | default packages when none are given; an error from the setup steps or from the first failing `uv add` gives `Failed to setup project: <message>`; otherwise the formatted report, with the script's entries only when a script path is given; a failing script does not fail the setup |
| ProjectSetup.InputSchema | tools/venvsetup.py:24-41 | the input schema lists the three inputs and requires only `packages` and `project_path` |
| ProjectSetup.ToParams | tools/venvsetup.py:19-43 | `to_params` holds the name `project_setup`, the description, type `custom` and the input schema, in that order |
| ChatManagerModel.Message | tools/untool.py:34-39 | a message holds `role` and `content`, plus `tool_call_id` only when one is given and non-empty |
| ChatManagerModel.SchemaNamesFunction | tools/untool.py:23-32 | the schema `add_function` appends has type `function` and names the function it was built for |
| ChatManagerModel.Request | tools/untool.py:67-79 | the request holds the model and the messages, plus `tools` and `tool_choice` only when a function is registered |
| ChatManagerModel.ToolMessageReportsErrors | tools/untool.py:87-98 | a `tool` message's content starts with `Error: ` exactly when the name was never registered or the function raised; it carries the call's id |
| ChatManagerModel.Answered | tools/untool.py:86-98 | the calls are answered one by one, in order, until a call whose arguments do not parse |
| ChatManagerModel.AnsweredAll | tools/untool.py:86-98 | when every call's arguments parse, every call is answered |
| ChatManagerModel.ChatManager.constructor | tools/untool.py:16-21 | a new manager holds one system message (the given prompt, or `You are a helpful assistant.`) and no functions |
| ChatManagerModel.ChatManager.AddFunction | tools/untool.py:23-32 | one schema is appended and the name is bound, so every advertised function stays callable by name |
| ChatManagerModel.ChatManager.AddMessage | tools/untool.py:34-39 | exactly one message is appended |
| ChatManagerModel.ChatManager.CallLlm | tools/untool.py:67-79 | the request is built from the state before the call; the response is appended and returned |
| ChatManagerModel.ChatManager.ExecuteToolCalls | tools/untool.py:82-98 | no `tool_calls` adds nothing; otherwise the answers are appended in order, and the run completes exactly when every call's arguments parse. Because every advertised schema names a bound function (`Valid`), a call to an advertised function is answered with its own result or error, never as an unknown name |
| Navigation.Names | tools/test_navigation_tool.py:208 | `shortcuts.keys()` lists the entries' names, one per entry, in insertion order |
| Navigation.Lookup | tools/test_navigation_tool.py:357 | `shortcuts.get(action)` is absent exactly when no entry has that name; when present it is the keys stored under it |
| Navigation.Assigned | tools/test_navigation_tool.py:19-202 | assigning a key keeps the names in place and appends a new name last |
| Navigation.AssignedLookup | tools/test_navigation_tool.py:19-202 | after `d[name] = keys`, `name` looks up to `keys` and every other name to what it held before |
| Navigation.AssignedDistinct | tools/test_navigation_tool.py:19-202 | an assignment never stores a name twice |
| Navigation.Merged | tools/test_navigation_tool.py:150-202 | an update keeps the names already present, in order, ahead of the new ones, and keeps them distinct |
| Navigation.MergedLookup | tools/test_navigation_tool.py:150-202 | later writes win: a name looks up to its last entry in the batch, and a name the batch does not mention keeps its keys |
| Navigation.Shortcuts.constructor | tools/test_navigation_tool.py:19-149 | the dict display is its entries assigned in turn to an empty dictionary, with distinct names |
| Navigation.Shortcuts.Update | tools/test_navigation_tool.py:150-202 | `shortcuts.update(batch)` leaves the table merged with the batch and still distinct |
| Navigation.BuildShortcuts | tools/test_navigation_tool.py:19-202 | the module's statements build the display, then apply the five updates in order |
| Navigation.LaterUpdateWins | tools/test_navigation_tool.py:164-202 | an update's entry that no later entry of the same batch renames is what a lookup sees afterwards, even for a name already in the display |
| Navigation.ActionEnum | tools/test_navigation_tool.py:208 | the `enum` lists one string per entry, and a name is in it exactly when the table holds it |
| Navigation.Properties | tools/test_navigation_tool.py:205-222 | the `action` property is a string whose enum is the table's names |
| Navigation.Parameters | tools/test_navigation_tool.py:203-225 | the parameters are an object with those properties, requiring only `action` |
| Navigation.NavigateSchema | tools/test_navigation_tool.py:203-227 | the schema's parameters are those built from the table as it stands |
| Navigation.SchemaOffersTableActions | tools/test_navigation_tool.py:203-227 | the schema offers exactly the table's actions and requires only `action` |
| Navigation.Chord | tools/test_navigation_tool.py:375-381 | a combination presses each key in list order and releases them in reverse, so `2n` events with key `i` down at `i` and up at `2n-1-i` |
| Navigation.ModifierWrapsChord | tools/test_navigation_tool.py:362-363 | a modifier is pressed first and released last, around the shortcut's own combination |
| Navigation.Press | tools/test_navigation_tool.py:375-381 | the key loops send the whole combination, or, when a key call raises, exactly the events before it and that call's message |
| Navigation.WindowsNavigate | tools/test_navigation_tool.py:356-385 | an unknown action answers `Unknown action: …` and sends nothing; a failing or missing target window stops before any key; a failing key call answers `Failed to execute …` after the events before it; otherwise the full combination and `Successfully executed '<action>'` |

Where the code and its own comments disagree, the model follows the code. The
caching docstring speaks of the three most recent turns, but the code places
two breakpoints. `tools/edit.py`'s `__call__` documents every command, but it
handles only `create`.

## Left out

- Calls to language models (Anthropic, OpenAI) are not made. The reply, the summary text, the journal summary and the script a model writes are parameters.
- Tool execution inside the loop is a parameter. What each tool returned is given per call. A tool or API exception that escapes the loop is not modelled (see `SamplingLoop.SamplingLoop` below).
- Flask routes, server-sent events, the `output_lock` and other locks, threads and `asyncio` scheduling are not modelled. Every operation runs to completion on its own.
- Rich rendering is not modelled: panels, layouts, `live.update`, console printing and `display_conversation`. Only the data the panels are built from is modelled, that is the last-10 and last-5 windows.
- `TokenTracker.display` is not modelled. Only its "Total Tokens Used" sum is, through `TokenTracking.GrandOfSum`.
- `format_recent_conversation` is not modelled because it only prints.
- File input and output are not modelled: the messages file, journal files, screenshots, temporary script files and prompt files. The editors' disk is a map from path to text, and a read failure gives a fixed stand-in message instead of the operating system's text. A write stores the text as given: on Windows `write_text` would store each `\n` as `\r\n`, which the next read translates back, so what the tools read is the same either way.
- `maybe_truncate` in `_make_output` is not modelled. `tools/base.py`, which defines it along with `ToolResult`, `ToolFailure` and `ToolError`, is not part of this model. The shapes of those types come from how the loop and tools use them.
- `icecream` and `rich` logging calls are not modelled because they do not change results.
- Summary.CreateJournalEntry: of `ftfy.fix_text` only `uncurl_quotes` and `fix_line_breaks` (`\r\n`, `\r`, U+2028, U+2029 to `\n`) are modelled; HTML-entity unescaping, mojibake and encoding repair, `fix_c1_controls` (so U+0085), ligature and full-width folding, control-character removal and NFC normalisation are not, so the written text is promised only up to those steps.
- Summary.JournalEntryCounted: rests on the same partial `fix_text`; a summary whose HTML entities, full-width letters or C1 controls the unmodelled steps turn into a line break or into `Entry #` could be counted differently. The `ftfy.fix_text` applied again when the journal is read into the prompt (loop_live.py:250) is not modelled either.
- `log_file_operation` is not modelled because it only logs.
- EditTool: path normalisation against the project directory in `tools/edit.py` and the directory listing of `view` are not modelled. A path is used as given, and only the empty path is refused.
- TestEditTool.NormalizePath: models the string rewrite only. The canonical `str(Path(...))` is not modelled, for example dropping `.` components and a trailing slash. Its idempotence is therefore that of the rewrite.
- TestEditTool.EditTool.View: the directory listing and `validate_path` are not modelled.
- BashTool.Call: runs the intended handler `BashTool.RunCommand` of Findings row 3, so it never raises for a failing model call or parse. The code as written raises there, as `BashTool.CallAsWritten` states.
- BashTool.RunCommand: the exception text of an unbound local is modelled as one fixed message (`UNBOUND_OUTPUT`). Python's exact wording varies by version.
- BashTool.ExecuteScript: `exec` and `subprocess` are not run. Their outcome is a parameter, and stdout/stderr redirection is not modelled. `Threw` stands for an `Exception` only. A script that raises something outside `Exception` is not modelled, such as the `SystemExit` of `sys.exit()`. The handler at tools/bash.py:138-150 does not catch it, and its `finally` block then reads the unbound `output_out` and raises `UnboundLocalError` instead.
- ProjectSetup.Call: `mkdir`, `chdir`, `uv venv` and `uv add` are not run. Their failures are parameters. The failure of `uv init`, which the source swallows, is not modelled. `str(Path(project_path))` canonicalisation is not modelled, so the path is reported as given.
- ChatManagerModel.ChatManager.AddFunction: the callable is represented only by its name being registered. A function name that collides with an attribute of the instance (`model`, `messages`, …) is not modelled.
- ChatManagerModel.ChatManager.ExecuteToolCalls: a `json.loads` failure is modelled as arguments that do not parse. Its message and the exception it raises are not modelled. The `print` of errors is left out.
- Navigation.WindowsNavigate: the `pyautogui` window and key calls and the `time.sleep` calls are not made. What the window lookup found, and which key call raises, are parameters, and the `rr` printing is left out. The schema's `modifier` enum is not enforced by the function, and the model does not enforce it either.
- Navigation: the entries of the shortcut table are reproduced as written. A shortcut's value is modelled as its `keys` list, since `windows_navigate` reads nothing else.
- Render: the `try`/`except` around the formatters is not modelled, because with the modelled message shapes nothing in them raises. `str()` of floats is not modelled, since the JSON values have no floats.
- JsonValue.QuoteReprRoundTrip: `repr` escapes the characters Python does not print. The model escapes those below U+0100 as `\xhh`. Above U+00FF, it treats every character as printable. CPython instead writes the unprintable ones of the Unicode database (format characters, separators, unassigned code points) as `\uhhhh` or `\Uhhhhhhhh`.
- Text: `upper`, `lower` and `isspace` are modelled on ASCII only. There is no Unicode case mapping or normalisation.
- Summary: the clock used for journal timestamps is a parameter.
- SamplingLoop.SamplingLoop: for `loop_live.py` and the gated copies (`loop_WEB.py`, `loop_live_new.py`) the loop runs the corrected caching pass and closing turn of Findings rows 1 and 2, not the code as written. Only `loop_gfix.py` is modelled as written. The as-written behaviour is stated only by `CachePolicy.PerCallTurnsOverflowBreakpoints` and `SamplingLoop.GateAppendsEmptyTurn`.
- SamplingLoop.Run: the same corrected copies as `SamplingLoop.SamplingLoop`. `SamplingLoop.Iterate` appends `"continue"` where the gated copies append an empty list, and the per-call copy's pass clears every older marker. So the modelled run never reaches the IndexError of Findings row 1.
- SamplingLoop.SamplingLoop: in `loop_live.py` the display step after the closing turn (loop_live.py:465-467) reads `content[0]` of the newest two messages. So an empty operator answer, or a reply with no text or tool block, raises IndexError, and the loop re-raises it (loop_live.py:491-496). The modelled loop goes on past that iteration. When the step raises is stated only by `SamplingLoop.LiveDisplayStep`.
- SamplingLoop.SamplingLoop: the loop's exception exits are not modelled. `except UnicodeEncodeError: break` leaves the loop mid-iteration with the list partly updated (loop_gfix.py:841-845, loop_live.py:486-490, loop_live_new.py:615-621). `except Exception: raise` propagates an exception from the API or from a tool (loop_gfix.py:846-850, loop_live.py:491-496, loop_WEB.py:860-864). Every modelled round completes, and its outcomes are returned values.
- SamplingLoop.SamplingLoop: the user turn `"Previous conversation history from journal:\n"` + the journal, which `loop_gfix.py:721-725` and `looptemp.py:396-400` append before `while running`, is left to the caller. It is part of the list the loop is given.
- SamplingLoop.RunIteration: one iteration of the corrected copies, as for `SamplingLoop.Run`.
- SamplingLoop.PrepareRequest: the per-call copy runs the corrected pass `CachePolicy.InjectPromptCachingCleared`, not the source's pass. `loop_gfix.py:756-766` also sends a copy run through `truncate_message_content`, with a limit of 9,250,000 characters. The model's request is the list before that copy, and `ToolResults.TruncateKeepsShape` shows the copy keeps every role, block and marker.
- SamplingLoop.RequestMarkers: for the per-call copy this is a property of the corrected pass only. As written, that copy can send three markers (Findings row 2).
- SamplingLoop.IterateKeepsInv: for the gated copies this is a property of the corrected closing turn only. As written, the empty turn makes the next caching pass raise (Findings row 1).

## Findings

| source | as written | input that shows it | evidently intended | confidence | as-written member | corrected member |
|---|---|---|---|---|---|---|
| loop_WEB.py:846-853 | with no tool call and at most 4 messages, the `else` branch appends a user turn whose content is the empty `tool_result_content` list (`loop_live_new.py` has the same branch) | a first user message, then a text-only reply: the list has 2 messages, so the operator is not asked, `{"role": "user", "content": []}` is appended, and the next request's caching pass takes `content[-1]` of an empty list | the loop goes on with a non-empty user turn, such as the `"continue"` the copy already writes for empty content, so that every request can be prepared | not executed | SamplingLoop.GateAppendsEmptyTurn | SamplingLoop.GateContinues |
| loop_live.py:419-453, 509-520 | one user turn is appended per tool call, and the caching pass then stops at the third qualifying turn after popping its marker | two user turns with list content, one pass (both marked), then a reply with two tool calls adds two turns: the next pass marks the two new turns, clears the third newest and stops, so the fourth newest keeps its marker and the request carries three | at most two breakpoints per request, on the two newest qualifying turns | not executed | CachePolicy.PerCallTurnsOverflowBreakpoints | CachePolicy.ClearedPlacesNewestTwo |
| tools/bash.py:201-218 | the `except` branch builds `ToolError(output=output, …)`, but `output` is assigned only after the script ran, so every failure before that point reads an unbound local | an empty model reply: `parse_llm_response("")` raises `No valid script found in the response.`, and the handler itself then raises instead of reporting it | every failure is reported as an error result carrying the exception's message | not executed | BashTool.RunCommandAsWritten | BashTool.RunCommand |

=== FILE: agent_display.dfy ===
/**
 * `AgentDisplay` (`utils/agent_display.py`, and the copy embedded in
 * `looptemp.py`): producers enqueue `(msg_type, content)` pairs; the display
 * task takes them off the head one at a time and files the content under user
 * messages, assistant messages or tool results. The panels show the newest 10
 * messages and the newest 5 tool results. Rendering, the live handle and the
 * sleeps between steps are not modelled. `T` is the content type: strings for
 * the two message lists, `(tool, result)` pairs in `looptemp.py`.
 */
module Display {
  import opened Text

  /** The contents of the pairs in `q` whose type is `kind`, in queue order. */
  function Routed<T>(q: seq<(string, T)>, kind: string): seq<T>
  {
    if q == [] then []
    else Routed(q[..|q| - 1], kind) + (if q[|q| - 1].0 == kind then [q[|q| - 1].1] else [])
  }

  /** Routing a concatenation routes each part. */
  lemma {:induction false} RoutedAppend<T>(a: seq<(string, T)>, b: seq<(string, T)>, kind: string)
    ensures Routed(a + b, kind) == Routed(a, kind) + Routed(b, kind)
    decreases |b|
  {
    if b == [] {
      assert a + b == a;
    } else {
      var b' := b[..|b| - 1];
      assert (a + b)[..|a + b| - 1] == a + b';
      assert (a + b)[|a + b| - 1] == b[|b| - 1];
      RoutedAppend(a, b', kind);
    }
  }

  /** A pair of any other type reaches no list. */
  lemma RoutedOther<T>(q: seq<(string, T)>, kind: string)
    requires forall k :: 0 <= k < |q| ==> q[k].0 != kind
    ensures Routed(q, kind) == []
    decreases |q|
  {
    if q != [] {
      RoutedOther(q[..|q| - 1], kind);
    }
  }

  const MESSAGE_WINDOW: nat := 10
  const TOOL_WINDOW: nat := 5

  class AgentDisplay<T> {
    var userMessages: seq<T>
    var assistantMessages: seq<T>
    var toolResults: seq<T>
    var queue: seq<(string, T)>
    /** Every pair taken off the queue so far, in order. */
    ghost var consumed: seq<(string, T)>

    /** Each list holds exactly the consumed contents of its type, in arrival order. */
    ghost predicate Valid()
      reads this
    {
      userMessages == Routed(consumed, "user")
      && assistantMessages == Routed(consumed, "assistant")
      && toolResults == Routed(consumed, "tool")
    }

    constructor ()
      ensures Valid()
      ensures userMessages == [] && assistantMessages == [] && toolResults == [] && queue == [] && consumed == []
    {
      userMessages, assistantMessages, toolResults, queue := [], [], [], [];
      consumed := [];
    }

    /** `add_message`: exactly one pair, at the tail of the queue. */
    method AddMessage(msgType: string, content: T)
      modifies this
      ensures queue == old(queue) + [(msgType, content)]
      ensures userMessages == old(userMessages) && assistantMessages == old(assistantMessages)
      ensures toolResults == old(toolResults) && consumed == old(consumed)
    {
      queue := queue + [(msgType, content)];
    }

    /**
     * One pass of `update_display`: with an empty queue nothing changes;
     * otherwise the head is removed and its content appended to the list of its
     * type, if any.
     */
    method Step()
      requires Valid()
      modifies this
      ensures Valid()
      ensures old(queue) == [] ==>
        queue == [] && consumed == old(consumed) && userMessages == old(userMessages)
        && assistantMessages == old(assistantMessages) && toolResults == old(toolResults)
      ensures old(queue) != [] ==> queue == old(queue)[1..] && consumed == old(consumed) + [old(queue)[0]]
    {
      if queue == [] {
        return;
      }
      var (msgType, content) := queue[0];
      queue := queue[1..];
      if msgType == "user" {
        userMessages := userMessages + [content];
      } else if msgType == "assistant" {
        assistantMessages := assistantMessages + [content];
      } else if msgType == "tool" {
        toolResults := toolResults + [content];
      }
      consumed := consumed + [(msgType, content)];
    }

    /** Steps until the queue is empty: every pending pair lands in its list, in queue order. */
    method Drain()
      requires Valid()
      modifies this
      ensures Valid() && queue == [] && consumed == old(consumed) + old(queue)
      ensures userMessages == old(userMessages) + Routed(old(queue), "user")
      ensures assistantMessages == old(assistantMessages) + Routed(old(queue), "assistant")
      ensures toolResults == old(toolResults) + Routed(old(queue), "tool")
    {
      ghost var before := consumed;
      ghost var pending := queue;
      while queue != []
        invariant Valid()
        invariant |queue| <= |pending| && consumed + queue == before + pending
        decreases |queue|
      {
        Step();
      }
      assert consumed == before + pending;
      RoutedAppend(before, pending, "user");
      RoutedAppend(before, pending, "assistant");
      RoutedAppend(before, pending, "tool");
    }

    /** The contents the user and assistant panels show: the newest 10, oldest first. */
    function MessagePanel(messages: seq<T>): (r: seq<T>)
      ensures |r| == if |messages| < MESSAGE_WINDOW then |messages| else MESSAGE_WINDOW
      ensures r == messages[|messages| - |r|..]
    {
      LastNWindow(messages, MESSAGE_WINDOW);
      LastN(messages, MESSAGE_WINDOW)
    }

    /** The tool results the tool panel shows: the newest 5, oldest first. */
    function ToolPanel(): (r: seq<T>)
      reads this
      ensures |r| == if |toolResults| < TOOL_WINDOW then |toolResults| else TOOL_WINDOW
      ensures r == toolResults[|toolResults| - |r|..]
    {
      LastNWindow(toolResults, TOOL_WINDOW);
      LastN(toolResults, TOOL_WINDOW)
    }
  }
}

=== FILE: bash_tool.dfy ===
/**
 * `tools/bash.py`: a shell command is handed to a language model, which
 * answers with a labelled, fenced Python or PowerShell script; the script is
 * parsed out of the reply and run. The model's reply and what running the
 * script did are parameters here; the prompt text is not modelled.
 */
module BashTool {
  import opened Wrappers
  import opened Text
  import opened JsonValue
  import opened ToolResults

  const PYTHON_SCRIPT := "Python Script"
  const POWERSHELL_SCRIPT := "PowerShell Script"
  const CLOSING_FENCE := "\n```"
  const NO_SCRIPT := "No valid script found in the response."
  const NO_COMMAND := "no command provided."
  const NAME := "bash"
  const API_TYPE := "bash_20241022"

  /** A script as the parser hands it on: its label and its code. */
  datatype Script = Script(kind: string, code: string)

  // ---------------------------------------------------------------- parse_llm_response

  /**
   * Just past an opening fence, at `k`: where the code starts, after the
   * optional `python`/`powershell` tag and the newline.
   */
  function CodeStart(s: string, k: nat): Option<nat>
  {
    if OccursAt(s, "python\n", k) then Some(k + 7)
    else if OccursAt(s, "powershell\n", k) then Some(k + 11)
    else if OccursAt(s, "\n", k) then Some(k + 1)
    else None
  }

  /** The code of a block opened just before `k`: everything up to the first closing fence. */
  function FencedCode(s: string, k: nat): Option<string>
  {
    match CodeStart(s, k)
    case None => None
    case Some(b) =>
      var j := FindFrom(s, CLOSING_FENCE, b);
      if j < 0 then None else Some(s[b..j])
  }

  /** Inside a slice, an occurrence in the slice is an occurrence in the whole text, shifted. */
  lemma OccursInSlice(s: string, b: nat, e: nat, sub: string, m: nat)
    requires b <= m && m + |sub| <= e <= |s|
    ensures OccursAt(s[b..e], sub, m - b) <==> OccursAt(s, sub, m)
  {
    var x := s[b..e][m - b..m - b + |sub|];
    assert |x| == |sub|;
    forall t | 0 <= t < |sub|
      ensures x[t] == s[m..m + |sub|][t]
    {
      assert x[t] == s[m + t];
    }
    assert x == s[m..m + |sub|];
  }

  /** The fenced code never holds a closing fence: it is the shortest text up to one. */
  lemma FencedCodeShortest(s: string, k: nat)
    requires FencedCode(s, k).Some?
    ensures !Contains(FencedCode(s, k).value, CLOSING_FENCE)
  {
    var b := CodeStart(s, k).value;
    var j := FindFrom(s, CLOSING_FENCE, b);
    var code := s[b..j];
    forall t | 0 <= t <= |code|
      ensures !OccursAt(code, CLOSING_FENCE, t)
    {
      if t + |CLOSING_FENCE| <= |code| {
        OccursInSlice(s, b, j, CLOSING_FENCE, b + t);
      }
    }
  }

  function LabelAt(s: string, i: nat): Option<string>
  {
    if OccursAt(s, PYTHON_SCRIPT + ":\n```", i) then Some(PYTHON_SCRIPT)
    else if OccursAt(s, POWERSHELL_SCRIPT + ":\n```", i) then Some(POWERSHELL_SCRIPT)
    else None
  }

  /** The pattern tried at index `i`: a label, a colon, a newline, a fenced block. */
  function MatchAt(s: string, i: nat): Option<Script>
  {
    match LabelAt(s, i)
    case None => None
    case Some(kind) =>
      var code := FencedCode(s, i + |kind| + 5);
      if code.None? then None else Some(Script(kind, code.value))
  }

  /** `re.search` from index `i`: the match at the leftmost index where there is one. */
  function SearchFrom(s: string, i: nat): (r: Option<Script>)
    ensures r.Some? ==> exists j :: i <= j <= |s| && MatchAt(s, j) == r && forall k :: i <= k < j ==> MatchAt(s, k).None?
    ensures r.None? ==> forall k :: i <= k <= |s| ==> MatchAt(s, k).None?
    decreases |s| + 1 - i
  {
    if i > |s| then None
    else if MatchAt(s, i).Some? then MatchAt(s, i)
    else SearchFrom(s, i + 1)
  }

  /** `parse_llm_response`: the label and the stripped code of the first labelled block. */
  function ParseLlmResponse(response: string): (r: Result<Script>)
    ensures r.Err? <==> forall k :: 0 <= k <= |response| ==> MatchAt(response, k).None?
    ensures r.Err? ==> r.error == NO_SCRIPT
    ensures r.Ok? ==> r.value.kind == PYTHON_SCRIPT || r.value.kind == POWERSHELL_SCRIPT
  {
    match SearchFrom(response, 0)
    case None => Err(NO_SCRIPT)
    case Some(m) => Ok(Script(m.kind, Strip(m.code)))
  }

  /** The text in front of a block's code, with its label and tag. */
  function Opening(kind: string, tag: string): string
  {
    kind + ":\n```" + tag + "\n"
  }

  /** Nothing in front of the closing fence can start one, when the code holds none. */
  lemma ClosingFenceFirst(s: string, b: nat, code: string)
    requires b + |code| + 4 <= |s| && s[b..b + |code|] == code && s[b + |code|..b + |code| + 4] == CLOSING_FENCE
    requires !Contains(code, CLOSING_FENCE)
    ensures FindFrom(s, CLOSING_FENCE, b) == b + |code|
  {
    var e := b + |code|;
    forall m | b <= m < e
      ensures !OccursAt(s, CLOSING_FENCE, m)
    {
      if m + 4 <= e {
        OccursInSlice(s, b, e, CLOSING_FENCE, m);
        assert !OccursAt(code, CLOSING_FENCE, m - b);
      } else {
        assert s[m..m + 4][e - m] == s[e] == '\n' != CLOSING_FENCE[e - m];
      }
    }
    assert s[e..e + 4] == CLOSING_FENCE;
    FindFromFirst(s, CLOSING_FENCE, b, e);
  }

  lemma {:induction false} FindFromFirst(s: string, sub: string, i: nat, e: nat)
    requires i <= e && OccursAt(s, sub, e)
    requires forall m :: i <= m < e ==> !OccursAt(s, sub, m)
    ensures FindFrom(s, sub, i) == e
    decreases e - i
  {
    if i < e {
      assert !OccursAt(s, sub, i);
      FindFromFirst(s, sub, i + 1, e);
    }
  }

  lemma LabelAtOpening(kind: string, tag: string, t: string)
    requires kind == PYTHON_SCRIPT || kind == POWERSHELL_SCRIPT
    ensures LabelAt(Opening(kind, tag) + t, 0) == Some(kind)
  {
    var s := Opening(kind, tag) + t;
    assert s[..|kind| + 5] == kind + ":\n```";
    if kind == POWERSHELL_SCRIPT {
      assert s[1] == 'o';
    }
  }

  /** After any text `p`, a tag and a newline: the code starts just past the newline. */
  lemma CodeStartAfter(p: string, tag: string, t: string)
    requires tag == "" || tag == "python" || tag == "powershell"
    ensures CodeStart(p + tag + "\n" + t, |p|) == Some(|p| + |tag| + 1)
  {
    var s := p + tag + "\n" + t;
    var k := |p|;
    assert s[k..k + |tag| + 1] == tag + "\n";
    if tag == "" {
      assert s[k] == '\n';
    } else if tag == "python" {
      assert s[k..k + 7] == "python\n";
    } else {
      assert s[k + 1] == 'o';
      assert s[k..k + 11] == "powershell\n";
    }
  }

  /** Where the pieces of `p + (code + f + rest)` sit. */
  lemma PiecesAt(p: string, code: string, f: string, rest: string)
    ensures var s := p + (code + f + rest);
      && s[|p|..|p| + |code|] == code && s[|p| + |code|..|p| + |code| + |f|] == f
  {
    var s := p + (code + f + rest);
    assert s[|p|..] == code + f + rest;
    assert (code + f + rest)[..|code|] == code;
    assert (code + f + rest)[|code|..|code| + |f|] == f;
  }

  /** A label, an opening fence whose code starts at `b`, code with no closing fence, then one: a match at 0. */
  lemma MatchAtStart(s: string, kind: string, b: nat, code: string)
    requires LabelAt(s, 0) == Some(kind) && CodeStart(s, |kind| + 5) == Some(b)
    requires b + |code| + 4 <= |s| && s[b..b + |code|] == code && s[b + |code|..b + |code| + 4] == CLOSING_FENCE
    requires !Contains(code, CLOSING_FENCE)
    ensures MatchAt(s, 0) == Some(Script(kind, code))
  {
    ClosingFenceFirst(s, b, code);
  }

  lemma MatchAtOpening(kind: string, tag: string, code: string, rest: string)
    requires kind == PYTHON_SCRIPT || kind == POWERSHELL_SCRIPT
    requires tag == "" || tag == "python" || tag == "powershell"
    requires !Contains(code, CLOSING_FENCE)
    ensures MatchAt(Opening(kind, tag) + (code + CLOSING_FENCE + rest), 0) == Some(Script(kind, code))
  {
    var t := code + CLOSING_FENCE + rest;
    var o := Opening(kind, tag);
    LabelAtOpening(kind, tag, t);
    assert o + t == kind + ":\n```" + tag + "\n" + t;
    CodeStartAfter(kind + ":\n```", tag, t);
    PiecesAt(o, code, CLOSING_FENCE, rest);
    MatchAtStart(o + t, kind, |o|, code);
  }

  /**
   * A reply that starts with a labelled block, tagged or not, parses back to
   * that label and the stripped code, whatever follows the block.
   */
  lemma ParseLabelledBlock(kind: string, tag: string, code: string, rest: string)
    requires kind == PYTHON_SCRIPT || kind == POWERSHELL_SCRIPT
    requires tag == "" || tag == "python" || tag == "powershell"
    requires !Contains(code, CLOSING_FENCE)
    ensures ParseLlmResponse(Opening(kind, tag) + code + CLOSING_FENCE + rest) == Ok(Script(kind, Strip(code)))
  {
    var s := Opening(kind, tag) + code + CLOSING_FENCE + rest;
    assert s == Opening(kind, tag) + (code + CLOSING_FENCE + rest);
    MatchAtOpening(kind, tag, code, rest);
    assert SearchFrom(s, 0) == MatchAt(s, 0);
  }

  // ---------------------------------------------------------------- execute_script

  /** What `exec` of a Python script did, as the redirected streams saw it. */
  datatype PythonRun = Ran(stdout: string, stderr: string) | Threw(message: string, trace: string)

  /** What `powershell.exe -File` did: exit status zero, a non-zero status, or another error. */
  datatype ShellRun =
    | Exited(stdout: string, stderr: string)
    | ExitedNonZero(stdout: string, stderr: string)
    | Failed(message: string, trace: string)

  /** The dictionary `execute_script` returns. */
  datatype Execution = Execution(success: bool, output: string, error: string)

  predicate Supported(scriptType: string)
  {
    scriptType == PYTHON_SCRIPT || scriptType == POWERSHELL_SCRIPT
  }

  /** What running a script of a supported type yields. */
  function Captured(scriptType: string, python: PythonRun, shell: ShellRun): Execution
    requires Supported(scriptType)
  {
    if scriptType == PYTHON_SCRIPT then
      var (out, err) := if python.Ran? then (python.stdout, python.stderr)
                        else ("", "Error: " + python.message + "\n" + python.trace);
      Execution(err == "", out, err)
    else
      match shell
      case Exited(out, err) => Execution(true, out, err)
      case ExitedNonZero(out, err) => Execution(false, out, err)
      case Failed(message, trace) => Execution(false, "", "Unexpected error: " + message + "\n" + trace)
  }

  /**
   * A Python script succeeds exactly when nothing reached its error stream,
   * and one that raised never does; a PowerShell script succeeds exactly when
   * it exits with status zero, whatever it wrote to its error stream.
   */
  lemma CapturedSuccess(scriptType: string, python: PythonRun, shell: ShellRun)
    requires Supported(scriptType)
    ensures var e := Captured(scriptType, python, shell);
      && (scriptType == PYTHON_SCRIPT ==> (e.success <==> e.error == "") && (python.Threw? ==> !e.success && e.output == ""))
      && (scriptType == POWERSHELL_SCRIPT ==> (e.success <==> shell.Exited?))
  {
  }

  /** `execute_script`: the type decides how the script is run; any other type raises. */
  method ExecuteScript(scriptType: string, python: PythonRun, shell: ShellRun) returns (r: Result<Execution>)
    ensures !Supported(scriptType) ==> r == Err("Unsupported script type: " + scriptType)
    ensures Supported(scriptType) ==> r == Ok(Captured(scriptType, python, shell))
  {
    var output := "";
    if scriptType == PYTHON_SCRIPT {
      var outputOut, errorOut;
      match python {
        case Ran(out, err) =>
          outputOut, errorOut := out, err;
        case Threw(message, trace) =>
          outputOut, errorOut := "", "Error: " + message + "\n" + trace;
      }
      return Ok(Execution(errorOut == "", outputOut, errorOut));
    } else if scriptType == POWERSHELL_SCRIPT {
      var error, success;
      match shell {
        case Exited(out, err) =>
          output, error, success := out, err, true;
        case ExitedNonZero(out, err) =>
          output, error, success := out, err, false;
        case Failed(message, trace) =>
          output, error, success := "", "Unexpected error: " + message + "\n" + trace, false;
      }
      return Ok(Execution(success, output, error));
    }
    r := Err("Unsupported script type: " + scriptType);
  }

  // ---------------------------------------------------------------- BashTool

  /** The message Python gives when the handler reads `output` before anything was assigned to it. */
  const UNBOUND_OUTPUT := "cannot access local variable 'output' where it is not associated with a value"

  /** The text `_run_command` reports for an execution. */
  function Report(e: Execution): string
  {
    "output: " + e.output + "\nerror: " + e.error
  }

  /**
   * `_run_command` as written: `reply` is the language model's answer or the
   * error its call raised. Every failure happens before `output` is assigned,
   * so the handler's own read of `output` raises instead of reporting.
   */
  method RunCommandAsWritten(reply: Result<string>, python: PythonRun, shell: ShellRun) returns (r: Result<ToolResult>)
    ensures reply.Err? || ParseLlmResponse(reply.value).Err? ==> r == Err(UNBOUND_OUTPUT)
    ensures reply.Ok? && ParseLlmResponse(reply.value).Ok? ==>
      var script := ParseLlmResponse(reply.value).value;
      r == Ok(ToolResult(Some(Report(Captured(script.kind, python, shell))), None, None, false))
  {
    if reply.Err? {
      return Err(UNBOUND_OUTPUT);
    }
    var parsed := ParseLlmResponse(reply.value);
    if parsed.Err? {
      return Err(UNBOUND_OUTPUT);
    }
    var result := ExecuteScript(parsed.value.kind, python, shell);
    var output := Report(result.value);
    r := Ok(ToolResult(Some(output), None, None, false));
  }

  /** A reply holding no labelled block, the empty one for instance, makes the handler itself raise. */
  lemma EmptyReplyRaises(python: PythonRun, shell: ShellRun)
    ensures ParseLlmResponse("") == Err(NO_SCRIPT)
  {
    assert MatchAt("", 0).None?;
  }

  /**
   * `_run_command` as its handler intends: every failure becomes an error
   * result carrying the exception's message, and nothing escapes.
   */
  method RunCommand(reply: Result<string>, python: PythonRun, shell: ShellRun) returns (r: ToolResult)
    ensures reply.Err? ==> r == ToolResult(None, Some(reply.error), None, false)
    ensures reply.Ok? && ParseLlmResponse(reply.value).Err? ==> r == ToolResult(None, Some(NO_SCRIPT), None, false)
    ensures reply.Ok? && ParseLlmResponse(reply.value).Ok? ==>
      var script := ParseLlmResponse(reply.value).value;
      r == ToolResult(Some(Report(Captured(script.kind, python, shell))), None, None, false)
  {
    if reply.Err? {
      return ToolResult(None, Some(reply.error), None, false);
    }
    var parsed := ParseLlmResponse(reply.value);
    if parsed.Err? {
      return ToolResult(None, Some(parsed.error), None, false);
    }
    // the parser hands on only the two supported labels, so running the script raises nothing
    var result := ExecuteScript(parsed.value.kind, python, shell);
    r := ToolResult(Some(Report(result.value)), None, None, false);
  }

  /** `__call__` over the corrected handler: a missing command raises; any other is run. */
  method Call(command: Option<string>, reply: Result<string>, python: PythonRun, shell: ShellRun) returns (r: Result<ToolResult>)
    ensures command.None? <==> r.Err?
    ensures r.Err? ==> r.error == NO_COMMAND
    ensures r.Ok? ==> (r.value.error.Some? <==> reply.Err? || ParseLlmResponse(reply.value).Err?)
  {
    if command.None? {
      return Err(NO_COMMAND);
    }
    var result := RunCommand(reply, python, shell);
    r := Ok(result);
  }

  /**
   * `__call__` as written: a missing command raises, and any other goes to
   * `_run_command` as written, so a failing model call or parse raises the
   * handler's unbound-local error out of the call.
   */
  method CallAsWritten(command: Option<string>, reply: Result<string>, python: PythonRun, shell: ShellRun)
    returns (r: Result<ToolResult>)
    ensures command.None? ==> r == Err(NO_COMMAND)
    ensures command.Some? && (reply.Err? || ParseLlmResponse(reply.value).Err?) ==> r == Err(UNBOUND_OUTPUT)
    ensures command.Some? && reply.Ok? && ParseLlmResponse(reply.value).Ok? ==>
      var script := ParseLlmResponse(reply.value).value;
      r == Ok(ToolResult(Some(Report(Captured(script.kind, python, shell))), None, None, false))
  {
    if command.None? {
      return Err(NO_COMMAND);
    }
    r := RunCommandAsWritten(reply, python, shell);
  }

  /** `to_params`: exactly the tool's type and name, in that order. */
  function ToParams(): (p: Json)
    ensures p.JObj? && Keys(p.fields) == ["type", "name"]
    ensures Get(p.fields, "type") == JStr(API_TYPE) && Get(p.fields, "name") == JStr(NAME)
  {
    JObj([("type", JStr(API_TYPE)), ("name", JStr(NAME))])
  }
}

=== FILE: cache_policy.dfy ===
/**
 * `_inject_prompt_caching`: scanning the conversation from the newest message
 * back, the first two user messages whose content is a list get `cache_control`
 * on their last block; at the third such message that key is removed and the
 * scan stops. Assistant messages and string-content user messages are skipped
 * and use up no breakpoint.
 */
module CachePolicy {
  import opened Conversation

  /** Breakpoints placed per pass (the docstring says three turns; the code uses two). */
  const BREAKPOINTS: nat := 2

  /** A message the scan acts on: a user turn whose content is a list. */
  predicate Qualifies(m: Message)
  {
    m.role == "user" && m.content.Blocks?
  }

  /** `content[-1]` exists for every message the scan may act on. */
  predicate CacheReady(msgs: seq<Message>)
  {
    forall i :: 0 <= i < |msgs| && Qualifies(msgs[i]) ==> |msgs[i].content.blocks| > 0
  }

  /** The number of qualifying messages in `msgs`. */
  function CountQ(msgs: seq<Message>): nat
  {
    if msgs == [] then 0 else (if Qualifies(msgs[0]) then 1 else 0) + CountQ(msgs[1..])
  }

  /** How many qualifying messages are newer than message `i`. */
  function Rank(msgs: seq<Message>, i: nat): nat
    requires i < |msgs|
  {
    CountQ(msgs[i + 1..])
  }

  /** The message with `cache_control` set on (or removed from) its last block. */
  function SetLastCached(m: Message, on: bool): (r: Message)
    requires Qualifies(m) && |m.content.blocks| > 0
    ensures Qualifies(r) && |r.content.blocks| == |m.content.blocks|
  {
    var bs := m.content.blocks;
    Message(m.role, Blocks(bs[..|bs| - 1] + [bs[|bs| - 1].(cached := on)]))
  }

  /** What one pass does to a message, given how many qualifying messages are newer. */
  function MarkAt(m: Message, rank: nat): Message
    requires Qualifies(m) ==> |m.content.blocks| > 0
  {
    if !Qualifies(m) || rank > BREAKPOINTS then m
    else SetLastCached(m, rank < BREAKPOINTS)
  }

  /** The conversation after one caching pass, message by message. */
  function WithBreakpoints(msgs: seq<Message>): seq<Message>
    requires CacheReady(msgs)
  {
    seq(|msgs|, i requires 0 <= i < |msgs| => MarkAt(msgs[i], Rank(msgs, i)))
  }

  /** The pass as the source runs it: a reverse scan with a breakpoint counter, in place. */
  method InjectPromptCaching(messages: MessageList)
    requires CacheReady(messages.items)
    modifies messages
    ensures messages.items == WithBreakpoints(old(messages.items))
  {
    ghost var orig := messages.items;
    var remaining := BREAKPOINTS;
    var i := |messages.items|;
    while i > 0
      invariant 0 <= i <= |orig| && |messages.items| == |orig|
      invariant CountQ(orig[i..]) <= BREAKPOINTS && remaining == BREAKPOINTS - CountQ(orig[i..])
      invariant forall k :: 0 <= k < i ==> messages.items[k] == orig[k]
      invariant forall k :: i <= k < |orig| ==> messages.items[k] == MarkAt(orig[k], Rank(orig, k))
    {
      i := i - 1;
      var m := messages.items[i];
      CountQStep(orig, i);
      if m.role == "user" && m.content.Blocks? {
        if remaining > 0 {
          remaining := remaining - 1;
          messages.items := messages.items[i := SetLastCached(m, true)];
        } else {
          messages.items := messages.items[i := SetLastCached(m, false)];
          OlderUnmarked(orig, i);
          break;
        }
      }
    }
    PassDone(orig, messages.items, i);
  }

  /** A suffix counts its first message and then the rest. */
  lemma CountQStep(msgs: seq<Message>, i: nat)
    requires i < |msgs|
    ensures CountQ(msgs[i..]) == (if Qualifies(msgs[i]) then 1 else 0) + CountQ(msgs[i + 1..])
  {
    assert msgs[i..][1..] == msgs[i + 1..];
  }

  /** Messages before `i` that the pass leaves alone, and marked messages from `i` on, make the whole pass. */
  lemma PassDone(orig: seq<Message>, items: seq<Message>, i: nat)
    requires CacheReady(orig) && |items| == |orig| && i <= |orig|
    requires forall k :: 0 <= k < i ==> items[k] == orig[k] && Rank(orig, k) > BREAKPOINTS
    requires forall k :: i <= k < |orig| ==> items[k] == MarkAt(orig[k], Rank(orig, k))
    ensures items == WithBreakpoints(orig)
  {
  }

  /** Behind the third qualifying message from the end, every message has more than two newer ones. */
  lemma OlderUnmarked(msgs: seq<Message>, i: nat)
    requires i < |msgs| && Qualifies(msgs[i]) && CountQ(msgs[i + 1..]) >= BREAKPOINTS
    ensures forall k :: 0 <= k < i ==> Rank(msgs, k) > BREAKPOINTS
  {
    forall k | 0 <= k < i ensures Rank(msgs, k) > BREAKPOINTS {
      CountQSuffixMono(msgs, k + 1, i);
    }
  }

  /** Older suffixes hold at least as many qualifying messages as newer ones. */
  lemma {:induction false} CountQSuffixMono(msgs: seq<Message>, a: nat, b: nat)
    requires a <= b <= |msgs|
    ensures CountQ(msgs[a..]) >= CountQ(msgs[b..])
    ensures b < |msgs| && Qualifies(msgs[b]) ==> CountQ(msgs[a..]) > CountQ(msgs[b + 1..])
    decreases b - a
  {
    if b < |msgs| {
      assert msgs[b..][1..] == msgs[b + 1..];
    }
    if a < b {
      assert msgs[a..][1..] == msgs[a + 1..];
      CountQSuffixMono(msgs, a + 1, b);
    }
  }

  // ---------------------------------------------------------------- properties of a pass

  /** The pass on a list is the pass on its first message followed by the pass on the rest. */
  lemma WithBreakpointsCons(msgs: seq<Message>)
    requires |msgs| > 0 && CacheReady(msgs)
    ensures CacheReady(msgs[1..])
    ensures WithBreakpoints(msgs) == [MarkAt(msgs[0], CountQ(msgs[1..]))] + WithBreakpoints(msgs[1..])
  {
    var r := WithBreakpoints(msgs);
    var t := WithBreakpoints(msgs[1..]);
    forall i | 1 <= i < |msgs| ensures r[i] == t[i - 1] {
      assert msgs[i + 1..] == msgs[1..][i..];
    }
  }

  /** Two lists whose messages qualify at the same positions have the same count. */
  lemma {:induction false} CountQSamePattern(a: seq<Message>, b: seq<Message>)
    requires |a| == |b|
    requires forall i :: 0 <= i < |a| ==> Qualifies(a[i]) == Qualifies(b[i])
    ensures CountQ(a) == CountQ(b)
    decreases |a|
  {
    if a != [] {
      CountQSamePattern(a[1..], b[1..]);
    }
  }

  /** A pass keeps which messages qualify, so every message keeps its rank. */
  lemma PassKeepsRanks(msgs: seq<Message>)
    requires CacheReady(msgs)
    ensures |WithBreakpoints(msgs)| == |msgs| && CacheReady(WithBreakpoints(msgs))
    ensures forall i :: 0 <= i < |msgs| ==> Qualifies(WithBreakpoints(msgs)[i]) == Qualifies(msgs[i])
    ensures forall i :: 0 <= i < |msgs| ==> Rank(WithBreakpoints(msgs), i) == Rank(msgs, i)
  {
    var r := WithBreakpoints(msgs);
    forall i | 0 <= i < |msgs| ensures Rank(r, i) == Rank(msgs, i) {
      CountQSamePattern(r[i + 1..], msgs[i + 1..]);
    }
  }

  /**
   * Running the pass twice on an unchanged list places the same markers as
   * running it once: it only sets or removes a key.
   */
  lemma CachingIdempotent(msgs: seq<Message>)
    requires CacheReady(msgs)
    ensures CacheReady(WithBreakpoints(msgs))
    ensures WithBreakpoints(WithBreakpoints(msgs)) == WithBreakpoints(msgs)
  {
    PassKeepsRanks(msgs);
    var r := WithBreakpoints(msgs);
    var rr := WithBreakpoints(r);
    forall i | 0 <= i < |msgs| ensures rr[i] == r[i] {
      var m := msgs[i];
      if Qualifies(m) && Rank(msgs, i) <= BREAKPOINTS {
        var bs := m.content.blocks;
        var on := Rank(msgs, i) < BREAKPOINTS;
        var rbs := r[i].content.blocks;
        assert rbs[..|rbs| - 1] == bs[..|bs| - 1];
        assert rbs[|rbs| - 1] == bs[|bs| - 1].(cached := on);
      }
    }
  }

  /** A message with every `cache_control` key dropped. */
  function Unmarked(m: Message): Message
  {
    match m.content
    case Str(_) => m
    case Blocks(bs) =>
      Message(m.role, Blocks(seq(|bs|, j requires 0 <= j < |bs| => bs[j].(cached := false))))
  }

  /** A pass changes nothing but `cache_control` keys, and leaves the list's length alone. */
  lemma CachingOnlyTouchesMarkers(msgs: seq<Message>)
    requires CacheReady(msgs)
    ensures |WithBreakpoints(msgs)| == |msgs|
    ensures forall i :: 0 <= i < |msgs| ==> Unmarked(WithBreakpoints(msgs)[i]) == Unmarked(msgs[i])
  {
    var r := WithBreakpoints(msgs);
    forall i | 0 <= i < |msgs| ensures Unmarked(r[i]) == Unmarked(msgs[i]) {
      var m := msgs[i];
      if Qualifies(m) && Rank(msgs, i) <= BREAKPOINTS {
        var bs := m.content.blocks;
        var rbs := r[i].content.blocks;
        assert |rbs| == |bs|;
        forall j | 0 <= j < |bs| ensures rbs[j].(cached := false) == bs[j].(cached := false) {
          if j < |bs| - 1 {
            assert rbs[j] == bs[..|bs| - 1][j];
          }
        }
        assert Unmarked(r[i]).content.blocks == Unmarked(m).content.blocks;
      }
    }
  }

  // ---------------------------------------------------------------- counting markers

  /** The number of blocks carrying `cache_control`. */
  function CachedCount(bs: seq<Block>): nat
  {
    if bs == [] then 0 else (if bs[0].cached then 1 else 0) + CachedCount(bs[1..])
  }

  function MessageMarks(m: Message): nat
  {
    match m.content
    case Str(_) => 0
    case Blocks(bs) => CachedCount(bs)
  }

  /** The number of cache breakpoints in the conversation. */
  function Marks(msgs: seq<Message>): nat
  {
    if msgs == [] then 0 else MessageMarks(msgs[0]) + Marks(msgs[1..])
  }

  /** A marker, if any, sits on the last block of a qualifying message. */
  predicate MarkOnLastOnly(m: Message)
  {
    m.content.Blocks? ==>
      forall j :: 0 <= j < |m.content.blocks| && m.content.blocks[j].cached ==>
        Qualifies(m) && j == |m.content.blocks| - 1
  }

  /**
   * Every marker sits on the last block of a qualifying message with fewer than
   * `k` newer qualifying messages.
   */
  predicate MarksWithin(msgs: seq<Message>, k: nat)
  {
    forall i :: 0 <= i < |msgs| ==>
      MarkOnLastOnly(msgs[i]) && (MessageMarks(msgs[i]) > 0 ==> Rank(msgs, i) < k)
  }

  lemma {:induction false} CachedCountNone(bs: seq<Block>)
    requires forall j :: 0 <= j < |bs| ==> !bs[j].cached
    ensures CachedCount(bs) == 0
  {
    if bs != [] {
      CachedCountNone(bs[1..]);
    }
  }

  lemma {:induction false} CachedCountLastOnly(bs: seq<Block>)
    requires |bs| > 0
    requires forall j :: 0 <= j < |bs| - 1 ==> !bs[j].cached
    ensures CachedCount(bs) == if bs[|bs| - 1].cached then 1 else 0
  {
    if |bs| > 1 {
      CachedCountLastOnly(bs[1..]);
    }
  }

  /** One message after the pass carries a marker exactly when it is among the newest two. */
  lemma MarkAtMarks(m: Message, rank: nat)
    requires Qualifies(m) ==> |m.content.blocks| > 0
    requires MarkOnLastOnly(m) && (MessageMarks(m) > 0 ==> rank <= BREAKPOINTS)
    ensures MarkOnLastOnly(MarkAt(m, rank))
    ensures MessageMarks(MarkAt(m, rank)) == if Qualifies(m) && rank < BREAKPOINTS then 1 else 0
  {
    var r := MarkAt(m, rank);
    if m.content.Blocks? {
      var bs := m.content.blocks;
      if Qualifies(m) && rank <= BREAKPOINTS {
        CachedCountLastOnly(r.content.blocks);
      } else if Qualifies(m) {
        CachedCountLastOnly(bs);
      } else {
        CachedCountNone(bs);
      }
    }
  }

  /**
   * The bound on breakpoints. If before a pass every marker sits on one of the
   * three newest qualifying messages, then afterwards the markers are exactly on
   * the newest two, so there are `min(2, qualifying messages)` of them.
   */
  lemma {:induction false} CachingPlacesNewestTwo(msgs: seq<Message>)
    requires CacheReady(msgs) && MarksWithin(msgs, BREAKPOINTS + 1)
    ensures MarksWithin(WithBreakpoints(msgs), BREAKPOINTS)
    ensures Marks(WithBreakpoints(msgs)) == if CountQ(msgs) < BREAKPOINTS then CountQ(msgs) else BREAKPOINTS
    decreases |msgs|
  {
    var r := WithBreakpoints(msgs);
    PassKeepsRanks(msgs);
    forall i | 0 <= i < |msgs|
      ensures MarkOnLastOnly(r[i]) && (MessageMarks(r[i]) > 0 ==> Rank(r, i) < BREAKPOINTS)
    {
      MarkAtMarks(msgs[i], Rank(msgs, i));
    }
    if msgs != [] {
      WithBreakpointsCons(msgs);
      var tail := msgs[1..];
      forall i | 0 <= i < |tail|
        ensures MarkOnLastOnly(tail[i]) && (MessageMarks(tail[i]) > 0 ==> Rank(tail, i) < BREAKPOINTS + 1)
      {
        assert tail[i + 1..] == msgs[i + 2..];
      }
      CachingPlacesNewestTwo(tail);
      MarkAtMarks(msgs[0], CountQ(tail));
      assert r[1..] == WithBreakpoints(tail);
    }
  }

  // ---------------------------------------------------------------- the pass that clears every older marker

  /**
   * What the pass does to a message when it clears the marker of every older
   * qualifying message instead of only the third one.
   */
  function ClearAt(m: Message, rank: nat): Message
    requires Qualifies(m) ==> |m.content.blocks| > 0
  {
    if !Qualifies(m) then m else SetLastCached(m, rank < BREAKPOINTS)
  }

  /** The corrected pass: markers on the newest two qualifying messages, none older. */
  function WithBreakpointsCleared(msgs: seq<Message>): seq<Message>
    requires CacheReady(msgs)
  {
    seq(|msgs|, i requires 0 <= i < |msgs| => ClearAt(msgs[i], Rank(msgs, i)))
  }

  /** The corrected pass as a reverse scan: the same loop without the early `break`. */
  method InjectPromptCachingCleared(messages: MessageList)
    requires CacheReady(messages.items)
    modifies messages
    ensures messages.items == WithBreakpointsCleared(old(messages.items))
  {
    ghost var orig := messages.items;
    var remaining := BREAKPOINTS;
    var i := |messages.items|;
    while i > 0
      invariant 0 <= i <= |orig| && |messages.items| == |orig|
      invariant remaining == Sub2(CountQ(orig[i..]))
      invariant forall k :: 0 <= k < i ==> messages.items[k] == orig[k]
      invariant forall k :: i <= k < |orig| ==> messages.items[k] == ClearAt(orig[k], Rank(orig, k))
    {
      i := i - 1;
      var m := messages.items[i];
      CountQStep(orig, i);
      if m.role == "user" && m.content.Blocks? {
        if remaining > 0 {
          remaining := remaining - 1;
          messages.items := messages.items[i := SetLastCached(m, true)];
        } else {
          messages.items := messages.items[i := SetLastCached(m, false)];
        }
      }
    }
  }

  /** The breakpoints still free once `n` qualifying messages have been scanned. */
  function Sub2(n: nat): nat
  {
    if n >= BREAKPOINTS then 0 else BREAKPOINTS - n
  }

  /** No block of the message carries a marker. */
  predicate NoMarkers(m: Message)
  {
    m.content.Blocks? ==> forall j :: 0 <= j < |m.content.blocks| ==> !m.content.blocks[j].cached
  }

  /** Every message keeps its markers, if any, on the last block of a qualifying message. */
  predicate AllMarksOnLast(msgs: seq<Message>)
  {
    forall i :: 0 <= i < |msgs| ==> MarkOnLastOnly(msgs[i])
  }

  lemma {:induction false} CachedCountZero(bs: seq<Block>)
    requires CachedCount(bs) == 0
    ensures forall j :: 0 <= j < |bs| ==> !bs[j].cached
  {
    if bs != [] {
      CachedCountZero(bs[1..]);
      forall j | 1 <= j < |bs| ensures !bs[j].cached {
        assert bs[j] == bs[1..][j - 1];
      }
    }
  }

  /**
   * Markers counted over a whole list: when every qualifying message with fewer
   * than two newer ones holds exactly one marker and every other message none,
   * there are `min(2, qualifying messages)` markers.
   */
  lemma {:induction false} MarksOfNewestTwo(r: seq<Message>)
    requires forall i :: 0 <= i < |r| ==>
      MessageMarks(r[i]) == if Qualifies(r[i]) && Rank(r, i) < BREAKPOINTS then 1 else 0
    ensures Marks(r) == if CountQ(r) < BREAKPOINTS then CountQ(r) else BREAKPOINTS
    decreases |r|
  {
    if r != [] {
      var tail := r[1..];
      forall i | 0 <= i < |tail|
        ensures MessageMarks(tail[i]) == if Qualifies(tail[i]) && Rank(tail, i) < BREAKPOINTS then 1 else 0
      {
        assert tail[i + 1..] == r[i + 2..];
        assert tail[i] == r[i + 1];
      }
      MarksOfNewestTwo(tail);
      assert Rank(r, 0) == CountQ(tail);
    }
  }

  /**
   * The corrected bound: from any list whose markers sit on last blocks, the
   * corrected pass leaves markers exactly on the newest two qualifying messages,
   * whatever markers earlier passes left behind.
   */
  lemma ClearedPlacesNewestTwo(msgs: seq<Message>)
    requires CacheReady(msgs) && AllMarksOnLast(msgs)
    ensures |WithBreakpointsCleared(msgs)| == |msgs| && CacheReady(WithBreakpointsCleared(msgs))
    ensures CountQ(WithBreakpointsCleared(msgs)) == CountQ(msgs)
    ensures MarksWithin(WithBreakpointsCleared(msgs), BREAKPOINTS)
    ensures Marks(WithBreakpointsCleared(msgs)) == if CountQ(msgs) < BREAKPOINTS then CountQ(msgs) else BREAKPOINTS
  {
    var r := WithBreakpointsCleared(msgs);
    assert forall i :: 0 <= i < |msgs| ==> Qualifies(r[i]) == Qualifies(msgs[i]);
    forall i | 0 <= i < |msgs| ensures Rank(r, i) == Rank(msgs, i) {
      CountQSamePattern(r[i + 1..], msgs[i + 1..]);
    }
    CountQSamePattern(r, msgs);
    forall i | 0 <= i < |msgs|
      ensures MarkOnLastOnly(r[i])
      ensures MessageMarks(r[i]) == if Qualifies(r[i]) && Rank(r, i) < BREAKPOINTS then 1 else 0
    {
      var m := msgs[i];
      if Qualifies(m) {
        CachedCountLastOnly(r[i].content.blocks);
      } else if m.content.Blocks? {
        CachedCountNone(m.content.blocks);
      }
    }
    MarksOfNewestTwo(r);
  }

  /**
   * Where the source's own pass keeps its promise (every marker within the three
   * newest qualifying messages), the corrected pass does exactly what it does.
   */
  lemma ClearedAgreesWithPass(msgs: seq<Message>)
    requires CacheReady(msgs) && MarksWithin(msgs, BREAKPOINTS + 1)
    ensures WithBreakpointsCleared(msgs) == WithBreakpoints(msgs)
  {
    var c := WithBreakpointsCleared(msgs);
    var w := WithBreakpoints(msgs);
    forall i | 0 <= i < |msgs| ensures c[i] == w[i] {
      var m := msgs[i];
      if Qualifies(m) && Rank(msgs, i) > BREAKPOINTS {
        var bs := m.content.blocks;
        CachedCountZero(bs);
        assert bs[..|bs| - 1] + [bs[|bs| - 1].(cached := false)] == bs;
      }
    }
  }

  // ---------------------------------------------------------------- stale markers in the per-call copy

  /** A user turn holding one text block, with or without a marker. */
  function UserTurn(cached: bool): (m: Message)
    ensures Qualifies(m) && |m.content.blocks| == 1
  {
    Message("user", Blocks([TextBlock("x", cached)]))
  }

  /**
   * The source's pass leaves a stale marker behind once two qualifying turns are
   * appended between passes, as the copy that appends one turn per tool call
   * does after two calls: the pass marks the two new turns, clears the marker of
   * the third newest and stops, so the fourth newest keeps its marker and the
   * request carries three.
   */
  lemma PerCallTurnsOverflowBreakpoints()
    ensures var before := WithBreakpoints([UserTurn(false), UserTurn(false)]);
      var after := WithBreakpoints(before + [UserTurn(false), UserTurn(false)]);
      && Marks(before) == BREAKPOINTS
      && Marks(after) == BREAKPOINTS + 1
      && Marks(WithBreakpointsCleared(before + [UserTurn(false), UserTurn(false)])) == BREAKPOINTS
  {
    var q, m := UserTurn(false), UserTurn(true);
    FirstPassMarksBoth();
    var next := [m, m, q, q];
    assert [m, m] + [q, q] == next;
    SecondPassLeavesStale();
    ClearedPlacesNewestTwo(next);
    assert CountQ(next) == 4;
  }

  /** The first pass over two unmarked turns marks both. */
  lemma FirstPassMarksBoth()
    ensures WithBreakpoints([UserTurn(false), UserTurn(false)]) == [UserTurn(true), UserTurn(true)]
    ensures Marks([UserTurn(true), UserTurn(true)]) == BREAKPOINTS
  {
    var q, m := UserTurn(false), UserTurn(true);
    assert SetLastCached(q, true) == m by { assert q.content.blocks[..0] == []; }
    var before := WithBreakpoints([q, q]);
    assert CountQ([q]) == 1;
    assert [q, q][1..] == [q] && [q, q][2..] == [];
    assert before[0] == MarkAt(q, 1) && before[1] == MarkAt(q, 0);
    assert Marks([m]) == 1 by { assert [m][1..] == []; }
    assert [m, m][1..] == [m];
  }

  /** The second pass, after two more turns, marks the new two and leaves one older marker. */
  lemma SecondPassLeavesStale()
    ensures var q, m := UserTurn(false), UserTurn(true);
      WithBreakpoints([m, m, q, q]) == [m, q, m, m] && Marks([m, q, m, m]) == BREAKPOINTS + 1
  {
    var q, m := UserTurn(false), UserTurn(true);
    assert SetLastCached(q, true) == m by { assert q.content.blocks[..0] == []; }
    assert SetLastCached(m, false) == q by { assert m.content.blocks[..0] == []; }
    var next := [m, m, q, q];
    assert next[4..] == [] && next[3..] == [q] && next[2..] == [q, q] && next[1..] == [m, q, q];
    assert CountQ([q]) == 1 && CountQ([q, q]) == 2;
    assert CountQ(next[1..]) == 3 by { assert [m, q, q][1..] == [q, q]; }
    var after := WithBreakpoints(next);
    assert after[0] == MarkAt(m, 3) && after[1] == MarkAt(m, 2);
    assert after[2] == MarkAt(q, 1) && after[3] == MarkAt(q, 0);
    assert Marks([m]) == 1 by { assert [m][1..] == []; }
    assert Marks([m, m]) == 2 by { assert [m, m][1..] == [m]; }
    assert Marks([q, m, m]) == 2 by { assert [q, m, m][1..] == [m, m]; }
    assert [m, q, m, m][1..] == [q, m, m];
  }
}

=== FILE: chat_manager.dfy ===
/**
 * `ChatManager` of `tools/untool.py`: a conversation with a chat model that
 * can call functions registered on the manager. Messages and function
 * schemas are JSON dicts. The model's request is not sent here: `call_llm`
 * hands back the request it would send and stores the response it is given,
 * and what each registered function does when called is part of the tool
 * call it answers.
 */
module ChatManagerModel {
  import opened Wrappers
  import opened Text
  import opened JsonValue
  import opened ToolResults

  const DEFAULT_PROMPT := "You are a helpful assistant."

  /** `{"role": role, "content": content}`, with the tool call's id only when one is given and non-empty. */
  function Message(role: string, content: string, toolCallId: Option<string>): (m: Json)
    ensures m.JObj? && Keys(m.fields) == ["role", "content"] + (if Truthy(toolCallId) then ["tool_call_id"] else [])
    ensures Get(m.fields, "role") == JStr(role) && Get(m.fields, "content") == JStr(content)
    ensures Truthy(toolCallId) ==> Get(m.fields, "tool_call_id") == JStr(toolCallId.value)
  {
    var fields := [("role", JStr(role)), ("content", JStr(content))]
                  + if Truthy(toolCallId) then [("tool_call_id", JStr(toolCallId.value))] else [];
    GetAt(fields, 1);
    if Truthy(toolCallId) then GetAt(fields, 2); JObj(fields) else JObj(fields)
  }

  /** The schema `add_function` appends: a function's name, description and parameters. */
  function FunctionSchema(name: string, description: string, parameters: Json): Json
  {
    JObj([("type", JStr("function")),
          ("function", JObj([("name", JStr(name)), ("description", JStr(description)), ("parameters", parameters)]))])
  }

  /** The name a schema advertises, when it is a function schema. */
  function SchemaName(schema: Json): Option<string>
  {
    if !schema.JObj? then None
    else
      var f := Get(schema.fields, "function");
      if f.JObj? && Get(f.fields, "name").JStr? then Some(Get(f.fields, "name").s) else None
  }

  /** A schema names the function it was built for, with the type `function`. */
  lemma SchemaNamesFunction(name: string, description: string, parameters: Json)
    ensures SchemaName(FunctionSchema(name, description, parameters)) == Some(name)
    ensures Get(FunctionSchema(name, description, parameters).fields, "type") == JStr("function")
  {
    var inner := [("name", JStr(name)), ("description", JStr(description)), ("parameters", parameters)];
    assert Get(inner, "name") == JStr(name);
    var outer := [("type", JStr("function")), ("function", JObj(inner))];
    assert outer[1..][0].0 == "function";
    assert Get(outer, "function") == JObj(inner);
  }

  /** The request `call_llm` sends: tools and the tool choice only when a function is registered. */
  function Request(model: string, messages: seq<Json>, functions: seq<Json>, toolChoice: string): (q: Json)
    ensures q.JObj? && Keys(q.fields) == ["model", "messages"] + (if functions != [] then ["tools", "tool_choice"] else [])
    ensures Get(q.fields, "messages") == JArr(messages)
    ensures functions != [] ==> Get(q.fields, "tools") == JArr(functions) && Get(q.fields, "tool_choice") == JStr(toolChoice)
  {
    var base := [("model", JStr(model)), ("messages", JArr(messages))];
    var tools := [("tools", JArr(functions)), ("tool_choice", JStr(toolChoice))];
    var fields := base + if functions != [] then tools else [];
    GetAt(fields, 1);
    if functions != [] then GetAt(fields, 2); GetAt(fields, 3); JObj(fields) else JObj(fields)
  }

  /**
   * One entry of a response's `tool_calls`: its id, the function's name, its
   * arguments (absent when they are not valid JSON) and what calling the
   * registered function with them returns or raises.
   */
  datatype ToolCall = ToolCall(id: string, name: string, arguments: Option<Json>, outcome: Result<Json>)

  /**
   * The `tool` message answering a call: the JSON of the result, or the
   * error. Looking up a name that was never registered raises a `KeyError`,
   * whose message is the quoted name.
   */
  function ToolMessage(call: ToolCall, registered: set<string>): Json
  {
    Message("tool", Content(call, registered), Some(call.id))
  }

  function Content(call: ToolCall, registered: set<string>): string
  {
    if call.name !in registered then "Error: '" + call.name + "'"
    else OutcomeText(call.outcome)
  }

  /** What a registered function's call reports: the JSON of its result, or the error it raised. */
  function OutcomeText(outcome: Result<Json>): string
  {
    if outcome.Err? then "Error: " + outcome.error else Dumps(outcome.value)
  }

  /** Some schema in `functions` advertises `name`. */
  predicate Advertises(functions: seq<Json>, name: string)
  {
    exists i :: 0 <= i < |functions| && SchemaName(functions[i]) == Some(name)
  }

  /** The text of a JSON value never starts like an error report. */
  lemma DumpsIsNotError(v: Json)
    ensures |Dumps(v)| >= 1 && Dumps(v)[0] != 'E'
  {
    if v.JInt? {
      var s := IntToString(v.i);
      assert |s| >= 1;
      assert s[0] == '-' || '0' <= s[0] <= '9';
    }
  }

  /**
   * A tool message reports an error exactly when the function was never
   * registered or raised; it always carries the call's id when that is
   * non-empty.
   */
  lemma ToolMessageReportsErrors(call: ToolCall, registered: set<string>)
    ensures var m := ToolMessage(call, registered);
      && Get(m.fields, "role") == JStr("tool")
      && (Get(m.fields, "content").JStr? && (StartsWith(Get(m.fields, "content").s, "Error: ")
            <==> call.name !in registered || call.outcome.Err?))
      && (call.id != "" ==> Get(m.fields, "tool_call_id") == JStr(call.id))
  {
    if call.name in registered && call.outcome.Ok? {
      DumpsIsNotError(call.outcome.value);
    }
  }

  /** The messages the calls add: one per call, in order, until a call whose arguments do not parse. */
  function Answered(calls: seq<ToolCall>, registered: set<string>): (r: seq<Json>)
    ensures |r| <= |calls|
    ensures forall i :: 0 <= i < |r| ==> calls[i].arguments.Some? && r[i] == ToolMessage(calls[i], registered)
    ensures |r| < |calls| ==> calls[|r|].arguments.None?
  {
    if calls == [] || calls[0].arguments.None? then []
    else [ToolMessage(calls[0], registered)] + Answered(calls[1..], registered)
  }

  /** When every call's arguments parse, every call is answered. */
  lemma AnsweredAll(calls: seq<ToolCall>, registered: set<string>)
    requires forall i :: 0 <= i < |calls| ==> calls[i].arguments.Some?
    ensures |Answered(calls, registered)| == |calls|
  {
  }

  class ChatManager {
    var model: string
    var messages: seq<Json>
    var functions: seq<Json>
    /** The names bound to a callable on the instance. */
    var registered: set<string>

    /** Every advertised function can be called by its name. */
    predicate Valid()
      reads this
    {
      forall i :: 0 <= i < |functions| ==> SchemaName(functions[i]).Some? && SchemaName(functions[i]).value in registered
    }

    /** `__init__`: one system message with the prompt, and no functions. */
    constructor (model: string, systemPrompt: Option<string>)
      ensures Valid()
      ensures this.model == model && functions == [] && registered == {}
      ensures messages == [Message("system", if systemPrompt.Some? then systemPrompt.value else DEFAULT_PROMPT, None)]
    {
      this.model := model;
      messages := [Message("system", if systemPrompt.Some? then systemPrompt.value else DEFAULT_PROMPT, None)];
      functions := [];
      registered := {};
    }

    /** `add_function`: one schema is appended and the name is bound. */
    method AddFunction(name: string, description: string, parameters: Json)
      requires Valid()
      modifies this
      ensures Valid()
      ensures functions == old(functions) + [FunctionSchema(name, description, parameters)]
      ensures registered == old(registered) + {name}
      ensures messages == old(messages) && model == old(model)
    {
      SchemaNamesFunction(name, description, parameters);
      functions := functions + [FunctionSchema(name, description, parameters)];
      registered := registered + {name};
    }

    /** `add_message`: one message is appended. */
    method AddMessage(role: string, content: string, toolCallId: Option<string>)
      modifies this
      ensures messages == old(messages) + [Message(role, content, toolCallId)]
      ensures functions == old(functions) && registered == old(registered) && model == old(model)
    {
      messages := messages + [Message(role, content, toolCallId)];
    }

    /** `call_llm`: the request built from the current state; the response is then stored and returned. */
    method CallLlm(toolChoice: string, response: Json) returns (request: Json, reply: Json)
      modifies this
      ensures request == Request(old(model), old(messages), old(functions), toolChoice)
      ensures reply == response
      ensures messages == old(messages) + [response]
      ensures functions == old(functions) && registered == old(registered) && model == old(model)
    {
      request := Request(model, messages, functions, toolChoice);
      messages := messages + [response];
      reply := response;
    }

    /**
     * `execute_tool_calls`: `toolCalls` is the message's `tool_calls` entry,
     * absent when it has none. Each call adds its `tool` message in order;
     * arguments that do not parse raise out of the loop, after the messages
     * of the calls before it. `completed` is false when that happens.
     */
    method ExecuteToolCalls(toolCalls: Option<seq<ToolCall>>) returns (completed: bool)
      requires Valid()
      modifies this
      ensures Valid()
      ensures toolCalls.None? ==> messages == old(messages) && completed
      ensures toolCalls.Some? ==> messages == old(messages) + Answered(toolCalls.value, registered)
      ensures toolCalls.Some? ==> (completed <==> forall i :: 0 <= i < |toolCalls.value| ==> toolCalls.value[i].arguments.Some?)
      ensures functions == old(functions) && registered == old(registered) && model == old(model)
      ensures toolCalls.Some? ==> forall i :: 0 <= i < |messages| - |old(messages)| && Advertises(functions, toolCalls.value[i].name) ==>
        messages[|old(messages)| + i] == Message("tool", OutcomeText(toolCalls.value[i].outcome), Some(toolCalls.value[i].id))
    {
      if toolCalls.None? {
        return true;
      }
      var calls := toolCalls.value;
      var start := messages;
      for i := 0 to |calls|
        invariant forall j :: 0 <= j < i ==> calls[j].arguments.Some?
        invariant |messages| == |start| + i && messages[..|start|] == start
        invariant forall j :: 0 <= j < i ==> messages[|start| + j] == ToolMessage(calls[j], registered)
        invariant functions == old(functions) && registered == old(registered) && model == old(model)
        invariant Valid()
      {
        if calls[i].arguments.None? {
          SameMessages(messages, start, Answered(calls, registered));
          return false;
        }
        AddMessage("tool", Content(calls[i], registered), Some(calls[i].id));
      }
      SameMessages(messages, start, Answered(calls, registered));
      completed := true;
    }
  }

  /** A list that extends `start` element by element with `added` is `start + added`. */
  lemma SameMessages(messages: seq<Json>, start: seq<Json>, added: seq<Json>)
    requires |messages| == |start| + |added| && messages[..|start|] == start
    requires forall j :: 0 <= j < |added| ==> messages[|start| + j] == added[j]
    ensures messages == start + added
  {
    assert forall k :: 0 <= k < |messages| ==> messages[k] == (start + added)[k] by {
      forall k | 0 <= k < |messages|
        ensures messages[k] == (start + added)[k]
      {
        if k < |start| {
          assert messages[k] == messages[..|start|][k];
        }
      }
    }
  }
}

=== FILE: conversation.dfy ===
/**
 * The in-memory conversation of the agent loop: a list of `{role, content}`
 * messages whose content is a plain string or a list of typed blocks.
 *
 * Every block carries `cached`, the presence of a `cache_control` key, because
 * the prompt-caching policy puts that key on the last block of a message whatever
 * the block's type is. Tool results nest text and image parts.
 */
module Conversation {
  import opened Text
  import opened JsonValue

  /** An item of a `tool_result` block's `content` list. */
  datatype Part =
    | TextPart(text: string)
    | ImagePart(mediaType: string, data: string)

  datatype Block =
    | TextBlock(text: string, cached: bool)
    | ToolUseBlock(id: string, name: string, input: seq<(string, Json)>, cached: bool)
    | ToolResultBlock(toolUseId: string, parts: seq<Part>, isError: bool, cached: bool)

  datatype Content = Str(s: string) | Blocks(blocks: seq<Block>)

  datatype Message = Message(role: string, content: Content)

  /**
   * A content block of a model response: text, a tool call, or any other kind
   * (the loop skips those). Only text blocks have a `text` attribute.
   */
  datatype ResponseBlock =
    | RText(text: string)
    | RToolUse(id: string, name: string, input: seq<(string, Json)>)
    | ROther

  /**
   * A Python list of messages. The loop and the conversation policies share it
   * by reference and change it in place.
   */
  class MessageList {
    var items: seq<Message>

    constructor (initial: seq<Message>)
      ensures items == initial
    {
      items := initial;
    }

    method Append(m: Message)
      modifies this
      ensures items == old(items) + [m]
    {
      items := items + [m];
    }
  }

  // ---------------------------------------------------------------- the same values as JSON

  function PartJson(p: Part): Json
  {
    match p
    case TextPart(t) => JObj([("type", JStr("text")), ("text", JStr(t))])
    case ImagePart(mt, d) =>
      JObj([("type", JStr("image")),
            ("source", JObj([("type", JStr("base64")), ("media_type", JStr(mt)), ("data", JStr(d))]))])
  }

  function PartsJson(ps: seq<Part>): seq<Json>
  {
    seq(|ps|, i requires 0 <= i < |ps| => PartJson(ps[i]))
  }

  const EPHEMERAL: Json := JObj([("type", JStr("ephemeral"))])

  /** A block as the dict the loop builds, keys in the order the loop inserts them. */
  function BlockJson(b: Block): Json
  {
    var fields := match b
      case TextBlock(t, _) => [("type", JStr("text")), ("text", JStr(t))]
      case ToolUseBlock(id, name, input, _) =>
        [("type", JStr("tool_use")), ("name", JStr(name)), ("id", JStr(id)), ("input", JObj(input))]
      case ToolResultBlock(tid, parts, err, _) =>
        [("type", JStr("tool_result")), ("content", JArr(PartsJson(parts))),
         ("tool_use_id", JStr(tid)), ("is_error", JBool(err))];
    JObj(if b.cached then fields + [("cache_control", EPHEMERAL)] else fields)
  }

  function ContentJson(c: Content): Json
  {
    match c
    case Str(s) => JStr(s)
    case Blocks(bs) => JArr(seq(|bs|, i requires 0 <= i < |bs| => BlockJson(bs[i])))
  }
}

=== FILE: edit_tool.dfy ===
/**
 * `EditTool` of `tools/edit.py`. The disk is the map `files` and
 * `_file_history` the map `history`; `view`, `str_replace`, `insert` and
 * `undo_edit` follow the transitions of `Editing`, and the tool's own
 * `__call__` handles only `create` and answers nothing for any other command.
 * Path normalisation against the project directory is not modelled: a path is
 * used as given, and only the empty path is refused.
 */
module EditTool {
  import opened Wrappers
  import opened Text
  import opened ToolResults
  import opened Editing

  const EMPTY_PATH := "Path cannot be None or empty"
  const NO_FILE_TEXT := "Parameter `file_text` is required for command: create"

  function Failure(message: string): ToolResult
  {
    ToolResult(None, Some(message), None, false)
  }

  function Success(output: string): ToolResult
  {
    ToolResult(Some(output), None, None, false)
  }

  /** `format_output`: the command and status lines, then the path and operation lines when given. */
  function FormatOutput(command: string, status: string, filePath: Option<string>, details: Option<string>): string
  {
    Join(["Command: " + command, "Status: " + status]
         + (if filePath.Some? then ["File Path: " + filePath.value] else [])
         + (if details.Some? then ["Operation: " + details.value] else []), "\n")
  }

  /**
   * When no field holds a newline, the output has one line per field: the
   * command, the status, then the path and the operation only when present.
   */
  lemma FormatOutputLines(command: string, status: string, filePath: Option<string>, details: Option<string>)
    requires '\n' !in command && '\n' !in status
    requires filePath.Some? ==> '\n' !in filePath.value
    requires details.Some? ==> '\n' !in details.value
    ensures var lines := Split(FormatOutput(command, status, filePath, details), '\n');
      && |lines| == 2 + (if filePath.Some? then 1 else 0) + (if details.Some? then 1 else 0)
      && lines[0] == "Command: " + command && lines[1] == "Status: " + status
      && (filePath.Some? ==> lines[2] == "File Path: " + filePath.value)
      && (details.Some? ==> lines[|lines| - 1] == "Operation: " + details.value)
  {
    var lines := ["Command: " + command, "Status: " + status]
         + (if filePath.Some? then ["File Path: " + filePath.value] else [])
         + (if details.Some? then ["Operation: " + details.value] else []);
    assert forall i :: 0 <= i < |lines| ==> '\n' !in lines[i];
    SplitJoin(lines, '\n');
  }

  /** The result of a transition as the tool reports it when it catches the error. */
  function Reported(st: Step): ToolResult
  {
    if st.failed then Failure(AnswerText(st.answer)) else Success(AnswerText(st.answer))
  }

  /** The result of a transition when the tool lets the error propagate. */
  function Raised(st: Step): Result<ToolResult>
  {
    if st.failed then Err(AnswerText(st.answer)) else Ok(Success(AnswerText(st.answer)))
  }

  class EditTool {
    var files: map<string, string>
    var history: map<string, seq<string>>

    function State(): EditorState
      reads this
    {
      EditorState(files, history)
    }

    constructor (disk: map<string, string>)
      ensures files == disk && history == map[]
    {
      files := disk;
      history := map[];
    }

    /** The file as `read_file` returns it, or the error it raises. */
    method ReadFile(path: string) returns (r: Result<string>)
      ensures path in files ==> r == Ok(ReadText(files[path]))
      ensures path !in files ==> r == Err(AnswerText(ReadFailed(path)))
    {
      if path !in files {
        return Err(AnswerText(ReadFailed(path)));
      }
      r := Ok(ReadText(files[path]));
    }

    /**
     * `view` of a file: the whole file, or the lines of a two-element range,
     * numbered; a range error propagates. Directory listings are not modelled.
     */
    method View(path: string, range: Option<seq<int>>) returns (r: Result<ToolResult>)
      ensures path !in files ==> r == Err(AnswerText(ReadFailed(path)))
      ensures path in files ==>
        var v := ViewContent(ReadText(files[path]), if range.Some? then range.value else []);
        r == if v.Shown? then Ok(Success(MakeOutput(v.text, path, v.first))) else Err(AnswerText(v.why))
    {
      var read := ReadFile(path);
      if read.Err? {
        return Err(read.error);
      }
      var content, first := read.value, 1;
      if range.Some? && range.value != [] {
        var v := ViewContent(content, range.value);
        if v.Refused? {
          return Err(AnswerText(v.why));
        }
        content, first := v.text, v.first;
      }
      r := Ok(Success(MakeOutput(content, path, first)));
    }

    /** `str_replace`: every error is caught and reported in the result. */
    method StrReplace(path: string, oldStr: string, newStr: Option<string>) returns (r: ToolResult)
      modifies this
      ensures path == "" ==> State() == old(State()) && r == Failure(EMPTY_PATH)
      ensures path != "" ==>
        var st := ReplaceStep(old(State()), path, oldStr, newStr);
        State() == st.state && r == Reported(st)
    {
      if path == "" {
        return Failure(EMPTY_PATH);
      }
      var read := ReadFile(path);
      if read.Err? {
        return Failure(read.error);
      }
      var content := ExpandTabs(read.value);
      var pat := ExpandTabs(oldStr);
      var rep := if newStr.Some? then ExpandTabs(newStr.value) else "";
      var occurrences := Count(content, pat);
      if occurrences == 0 {
        return Failure(AnswerText(NoMatch(pat, path)));
      } else if occurrences > 1 {
        return Failure(AnswerText(ManyMatches(pat, OccurrenceLines(Split(content, '\n'), pat))));
      }
      var edited := Replace(content, pat, rep);
      files := files[path := edited];
      history := Push(history, path, content);
      if pat == [] {
        return Failure(AnswerText(EmptySeparator));
      }
      r := Success(AnswerText(ReplacedAnswer(path, content, pat, rep, edited)));
    }

    /** `insert`: a line outside the file and a missing file raise. */
    method Insert(path: string, line: int, newStr: string) returns (r: Result<ToolResult>)
      modifies this
      ensures path == "" ==> State() == old(State()) && r == Err(EMPTY_PATH)
      ensures path != "" ==>
        var st := InsertStep(old(State()), path, line, newStr);
        State() == st.state && r == Raised(st)
    {
      if path == "" {
        return Err(EMPTY_PATH);
      }
      var read := ReadFile(path);
      if read.Err? {
        return Err(read.error);
      }
      var text := ExpandTabs(read.value);
      var lines := Split(text, '\n');
      if line < 0 || line > |lines| {
        return Err(AnswerText(BadInsertLine(line, |lines|)));
      }
      var added := Split(ExpandTabs(newStr), '\n');
      var before := if line < SNIPPET_LINES then 0 else line - SNIPPET_LINES;
      var snippet := Join(lines[before..line] + added + Slice(lines, line, line + SNIPPET_LINES), "\n");
      var first := if line - SNIPPET_LINES + 1 < 1 then 1 else line - SNIPPET_LINES + 1;
      files := files[path := Join(lines[..line] + added + lines[line..], "\n")];
      history := Push(history, path, text);
      r := Ok(Success(AnswerText(Inserted(path, snippet, first))));
    }

    /** `undo_edit`: an empty stack raises; otherwise the newest text is popped and written back. */
    method UndoEdit(path: string) returns (r: Result<ToolResult>)
      modifies this
      ensures path == "" ==> State() == old(State()) && r == Err(EMPTY_PATH)
      ensures path != "" ==>
        var st := UndoStep(old(State()), path);
        State() == st.state && r == Raised(st)
    {
      if path == "" {
        return Err(EMPTY_PATH);
      }
      if path !in history || history[path] == [] {
        return Err(AnswerText(NoHistory(path)));
      }
      var stack := history[path];
      var last := stack[|stack| - 1];
      history := history[path := stack[..|stack| - 1]];
      files := files[path := last];
      r := Ok(Success(AnswerText(Undone(path, last))));
    }

    /**
     * `__call__`: after the path check, `create` with a truthy `file_text`
     * writes and pushes the text; every other command falls through the body
     * and answers nothing.
     */
    method Call(command: string, path: string, fileText: Option<string>) returns (r: Option<ToolResult>)
      modifies this
      ensures path == "" ==> State() == old(State()) && r == Some(Failure(EMPTY_PATH))
      ensures path != "" && command != "create" ==> State() == old(State()) && r.None?
      ensures path != "" && command == "create" && !Truthy(fileText) ==>
        State() == old(State()) && r == Some(Failure(NO_FILE_TEXT))
      ensures path != "" && command == "create" && Truthy(fileText) ==>
        State() == CreateState(old(State()), path, fileText.value)
        && r == Some(Success(FormatOutput("create", "success", Some(path), Some("File created successfully"))))
    {
      if path == "" {
        return Some(Failure(EMPTY_PATH));
      }
      if command == "create" {
        if !Truthy(fileText) {
          return Some(Failure(NO_FILE_TEXT));
        }
        files := files[path := fileText.value];
        history := Push(history, path, fileText.value);
        return Some(Success(FormatOutput("create", "success", Some(path), Some("File created successfully"))));
      }
      r := None;
    }
  }
}

=== FILE: editing.dfy ===
/**
 * What the two copies of `EditTool` (`tools/edit.py` and `tools/test_edit.py`)
 * share: the disk as a map from path to text, a per-path stack of earlier
 * texts, and the rules of `view`, `str_replace`, `insert` and `undo_edit` as
 * transitions of that state. Each transition yields the new state, whether the
 * command failed, and the text it answers with (the output or the message of
 * the error). Paths here are already normalised; each copy normalises its own way.
 */
module Editing {
  import opened Wrappers
  import opened Text

  /** Lines of context shown around an edit. */
  const SNIPPET_LINES: nat := 4

  /** The files on disk and `_file_history`, a stack of earlier texts per path. */
  datatype EditorState = EditorState(files: map<string, string>, history: map<string, seq<string>>)

  /** What a command answers, before it is rendered as text (`AnswerText`). */
  datatype Answer =
    | ReadFailed(path: string)
    | RangeNotPair
    | FirstOutOfRange(first: int, last: int, lineCount: nat)
    | LastTooLarge(first: int, last: int, lineCount: nat)
    | LastBeforeFirst(first: int, last: int)
    | NoMatch(pat: string, path: string)
    | ManyMatches(pat: string, lines: seq<int>)
    | EmptySeparator
    | Replaced(path: string, snippet: string, first: int)
    | BadInsertLine(line: int, lineCount: nat)
    | Inserted(path: string, snippet: string, first: int)
    | NoHistory(path: string)
    | Undone(path: string, text: string)

  /** The outcome of a command: the new state, whether it failed, and its answer. */
  datatype Step = Step(state: EditorState, failed: bool, answer: Answer)

  /** `_file_history[path]` of a `defaultdict(list)`: the empty stack for a path never pushed. */
  function Stack(history: map<string, seq<string>>, path: string): seq<string>
  {
    if path in history then history[path] else []
  }

  function Push(history: map<string, seq<string>>, path: string, text: string): map<string, seq<string>>
  {
    history[path := Stack(history, path) + [text]]
  }

  /** `read_text(...).encode('ascii', errors='replace').decode('ascii')`: every non-ASCII character becomes `?`. */
  function AsciiReplace(s: string): string
  {
    seq(|s|, i requires 0 <= i < |s| => if s[i] as int < 128 then s[i] else '?')
  }

  /**
   * `read_file`: `read_text` opens the file in text mode, so `\r\n` and a lone
   * `\r` come back as `\n`; then every non-ASCII character becomes `?`.
   */
  function ReadText(text: string): string
  {
    AsciiReplace(UniversalNewlines(text))
  }

  /** A file as `str_replace` and `insert` work on it: read, then tabs expanded. */
  function Expanded(text: string): string
  {
    ExpandTabs(ReadText(text))
  }

  /** Text that every read and tab expansion leaves as it is, up to its line breaks. */
  predicate TabFreeAscii(t: string)
  {
    forall i :: 0 <= i < |t| ==> t[i] as int < 128 && t[i] != '\t'
  }

  /** The stand-in for the operating system's message when a file cannot be read. */
  const NOT_FOUND := "[Errno 2] No such file or directory"


  /** Python's `str(xs)` for a list of integers. */
  function IntListRepr(xs: seq<int>): string
  {
    "[" + Join(seq(|xs|, i requires 0 <= i < |xs| => IntToString(xs[i])), ", ") + "]"
  }

  // ---------------------------------------------------------------- the numbered listing

  /** One listing line: the number right-aligned in six columns, a tab, the line. */
  function NumberedLine(n: int, line: string): string
  {
    PadLeft(IntToString(n), 6) + "\t" + line
  }

  function NumberedLines(lines: seq<string>, init: int): seq<string>
  {
    seq(|lines|, i requires 0 <= i < |lines| => NumberedLine(i + init, lines[i]))
  }

  function ListingBody(content: string, init: int): string
  {
    Join(NumberedLines(Split(ExpandTabs(content), '\n'), init), "\n")
  }

  /** `_make_output`: a header naming what is shown, then the numbered lines. */
  function MakeOutput(content: string, descriptor: string, init: int): string
  {
    "Here's the result of running ` -n` on " + descriptor + ":\n" + ListingBody(content, init) + "\n"
  }

  /** The text after the first tab of a line. */
  function AfterTab(s: string): string
  {
    if s == [] then [] else if s[0] == '\t' then s[1..] else AfterTab(s[1..])
  }

  lemma {:induction false} AfterTabSkips(prefix: string, line: string)
    requires '\t' !in prefix
    ensures AfterTab(prefix + "\t" + line) == line
    decreases |prefix|
  {
    if prefix == [] {
      assert ("" + "\t" + line)[1..] == line;
    } else {
      assert (prefix + "\t" + line)[1..] == prefix[1..] + "\t" + line;
      AfterTabSkips(prefix[1..], line);
    }
  }

  /** Characters that a split takes from nowhere but its input. */
  lemma {:induction false} SplitPiecesWithout(s: string, c: char, d: char)
    requires d !in s
    ensures forall i :: 0 <= i < |Split(s, c)| ==> d !in Split(s, c)[i]
    decreases |s|
  {
    if s != [] {
      SplitPiecesWithout(s[1..], c, d);
    }
  }

  /**
   * The listing holds the tab-expanded content line for line: its lines are as
   * many as the content's, each starts with its number (counting up from
   * `init`) in six columns and a tab, and the text after that tab is the line.
   */
  lemma ListingRoundTrip(content: string, init: int)
    ensures var lines := Split(ExpandTabs(content), '\n');
      var listing := Split(ListingBody(content, init), '\n');
      && |listing| == |lines|
      && forall i :: 0 <= i < |lines| ==>
        StartsWith(listing[i], PadLeft(IntToString(i + init), 6) + "\t") && AfterTab(listing[i]) == lines[i]
  {
    var lines := Split(ExpandTabs(content), '\n');
    var numbered := NumberedLines(lines, init);
    SplitPiecesFree(ExpandTabs(content), '\n');
    ExpandTabsIdempotent(content);
    SplitPiecesWithout(ExpandTabs(content), '\n', '\t');
    forall i | 0 <= i < |lines|
      ensures '\n' !in numbered[i]
      ensures StartsWith(numbered[i], PadLeft(IntToString(i + init), 6) + "\t")
      ensures AfterTab(numbered[i]) == lines[i]
    {
      var prefix := PadLeft(IntToString(i + init), 6);
      assert forall k :: 0 <= k < |prefix| ==> prefix[k] == ' ' || prefix[k] == '-' || '0' <= prefix[k] <= '9';
      AfterTabSkips(prefix, lines[i]);
      assert numbered[i] == prefix + "\t" + lines[i];
      assert numbered[i][..|prefix + "\t"|] == prefix + "\t";
    }
    SplitJoin(numbered, '\n');
  }

  // ---------------------------------------------------------------- view

  /** What `view` shows of a file: text numbered from `first`, or the reason the range is refused. */
  datatype Viewed = Shown(text: string, first: int) | Refused(why: Answer)

  /**
   * The text `view` shows and the number of its first line, or the error the
   * range check raises. An empty range is falsy and shows the whole file.
   */
  function ViewContent(content: string, range: seq<int>): Viewed
  {
    if range == [] then Shown(content, 1)
    else if |range| != 2 then Refused(RangeNotPair)
    else ViewLines(Split(content, '\n'), range[0], range[1])
  }

  /** The range check on the file's lines, and the lines it lets through, joined. */
  function ViewLines(lines: seq<string>, first: int, last: int): Viewed
  {
    var n := |lines|;
    if first < 1 || first > n then Refused(FirstOutOfRange(first, last, n))
    else if last > n then Refused(LastTooLarge(first, last, n))
    else if last != -1 && last < first then Refused(LastBeforeFirst(first, last))
    else if last == -1 then Shown(Join(lines[first - 1..], "\n"), first)
    else Shown(Join(Slice(lines, first - 1, last), "\n"), first)
  }

  /**
   * A range `[first, last]` is accepted exactly when `1 <= first <= n` and
   * either `last == -1` or `first <= last <= n`; it then shows lines `first`
   * through `last` (through the end for `-1`), numbered from `first`.
   */
  lemma ViewShowsRange(content: string, first: int, last: int)
    ensures var lines := Split(content, '\n');
      var r := ViewContent(content, [first, last]);
      && (r.Shown? <==> 1 <= first <= |lines| && (last == -1 || first <= last <= |lines|))
      && (r.Shown? ==>
            r.first == first
            && Split(r.text, '\n') == lines[first - 1..if last == -1 then |lines| else last])
  {
    var lines := Split(content, '\n');
    if 1 <= first <= |lines| && (last == -1 || first <= last <= |lines|) {
      var end := if last == -1 then |lines| else last;
      ViewAccepted(lines, first, last, end);
      JoinedLinesSplit(lines, content, first - 1, end);
    }
    assert [first, last][0] == first && [first, last][1] == last;
  }

  /** An accepted range shows the joined lines `first` through `end`. */
  lemma ViewAccepted(lines: seq<string>, first: int, last: int, end: int)
    requires 1 <= first <= |lines| && (last == -1 || first <= last <= |lines|)
    requires end == if last == -1 then |lines| else last
    ensures ViewLines(lines, first, last) == Shown(Join(lines[first - 1..end], "\n"), first)
  {
    if last != -1 {
      assert Slice(lines, first - 1, last) == lines[first - 1..end];
    } else {
      assert lines[first - 1..] == lines[first - 1..end];
    }
  }

  /** Joining a run of at least one line of a text and splitting it again gives that run back. */
  lemma JoinedLinesSplit(lines: seq<string>, content: string, lo: nat, hi: nat)
    requires lines == Split(content, '\n') && lo < hi <= |lines|
    ensures Split(Join(lines[lo..hi], "\n"), '\n') == lines[lo..hi]
  {
    var shown := lines[lo..hi];
    SplitPiecesFree(content, '\n');
    forall i | 0 <= i < |shown| ensures '\n' !in shown[i] {
      assert shown[i] == lines[lo + i];
    }
    SplitJoin(shown, '\n');
  }

  // ---------------------------------------------------------------- str_replace

  /** The 1-based numbers of the lines that contain `pat`, in order. */
  function OccurrenceLines(lines: seq<string>, pat: string): seq<int>
  {
    if lines == [] then []
    else OccurrenceLines(lines[..|lines| - 1], pat) + (if Contains(lines[|lines| - 1], pat) then [|lines|] else [])
  }

  /** The error of a non-unique match lists exactly the lines holding it, in increasing order. */
  lemma {:induction false} OccurrenceLinesExact(lines: seq<string>, pat: string)
    ensures forall x :: x in OccurrenceLines(lines, pat) <==> 1 <= x <= |lines| && Contains(lines[x - 1], pat)
    ensures forall i, j :: 0 <= i < j < |OccurrenceLines(lines, pat)| ==>
      OccurrenceLines(lines, pat)[i] < OccurrenceLines(lines, pat)[j]
    decreases |lines|
  {
    if lines != [] {
      var init := lines[..|lines| - 1];
      var extra := if Contains(lines[|lines| - 1], pat) then [|lines|] else [];
      OccurrenceLinesExact(init, pat);
      var ri := OccurrenceLines(init, pat);
      var r := OccurrenceLines(lines, pat);
      assert r == ri + extra;
      forall x ensures x in r <==> 1 <= x <= |lines| && Contains(lines[x - 1], pat) {
        if 1 <= x <= |init| {
          assert lines[x - 1] == init[x - 1];
        }
      }
      forall i, j | 0 <= i < j < |r| ensures r[i] < r[j] {
        assert r[i] == ri[i] && ri[i] in ri;
        if j < |ri| {
          assert r[j] == ri[j];
        } else {
          assert r[j] == |lines|;
        }
      }
    }
  }

  /** The answer to a unique replacement: a snippet of the edited file around the change. */
  function ReplacedAnswer(path: string, content: string, pat: string, rep: string, edited: string): Answer
  {
    var f := Find(content, pat);
    var line := Count(if f < 0 then content else content[..f], "\n");
    var start := if line < SNIPPET_LINES then 0 else line - SNIPPET_LINES;
    var end := line + SNIPPET_LINES + Count(rep, "\n");
    Replaced(path, Join(Slice(Split(edited, '\n'), start, end + 1), "\n"), start + 1)
  }

  /**
   * `str_replace` on a normalised path. A missing file, no match or several
   * matches fail and change nothing. A unique match is replaced, the file is
   * written and the text it was read as is pushed; with an empty `old_str` the
   * snippet's `split("")` then raises, so the command fails after the write.
   */
  function ReplaceStep(s: EditorState, path: string, oldStr: string, newStr: Option<string>): Step
  {
    if path !in s.files then Step(s, true, ReadFailed(path))
    else
      var content := Expanded(s.files[path]);
      var pat := ExpandTabs(oldStr);
      var rep := if newStr.Some? then ExpandTabs(newStr.value) else "";
      var n := Count(content, pat);
      if n == 0 then Step(s, true, NoMatch(pat, path))
      else if n > 1 then Step(s, true, ManyMatches(pat, OccurrenceLines(Split(content, '\n'), pat)))
      else
        var edited := Replace(content, pat, rep);
        var next := EditorState(s.files[path := edited], Push(s.history, path, content));
        if pat == [] then Step(next, true, EmptySeparator)
        else Step(next, false, ReplacedAnswer(path, content, pat, rep, edited))
  }

  /**
   * Only a unique match changes anything: then the file becomes the text with
   * that one occurrence replaced, and the text before the edit is pushed.
   */
  lemma ReplaceOutcome(s: EditorState, path: string, oldStr: string, newStr: Option<string>)
    ensures var r := ReplaceStep(s, path, oldStr, newStr);
      && (path !in s.files ==> r.failed && r.state == s)
      && (path in s.files ==>
            var content := Expanded(s.files[path]);
            var pat := ExpandTabs(oldStr);
            var rep := if newStr.Some? then ExpandTabs(newStr.value) else "";
            && (Count(content, pat) != 1 ==> r.failed && r.state == s)
            && (Count(content, pat) == 1 ==>
                  var f := Find(content, pat);
                  && OccursAt(content, pat, f)
                  && r.state.files == s.files[path := content[..f] + rep + content[f + |pat|..]]
                  && r.state.history == Push(s.history, path, content)
                  && (r.failed <==> pat == [])))
  {
    if path in s.files {
      var content := Expanded(s.files[path]);
      var pat := ExpandTabs(oldStr);
      var rep := if newStr.Some? then ExpandTabs(newStr.value) else "";
      if Count(content, pat) == 1 {
        if pat == [] {
          assert content == [];
          assert Find(content, pat) == 0;
          assert Replace(content, pat, rep) == rep;
          assert content[..0] + rep + content[0..] == rep;
        } else {
          ReplaceUnique(content, pat, rep);
        }
      }
    }
  }

  // ---------------------------------------------------------------- insert

  /** `insert` on a normalised path: `new_str`'s lines go after line `line` (0 puts them first). */
  function InsertStep(s: EditorState, path: string, line: int, newStr: string): Step
  {
    if path !in s.files then Step(s, true, ReadFailed(path))
    else
      var text := Expanded(s.files[path]);
      var lines := Split(text, '\n');
      var n := |lines|;
      if line < 0 || line > n then Step(s, true, BadInsertLine(line, n))
      else
        var added := Split(ExpandTabs(newStr), '\n');
        var edited := Join(lines[..line] + added + lines[line..], "\n");
        var before := if line < SNIPPET_LINES then 0 else line - SNIPPET_LINES;
        var snippet := Join(lines[before..line] + added + Slice(lines, line, line + SNIPPET_LINES), "\n");
        var first := if line - SNIPPET_LINES + 1 < 1 then 1 else line - SNIPPET_LINES + 1;
        Step(EditorState(s.files[path := edited], Push(s.history, path, text)), false, Inserted(path, snippet, first))
  }

  /**
   * `insert` fails exactly for a line outside `[0, n]` (and a missing file),
   * changing nothing; otherwise the file's lines become
   * `lines[:k] + new_lines + lines[k:]` and the text before is pushed.
   */
  lemma InsertOutcome(s: EditorState, path: string, line: int, newStr: string)
    ensures var r := InsertStep(s, path, line, newStr);
      && (r.failed ==> r.state == s)
      && (path !in s.files ==> r.failed)
      && (path in s.files ==>
            var text := Expanded(s.files[path]);
            var lines := Split(text, '\n');
            && (r.failed <==> line < 0 || line > |lines|)
            && (!r.failed ==>
                  && path in r.state.files
                  && r.state.files == s.files[path := r.state.files[path]]
                  && Split(r.state.files[path], '\n') == lines[..line] + Split(ExpandTabs(newStr), '\n') + lines[line..]
                  && r.state.history == Push(s.history, path, text)))
  {
    if path in s.files {
      var text := Expanded(s.files[path]);
      if 0 <= line <= |Split(text, '\n')| {
        SpliceLines(text, line, newStr);
      }
    }
  }

  /** Joining the spliced lines and splitting again gives the spliced lines back. */
  lemma SpliceLines(text: string, line: int, newStr: string)
    requires 0 <= line <= |Split(text, '\n')|
    ensures var lines := Split(text, '\n');
      var spliced := lines[..line] + Split(ExpandTabs(newStr), '\n') + lines[line..];
      Split(Join(spliced, "\n"), '\n') == spliced
  {
    var lines := Split(text, '\n');
    var added := Split(ExpandTabs(newStr), '\n');
    var spliced := lines[..line] + added + lines[line..];
    SplitPiecesFree(text, '\n');
    SplitPiecesFree(ExpandTabs(newStr), '\n');
    assert forall i :: 0 <= i < |spliced| ==> '\n' !in spliced[i] by {
      forall i | 0 <= i < |spliced| ensures '\n' !in spliced[i] {
        if i < line {
          assert spliced[i] == lines[i];
        } else if i < line + |added| {
          assert spliced[i] == added[i - line];
        } else {
          assert spliced[i] == lines[i - |added|];
        }
      }
    }
    SplitJoin(spliced, '\n');
  }

  // ---------------------------------------------------------------- create and undo

  /** `create`'s effect: the text is written and pushed on the path's stack. */
  function CreateState(s: EditorState, path: string, text: string): EditorState
  {
    EditorState(s.files[path := text], Push(s.history, path, text))
  }

  /** `undo_edit` on a normalised path: pop the newest text and write it back. */
  function UndoStep(s: EditorState, path: string): Step
  {
    var stack := Stack(s.history, path);
    if stack == [] then Step(s, true, NoHistory(path))
    else
      var last := stack[|stack| - 1];
      Step(EditorState(s.files[path := last], s.history[path := stack[..|stack| - 1]]), false, Undone(path, last))
  }

  /** Two histories with the same stack at every path. */
  ghost predicate SameStacks(h: map<string, seq<string>>, g: map<string, seq<string>>)
  {
    forall p :: Stack(h, p) == Stack(g, p)
  }

  /**
   * Undo is last-in first-out: after a text is pushed on a path's stack, undo
   * writes exactly that text back and leaves every stack as it was before the push.
   */
  lemma UndoAfterPush(s: EditorState, path: string, written: string, pushed: string)
    ensures var r := UndoStep(EditorState(s.files[path := written], Push(s.history, path, pushed)), path);
      && !r.failed
      && r.state.files == s.files[path := pushed]
      && SameStacks(r.state.history, s.history)
  {
    var h := Push(s.history, path, pushed);
    assert Stack(h, path) == Stack(s.history, path) + [pushed];
    assert (Stack(s.history, path) + [pushed])[..|Stack(s.history, path)|] == Stack(s.history, path);
  }

  /** With an empty stack undo fails and changes nothing. */
  lemma UndoEmptyFails(s: EditorState, path: string)
    requires Stack(s.history, path) == []
    ensures UndoStep(s, path).failed && UndoStep(s, path).state == s
  {
  }

  /** What a read returns is ASCII and holds no carriage return. */
  lemma ReadTextClean(text: string)
    ensures forall i :: 0 <= i < |ReadText(text)| ==> ReadText(text)[i] as int < 128 && ReadText(text)[i] != '\r'
  {
    BreaksNoCR(text, false);
    var u := UniversalNewlines(text);
    forall i | 0 <= i < |ReadText(text)| ensures ReadText(text)[i] as int < 128 && ReadText(text)[i] != '\r' {
      assert ReadText(text)[i] == if u[i] as int < 128 then u[i] else '?';
      assert u[i] in u;
    }
  }

  /**
   * A file of ASCII text without tabs is worked on with its line breaks
   * translated, and exactly as stored when it holds no `\r`.
   */
  lemma PlainTextExpanded(text: string)
    requires TabFreeAscii(text)
    ensures Expanded(text) == UniversalNewlines(text)
    ensures '\r' !in text ==> Expanded(text) == text
  {
    var u := UniversalNewlines(text);
    BreaksFrom(text, false);
    assert TabFreeAscii(u) by {
      forall i | 0 <= i < |u| ensures u[i] as int < 128 && u[i] != '\t' {
        if u[i] != '\n' {
          var k :| 0 <= k < |text| && text[k] == u[i];
        }
      }
    }
    assert AsciiReplace(u) == u;
    ExpandTabsFromNoTabs(u, 0);
    if '\r' !in text {
      BreaksFixed(text, false);
    }
  }

  /**
   * A file with Windows line endings is matched as the source reads it: stored
   * as `x\r\ny`, it holds `x\ny` once, so the replacement is made.
   */
  lemma CrlfFileMatches()
    ensures var r := ReplaceStep(EditorState(map["f" := "x\r\ny"], map[]), "f", "x\ny", Some("z"));
      && !r.failed
      && r.state.files == map["f" := "z"]
      && r.state.history == map["f" := ["x\ny"]]
  {
    var s := EditorState(map["f" := "x\r\ny"], map[]);
    CrlfRead();
    NoTabsExpand("x\ny");
    NoTabsExpand("z");
    OnceInItself("x\ny");
    ReplaceOutcome(s, "f", "x\ny", Some("z"));
    assert "x\ny"[..0] + "z" + "x\ny"[3..] == "z";
    assert s.files["f" := "z"] == map["f" := "z"];
    assert Stack(s.history, "f") == [];
    assert [] + ["x\ny"] == ["x\ny"];
    assert Push(s.history, "f", "x\ny") == map["f" := ["x\ny"]];
  }

  /** `x\r\ny` is read as `x\ny`. */
  lemma CrlfRead()
    ensures Expanded("x\r\ny") == "x\ny"
  {
    assert UniversalNewlines("x\r\ny") == "x\ny" by {
      assert "x\r\ny"[1..] == "\r\ny";
      assert "\r\ny"[2..] == "y";
      assert "y"[1..] == "";
    }
    assert TabFreeAscii("x\r\ny");
    PlainTextExpanded("x\r\ny");
  }

  lemma NoTabsExpand(t: string)
    requires '\t' !in t
    ensures ExpandTabs(t) == t
  {
    ExpandTabsFromNoTabs(t, 0);
  }

  /** A non-empty text occurs in itself exactly once, at the start. */
  lemma OnceInItself(t: string)
    requires t != []
    ensures Count(t, t) == 1 && Find(t, t) == 0
  {
    assert OccursAt(t, t, 0);
    assert t[|t|..] == [];
  }

  /**
   * Undoing a successful `str_replace` writes back the text it edited, which is
   * the file with its line breaks translated when it holds ASCII only and no tab
   * (the file as it was, when it also holds no `\r`), and restores the stacks.
   */
  lemma UndoAfterReplace(s: EditorState, path: string, oldStr: string, newStr: Option<string>)
    requires !ReplaceStep(s, path, oldStr, newStr).failed
    ensures path in s.files
    ensures var r := UndoStep(ReplaceStep(s, path, oldStr, newStr).state, path);
      && !r.failed
      && r.state.files == s.files[path := Expanded(s.files[path])]
      && SameStacks(r.state.history, s.history)
      && (TabFreeAscii(s.files[path]) ==> r.state.files == s.files[path := UniversalNewlines(s.files[path])])
      && (TabFreeAscii(s.files[path]) && '\r' !in s.files[path] ==> r.state.files == s.files)
  {
    ReplaceOutcome(s, path, oldStr, newStr);
    var content := Expanded(s.files[path]);
    var e := ReplaceStep(s, path, oldStr, newStr).state;
    assert e == EditorState(s.files[path := e.files[path]], Push(s.history, path, content));
    UndoAfterPush(s, path, e.files[path], content);
    if TabFreeAscii(s.files[path]) {
      PlainTextExpanded(s.files[path]);
    }
  }

  /** Undoing a successful `insert` writes back the text it edited and restores the stacks. */
  lemma UndoAfterInsert(s: EditorState, path: string, line: int, newStr: string)
    requires !InsertStep(s, path, line, newStr).failed
    ensures path in s.files
    ensures var r := UndoStep(InsertStep(s, path, line, newStr).state, path);
      && !r.failed
      && r.state.files == s.files[path := Expanded(s.files[path])]
      && SameStacks(r.state.history, s.history)
  {
    InsertOutcome(s, path, line, newStr);
    var e := InsertStep(s, path, line, newStr).state;
    assert e == EditorState(s.files[path := e.files[path]], Push(s.history, path, Expanded(s.files[path])));
    UndoAfterPush(s, path, e.files[path], Expanded(s.files[path]));
  }

  /**
   * `create` pushes the text it writes, not the text it replaced, so undoing a
   * `create` leaves the created text in place.
   */
  lemma UndoAfterCreate(s: EditorState, path: string, text: string)
    ensures var r := UndoStep(CreateState(s, path, text), path);
      && !r.failed
      && r.state.files == s.files[path := text]
      && SameStacks(r.state.history, s.history)
  {
    UndoAfterPush(s, path, text, text);
  }

  // ---------------------------------------------------------------- the answers as text

  /** The text of an answer: the message of the error raised, or the output. */
  function AnswerText(a: Answer): string
  {
    match a
    case ReadFailed(path) => "Ran into " + NOT_FOUND + " while trying to read " + path
    case RangeNotPair => "Invalid `view_range`. It should be a list of two integers."
    case FirstOutOfRange(first, last, n) =>
      "Invalid `view_range`: " + IntListRepr([first, last]) + ". Its first element `" + IntToString(first)
      + "` should be within the range of lines of the file: " + IntListRepr([1, n])
    case LastTooLarge(first, last, n) =>
      "Invalid `view_range`: " + IntListRepr([first, last]) + ". Its second element `" + IntToString(last)
      + "` should be smaller than the number of lines in the file: `" + IntToString(n) + "`"
    case LastBeforeFirst(first, last) =>
      "Invalid `view_range`: " + IntListRepr([first, last]) + ". Its second element `" + IntToString(last)
      + "` should be larger or equal than its first `" + IntToString(first) + "`"
    case NoMatch(pat, path) =>
      "No replacement was performed, old_str `" + pat + "` did not appear verbatim in " + path + "."
    case ManyMatches(pat, lines) =>
      "No replacement was performed. Multiple occurrences of old_str `" + pat + "` in lines "
      + IntListRepr(lines) + ". Please ensure it is unique"
    case EmptySeparator => "empty separator"
    case Replaced(path, snippet, first) =>
      "The file " + path + " has been edited. " + MakeOutput(snippet, "a snippet of " + path, first)
      + "Review the changes and make sure they are as expected. Edit the file again if necessary."
    case BadInsertLine(line, n) =>
      "Invalid `insert_line` parameter: " + IntToString(line)
      + ". It should be within the range of lines of the file: " + IntListRepr([0, n])
    case Inserted(path, snippet, first) =>
      "The file " + path + " has been edited. " + MakeOutput(snippet, "a snippet of the edited file", first)
      + "Review the changes and make sure they are as expected (correct indentation, no duplicate lines, etc). Edit the file again if necessary."
    case NoHistory(path) => "No edit history found for " + path + "."
    case Undone(path, text) => "Last edit to " + path + " undone successfully. " + MakeOutput(text, path, 1)
  }
}

=== FILE: image_policy.dfy ===
/**
 * `_maybe_filter_to_n_most_recent_images`: count the image parts inside the
 * `tool_result` blocks of every list-content message, then walk those blocks
 * oldest first and drop images until only `images_to_keep` remain. The
 * `min_removal_threshold` argument is accepted and never read.
 */
module ImagePolicy {
  import opened Wrappers
  import opened Conversation

  /** `budget - n`, floored at zero. */
  function Sub(budget: nat, n: nat): nat
  {
    if n >= budget then 0 else budget - n
  }

  // ---------------------------------------------------------------- counting, in forward order

  function PartImages(ps: seq<Part>): seq<Part>
  {
    if ps == [] then []
    else (if ps[0].ImagePart? then [ps[0]] else []) + PartImages(ps[1..])
  }

  function BlockImages(b: Block): seq<Part>
  {
    if b.ToolResultBlock? then PartImages(b.parts) else []
  }

  function BlocksImages(bs: seq<Block>): seq<Part>
  {
    if bs == [] then [] else BlockImages(bs[0]) + BlocksImages(bs[1..])
  }

  function MessageImages(m: Message): seq<Part>
  {
    if m.content.Blocks? then BlocksImages(m.content.blocks) else []
  }

  /** Every image part inside a tool result, oldest first. */
  function Images(msgs: seq<Message>): seq<Part>
  {
    if msgs == [] then [] else MessageImages(msgs[0]) + Images(msgs[1..])
  }

  // ---------------------------------------------------------------- dropping the oldest images

  /** `ps` without its first `budget` images. */
  function DropParts(ps: seq<Part>, budget: nat): seq<Part>
  {
    if ps == [] then []
    else if ps[0].ImagePart? && budget > 0 then DropParts(ps[1..], budget - 1)
    else [ps[0]] + DropParts(ps[1..], budget)
  }

  function DropBlock(b: Block, budget: nat): Block
  {
    if b.ToolResultBlock? then b.(parts := DropParts(b.parts, budget)) else b
  }

  function DropBlocks(bs: seq<Block>, budget: nat): seq<Block>
  {
    if bs == [] then []
    else [DropBlock(bs[0], budget)] + DropBlocks(bs[1..], Sub(budget, |BlockImages(bs[0])|))
  }

  function DropMessage(m: Message, budget: nat): Message
  {
    if m.content.Blocks? then m.(content := Blocks(DropBlocks(m.content.blocks, budget))) else m
  }

  /** The conversation without its first `budget` images. */
  function DropImages(msgs: seq<Message>, budget: nat): seq<Message>
  {
    if msgs == [] then []
    else [DropMessage(msgs[0], budget)] + DropImages(msgs[1..], Sub(budget, |MessageImages(msgs[0])|))
  }

  /** How many images one pass removes: `max(0, images_found - images_to_keep)`. */
  function ToRemove(found: nat, keep: int): nat
  {
    if found - keep > 0 then found - keep else 0
  }

  /** The conversation after one pass. */
  function FilterImages(msgs: seq<Message>, imagesToKeep: Option<int>): seq<Message>
  {
    match imagesToKeep
    case None => msgs
    case Some(keep) => DropImages(msgs, ToRemove(|Images(msgs)|, keep))
  }

  /** The pass as the source runs it: a counting walk, then a removal walk, in place. */
  method FilterToMostRecentImages(messages: MessageList, imagesToKeep: Option<int>, minRemovalThreshold: int)
    modifies messages
    ensures messages.items == FilterImages(old(messages.items), imagesToKeep)
  {
    if imagesToKeep.None? {
      return;
    }
    var found := CountImages(messages);
    RemoveOldestImages(messages, ToRemove(found, imagesToKeep.value));
  }

  /** The counting walk, newest tool result first. */
  method CountImages(messages: MessageList) returns (found: nat)
    ensures found == |Images(messages.items)|
  {
    found := 0;
    var i := |messages.items|;
    while i > 0
      invariant 0 <= i <= |messages.items|
      invariant found == |Images(messages.items[i..])|
    {
      i := i - 1;
      assert messages.items[i..][1..] == messages.items[i + 1..];
      found := found + |MessageImages(messages.items[i])|;
    }
  }

  /** The removal walk, oldest tool result first: drops images until `toRemove` are gone. */
  method RemoveOldestImages(messages: MessageList, toRemove: nat)
    modifies messages
    ensures messages.items == DropImages(old(messages.items), toRemove)
  {
    ghost var orig := messages.items;
    var removed := 0;
    var i := 0;
    while i < |messages.items|
      invariant 0 <= i <= |orig| && |messages.items| == |orig|
      invariant removed <= toRemove && toRemove - removed == Sub(toRemove, |Images(orig[..i])|)
      invariant messages.items[..i] == DropImages(orig[..i], toRemove)
      invariant messages.items[i..] == orig[i..]
    {
      var m := messages.items[i];
      var n := |MessageImages(m)|;
      messages.items := messages.items[i := DropMessage(m, toRemove - removed)];
      DropImagesSnoc(orig[..i], orig[i], toRemove);
      assert orig[..i + 1] == orig[..i] + [orig[i]];
      removed := removed + (if n < toRemove - removed then n else toRemove - removed);
      i := i + 1;
      assert messages.items[..i] == messages.items[..i - 1] + [messages.items[i - 1]];
    }
    assert orig[..i] == orig;
  }

  // ---------------------------------------------------------------- properties of a pass

  /** Dropping from `msgs + [m]` drops from `msgs`, then from `m` with what is left. */
  lemma {:induction false} DropImagesSnoc(msgs: seq<Message>, m: Message, budget: nat)
    ensures DropImages(msgs + [m], budget)
         == DropImages(msgs, budget) + [DropMessage(m, Sub(budget, |Images(msgs)|))]
    ensures |Images(msgs + [m])| == |Images(msgs)| + |MessageImages(m)|
    decreases |msgs|
  {
    if msgs == [] {
      assert [m][1..] == [];
    } else {
      assert (msgs + [m])[1..] == msgs[1..] + [m];
      DropImagesSnoc(msgs[1..], m, Sub(budget, |MessageImages(msgs[0])|));
    }
  }

  /** `s` without its first `k` items (all of them when `k >= |s|`). */
  function Skip<T>(s: seq<T>, k: nat): seq<T>
  {
    if k < |s| then s[k..] else []
  }

  lemma SkipConcat<T>(x: seq<T>, y: seq<T>, k: nat)
    ensures Skip(x + y, k) == Skip(x, k) + Skip(y, Sub(k, |x|))
  {
    if k < |x| {
      assert (x + y)[k..] == x[k..] + y;
    } else if k < |x| + |y| {
      assert (x + y)[k..] == y[k - |x|..];
    }
  }

  /** Within a part list, exactly the first `budget` images go. */
  lemma {:induction false} DropPartsImages(ps: seq<Part>, budget: nat)
    ensures PartImages(DropParts(ps, budget)) == Skip(PartImages(ps), budget)
    decreases |ps|
  {
    if ps != [] {
      var p := ps[0];
      var head := if p.ImagePart? then [p] else [];
      assert PartImages(ps) == head + PartImages(ps[1..]);
      SkipConcat(head, PartImages(ps[1..]), budget);
      if p.ImagePart? && budget > 0 {
        DropPartsImages(ps[1..], budget - 1);
      } else {
        DropPartsImages(ps[1..], budget);
        assert DropParts(ps, budget)[1..] == DropParts(ps[1..], budget);
        assert DropParts(ps, budget) == [p] + DropParts(ps[1..], budget);
      }
    }
  }

  lemma {:induction false} DropBlocksImages(bs: seq<Block>, budget: nat)
    ensures BlocksImages(DropBlocks(bs, budget)) == Skip(BlocksImages(bs), budget)
    decreases |bs|
  {
    if bs != [] {
      var b := bs[0];
      var rest := Sub(budget, |BlockImages(b)|);
      if b.ToolResultBlock? {
        DropPartsImages(b.parts, budget);
      }
      assert BlockImages(DropBlock(b, budget)) == Skip(BlockImages(b), budget);
      DropBlocksImages(bs[1..], rest);
      assert DropBlocks(bs, budget) == [DropBlock(b, budget)] + DropBlocks(bs[1..], rest);
      assert DropBlocks(bs, budget)[1..] == DropBlocks(bs[1..], rest);
      SkipConcat(BlockImages(b), BlocksImages(bs[1..]), budget);
    }
  }

  /**
   * The images left are the original images without the first `budget` of
   * them, in forward (message, block, part) order.
   */
  lemma {:induction false} DropImagesKeepsNewest(msgs: seq<Message>, budget: nat)
    ensures Images(DropImages(msgs, budget)) == Skip(Images(msgs), budget)
    decreases |msgs|
  {
    if msgs != [] {
      var m := msgs[0];
      var rest := Sub(budget, |MessageImages(m)|);
      if m.content.Blocks? {
        DropBlocksImages(m.content.blocks, budget);
      }
      assert MessageImages(DropMessage(m, budget)) == Skip(MessageImages(m), budget);
      DropImagesKeepsNewest(msgs[1..], rest);
      assert DropImages(msgs, budget)[1..] == DropImages(msgs[1..], rest);
      SkipConcat(MessageImages(m), Images(msgs[1..]), budget);
    }
  }

  /**
   * After a pass with `images_to_keep = k` the conversation holds
   * `min(found, k)` images (none for a negative `k`), and they are the newest
   * ones: the removed images are exactly the first `found - k` met.
   */
  lemma FilterKeepsNewestImages(msgs: seq<Message>, keep: int)
    ensures var found := |Images(msgs)|;
      && Images(FilterImages(msgs, Some(keep))) == Skip(Images(msgs), ToRemove(found, keep))
      && |Images(FilterImages(msgs, Some(keep)))| == if keep < 0 then 0 else if found < keep then found else keep
  {
    DropImagesKeepsNewest(msgs, ToRemove(|Images(msgs)|, keep));
  }

  /** With `images_to_keep = None` nothing changes. */
  lemma FilterNoneUnchanged(msgs: seq<Message>)
    ensures FilterImages(msgs, None) == msgs
  {
  }

  lemma {:induction false} DropNothing(msgs: seq<Message>)
    ensures DropImages(msgs, 0) == msgs
    decreases |msgs|
  {
    if msgs != [] {
      DropNothing(msgs[1..]);
      var m := msgs[0];
      if m.content.Blocks? {
        DropBlocksNothing(m.content.blocks);
      }
    }
  }

  lemma {:induction false} DropBlocksNothing(bs: seq<Block>)
    ensures DropBlocks(bs, 0) == bs
    decreases |bs|
  {
    if bs != [] {
      DropBlocksNothing(bs[1..]);
      if bs[0].ToolResultBlock? {
        DropPartsNothing(bs[0].parts);
      }
    }
  }

  lemma {:induction false} DropPartsNothing(ps: seq<Part>)
    ensures DropParts(ps, 0) == ps
    decreases |ps|
  {
    if ps != [] {
      DropPartsNothing(ps[1..]);
    }
  }

  /** When there are no more images than `images_to_keep`, a pass changes nothing. */
  lemma FilterUnderLimitUnchanged(msgs: seq<Message>, keep: int)
    requires |Images(msgs)| <= keep
    ensures FilterImages(msgs, Some(keep)) == msgs
  {
    DropNothing(msgs);
  }

  /** A conversation with no image keeps its shape whatever the budget. */
  lemma {:induction false} DropWithoutImages(msgs: seq<Message>, budget: nat)
    requires Images(msgs) == []
    ensures DropImages(msgs, budget) == msgs
    decreases |msgs|
  {
    if msgs != [] {
      var m := msgs[0];
      assert MessageImages(m) == [];
      DropWithoutImages(msgs[1..], budget);
      if m.content.Blocks? {
        DropBlocksWithoutImages(m.content.blocks, budget);
      }
    }
  }

  lemma {:induction false} DropBlocksWithoutImages(bs: seq<Block>, budget: nat)
    requires BlocksImages(bs) == []
    ensures DropBlocks(bs, budget) == bs
    decreases |bs|
  {
    if bs != [] {
      assert BlockImages(bs[0]) == [];
      DropBlocksWithoutImages(bs[1..], budget);
      if bs[0].ToolResultBlock? {
        DropPartsWithoutImages(bs[0].parts, budget);
      }
    }
  }

  lemma {:induction false} DropPartsWithoutImages(ps: seq<Part>, budget: nat)
    requires PartImages(ps) == []
    ensures DropParts(ps, budget) == ps
    decreases |ps|
  {
    if ps != [] {
      assert !ps[0].ImagePart?;
      DropPartsWithoutImages(ps[1..], budget);
    }
  }

  /** A second pass with the same `images_to_keep` removes nothing. */
  lemma FilterIdempotent(msgs: seq<Message>, keep: int)
    ensures FilterImages(FilterImages(msgs, Some(keep)), Some(keep)) == FilterImages(msgs, Some(keep))
  {
    FilterKeepsNewestImages(msgs, keep);
    var once := FilterImages(msgs, Some(keep));
    if keep < 0 {
      DropWithoutImages(once, ToRemove(|Images(once)|, keep));
    } else {
      DropNothing(once);
    }
  }

  // ---------------------------------------------------------------- what is not an image stays

  function PartsWithoutImages(ps: seq<Part>): seq<Part>
  {
    if ps == [] then []
    else (if ps[0].ImagePart? then [] else [ps[0]]) + PartsWithoutImages(ps[1..])
  }

  /** A block with its images taken out and everything else, cache marker included, kept. */
  function BlockWithoutImages(b: Block): Block
  {
    if b.ToolResultBlock? then b.(parts := PartsWithoutImages(b.parts)) else b
  }

  function MessageWithoutImages(m: Message): Message
  {
    match m.content
    case Str(_) => m
    case Blocks(bs) =>
      m.(content := Blocks(seq(|bs|, j requires 0 <= j < |bs| => BlockWithoutImages(bs[j]))))
  }

  lemma {:induction false} DropPartsKeepsOthers(ps: seq<Part>, budget: nat)
    ensures PartsWithoutImages(DropParts(ps, budget)) == PartsWithoutImages(ps)
    decreases |ps|
  {
    if ps != [] {
      if ps[0].ImagePart? && budget > 0 {
        DropPartsKeepsOthers(ps[1..], budget - 1);
      } else {
        DropPartsKeepsOthers(ps[1..], budget);
        assert DropParts(ps, budget)[1..] == DropParts(ps[1..], budget);
      }
    }
  }

  lemma {:induction false} DropBlocksKeepsOthers(bs: seq<Block>, budget: nat)
    ensures |DropBlocks(bs, budget)| == |bs|
    ensures forall j :: 0 <= j < |bs| ==> BlockWithoutImages(DropBlocks(bs, budget)[j]) == BlockWithoutImages(bs[j])
    decreases |bs|
  {
    if bs != [] {
      var rest := Sub(budget, |BlockImages(bs[0])|);
      DropBlocksKeepsOthers(bs[1..], rest);
      if bs[0].ToolResultBlock? {
        DropPartsKeepsOthers(bs[0].parts, budget);
      }
      var r := DropBlocks(bs, budget);
      forall j | 1 <= j < |bs| ensures BlockWithoutImages(r[j]) == BlockWithoutImages(bs[j]) {
        assert r[j] == DropBlocks(bs[1..], rest)[j - 1];
      }
    }
  }

  /**
   * A pass changes nothing but the removed images: roles, contents, block
   * fields and every non-image part stay where they were, in the same order.
   */
  lemma {:induction false} DropImagesKeepsOthers(msgs: seq<Message>, budget: nat)
    ensures |DropImages(msgs, budget)| == |msgs|
    ensures forall i :: 0 <= i < |msgs| ==> MessageWithoutImages(DropImages(msgs, budget)[i]) == MessageWithoutImages(msgs[i])
    decreases |msgs|
  {
    if msgs != [] {
      var m := msgs[0];
      var rest := Sub(budget, |MessageImages(m)|);
      DropImagesKeepsOthers(msgs[1..], rest);
      if m.content.Blocks? {
        DropBlocksKeepsOthers(m.content.blocks, budget);
        var dm := DropMessage(m, budget);
        assert MessageWithoutImages(dm).content.blocks == MessageWithoutImages(m).content.blocks;
      }
      var r := DropImages(msgs, budget);
      forall i | 1 <= i < |msgs| ensures MessageWithoutImages(r[i]) == MessageWithoutImages(msgs[i]) {
        assert r[i] == DropImages(msgs[1..], rest)[i - 1];
      }
    }
  }
}

=== FILE: json.dfy ===
/**
 * The JSON-like values that flow through the loop: tool inputs, message content
 * seen as plain dicts and lists, and tool-call results. Dicts keep their keys in
 * insertion order, as Python dicts do. Floats are not modelled.
 */
module JsonValue {
  import opened Wrappers
  import opened Text

  datatype Json =
    | JNull
    | JBool(b: bool)
    | JInt(i: int)
    | JStr(s: string)
    | JArr(items: seq<Json>)
    | JObj(fields: seq<(string, Json)>)

  /** The keys of a dict, in insertion order. */
  function Keys(fields: seq<(string, Json)>): seq<string>
  {
    seq(|fields|, i requires 0 <= i < |fields| => fields[i].0)
  }

  function HexDigit(d: nat): (r: char)
    requires d < 16
    ensures '0' <= r <= '9' || 'a' <= r <= 'f'
  {
    "0123456789abcdef"[d]
  }

  /** Two lower-case hex digits of a byte, as `repr` writes after `\x`. */
  function Hex2(n: nat): string
    requires n < 0x100
  {
    [HexDigit(n / 16), HexDigit(n % 16)]
  }

  /** Four lower-case hex digits of a UTF-16 code unit, as `json.dumps` writes after `\u`. */
  function Hex4(n: nat): string
    requires n < 0x10000
  {
    Hex2(n / 0x100) + Hex2(n % 0x100)
  }

  /** The value of one hex digit of either case. */
  function HexValue(c: char): (r: Option<nat>)
    ensures r.Some? ==> r.value < 16
  {
    if '0' <= c <= '9' then Some(c as int - '0' as int)
    else if 'a' <= c <= 'f' then Some(c as int - 'a' as int + 10)
    else if 'A' <= c <= 'F' then Some(c as int - 'A' as int + 10)
    else None
  }

  function ParseHex2(hi: char, lo: char): (r: Option<nat>)
    ensures r.Some? ==> r.value < 0x100
  {
    match (HexValue(hi), HexValue(lo))
    case (Some(a), Some(b)) => Some(a * 16 + b)
    case _ => None
  }

  function ParseHex4(t: string): (r: Option<nat>)
    requires |t| == 4
    ensures r.Some? ==> r.value < 0x10000
  {
    match (ParseHex2(t[0], t[1]), ParseHex2(t[2], t[3]))
    case (Some(a), Some(b)) => Some(a * 0x100 + b)
    case _ => None
  }

  lemma HexDigitValue(d: nat)
    requires d < 16
    ensures HexValue(HexDigit(d)) == Some(d)
  {
  }

  /** Two hex digits read back as the byte they spell. */
  lemma Hex2RoundTrip(n: nat)
    requires n < 0x100
    ensures ParseHex2(Hex2(n)[0], Hex2(n)[1]) == Some(n)
  {
    HexDigitValue(n / 16);
    HexDigitValue(n % 16);
  }

  /** Four hex digits read back as the code unit they spell. */
  lemma Hex4RoundTrip(n: nat)
    requires n < 0x10000
    ensures ParseHex4(Hex4(n)) == Some(n)
  {
    var t := Hex4(n);
    Hex2RoundTrip(n / 0x100);
    Hex2RoundTrip(n % 0x100);
    assert t[0] == Hex2(n / 0x100)[0] && t[1] == Hex2(n / 0x100)[1];
    assert t[2] == Hex2(n % 0x100)[0] && t[3] == Hex2(n % 0x100)[1];
  }

  /** One character inside a `json.dumps` string literal (`ensure_ascii=True`). */
  function EscapeChar(c: char): string
  {
    var n := c as int;
    if c == '"' then "\\\""
    else if c == '\\' then "\\\\"
    else if c == '\n' then "\\n"
    else if c == '\r' then "\\r"
    else if c == '\t' then "\\t"
    else if n == 8 then "\\b"
    else if n == 12 then "\\f"
    else if n < 0x20 || (0x7F <= n < 0x10000) then "\\u" + Hex4(n)
    else if n >= 0x10000 then "\\u" + Hex4(HighSurrogate(n)) + "\\u" + Hex4(LowSurrogate(n))
    else [c]
  }

  function EscapeString(s: string): string
  {
    if s == [] then "" else EscapeChar(s[0]) + EscapeString(s[1..])
  }

  function QuoteJson(s: string): string
  {
    "\"" + EscapeString(s) + "\""
  }

  /** The character a one-letter JSON escape `\e` stands for (section 7 of RFC 8259). */
  function SimpleEscape(e: char): Option<char>
  {
    if e == '"' || e == '\\' || e == '/' then Some(e)
    else if e == 'b' then Some(8 as char)
    else if e == 'f' then Some(12 as char)
    else if e == 'n' then Some('\n')
    else if e == 'r' then Some('\r')
    else if e == 't' then Some('\t')
    else None
  }

  /**
   * Reads a `\uXXXX` escape at the start of `t`, joining a high surrogate with
   * the low surrogate escape that must follow it; a lone surrogate is refused.
   */
  function UnescapeUnicode(t: string): (r: Option<(char, nat)>)
    requires |t| >= 2
    ensures r.Some? ==> 1 <= r.value.1 <= |t|
  {
    if |t| < 6 then None
    else match ParseHex4(t[2..6])
    case None => None
    case Some(u) =>
      if 0xD800 <= u < 0xDC00 then
        if |t| < 12 || t[6] != '\\' || t[7] != 'u' then None
        else match ParseHex4(t[8..12])
          case None => None
          case Some(l) =>
            if 0xDC00 <= l < 0xE000 then Some((CombineSurrogates(u, l), 12)) else None
      else if 0xDC00 <= u < 0xE000 then None
      else Some((u as char, 6))
  }

  /** The code point a UTF-16 surrogate pair encodes. */
  function CombineSurrogates(hi: nat, lo: nat): char
    requires 0xD800 <= hi < 0xDC00 && 0xDC00 <= lo < 0xE000
  {
    var v := (hi - 0xD800) * 0x400 + (lo - 0xDC00);
    assert v < 0x100000 by {
      assert (hi - 0xD800) * 0x400 <= 0x3FF * 0x400;
    }
    (0x10000 + v) as char
  }

  /**
   * Reads the first character of the body of a JSON string: the character and
   * how many characters of `t` spell it, or None when `t` starts with a raw
   * quote, a raw control character or a malformed escape.
   */
  function UnescapeFirst(t: string): (r: Option<(char, nat)>)
    requires t != []
    ensures r.Some? ==> 1 <= r.value.1 <= |t|
  {
    if t[0] != '\\' then
      if t[0] == '"' || t[0] as int < 0x20 then None else Some((t[0], 1))
    else if |t| < 2 then None
    else if t[1] == 'u' then UnescapeUnicode(t)
    else match SimpleEscape(t[1])
      case Some(c) => Some((c, 2))
      case None => None
  }

  /** The string a JSON string body spells, or None when it is not well formed. */
  function Unescape(t: string): Option<string>
    decreases |t|
  {
    if t == [] then Some([])
    else match UnescapeFirst(t)
      case None => None
      case Some((c, k)) =>
        match Unescape(t[k..])
        case None => None
        case Some(rest) => Some([c] + rest)
  }

  /** A high and a low surrogate escape read back as the code point they encode. */
  lemma PairRead(hi: nat, lo: nat, rest: string)
    requires 0xD800 <= hi < 0xDC00 && 0xDC00 <= lo < 0xE000
    ensures UnescapeFirst("\\u" + Hex4(hi) + "\\u" + Hex4(lo) + rest) == Some((CombineSurrogates(hi, lo), 12))
  {
    var t := "\\u" + Hex4(hi) + "\\u" + Hex4(lo) + rest;
    assert t[2..6] == Hex4(hi);
    assert t[6] == '\\' && t[7] == 'u';
    assert t[8..12] == Hex4(lo);
    Hex4RoundTrip(hi);
    Hex4RoundTrip(lo);
  }

  /** The high and low surrogates of a code point outside the Basic Multilingual Plane. */
  function HighSurrogate(n: nat): nat
    requires 0x10000 <= n < 0x110000
  {
    0xD800 + (n - 0x10000) / 0x400
  }

  function LowSurrogate(n: nat): nat
    requires 0x10000 <= n < 0x110000
  {
    0xDC00 + (n - 0x10000) % 0x400
  }

  lemma SurrogatesCombine(n: nat)
    requires 0x10000 <= n < 0x110000
    ensures 0xD800 <= HighSurrogate(n) < 0xDC00 && 0xDC00 <= LowSurrogate(n) < 0xE000
    ensures CombineSurrogates(HighSurrogate(n), LowSurrogate(n)) as int == n
  {
    var v := n - 0x10000;
    assert v == (v / 0x400) * 0x400 + v % 0x400;
  }

  /** A character outside the Basic Multilingual Plane is written as its surrogate pair. */
  lemma SurrogatePairRead(c: char, rest: string)
    requires c as int >= 0x10000
    ensures UnescapeFirst(EscapeChar(c) + rest) == Some((c, |EscapeChar(c)|))
  {
    SurrogatesCombine(c as int);
    PairRead(HighSurrogate(c as int), LowSurrogate(c as int), rest);
  }

  /** A character below U+10000 that `json.dumps` escapes is written as one `\u` escape. */
  lemma UnicodeEscapeRead(c: char, rest: string)
    requires c as int < 0x20 || 0x7F <= c as int < 0x10000
    requires EscapeChar(c) == "\\u" + Hex4(c as int)
    ensures UnescapeFirst(EscapeChar(c) + rest) == Some((c, 6))
  {
    var t := EscapeChar(c) + rest;
    assert t[2..6] == Hex4(c as int);
    Hex4RoundTrip(c as int);
  }

  /** Each escaped character reads back as itself, consuming exactly its escape. */
  lemma EscapeCharRead(c: char, rest: string)
    ensures UnescapeFirst(EscapeChar(c) + rest) == Some((c, |EscapeChar(c)|))
  {
    var n := c as int;
    if c == '"' || c == '\\' || c == '\n' || c == '\r' || c == '\t' || n == 8 || n == 12 {
    } else if n < 0x20 || (0x7F <= n < 0x10000) {
      UnicodeEscapeRead(c, rest);
    } else if n >= 0x10000 {
      SurrogatePairRead(c, rest);
    }
  }

  lemma EscapeCharAscii(c: char)
    ensures forall i :: 0 <= i < |EscapeChar(c)| ==> 0x20 <= EscapeChar(c)[i] as int <= 0x7E
  {
  }

  /** `json.dumps` writes every character as printable ASCII. */
  lemma {:induction false} EscapeStringAscii(s: string)
    ensures forall i :: 0 <= i < |EscapeString(s)| ==> 0x20 <= EscapeString(s)[i] as int <= 0x7E
  {
    if s != [] {
      EscapeStringAscii(s[1..]);
      EscapeCharAscii(s[0]);
      var e, tail := EscapeChar(s[0]), EscapeString(s[1..]);
      assert EscapeString(s) == e + tail;
      forall i | 0 <= i < |e + tail|
        ensures 0x20 <= (e + tail)[i] as int <= 0x7E
      {
        if i >= |e| {
          assert (e + tail)[i] == tail[i - |e|];
        }
      }
    }
  }

  /** Reading a `json.dumps` string body back gives the original string. */
  lemma {:induction false} EscapeStringRoundTrip(s: string)
    ensures Unescape(EscapeString(s)) == Some(s)
  {
    if s != [] {
      var e, tail := EscapeChar(s[0]), EscapeString(s[1..]);
      assert EscapeString(s) == e + tail;
      EscapeCharRead(s[0], tail);
      assert (e + tail)[|e|..] == tail;
      EscapeStringRoundTrip(s[1..]);
      assert [s[0]] + s[1..] == s;
    }
  }

  /** Python's `json.dumps(v)` with its default separators `", "` and `": "`. */
  function Dumps(v: Json): string
  {
    match v
    case JNull => "null"
    case JBool(b) => if b then "true" else "false"
    case JInt(i) => IntToString(i)
    case JStr(s) => QuoteJson(s)
    case JArr(items) => "[" + DumpsItems(items) + "]"
    case JObj(fields) => "{" + DumpsFields(fields) + "}"
  }

  function DumpsItems(items: seq<Json>): string
    decreases items
  {
    if items == [] then ""
    else if |items| == 1 then Dumps(items[0])
    else Dumps(items[0]) + ", " + DumpsItems(items[1..])
  }

  function DumpsFields(fields: seq<(string, Json)>): string
    decreases fields
  {
    if fields == [] then ""
    else
      assert fields[0].1 < fields[0];
      var first := QuoteJson(fields[0].0) + ": " + Dumps(fields[0].1);
      if |fields| == 1 then first else first + ", " + DumpsFields(fields[1..])
  }

  /**
   * Python's `str(v)`, as an f-string shows a value: a string as itself, anything
   * else as its `repr`.
   */
  function PyStr(v: Json): string
  {
    match v
    case JStr(s) => s
    case _ => PyRepr(v)
  }

  /** The quote `repr` puts around a string: `"` when it holds `'` but no `"`, otherwise `'`. */
  function ReprQuote(s: string): char
  {
    if '\'' in s && '"' !in s then '"' else '\''
  }

  /**
   * The code points below U+0100 that `repr` writes as `\xhh`: the C0 controls
   * other than tab, line feed and carriage return, DEL, the C1 controls, the
   * no-break space and the soft hyphen.
   */
  predicate ReprHexEscaped(n: int)
  {
    n < 0x20 || 0x7F <= n <= 0xA0 || n == 0xAD
  }

  /** One character inside a `repr` string literal delimited by `quote`. */
  function ReprChar(c: char, quote: char): string
  {
    var n := c as int;
    if c == quote || c == '\\' then ['\\', c]
    else if c == '\t' then "\\t"
    else if c == '\n' then "\\n"
    else if c == '\r' then "\\r"
    else if ReprHexEscaped(n) then "\\x" + Hex2(n)
    else [c]
  }

  function ReprString(s: string, quote: char): string
  {
    if s == [] then "" else ReprChar(s[0], quote) + ReprString(s[1..], quote)
  }

  /** Python's `repr(s)` of a string. */
  function QuoteRepr(s: string): string
  {
    [ReprQuote(s)] + ReprString(s, ReprQuote(s)) + [ReprQuote(s)]
  }

  function PyRepr(v: Json): string
  {
    match v
    case JNull => "None"
    case JBool(b) => if b then "True" else "False"
    case JInt(i) => IntToString(i)
    case JStr(s) => QuoteRepr(s)
    case JArr(items) => "[" + ReprItems(items) + "]"
    case JObj(fields) => "{" + ReprFields(fields) + "}"
  }

  function ReprItems(items: seq<Json>): string
    decreases items
  {
    if items == [] then ""
    else if |items| == 1 then PyRepr(items[0])
    else PyRepr(items[0]) + ", " + ReprItems(items[1..])
  }

  function ReprFields(fields: seq<(string, Json)>): string
    decreases fields
  {
    if fields == [] then ""
    else
      assert fields[0].1 < fields[0];
      var first := QuoteRepr(fields[0].0) + ": " + PyRepr(fields[0].1);
      if |fields| == 1 then first else first + ", " + ReprFields(fields[1..])
  }

  /**
   * Reads the first character of the body of a Python string literal delimited
   * by `quote`, for the escapes `repr` writes: the character and how many
   * characters of `t` spell it, or None at a raw quote, a raw line break or an
   * escape `repr` never writes.
   */
  function UnreprFirst(t: string, quote: char): (r: Option<(char, nat)>)
    requires t != []
    ensures r.Some? ==> 1 <= r.value.1 <= |t|
  {
    if t[0] != '\\' then
      if t[0] == quote || t[0] == '\n' || t[0] == '\r' then None else Some((t[0], 1))
    else if |t| < 2 then None
    else if t[1] == '\\' || t[1] == '\'' || t[1] == '"' then Some((t[1], 2))
    else if t[1] == 't' then Some(('\t', 2))
    else if t[1] == 'n' then Some(('\n', 2))
    else if t[1] == 'r' then Some(('\r', 2))
    else if t[1] == 'x' && |t| >= 4 then
      match ParseHex2(t[2], t[3])
      case Some(n) => Some((n as char, 4))
      case None => None
    else None
  }

  /** The string the body of a Python literal delimited by `quote` spells, or None. */
  function Unrepr(t: string, quote: char): Option<string>
    decreases |t|
  {
    if t == [] then Some([])
    else match UnreprFirst(t, quote)
      case None => None
      case Some((c, k)) =>
        match Unrepr(t[k..], quote)
        case None => None
        case Some(rest) => Some([c] + rest)
  }

  /** Each character `repr` writes reads back as itself, consuming exactly its escape. */
  lemma ReprCharRead(c: char, quote: char, rest: string)
    requires quote == '\'' || quote == '"'
    ensures UnreprFirst(ReprChar(c, quote) + rest, quote) == Some((c, |ReprChar(c, quote)|))
  {
    var n := c as int;
    if c != quote && c != '\\' && c != '\t' && c != '\n' && c != '\r' && ReprHexEscaped(n) {
      var t := ReprChar(c, quote) + rest;
      assert t[2] == Hex2(n)[0] && t[3] == Hex2(n)[1];
      Hex2RoundTrip(n);
    }
  }

  /** Reading the body of a `repr` literal back gives the original string. */
  lemma {:induction false} ReprStringRoundTrip(s: string, quote: char)
    requires quote == '\'' || quote == '"'
    ensures Unrepr(ReprString(s, quote), quote) == Some(s)
  {
    if s != [] {
      var e, tail := ReprChar(s[0], quote), ReprString(s[1..], quote);
      assert ReprString(s, quote) == e + tail;
      ReprCharRead(s[0], quote, tail);
      assert (e + tail)[|e|..] == tail;
      ReprStringRoundTrip(s[1..], quote);
      assert [s[0]] + s[1..] == s;
    }
  }

  /**
   * `repr(s)` is `s` between two equal quotes, double only when `s` holds a
   * single quote and no double quote, and its body reads back as `s`.
   */
  lemma QuoteReprRoundTrip(s: string)
    ensures |QuoteRepr(s)| >= 2
    ensures QuoteRepr(s)[0] == QuoteRepr(s)[|QuoteRepr(s)| - 1] == ReprQuote(s)
    ensures ReprQuote(s) == '"' <==> '\'' in s && '"' !in s
    ensures Unrepr(QuoteRepr(s)[1..|QuoteRepr(s)| - 1], ReprQuote(s)) == Some(s)
  {
    assert QuoteRepr(s)[1..|QuoteRepr(s)| - 1] == ReprString(s, ReprQuote(s));
    ReprStringRoundTrip(s, ReprQuote(s));
  }

  lemma ReprCharOneLine(c: char, quote: char)
    requires quote == '\'' || quote == '"'
    ensures '\n' !in ReprChar(c, quote) && '\r' !in ReprChar(c, quote)
  {
  }

  /** `repr` writes a string on one line. */
  lemma {:induction false} ReprStringOneLine(s: string, quote: char)
    requires quote == '\'' || quote == '"'
    ensures '\n' !in ReprString(s, quote) && '\r' !in ReprString(s, quote)
  {
    if s != [] {
      ReprCharOneLine(s[0], quote);
      ReprStringOneLine(s[1..], quote);
      assert ReprString(s, quote) == ReprChar(s[0], quote) + ReprString(s[1..], quote);
    }
  }

  /** `repr` writes any value on one line, so a value shown by an f-string breaks lines only inside a top-level string. */
  lemma {:induction false} PyReprOneLine(v: Json)
    ensures '\n' !in PyRepr(v)
    decreases v, 1
  {
    match v
    case JStr(s) =>
      ReprStringOneLine(s, ReprQuote(s));
    case JInt(i) =>
      assert forall k :: 0 <= k < |IntToString(i)| ==> IntToString(i)[k] != '\n';
    case JArr(items) =>
      ReprItemsOneLine(items);
    case JObj(fields) =>
      ReprFieldsOneLine(fields);
    case _ =>
  }

  lemma {:induction false} ReprItemsOneLine(items: seq<Json>)
    ensures '\n' !in ReprItems(items)
    decreases items, 0
  {
    if items != [] {
      PyReprOneLine(items[0]);
      if |items| > 1 {
        ReprItemsOneLine(items[1..]);
      }
    }
  }

  lemma {:induction false} ReprFieldsOneLine(fields: seq<(string, Json)>)
    ensures '\n' !in ReprFields(fields)
    decreases fields, 0
  {
    if fields != [] {
      assert fields[0].1 < fields[0];
      ReprStringOneLine(fields[0].0, ReprQuote(fields[0].0));
      PyReprOneLine(fields[0].1);
      if |fields| > 1 {
        ReprFieldsOneLine(fields[1..]);
      }
    }
  }

  /** Python's `d.get(key)`: the value under the first field with that key. */
  function Get(fields: seq<(string, Json)>, key: string): Json
  {
    if fields == [] then JNull
    else if fields[0].0 == key then fields[0].1
    else Get(fields[1..], key)
  }

  /** A key that no earlier field has is looked up to its own value. */
  lemma {:induction false} GetAt(fields: seq<(string, Json)>, k: nat)
    requires k < |fields| && forall j :: 0 <= j < k ==> fields[j].0 != fields[k].0
    ensures Get(fields, fields[k].0) == fields[k].1
    decreases k
  {
    if k > 0 {
      assert fields[1..][k - 1] == fields[k];
      GetAt(fields[1..], k - 1);
    }
  }

  predicate HasKey(fields: seq<(string, Json)>, key: string)
  {
    key in Keys(fields)
  }
}

=== FILE: navigation.dfy ===
/**
 * `tools/test_navigation_tool.py`: a table of Windows keyboard shortcuts,
 * built at import time from a dict display and five `update` calls, the
 * schema that offers the table's actions to the model, and
 * `windows_navigate`, which looks an action up and presses its keys. The
 * keyboard and window calls of `pyautogui` are not made here: the method
 * records the key events it would send, and whether a window with the title
 * exists, or which call raised, are parameters.
 */
module Navigation {
  import opened Wrappers
  import opened JsonValue
  import opened ToolResults

  // ---------------------------------------------------------------- the shortcut table

  /** A table entry: an action's name and the keys of its shortcut. */
  type Entry = (string, seq<string>)

  /** The names in insertion order, as `shortcuts.keys()` lists them. */
  function Names(entries: seq<Entry>): (r: seq<string>)
    ensures |r| == |entries| && forall i :: 0 <= i < |entries| ==> r[i] == entries[i].0
  {
    if entries == [] then [] else [entries[0].0] + Names(entries[1..])
  }

  /** No name occurs twice in `names`. */
  predicate Unique(names: seq<string>)
  {
    forall i, j :: 0 <= i < j < |names| ==> names[i] != names[j]
  }

  /** A name not yet present may be added last. */
  lemma UniqueAppend(names: seq<string>, name: string)
    requires Unique(names) && name !in names
    ensures Unique(names + [name])
  {
  }

  /** No name occurs twice, as in any dictionary. */
  predicate Distinct(entries: seq<Entry>)
  {
    Unique(Names(entries))
  }

  /** `dict.get`: the keys stored under `name`, absent when no entry has that name. */
  function Lookup(entries: seq<Entry>, name: string): (r: Option<seq<string>>)
    ensures r.None? <==> name !in Names(entries)
    ensures r.Some? ==> (name, r.value) in entries
  {
    if entries == [] then None
    else if entries[0].0 == name then Some(entries[0].1)
    else Lookup(entries[1..], name)
  }

  /** `d[name] = keys`: an entry with that name keeps its place and takes the new keys; a new name goes last. */
  function Assigned(entries: seq<Entry>, name: string, keys: seq<string>): (r: seq<Entry>)
    ensures Names(r) == if name in Names(entries) then Names(entries) else Names(entries) + [name]
  {
    if entries == [] then [(name, keys)]
    else if entries[0].0 == name then [(name, keys)] + entries[1..]
    else
      var rest := Assigned(entries[1..], name, keys);
      var r := [entries[0]] + rest;
      assert r[1..] == rest;
      assert Names(entries) == [entries[0].0] + Names(entries[1..]);
      r
  }

  /** After `d[name] = keys`, `name` looks up to `keys` and every other name to what it held before. */
  lemma {:induction false} AssignedLookup(entries: seq<Entry>, name: string, keys: seq<string>, other: string)
    ensures Lookup(Assigned(entries, name, keys), other) == if other == name then Some(keys) else Lookup(entries, other)
    decreases |entries|
  {
    if entries != [] && entries[0].0 != name {
      var r := Assigned(entries, name, keys);
      assert r[1..] == Assigned(entries[1..], name, keys);
      AssignedLookup(entries[1..], name, keys, other);
    }
  }

  /** An assignment keeps the names distinct. */
  lemma AssignedDistinct(entries: seq<Entry>, name: string, keys: seq<string>)
    requires Distinct(entries)
    ensures Distinct(Assigned(entries, name, keys))
  {
    if name !in Names(entries) {
      UniqueAppend(Names(entries), name);
    }
  }

  /** The keys of the last entry of `batch` named `name`. */
  function LastIn(batch: seq<Entry>, name: string): Option<seq<string>>
  {
    if batch == [] then None
    else if batch[|batch| - 1].0 == name then Some(batch[|batch| - 1].1)
    else LastIn(batch[..|batch| - 1], name)
  }

  /**
   * `d.update(batch)`, and equally a dict display: the entries are assigned
   * in turn. The names already present keep their order ahead of the new
   * ones, and no name is stored twice.
   */
  function Merged(entries: seq<Entry>, batch: seq<Entry>): (r: seq<Entry>)
    ensures |entries| <= |r| && Names(r)[..|entries|] == Names(entries)
    ensures Distinct(entries) ==> Distinct(r)
    decreases |batch|
  {
    if batch == [] then entries
    else
      var last := batch[|batch| - 1];
      var front := Merged(entries, batch[..|batch| - 1]);
      if Distinct(front) then AssignedDistinct(front, last.0, last.1); Assigned(front, last.0, last.1)
      else Assigned(front, last.0, last.1)
  }

  /**
   * Later writes win: after an update, a name looks up to its last entry in
   * the batch, and a name the batch does not mention keeps its keys.
   */
  lemma {:induction false} MergedLookup(entries: seq<Entry>, batch: seq<Entry>, name: string)
    ensures Lookup(Merged(entries, batch), name) == if LastIn(batch, name).Some? then LastIn(batch, name) else Lookup(entries, name)
    decreases |batch|
  {
    if batch != [] {
      var last := batch[|batch| - 1];
      AssignedLookup(Merged(entries, batch[..|batch| - 1]), last.0, last.1, name);
      MergedLookup(entries, batch[..|batch| - 1], name);
    }
  }
  /** The dict display the table starts from. */
  const INITIAL: seq<Entry> := [
    ("switch_window", ["alt", "tab"]),
    ("open_start_menu", ["win"]),
    ("minimize_window", ["win", "down"]),
    ("maximize_window", ["win", "up"]),
    ("restore_window", ["win", "down"]),
    ("close_window", ["alt", "f4"]),
    ("take_screenshot", ["win", "prtsc"]),
    ("go_to_desktop", ["win", "d"]),
    ("switch_virtual_desktop_left", ["win", "ctrl", "left"]),
    ("switch_virtual_desktop_right", ["win", "ctrl", "right"]),
    ("open_file_explorer", ["win", "e"]),
    ("refresh_explorer", ["f5"]),
    ("open_task_manager", ["ctrl", "shift", "esc"]),
    ("lock_workstation", ["win", "l"]),
    ("sign_out", ["ctrl", "alt", "del"]),
    ("hibernate", ["win", "x", "u", "h"]),
    ("sleep", ["win", "x", "u", "s"]),
    ("copy", ["ctrl", "c"]),
    ("paste", ["ctrl", "v"]),
    ("cut", ["ctrl", "x"]),
    ("select_all", ["ctrl", "a"]),
    ("open_run_dialog", ["win", "r"]),
    ("open_settings", ["win", "i"]),
    ("open_search", ["win", "s"]),
    ("toggle_high_contrast", ["altleft", "shiftleft", "printscreen"]),
    ("toggle_narrator", ["winleft", "ctrl", "enter"]),
    ("toggle_magnifier", ["winleft", "plus"]),
    ("undo", ["ctrl", "z"]),
    ("redo", ["ctrl", "y"]),
    ("new_virtual_desktop", ["win", "ctrl", "d"]),
    ("close_virtual_desktop", ["win", "ctrl", "f4"]),
    ("switch_between_open_apps", ["alt", "esc"]),
    ("open_action_center", ["win", "a"]),
    ("open_game_bar", ["win", "g"]),
    ("open_project_menu", ["win", "x"]),
    ("open_clipboard_history", ["win", "v"]),
    ("open_emoji_panel", ["win", "period"]),
    ("snap_window_left", ["win", "left"]),
    ("snap_window_right", ["win", "right"]),
    ("open_task_view", ["win", "tab"]),
    ("open_file_menu", ["alt"]),
    ("rename_selected_item", ["f2"]),
    ("search_for_files", ["f3"]),
    ("display_properties", ["alt", "enter"]),
    ("open_address_bar", ["f4"]),
    ("cycle_through_screen_elements", ["f6"]),
    ("refresh_active_window", ["f5"]),
    ("activate_menu_bar", ["f10"]),
    ("show_context_menu", ["shift", "f10"]),
    ("open_cortana", ["win", "c"]),
    ("lock_device_orientation", ["win", "o"]),
    ("open_quick_link_menu", ["win", "x"]),
    ("open_notification_center", ["win", "n"]),
    ("focus_hidden_icons", ["win", "b"]),
    ("open_ease_of_access_center", ["win", "u"]),
    ("open_windows_ink_workspace", ["win", "w"]),
    ("open_connect_pane", ["win", "k"]),
    ("open_share_pane", ["win", "h"]),
    ("open_device_pane", ["win", "k"]),
    ("open_system_properties", ["win", "pause"]),
    ("open_file_explorer_options", ["alt", "t", "o"]),
    ("create_new_folder", ["ctrl", "shift", "n"]),
    ("open_properties_of_selected_item", ["alt", "enter"]),
    ("open_this_pc", ["win", "e"]),
    ("cycle_through_taskbar_items", ["win", "t"]),
    ("open_new_instance_of_app", ["shift", "click_taskbar_icon"]),
    ("pin_app_to_taskbar", ["shift", "right_click_taskbar_icon"]),
    ("show_windows_side_by_side", ["win", "shift", "left/right"]),
    ("minimize_all_windows", ["win", "m"]),
    ("restore_minimized_windows", ["win", "shift", "m"]),
    ("stretch_window_to_top_and_bottom", ["win", "shift", "up"]),
    ("move_window_to_other_monitor", ["win", "shift", "left/right"]),
    ("rotate_screen", ["ctrl", "alt", "arrow_keys"]),
    ("open_snipping_tool", ["win", "shift", "s"])
  ]

  /** The first `update`: one browser shortcut (the others are commented out). */
  const WEB_UPDATE: seq<Entry> := [
    ("open_dev_tools", ["ctrl", "shift", "i"])
  ]

  /** The second `update`: desktop shortcuts, five of them already in the display. */
  const DESKTOP_UPDATE: seq<Entry> := [
    ("new_virtual_desktop", ["win", "ctrl", "d"]),
    ("close_virtual_desktop", ["win", "ctrl", "f4"]),
    ("snap_window_left", ["win", "left"]),
    ("snap_window_right", ["win", "right"]),
    ("snap_window_top", ["win", "up"]),
    ("snap_window_bottom", ["win", "down"]),
    ("open_action_center", ["win", "a"]),
    ("open_notifications", ["win", "n"])
  ]

  /** The third `update`: text-editing shortcuts. */
  const EDITING_UPDATE: seq<Entry> := [
    ("move_cursor_word_left", ["ctrl", "left"]),
    ("move_cursor_word_right", ["ctrl", "right"]),
    ("move_cursor_start_line", ["home"]),
    ("move_cursor_end_line", ["end"]),
    ("move_cursor_start_document", ["ctrl", "home"]),
    ("move_cursor_end_document", ["ctrl", "end"]),
    ("delete_word_left", ["ctrl", "backspace"]),
    ("delete_word_right", ["ctrl", "delete"]),
    ("select_word_left", ["ctrl", "shift", "left"]),
    ("select_word_right", ["ctrl", "shift", "right"]),
    ("select_line", ["shift", "home"]),
    ("select_to_end", ["shift", "end"])
  ]

  /** The fourth `update`: media keys. */
  const MEDIA_UPDATE: seq<Entry> := [
    ("play_pause_media", ["fn", "f5"]),
    ("next_track", ["fn", "f6"]),
    ("previous_track", ["fn", "f7"]),
    ("mute_volume", ["fn", "f8"]),
    ("volume_up", ["fn", "f9"]),
    ("volume_down", ["fn", "f10"])
  ]

  /** The last `update`: accessibility shortcuts, one of them already in the display. */
  const ACCESSIBILITY_UPDATE: seq<Entry> := [
    ("toggle_filter_keys", ["hold", "shiftright", "8"]),
    ("open_ease_of_access_center", ["win", "u"]),
    ("toggle_screen_reader", ["ctrl", "alt", "s"]),
    ("open_on_screen_keyboard", ["win", "ctrl", "o"]),
    ("start_dictation", ["win", "h"])
  ]

  /** The module-level `shortcuts` dictionary. */
  class Shortcuts {
    var entries: seq<Entry>

    predicate Valid()
      reads this
    {
      Distinct(entries)
    }

    /** `shortcuts = {...}`: the display's entries assigned in turn to an empty dictionary. */
    constructor (display: seq<Entry>)
      ensures Valid() && entries == Merged([], display)
    {
      entries := [];
      new;
      Update(display);
    }

    /** `shortcuts.update(batch)`. */
    method Update(batch: seq<Entry>)
      requires Valid()
      modifies this
      ensures Valid() && entries == Merged(old(entries), batch)
    {
      for i := 0 to |batch|
        invariant Valid() && entries == Merged(old(entries), batch[..i])
      {
        assert batch[..i + 1][..i] == batch[..i];
        entries := Assigned(entries, batch[i].0, batch[i].1);
      }
      assert batch[..|batch|] == batch;
    }
  }

  /** The table as the module leaves it: the display, then the five updates in order. */
  function Table(): seq<Entry>
  {
    var t := Merged(Merged([], INITIAL), WEB_UPDATE);
    Merged(Merged(Merged(Merged(t, DESKTOP_UPDATE), EDITING_UPDATE), MEDIA_UPDATE), ACCESSIBILITY_UPDATE)
  }

  /** The statements at the top of the module that build `shortcuts`. */
  method BuildShortcuts() returns (shortcuts: Shortcuts)
    ensures fresh(shortcuts) && shortcuts.Valid() && shortcuts.entries == Table()
  {
    shortcuts := new Shortcuts(INITIAL);
    shortcuts.Update(WEB_UPDATE);
    shortcuts.Update(DESKTOP_UPDATE);
    shortcuts.Update(EDITING_UPDATE);
    shortcuts.Update(MEDIA_UPDATE);
    shortcuts.Update(ACCESSIBILITY_UPDATE);
  }

  /** The last entry of a batch with a given name is the one `LastIn` finds. */
  lemma {:induction false} LastInAt(batch: seq<Entry>, k: nat)
    requires k < |batch| && forall j :: k < j < |batch| ==> batch[j].0 != batch[k].0
    ensures LastIn(batch, batch[k].0) == Some(batch[k].1)
    decreases |batch| - k
  {
    if k < |batch| - 1 {
      var front := batch[..|batch| - 1];
      assert front[k] == batch[k];
      LastInAt(front, k);
    }
  }

  /** An update's entry that no later entry of the batch renames is what a lookup sees afterwards. */
  lemma LaterUpdateWins(entries: seq<Entry>, batch: seq<Entry>, k: nat)
    requires k < |batch| && forall j :: k < j < |batch| ==> batch[j].0 != batch[k].0
    ensures Lookup(Merged(entries, batch), batch[k].0) == Some(batch[k].1)
  {
    LastInAt(batch, k);
    MergedLookup(entries, batch, batch[k].0);
  }

  // ---------------------------------------------------------------- the schema

  const DESCRIPTION := "A tool for Windows navigation using keyboard shortcuts."

  /** The `enum` of the `action` property: every name of the table, in insertion order, and nothing else. */
  function ActionEnum(entries: seq<Entry>): (r: seq<Json>)
    ensures |r| == |entries|
    ensures forall i :: 0 <= i < |r| ==> r[i].JStr? && Lookup(entries, r[i].s).Some?
    ensures forall name :: JStr(name) in r <==> Lookup(entries, name).Some?
  {
    if entries == [] then [] else [JStr(entries[0].0)] + ActionEnum(entries[1..])
  }

  /** A lookup in an object of three distinct keys. */
  lemma GetOfThree(a: string, b: string, c: string, x: Json, y: Json, z: Json)
    requires a != b && a != c && b != c
    ensures Get([(a, x), (b, y), (c, z)], b) == y && Get([(a, x), (b, y), (c, z)], c) == z
  {
    var fields := [(a, x), (b, y), (c, z)];
    GetAt(fields, 1);
    GetAt(fields, 2);
  }

  /** A property of the schema: its type, the values it allows and its description. */
  function Property(kind: Json, enum: seq<Json>, description: string): (p: Json)
    ensures p.JObj? && Get(p.fields, "enum") == JArr(enum)
  {
    GetOfThree("type", "enum", "description", kind, JArr(enum), JStr(description));
    JObj([("type", kind), ("enum", JArr(enum)), ("description", JStr(description))])
  }

  /** The `properties` of the schema: the action from the table, an optional modifier and target. */
  function Properties(entries: seq<Entry>): (p: Json)
    ensures p.JObj? && Get(p.fields, "action") == Property(JStr("string"), ActionEnum(entries), "The Windows action to perform.")
  {
    var optional := JArr([JStr("string"), JStr("null")]);
    JObj([
      ("action", Property(JStr("string"), ActionEnum(entries), "The Windows action to perform.")),
      ("modifier", Property(optional, [JStr("ctrl"), JStr("alt"), JStr("shift"), JStr("win")], "Optional modifier key.")),
      ("target", JObj([("type", optional), ("description", JStr("Optional target for the action (e.g., window title)."))]))])
  }

  /** The `parameters` of the schema: an object whose only required property is `action`. */
  function Parameters(entries: seq<Entry>): (p: Json)
    ensures p.JObj? && Get(p.fields, "properties") == Properties(entries)
    ensures Get(p.fields, "required") == JArr([JStr("action")])
  {
    GetOfThree("type", "properties", "required", JStr("object"), Properties(entries), JArr([JStr("action")]));
    JObj([("type", JStr("object")), ("properties", Properties(entries)), ("required", JArr([JStr("action")]))])
  }

  /** `windows_navigate_function`: the schema built from the table as it stands. */
  function NavigateSchema(entries: seq<Entry>): (schema: Json)
    ensures schema.JObj? && Get(schema.fields, "parameters") == Parameters(entries)
  {
    GetOfThree("name", "description", "parameters", JStr("windows_navigate"), JStr(DESCRIPTION), Parameters(entries));
    JObj([("name", JStr("windows_navigate")), ("description", JStr(DESCRIPTION)), ("parameters", Parameters(entries))])
  }

  /** The schema offers exactly the table's actions, and only `action` is required. */
  lemma SchemaOffersTableActions(entries: seq<Entry>)
    ensures var parameters := Get(NavigateSchema(entries).fields, "parameters");
      && parameters.JObj?
      && Get(parameters.fields, "required") == JArr([JStr("action")])
      && var action := Get(Get(parameters.fields, "properties").fields, "action");
      && action.JObj? && Get(action.fields, "enum") == JArr(ActionEnum(entries))
      && forall name :: JStr(name) in ActionEnum(entries) <==> Lookup(entries, name).Some?
  {
  }

  // ---------------------------------------------------------------- windows_navigate

  /** One call to the keyboard: a key pressed or released. */
  datatype KeyEvent = Down(key: string) | Up(key: string)

  /**
   * Pressing a combination: each key goes down in list order, and each comes
   * up in the reverse order, so a key is released only after every key
   * pressed after it.
   */
  function Chord(keys: seq<string>): (r: seq<KeyEvent>)
    ensures |r| == 2 * |keys|
    ensures forall i :: 0 <= i < |keys| ==> r[i] == Down(keys[i]) && r[2 * |keys| - 1 - i] == Up(keys[i])
  {
    if keys == [] then [] else [Down(keys[0])] + Chord(keys[1..]) + [Up(keys[0])]
  }

  /** The keys pressed: the stored shortcut, after the modifier when one is given. */
  function WithModifier(keys: seq<string>, modifier: Option<string>): seq<string>
  {
    if Truthy(modifier) then [modifier.value] + keys else keys
  }

  /** A modifier is pressed first and released last, around the shortcut's own combination. */
  lemma ModifierWrapsChord(keys: seq<string>, modifier: string)
    requires modifier != ""
    ensures var c := Chord(WithModifier(keys, Some(modifier)));
      && |c| == 2 * |keys| + 2 && c[0] == Down(modifier) && c[|c| - 1] == Up(modifier)
      && c[1..|c| - 1] == Chord(keys)
  {
    var all := [modifier] + keys;
    assert all[1..] == keys;
    var c := Chord(all);
    assert c == [Down(modifier)] + Chord(keys) + [Up(modifier)];
  }

  function Unknown(action: string): string { "Unknown action: " + action }
  function NoWindow(target: string): string { "No window found with title '" + target + "'" }
  function Succeeded(action: string): string { "Successfully executed '" + action + "'" }
  function Failed(action: string, error: string): string { "Failed to execute '" + action + "': " + error }

  /** Whether the key call numbered `keyFault.0` is one of the calls a combination of `n` keys makes. */
  predicate FaultsWithin(keyFault: Option<(nat, string)>, n: nat)
  {
    keyFault.Some? && keyFault.value.0 < 2 * n
  }

  /**
   * The two key loops of `windows_navigate`: each key down in list order,
   * then each key up over `reversed(keys)`. When a call raises, the loops
   * stop there and `fault` is its message.
   */
  method Press(keys: seq<string>, keyFault: Option<(nat, string)>) returns (events: seq<KeyEvent>, fault: Option<string>)
    ensures FaultsWithin(keyFault, |keys|) ==> events == Chord(keys)[..keyFault.value.0] && fault == Some(keyFault.value.1)
    ensures !FaultsWithin(keyFault, |keys|) ==> events == Chord(keys) && fault == None
  {
    var n := |keys|;
    ghost var chord := Chord(keys);
    events := [];
    for i := 0 to n
      invariant events == chord[..i]
      invariant keyFault.Some? ==> keyFault.value.0 >= i
    {
      if keyFault.Some? && keyFault.value.0 == i {
        return events, Some(keyFault.value.1);
      }
      assert chord[..i + 1] == chord[..i] + [Down(keys[i])];
      events := events + [Down(keys[i])];
    }
    for i := 0 to n
      invariant events == chord[..n + i]
      invariant keyFault.Some? ==> keyFault.value.0 >= n + i
    {
      if keyFault.Some? && keyFault.value.0 == n + i {
        return events, Some(keyFault.value.1);
      }
      assert chord[..n + i + 1] == chord[..n + i] + [Up(keys[n - 1 - i])];
      events := events + [Up(keys[n - 1 - i])];
    }
    assert chord[..2 * n] == chord;
    fault := None;
  }

  /**
   * `windows_navigate`. `window` says what `getWindowsWithTitle` found for
   * the target (or what it or the window's activation raised), and
   * `keyFault` names the key call, counted from zero, that raises and with
   * what message. The table is only read: the modifier goes in front of a
   * new list. An unknown action, a failing window lookup or a missing
   * window stop before any key is pressed; a key call that raises leaves the
   * events sent before it, and the keys already down are not released.
   */
  method WindowsNavigate(shortcuts: Shortcuts, action: string, modifier: Option<string>, target: Option<string>,
                         window: Result<bool>, keyFault: Option<(nat, string)>)
    returns (message: string, events: seq<KeyEvent>)
    ensures Lookup(shortcuts.entries, action).None? ==> message == Unknown(action) && events == []
    ensures Lookup(shortcuts.entries, action).Some? ==>
      var keys := WithModifier(Lookup(shortcuts.entries, action).value, modifier);
      if Truthy(target) && window.Err? then message == Failed(action, window.error) && events == []
      else if Truthy(target) && !window.value then message == NoWindow(target.value) && events == []
      else if FaultsWithin(keyFault, |keys|) then
        message == Failed(action, keyFault.value.1) && events == Chord(keys)[..keyFault.value.0]
      else message == Succeeded(action) && events == Chord(keys)
  {
    var shortcut := Lookup(shortcuts.entries, action);
    if shortcut.None? {
      return Unknown(action), [];
    }
    var keys := shortcut.value;
    if Truthy(modifier) {
      keys := [modifier.value] + keys;
    }
    if Truthy(target) {
      if window.Err? {
        return Failed(action, window.error), [];
      }
      if !window.value {
        return NoWindow(target.value), [];
      }
    }
    var fault;
    events, fault := Press(keys, keyFault);
    if fault.Some? {
      return Failed(action, fault.value), events;
    }
    message := Succeeded(action);
  }
}

=== FILE: output_buffer.dfy ===
/**
 * `loop_WEB.py`'s `output_buffer`: the loop writes rendered HTML fragments and
 * the streaming route flushes them. The lock around both operations is not
 * modelled; each call runs to completion.
 */
module OutputBuffering {
  import opened Wrappers

  class OutputBuffer {
    /** The pending fragments, oldest first. */
    var entries: seq<string>
    /** Everything ever written, and everything ever handed out by a flush. */
    ghost var written: seq<string>
    ghost var delivered: seq<string>

    /** Nothing is lost or repeated: what was written is what was delivered, then what is pending. */
    ghost predicate Valid()
      reads this
    {
      written == delivered + entries
    }

    constructor ()
      ensures Valid() && entries == [] && written == [] && delivered == []
    {
      entries, written, delivered := [], [], [];
    }

    /** `write_to_buffer`: one fragment at the tail. */
    method Write(html: string)
      requires Valid()
      modifies this
      ensures Valid()
      ensures entries == old(entries) + [html]
      ensures written == old(written) + [html] && delivered == old(delivered)
    {
      entries := entries + [html];
      written := written + [html];
    }

    /** `flush_buffer`: `None` when nothing is pending; otherwise every pending fragment, in order, and an empty buffer. */
    method Flush() returns (r: Option<seq<string>>)
      requires Valid()
      modifies this
      ensures Valid() && entries == [] && written == old(written)
      ensures old(entries) == [] ==> r == None && delivered == old(delivered)
      ensures old(entries) != [] ==> r == Some(old(entries)) && delivered == old(delivered) + old(entries)
    {
      if entries == [] {
        return None;
      }
      r := Some(entries);
      delivered := delivered + entries;
      entries := [];
    }
  }
}

=== FILE: project_setup.dfy ===
/**
 * `ProjectSetupTool` of `tools/venvsetup.py`: it creates a project directory
 * and its virtual environment, installs the packages one by one, optionally
 * runs a script, and reports the outcome as a few lines of text. The shell
 * commands are not run here: what each of them did is a parameter.
 */
module ProjectSetup {
  import opened Wrappers
  import opened Text
  import opened JsonValue
  import opened ToolResults

  const NAME := "project_setup"
  const API_TYPE := "custom"
  const DESCRIPTION := "A tool that sets up Python projects with virtual environments, installs packages, and runs Python scripts."
  const FAILED := "Failed to setup project: "
  const DEFAULT_PACKAGES := ["flask", "pandas", "flask-wtf", "python-dotenv"]

  /** The `result_data` dict: the script entries are present only when the script was run. */
  datatype SetupData = SetupData(
    status: string,
    projectPath: string,
    packages: seq<string>,
    scriptOutput: Option<string>,
    scriptErrors: Option<string>,
    scriptError: Option<string>)

  // ---------------------------------------------------------------- format_output

  function Bullets(packages: seq<string>): seq<string>
  {
    seq(|packages|, i requires 0 <= i < |packages| => "  - " + packages[i])
  }

  /** The status, the project path, the heading of the package list and one line per package. */
  function Header(data: SetupData): seq<string>
  {
    ["Status: " + data.status, "Project Path: " + data.projectPath, "Packages Installed:"] + Bullets(data.packages)
  }

  function OutputSection(data: SetupData): seq<string>
  {
    if Truthy(data.scriptOutput) then ["\nScript Output:", data.scriptOutput.value] else []
  }

  function ErrorsSection(data: SetupData): seq<string>
  {
    if Truthy(data.scriptErrors) then ["\nScript Errors:", data.scriptErrors.value] else []
  }

  function ErrorSection(data: SetupData): seq<string>
  {
    if data.scriptError.Some? then ["\nScript Error: " + data.scriptError.value] else []
  }

  /** The script's sections, each only when its entry says so. */
  function Sections(data: SetupData): seq<string>
  {
    OutputSection(data) + ErrorsSection(data) + ErrorSection(data)
  }

  function OutputLines(data: SetupData): seq<string>
  {
    Header(data) + Sections(data)
  }

  /** `format_output`: the lines, collected one after another and joined with newlines. */
  method FormatOutput(data: SetupData) returns (text: string)
    ensures text == Join(OutputLines(data), "\n")
  {
    var lines := ["Status: " + data.status];
    lines := lines + ["Project Path: " + data.projectPath];
    lines := lines + ["Packages Installed:"];
    for i := 0 to |data.packages|
      invariant lines == ["Status: " + data.status, "Project Path: " + data.projectPath, "Packages Installed:"]
                         + Bullets(data.packages[..i])
    {
      assert Bullets(data.packages[..i + 1]) == Bullets(data.packages[..i]) + ["  - " + data.packages[i]];
      lines := lines + ["  - " + data.packages[i]];
    }
    assert data.packages[..|data.packages|] == data.packages;
    assert lines == Header(data);
    if Truthy(data.scriptOutput) {
      lines := lines + ["\nScript Output:"];
      lines := lines + [data.scriptOutput.value];
    }
    assert lines == Header(data) + OutputSection(data);
    if Truthy(data.scriptErrors) {
      lines := lines + ["\nScript Errors:"];
      lines := lines + [data.scriptErrors.value];
    }
    assert lines == Header(data) + OutputSection(data) + ErrorsSection(data);
    if data.scriptError.Some? {
      lines := lines + ["\nScript Error: " + data.scriptError.value];
    }
    assert lines == OutputLines(data);
    text := Join(lines, "\n");
  }

  /** The text a group of lines adds after a non-empty list: a newline, then their join. */
  function Tail(lines: seq<string>): string
  {
    if lines == [] then "" else "\n" + Join(lines, "\n")
  }

  /** Appending lines to a non-empty list appends their tail to its join. */
  lemma JoinMore(a: seq<string>, b: seq<string>)
    requires |a| >= 1
    ensures Join(a + b, "\n") == Join(a, "\n") + Tail(b)
  {
    if b == [] {
      assert a + b == a;
    } else {
      JoinAppend(a, b, "\n");
    }
  }

  function OutputText(data: SetupData): string
  {
    if Truthy(data.scriptOutput) then "\n\nScript Output:\n" + data.scriptOutput.value else ""
  }

  function ErrorsText(data: SetupData): string
  {
    if Truthy(data.scriptErrors) then "\n\nScript Errors:\n" + data.scriptErrors.value else ""
  }

  function ErrorText(data: SetupData): string
  {
    if data.scriptError.Some? then "\n\nScript Error: " + data.scriptError.value else ""
  }

  /** The text the script's sections add after the package list. */
  function SectionText(data: SetupData): string
  {
    OutputText(data) + ErrorsText(data) + ErrorText(data)
  }

  lemma TailOfTwo(a: string, b: string)
    ensures Tail([a, b]) == "\n" + a + "\n" + b
  {
    assert [a, b][1..] == [b];
    assert Join([b], "\n") == b;
    assert Join([a, b], "\n") == a + "\n" + b;
  }

  lemma OutputTail(data: SetupData)
    ensures Tail(OutputSection(data)) == OutputText(data)
  {
    if Truthy(data.scriptOutput) {
      TailOfTwo("\nScript Output:", data.scriptOutput.value);
    }
  }

  lemma ErrorsTail(data: SetupData)
    ensures Tail(ErrorsSection(data)) == ErrorsText(data)
  {
    if Truthy(data.scriptErrors) {
      TailOfTwo("\nScript Errors:", data.scriptErrors.value);
    }
  }

  lemma ErrorTail(data: SetupData)
    ensures Tail(ErrorSection(data)) == ErrorText(data)
  {
    if data.scriptError.Some? {
      assert Join(["\nScript Error: " + data.scriptError.value], "\n") == "\nScript Error: " + data.scriptError.value;
    }
  }

  /** Three groups of lines appended to a non-empty list add their three tails. */
  lemma JoinThree(h: seq<string>, a: seq<string>, b: seq<string>, c: seq<string>)
    requires |h| >= 1
    ensures Join(h + a + b + c, "\n") == Join(h, "\n") + Tail(a) + Tail(b) + Tail(c)
  {
    JoinMore(h, a);
    JoinMore(h + a, b);
    JoinMore(h + a + b, c);
  }

  /**
   * The report is the package list followed by the script's sections: the
   * output and the errors each only when present and non-empty, the error of
   * a failed run whenever it is present.
   */
  lemma FormatOutputSections(data: SetupData)
    ensures Join(OutputLines(data), "\n") == Join(Header(data), "\n") + SectionText(data)
  {
    var h := Header(data);
    var a, b, c := OutputSection(data), ErrorsSection(data), ErrorSection(data);
    assert OutputLines(data) == h + a + b + c;
    JoinThree(h, a, b, c);
    OutputTail(data);
    ErrorsTail(data);
    ErrorTail(data);
  }

  /** Splitting a join of newline-free lines followed by a new line gives those lines back first. */
  lemma SplitAfterJoin(text: string, h: seq<string>, rest: string)
    requires |h| >= 1 && forall i :: 0 <= i < |h| ==> '\n' !in h[i]
    requires text == Join(h, "\n") + ['\n'] + rest
    ensures |Split(text, '\n')| > |h| && Split(text, '\n')[..|h|] == h
  {
    SplitAtSeparator(Join(h, "\n"), rest, '\n');
    SplitJoin(h, '\n');
    assert (h + Split(rest, '\n'))[..|h|] == h;
  }

  /** The sections add text exactly when there are sections, and that text starts a new line. */
  lemma SectionTextStart(data: SetupData)
    ensures SectionText(data) == "" <==> Sections(data) == []
    ensures SectionText(data) == "" || SectionText(data)[0] == '\n'
  {
  }

  lemma HeaderFree(data: SetupData)
    requires '\n' !in data.status && '\n' !in data.projectPath
    requires forall i :: 0 <= i < |data.packages| ==> '\n' !in data.packages[i]
    ensures forall i :: 0 <= i < |Header(data)| ==> '\n' !in Header(data)[i]
  {
    var h := Header(data);
    forall i | 0 <= i < |h|
      ensures '\n' !in h[i]
    {
      if i >= 3 {
        assert h[i] == "  - " + data.packages[i - 3];
      }
    }
  }

  /** When the header holds no newline, the report's lines start with the header's, and are all of them without a script. */
  lemma ReportStartsWithHeader(data: SetupData)
    requires forall i :: 0 <= i < |Header(data)| ==> '\n' !in Header(data)[i]
    ensures var lines := Split(Join(OutputLines(data), "\n"), '\n');
      && |lines| >= |Header(data)| && lines[..|Header(data)|] == Header(data)
      && (Sections(data) == [] ==> lines == Header(data))
  {
    var h := Header(data);
    var text := Join(OutputLines(data), "\n");
    FormatOutputSections(data);
    SectionTextStart(data);
    var t := SectionText(data);
    if t == "" {
      SplitJoin(h, '\n');
      assert text == Join(h, "\n");
    } else {
      assert text == Join(h, "\n") + ['\n'] + t[1..];
      SplitAfterJoin(text, h, t[1..]);
    }
  }

  /** Lines that start with the header: the status, the path, the heading, then the packages. */
  lemma HeaderLines(lines: seq<string>, data: SetupData)
    requires |lines| >= |Header(data)| && lines[..|Header(data)|] == Header(data)
    ensures |lines| >= 3 + |data.packages|
    ensures lines[0] == "Status: " + data.status && lines[1] == "Project Path: " + data.projectPath
    ensures lines[2] == "Packages Installed:"
    ensures forall i :: 0 <= i < |data.packages| ==> lines[3 + i] == "  - " + data.packages[i]
  {
    var h := Header(data);
    forall i | 0 <= i < |h|
      ensures lines[i] == h[i]
    {
      assert lines[i] == lines[..|h|][i];
    }
    forall i | 0 <= i < |data.packages|
      ensures lines[3 + i] == "  - " + data.packages[i]
    {
      assert lines[3 + i] == h[3 + i];
    }
  }

  /**
   * When no field holds a newline, the report's lines start with the status,
   * the project path, the heading and one `  - ` line per package, in order;
   * without a script they are all of it.
   */
  lemma FormatOutputLines(data: SetupData)
    requires '\n' !in data.status && '\n' !in data.projectPath
    requires forall i :: 0 <= i < |data.packages| ==> '\n' !in data.packages[i]
    ensures var lines := Split(Join(OutputLines(data), "\n"), '\n');
      && |lines| >= 3 + |data.packages|
      && lines[0] == "Status: " + data.status && lines[1] == "Project Path: " + data.projectPath
      && lines[2] == "Packages Installed:"
      && (forall i :: 0 <= i < |data.packages| ==> lines[3 + i] == "  - " + data.packages[i])
      && (Sections(data) == [] ==> |lines| == 3 + |data.packages|)
  {
    HeaderFree(data);
    ReportStartsWithHeader(data);
    HeaderLines(Split(Join(OutputLines(data), "\n"), '\n'), data);
  }

  // ---------------------------------------------------------------- __call__

  /** What `uv run <script>` did: it completed with its two streams, or it raised. */
  datatype ScriptRun = Completed(stdout: string, stderr: string) | Raised(message: string)

  /** The message of the first package whose `uv add` raises, if any does. */
  function FirstFailure(packages: seq<string>, failedAdds: map<string, string>): (r: Option<string>)
    ensures r.None? <==> forall i :: 0 <= i < |packages| ==> packages[i] !in failedAdds
    ensures r.Some? ==> exists i :: (0 <= i < |packages| && packages[i] in failedAdds && r.value == failedAdds[packages[i]]
      && forall j :: 0 <= j < i ==> packages[j] !in failedAdds)
  {
    if packages == [] then None
    else if packages[0] in failedAdds then Some(failedAdds[packages[0]])
    else
      var r := FirstFailure(packages[1..], failedAdds);
      assert forall i :: 1 <= i < |packages| ==> packages[i] == packages[1..][i - 1];
      r
  }

  /** The loop of `uv add` commands: it stops at the first package whose command raises. */
  method FirstFailedAdd(packages: seq<string>, failedAdds: map<string, string>) returns (m: Option<string>)
    ensures m == FirstFailure(packages, failedAdds)
  {
    for i := 0 to |packages|
      invariant forall j :: 0 <= j < i ==> packages[j] !in failedAdds
    {
      if packages[i] in failedAdds {
        return Some(failedAdds[packages[i]]);
      }
    }
    m := None;
  }

  /** The `result_data` of a setup that got through: the script's entries depend on how its run ended. */
  function Collected(packages: seq<string>, projectPath: string, scriptPath: Option<string>, run: ScriptRun): SetupData
  {
    var data := SetupData("success", projectPath, packages, None, None, None);
    if !Truthy(scriptPath) then data
    else if run.Completed? then data.(scriptOutput := Some(run.stdout), scriptErrors := Some(run.stderr))
    else data.(scriptError := Some(run.message))
  }

  function ErrorResult(message: string): ToolResult
  {
    ToolResult(None, Some(message), None, false)
  }

  /**
   * `__call__`. `packages` is absent when the caller gave none;
   * `setupFailure` is the message of an error raised while creating the
   * directory, entering it or creating the environment; `failedAdds` maps a
   * package to the message its `uv add` raises; `run` is what running the
   * script did. Any of these errors but the script's ends the setup with an
   * error result.
   */
  method Call(packages: Option<seq<string>>, projectPath: string, scriptPath: Option<string>,
              setupFailure: Option<string>, failedAdds: map<string, string>, run: ScriptRun) returns (r: ToolResult)
    ensures var pk := if packages.Some? then packages.value else DEFAULT_PACKAGES;
      && (setupFailure.Some? ==> r == ErrorResult(FAILED + setupFailure.value))
      && (setupFailure.None? && FirstFailure(pk, failedAdds).Some? ==>
            r == ErrorResult(FAILED + FirstFailure(pk, failedAdds).value))
      && (r.error.Some? <==> setupFailure.Some? || exists i :: 0 <= i < |pk| && pk[i] in failedAdds)
      && (r.error.None? ==> r == ToolResult(Some(Join(OutputLines(Collected(pk, projectPath, scriptPath, run)), "\n")), None, None, false))
  {
    var pk := if packages.Some? then packages.value else DEFAULT_PACKAGES;
    if setupFailure.Some? {
      return ErrorResult(FAILED + setupFailure.value);
    }
    var failed := FirstFailedAdd(pk, failedAdds);
    if failed.Some? {
      return ErrorResult(FAILED + failed.value);
    }
    var data := SetupData("success", projectPath, pk, None, None, None);
    if Truthy(scriptPath) {
      match run {
        case Completed(out, err) =>
          data := data.(scriptOutput := Some(out), scriptErrors := Some(err));
        case Raised(message) =>
          data := data.(scriptError := Some(message));
      }
    }
    var text := FormatOutput(data);
    r := ToolResult(Some(text), None, None, false);
  }

  // ---------------------------------------------------------------- to_params

  function Property(kind: Json, description: string): Json
  {
    JObj([("type", kind), ("description", JStr(description))])
  }

  /** The schema's properties: the three inputs, in order. */
  function Properties(): (p: Json)
    ensures p.JObj? && Keys(p.fields) == ["packages", "project_path", "script_path"]
  {
    JObj([
      ("packages", JObj([("type", JStr("array")), ("items", JObj([("type", JStr("string"))])),
                         ("description", JStr("List of Python packages to install"))])),
      ("project_path", Property(JStr("string"), "Path to the project directory")),
      ("script_path", Property(JStr("string"), "Optional path to a Python script to run after setup"))])
  }

  /** The input schema: of the three properties, only the packages and the project path are required. */
  function InputSchema(): (p: Json)
    ensures p.JObj? && Keys(p.fields) == ["type", "properties", "required"]
    ensures Get(p.fields, "properties") == Properties()
    ensures Get(p.fields, "required") == JArr([JStr("packages"), JStr("project_path")])
  {
    JObj([
      ("type", JStr("object")),
      ("properties", Properties()),
      ("required", JArr([JStr("packages"), JStr("project_path")]))])
  }

  /** `to_params`: the name, description and type, then the input schema. */
  function ToParams(): (p: Json)
    ensures p.JObj? && Keys(p.fields) == ["name", "description", "type", "input_schema"]
    ensures Get(p.fields, "name") == JStr(NAME) && Get(p.fields, "type") == JStr(API_TYPE)
    ensures Get(p.fields, "input_schema") == InputSchema()
  {
    var fields := [
      ("name", JStr(NAME)),
      ("description", JStr(DESCRIPTION)),
      ("type", JStr(API_TYPE)),
      ("input_schema", InputSchema())];
    assert Get(fields[2..], "type") == JStr(API_TYPE);
    assert Get(fields[3..], "input_schema") == InputSchema();
    assert Get(fields[2..], "input_schema") == InputSchema() by {
      assert fields[2..][1..] == fields[3..];
    }
    assert fields[1..][1..] == fields[2..];
    assert fields[1..][0].0 == "description";
    JObj(fields)
  }
}

=== FILE: render.dfy ===
/**
 * The text views of the conversation: `format_messages_to_string` and
 * `format_messages_to_html` of `loop_live_new.py`, `format_message_to_html` of
 * `loop_WEB.py`, and `OutputManager._truncate_string` of `looptemp.py`. Each
 * builds a list of pieces and joins them; here the pieces are concatenated as
 * they are produced.
 */
module Render {
  import opened Text
  import opened JsonValue
  import opened Conversation

  /** `d.get(key, default)` shown with `str()`. */
  function ShowOr(fields: seq<(string, Json)>, key: string, default: string): string
  {
    if HasKey(fields, key) then PyStr(Get(fields, key)) else default
  }

  /** `"\n" + "-" * 80`, the separator after each message. */
  const SEPARATOR := "\n" + Repeat('-', 80)

  const IMAGE_PLACEHOLDER := "Image Source: base64 source too big"

  // ---------------------------------------------------------------- format_messages_to_string

  function PartsToString(ps: seq<Part>): string
  {
    if ps == [] then ""
    else
      (match ps[0]
       case TextPart(t) => "\nText: " + t
       case ImagePart(_, _) => "\n" + IMAGE_PLACEHOLDER)
      + PartsToString(ps[1..])
  }

  /** Every key and value of a dict, one `"\n{key}: {value}"` line each. */
  function FieldLines(fields: seq<(string, Json)>): string
  {
    if fields == [] then "" else "\n" + fields[0].0 + ": " + PyStr(fields[0].1) + FieldLines(fields[1..])
  }

  function BlockToString(b: Block): string
  {
    var fields := BlockJson(b).fields;
    if b.ToolResultBlock? then "\nTool Result [ID: " + ShowOr(fields, "name", "unknown") + "]:" + PartsToString(b.parts)
    else FieldLines(fields)
  }

  function BlocksToString(bs: seq<Block>): string
  {
    if bs == [] then "" else BlockToString(bs[0]) + BlocksToString(bs[1..])
  }

  function MessageToString(m: Message): string
  {
    "\n" + Upper(m.role) + ":"
    + (match m.content
       case Blocks(bs) => BlocksToString(bs)
       case Str(s) => "\n" + s)
    + SEPARATOR
  }

  /** `format_messages_to_string`: every message's section, in order. */
  function FormatMessagesToString(msgs: seq<Message>): string
  {
    if msgs == [] then "" else MessageToString(msgs[0]) + FormatMessagesToString(msgs[1..])
  }

  /** Formatting a list is formatting its parts one after the other. */
  lemma {:induction false} FormatMessagesToStringAppend(a: seq<Message>, b: seq<Message>)
    ensures FormatMessagesToString(a + b) == FormatMessagesToString(a) + FormatMessagesToString(b)
    decreases |a|
  {
    if a == [] {
      assert a + b == b;
    } else {
      assert (a + b)[1..] == a[1..] + b;
      FormatMessagesToStringAppend(a[1..], b);
    }
  }

  /**
   * Tool results never carry a `name` key, so every one is shown with the ID
   * `unknown`; what follows is one line per text part and one placeholder per image.
   */
  lemma ToolResultShownAsUnknown(toolUseId: string, parts: seq<Part>, isError: bool, cached: bool)
    ensures BlockToString(ToolResultBlock(toolUseId, parts, isError, cached))
         == "\nTool Result [ID: " + "unknown" + "]:" + PartsToString(parts)
  {
    var fields := BlockJson(ToolResultBlock(toolUseId, parts, isError, cached)).fields;
    var keys := Keys(fields);
    assert |keys| == |fields|;
    forall k | 0 <= k < |keys| ensures keys[k] != "name" {
      assert keys[k] == fields[k].0;
      assert keys[k][0] != 'n' || |keys[k]| != 4 by {
        if cached && k == 4 {
          assert keys[k] == "cache_control";
        }
      }
    }
    assert !HasKey(fields, "name");
  }

  /** An image is shown by the fixed placeholder, so its data never matters. */
  lemma {:induction false} PartsToStringIgnoresImageData(ps: seq<Part>, qs: seq<Part>)
    requires |ps| == |qs|
    requires forall k :: 0 <= k < |ps| ==> ps[k].ImagePart? == qs[k].ImagePart? && (ps[k].TextPart? ==> ps[k] == qs[k])
    ensures PartsToString(ps) == PartsToString(qs)
    decreases |ps|
  {
    if ps != [] {
      PartsToStringIgnoresImageData(ps[1..], qs[1..]);
    }
  }

  // ---------------------------------------------------------------- HTML

  /** `html.escape(s)`: `&`, `<`, `>`, `"` and `'` become entities. */
  function HtmlEscape(s: string): string
  {
    if s == [] then ""
    else
      (if s[0] == '&' then "&amp;"
       else if s[0] == '<' then "&lt;"
       else if s[0] == '>' then "&gt;"
       else if s[0] == '"' then "&quot;"
       else if s[0] == '\'' then "&#x27;"
       else [s[0]])
      + HtmlEscape(s[1..])
  }

  predicate Markup(c: char)
  {
    c == '<' || c == '>' || c == '"' || c == '\''
  }

  /** Escaped text holds no character that could open or close a tag or an attribute. */
  lemma {:induction false} HtmlEscapeSafe(s: string)
    ensures forall k :: 0 <= k < |HtmlEscape(s)| ==> !Markup(HtmlEscape(s)[k])
    decreases |s|
  {
    if s != [] {
      HtmlEscapeSafe(s[1..]);
      var head := if s[0] == '&' then "&amp;" else if s[0] == '<' then "&lt;" else if s[0] == '>' then "&gt;"
                  else if s[0] == '"' then "&quot;" else if s[0] == '\'' then "&#x27;" else [s[0]];
      assert HtmlEscape(s) == head + HtmlEscape(s[1..]);
      forall k | 0 <= k < |HtmlEscape(s)| ensures !Markup(HtmlEscape(s)[k]) {
        if k >= |head| {
          assert HtmlEscape(s)[k] == HtmlEscape(s[1..])[k - |head|];
        }
      }
    }
  }

  /** Text without `&` or markup characters is left as it is. */
  lemma {:induction false} HtmlEscapePlain(s: string)
    requires forall k :: 0 <= k < |s| ==> s[k] != '&' && !Markup(s[k])
    ensures HtmlEscape(s) == s
    decreases |s|
  {
    if s != [] {
      HtmlEscapePlain(s[1..]);
      assert s == [s[0]] + s[1..];
    }
  }

  /** `s.replace('\n', ' ')`. */
  function OneLine(s: string): (r: string)
    ensures |r| == |s| && '\n' !in r
  {
    seq(|s|, k requires 0 <= k < |s| => if s[k] == '\n' then ' ' else s[k])
  }

  /** The CSS class of a message: by its lower-cased role, `unknown-role` for anything but user and assistant. */
  function MessageClass(role: string): string
  {
    var r := Lower(role);
    if r == "user" then "user-message" else if r == "assistant" then "assistant-message" else "unknown-role"
  }

  /** The role is compared case-insensitively: `"USER"` and `"user"` get the same class. */
  lemma MessageClassIgnoresCase()
    ensures MessageClass("USER") == MessageClass("user") == "user-message"
    ensures MessageClass("Assistant") == "assistant-message"
    ensures MessageClass("system") == "unknown-role"
  {
    assert Lower("USER") == "user";
    assert Lower("Assistant") == "assistant";
    assert Lower("system") == "system";
  }

  function Header(role: string, escape: bool): string
  {
    var r := Lower(role);
    if r == "user" then "<strong class=\"green\">User:</strong><br>"
    else if r == "assistant" then "<strong class=\"blue\">Assistant:</strong><br>"
    else "<strong>" + (if escape then HtmlEscape(Upper(r)) else Upper(r)) + ":</strong><br>"
  }

  /** How a tool-input value is shown: a string over 100 characters as its first 100 and `...`. */
  function DisplayValue(v: Json): string
  {
    if v.JStr? && |v.s| > 100 then v.s[..100] + "..." else PyStr(v)
  }

  /**
   * A long string input is cut to a 103-character preview that starts with its
   * first 100 characters; a short string, or any other value, is shown whole.
   */
  lemma DisplayValueBounded(v: Json)
    ensures v.JStr? && |v.s| > 100 ==> |DisplayValue(v)| == 103 && DisplayValue(v)[..100] == v.s[..100]
    ensures !(v.JStr? && |v.s| > 100) ==> DisplayValue(v) == PyStr(v)
    ensures v.JStr? ==> |DisplayValue(v)| <= |v.s| + 3 && StartsWith(DisplayValue(v), v.s[..if |v.s| > 100 then 100 else |v.s|])
  {
  }

  function InputLines(input: seq<(string, Json)>, escape: bool): string
  {
    if input == [] then ""
    else
      var shown := DisplayValue(input[0].1);
      "<div>" + input[0].0 + ": " + (if escape then HtmlEscape(shown) else shown) + "</div>"
      + InputLines(input[1..], escape)
  }

  function PartsToHtml(ps: seq<Part>, escape: bool): string
  {
    if ps == [] then ""
    else
      (match ps[0]
       case TextPart(t) =>
         "<div class=\"tool-output green\">Text: " + (if escape then OneLine(HtmlEscape(t)) else t) + "</div>"
       case ImagePart(_, _) => "<div class=\"tool-output\"><em>" + IMAGE_PLACEHOLDER + "</em></div>")
      + PartsToHtml(ps[1..], escape)
  }

  function FieldDivs(fields: seq<(string, Json)>, escape: bool): string
  {
    if fields == [] then ""
    else
      var k := if escape then HtmlEscape(fields[0].0) else fields[0].0;
      var v := if escape then OneLine(HtmlEscape(PyStr(fields[0].1))) else PyStr(fields[0].1);
      "<div class=\"" + k + "\">" + k + ": " + v + "</div>" + FieldDivs(fields[1..], escape)
  }

  function BlockToHtml(b: Block, escape: bool): string
  {
    var fields := BlockJson(b).fields;
    match b
    case ToolResultBlock(_, ps, _, _) =>
      var id := ShowOr(fields, "name", "unknown");
      "<div class=\"tool-use\"><strong>Tool Result [ID: " + (if escape then HtmlEscape(id) else id) + "]:</strong></div>"
      + PartsToHtml(ps, escape)
    case ToolUseBlock(_, name, input, _) =>
      "<div class=\"tool-use\"><strong>Using tool: " + (if escape then HtmlEscape(name) else name) + "</strong></div>"
      + "<div class=\"tool-input\">" + InputLines(input, escape) + "</div>"
    case TextBlock(_, _) => FieldDivs(fields, escape)
  }

  function BlocksToHtml(bs: seq<Block>, escape: bool): string
  {
    if bs == [] then "" else BlockToHtml(bs[0], escape) + BlocksToHtml(bs[1..], escape)
  }

  /**
   * One message as HTML. `escape` selects the `loop_WEB.py` version, which
   * escapes text and folds line breaks to spaces; `loop_live_new.py` does neither.
   */
  function MessageToHtml(m: Message, escape: bool): string
  {
    "<div class=\"" + MessageClass(m.role) + "\">" + Header(m.role, escape)
    + (match m.content
       case Blocks(bs) => BlocksToHtml(bs, escape)
       case Str(s) => "<div>" + (if escape then OneLine(HtmlEscape(s)) else s) + "</div>")
    + "<hr></div>"
  }

  /** `format_messages_to_html` of `loop_live_new.py`. */
  function FormatMessagesToHtml(msgs: seq<Message>): string
  {
    if msgs == [] then "" else MessageToHtml(msgs[0], false) + FormatMessagesToHtml(msgs[1..])
  }

  /** `format_message_to_html` of `loop_WEB.py`. */
  function FormatMessageToHtml(m: Message): string
  {
    MessageToHtml(m, true)
  }

  /** Formatting a list is formatting each message in turn. */
  lemma {:induction false} FormatMessagesToHtmlAppend(a: seq<Message>, b: seq<Message>)
    ensures FormatMessagesToHtml(a + b) == FormatMessagesToHtml(a) + FormatMessagesToHtml(b)
    decreases |a|
  {
    if a == [] {
      assert a + b == b;
    } else {
      assert (a + b)[1..] == a[1..] + b;
      FormatMessagesToHtmlAppend(a[1..], b);
    }
  }

  /** In the escaped version a plain string message cannot inject markup or break the line. */
  lemma StringMessageSafe(role: string, s: string)
    ensures var body := OneLine(HtmlEscape(s));
      FormatMessageToHtml(Message(role, Str(s))) == "<div class=\"" + MessageClass(role) + "\">" + Header(role, true)
        + ("<div>" + body + "</div>") + "<hr></div>"
      && '\n' !in body && forall k :: 0 <= k < |body| ==> !Markup(body[k])
  {
    HtmlEscapeSafe(s);
    OneLineSafe(HtmlEscape(s));
  }

  /** Joining lines introduces no markup. */
  lemma OneLineSafe(e: string)
    requires forall k :: 0 <= k < |e| ==> !Markup(e[k])
    ensures forall k :: 0 <= k < |OneLine(e)| ==> !Markup(OneLine(e)[k])
  {
  }

  // ---------------------------------------------------------------- the console preview

  /**
   * `OutputManager._truncate_string`: text over `max_length` characters becomes
   * its first 200, the marker `/n.../n` (a slash and an `n`, as written) and its
   * last 200.
   */
  function TruncateForDisplay(text: string, maxLength: int): string
  {
    if |text| > maxLength then Take(text, 200) + "/n.../n" + Slice(text, -200, |text|) else text
  }

  /**
   * With the default limit of 500 a long text becomes exactly 407 characters,
   * keeping its first and last 200; a text within the limit is unchanged.
   */
  lemma TruncateForDisplayDefault(text: string)
    ensures |text| <= 500 ==> TruncateForDisplay(text, 500) == text
    ensures |text| > 500 ==>
      var r := TruncateForDisplay(text, 500);
      |r| == 407 && r[..200] == text[..200] && r[207..] == text[|text| - 200..] && |r| < |text|
  {
    if |text| > 500 {
      var r := TruncateForDisplay(text, 500);
      assert Take(text, 200) == text[..200];
      assert Slice(text, -200, |text|) == text[|text| - 200..];
      assert r == text[..200] + "/n.../n" + text[|text| - 200..];
    }
  }
}

=== FILE: sampling_loop.dfy ===
/**
 * One iteration of the sampling loop, over the shared message list.
 *
 * Each iteration prepares the list (cache breakpoints, image pruning and, in
 * two copies of the loop, the `""` to `"continue"` rewrite), sends it, appends
 * the assistant turn built from the response, runs every tool call in order,
 * and then appends the tool results, asks the operator what to do next, or
 * stops. The five copies of the loop differ in a few switches, gathered in
 * `Variant`. The model's response, the tools' outcomes, the operator's answer
 * and the model-written summary are parameters of the step.
 */
module SamplingLoop {
  import opened Wrappers
  import opened Text
  import opened JsonValue
  import opened Conversation
  import opened CachePolicy
  import opened ImagePolicy
  import opened ToolResults
  import opened Summary

  /** The switches that tell the copies of the loop apart. */
  datatype Variant = Variant(
    promptGate: Option<nat>,        // the operator is asked only once the list is longer than this
    perCallTurns: bool,             // one user turn per tool call instead of one merged turn
    rewriteEmpty: bool,             // `""` contents become `"continue"` before each request
    summaryThreshold: Option<nat>,  // the list is summarised once it is longer than this
    rendersWindow: bool)            // the new messages of each iteration are rendered as HTML

  const MAX_SUMMARY_MESSAGES: nat := 40
  const PROMPT_GATE: nat := 4
  const IMAGES_TO_KEEP: int := 2
  const CONTINUE: string := "continue"

  /** `loop_gfix.py` and `looptemp.py`. */
  const GFIX: Variant := Variant(None, false, false, Some(MAX_SUMMARY_MESSAGES), false)
  /** `loop_WEB.py`. */
  const WEB: Variant := Variant(Some(PROMPT_GATE), false, true, None, true)
  /** `loop_live_new.py`. */
  const LIVE_NEW: Variant := Variant(Some(PROMPT_GATE), false, true, None, false)
  /** `loop_live.py`. */
  const LIVE: Variant := Variant(None, true, false, None, false)

  /** A `tool_use` block of the assistant turn, as the dispatch loop reads it. */
  datatype ToolCall = ToolCall(id: string, name: string, input: seq<(string, Json)>)

  datatype LoopState = LoopState(messages: seq<Message>, running: bool)

  // ---------------------------------------------------------------- preparing the request

  /** Every message whose content is exactly `""` gets `"continue"` instead. */
  function RewriteEmpty(msgs: seq<Message>): seq<Message>
  {
    seq(|msgs|, i requires 0 <= i < |msgs| =>
      if msgs[i].content == Str("") then msgs[i].(content := Str(CONTINUE)) else msgs[i])
  }

  /** After the rewrite no message is empty; roles and every non-empty message are kept. */
  lemma RewriteEmptyKeeps(msgs: seq<Message>)
    ensures var r := RewriteEmpty(msgs);
      && |r| == |msgs|
      && (forall i :: 0 <= i < |r| ==> r[i].content != Str("") && r[i].role == msgs[i].role)
      && (forall i :: 0 <= i < |r| && msgs[i].content != Str("") ==> r[i] == msgs[i])
  {
  }

  /** The rewrite as the source runs it: one pass over the list, in place. */
  method RewriteEmptyContent(messages: MessageList)
    modifies messages
    ensures messages.items == RewriteEmpty(old(messages.items))
  {
    ghost var orig := messages.items;
    var i := 0;
    while i < |messages.items|
      invariant 0 <= i <= |messages.items| == |orig|
      invariant forall k :: 0 <= k < i ==> messages.items[k] == RewriteEmpty(orig)[k]
      invariant forall k :: i <= k < |orig| ==> messages.items[k] == orig[k]
    {
      if messages.items[i].content == Str("") {
        messages.items := messages.items[i := messages.items[i].(content := Str(CONTINUE))];
      }
      i := i + 1;
    }
  }

  /**
   * The caching pass of a copy. The per-call copy uses the pass that clears every
   * older marker (see `WithBreakpointsCleared`); the others use the source's pass.
   */
  function CachePass(v: Variant, msgs: seq<Message>): seq<Message>
    requires CacheReady(msgs)
  {
    if v.perCallTurns then WithBreakpointsCleared(msgs) else WithBreakpoints(msgs)
  }

  /** The list as it is sent: breakpoints, then the two newest images, then the rewrite. */
  function Prepare(v: Variant, msgs: seq<Message>): seq<Message>
    requires CacheReady(msgs)
  {
    var pruned := FilterImages(CachePass(v, msgs), Some(IMAGES_TO_KEEP));
    if v.rewriteEmpty then RewriteEmpty(pruned) else pruned
  }

  // ---------------------------------------------------------------- the assistant turn

  /** A response block as a block of the assistant turn; blocks of other kinds are skipped. */
  function ResponseParam(b: ResponseBlock): seq<Block>
  {
    match b
    case RText(t) => [TextBlock(t, false)]
    case RToolUse(id, name, input) => [ToolUseBlock(id, name, input, false)]
    case ROther => []
  }

  function ResponseParams(response: seq<ResponseBlock>): seq<Block>
  {
    if response == [] then []
    else ResponseParams(response[..|response| - 1]) + ResponseParam(response[|response| - 1])
  }

  /** At most one block per response block; none carries a marker and none is a tool result. */
  lemma {:induction false} ResponseParamsPlain(response: seq<ResponseBlock>)
    ensures var r := ResponseParams(response);
      |r| <= |response| && forall k :: 0 <= k < |r| ==> !r[k].cached && !r[k].ToolResultBlock?
    decreases |response|
  {
    if response != [] {
      ResponseParamsPlain(response[..|response| - 1]);
    }
  }

  lemma {:induction false} ResponseParamsAppend(a: seq<ResponseBlock>, b: seq<ResponseBlock>)
    ensures ResponseParams(a + b) == ResponseParams(a) + ResponseParams(b)
    decreases |b|
  {
    if b == [] {
      assert a + b == a;
    } else {
      var init := b[..|b| - 1];
      assert (a + b)[..|a + b| - 1] == a + init;
      ResponseParamsAppend(a, init);
    }
  }

  function CallOf(b: Block): seq<ToolCall>
  {
    if b.ToolUseBlock? then [ToolCall(b.id, b.name, b.input)] else []
  }

  /** The tool calls of the assistant turn, in the order they appear. */
  function ToolCalls(params: seq<Block>): (r: seq<ToolCall>)
    ensures |r| <= |params|
  {
    if params == [] then [] else ToolCalls(params[..|params| - 1]) + CallOf(params[|params| - 1])
  }

  /** A response has a tool call exactly when one of its blocks is a `tool_use`. */
  lemma {:induction false} ToolCallsOfResponse(response: seq<ResponseBlock>)
    ensures ToolCalls(ResponseParams(response)) == []
      <==> forall k :: 0 <= k < |response| ==> !response[k].RToolUse?
    decreases |response|
  {
    if response != [] {
      var init := response[..|response| - 1];
      var last := response[|response| - 1];
      ToolCallsOfResponse(init);
      ToolCallsAppend(ResponseParams(init), ResponseParam(last));
      assert forall k :: 0 <= k < |init| ==> init[k] == response[k];
      if last.RToolUse? {
        assert ResponseParam(last)[..0] == [];
        assert ToolCalls(ResponseParam(last)) == CallOf(ResponseParam(last)[0]);
      } else {
        assert ToolCalls(ResponseParam(last)) == [] by {
          if last.RText? {
            assert ResponseParam(last)[..0] == [];
          }
        }
      }
    }
  }

  lemma {:induction false} ToolCallsAppend(a: seq<Block>, b: seq<Block>)
    ensures ToolCalls(a + b) == ToolCalls(a) + ToolCalls(b)
    decreases |b|
  {
    if b == [] {
      assert a + b == a;
    } else {
      var init := b[..|b| - 1];
      assert (a + b)[..|a + b| - 1] == a + init;
      ToolCallsAppend(a, init);
    }
  }

  // ---------------------------------------------------------------- tool results and the closing turn

  /** The `tool_result` blocks of the calls, in call order. */
  function ToolResultsFor(calls: seq<ToolCall>, outcomes: seq<Outcome>): seq<Block>
    requires |calls| == |outcomes|
  {
    seq(|calls|, i requires 0 <= i < |calls| => MakeApiToolResult(outcomes[i], calls[i].id))
  }

  /** The text the per-call turn quotes: the output of a result, or the string a tool returned. */
  function OutcomeText(o: Outcome): string
  {
    match o
    case Raw(s) => s
    case Result(r) => r.output.GetOr("")
  }

  /** The user turn `loop_live.py` appends after one tool call: the result, then a description. */
  function CallTurn(c: ToolCall, o: Outcome): (m: Message)
    ensures m.role == "user" && m.content.Blocks? && |m.content.blocks| == 2
    ensures m.content.blocks[0] == MakeApiToolResult(o, c.id)
    ensures m.content.blocks[1].TextBlock? && !m.content.blocks[1].cached
    ensures StartsWith(m.content.blocks[1].text, "Tool '" + c.name + "' was called with input: ")
  {
    var prefix := "Tool '" + c.name + "' was called with input: ";
    var text := prefix + Dumps(JObj(c.input)) + ".\nResult: " + OutcomeText(o);
    assert text[..|prefix|] == prefix;
    Message("user", Blocks([MakeApiToolResult(o, c.id), TextBlock(text, false)]))
  }

  function CallTurns(calls: seq<ToolCall>, outcomes: seq<Outcome>): seq<Message>
    requires |calls| == |outcomes|
  {
    seq(|calls|, i requires 0 <= i < |calls| => CallTurn(calls[i], outcomes[i]))
  }

  /** The operator's answer ends the loop: `answer.lower()` is `"no"` or `"n"`. */
  predicate Stops(answer: string)
  {
    Lower(answer) == "no" || Lower(answer) == "n"
  }

  /** With no tool call, whether a list of `n` messages is long enough to ask the operator. */
  predicate Prompts(v: Variant, n: nat)
  {
    v.promptGate.None? || n > v.promptGate.value
  }

  /**
   * The end of an iteration as the source writes it, after the assistant turn:
   * per-call turns, or one merged turn of results, or the operator's answer. In
   * the gated copies a short list with no tool call gets a user turn whose
   * content is the empty result list.
   */
  function CloseTurnAsWritten(v: Variant, msgs: seq<Message>, calls: seq<ToolCall>, outcomes: seq<Outcome>,
                              answer: string): LoopState
    requires |calls| == |outcomes|
  {
    if v.perCallTurns then
      var turns := msgs + CallTurns(calls, outcomes);
      if calls == [] then LoopState(turns + [Message("user", Str(answer))], !Stops(answer))
      else LoopState(turns, true)
    else if calls == [] && Prompts(v, |msgs|) then
      LoopState(msgs + [Message("user", Str(answer))], !Stops(answer))
    else
      LoopState(msgs + [Message("user", Blocks(ToolResultsFor(calls, outcomes)))], true)
  }

  /** The corrected end of an iteration: where the source appends an empty list, `"continue"`. */
  function CloseTurn(v: Variant, msgs: seq<Message>, calls: seq<ToolCall>, outcomes: seq<Outcome>,
                     answer: string): LoopState
    requires |calls| == |outcomes|
  {
    if !v.perCallTurns && calls == [] && !Prompts(v, |msgs|) then
      LoopState(msgs + [Message("user", Str(CONTINUE))], true)
    else
      CloseTurnAsWritten(v, msgs, calls, outcomes, answer)
  }

  /** The assistant turn built from a response. */
  function AssistantTurn(response: seq<ResponseBlock>): Message
  {
    Message("assistant", Blocks(ResponseParams(response)))
  }

  /** One whole iteration of a running loop. */
  function Iterate(v: Variant, msgs: seq<Message>, response: seq<ResponseBlock>, outcomes: seq<Outcome>,
                   answer: string, summary: string): LoopState
    requires CacheReady(msgs)
    requires |outcomes| == |ToolCalls(ResponseParams(response))|
  {
    var turn := Prepare(v, msgs) + [AssistantTurn(response)];
    var closed := CloseTurn(v, turn, ToolCalls(ResponseParams(response)), outcomes, answer);
    match v.summaryThreshold
    case None => closed
    case Some(t) => closed.(messages := Summarize(closed.messages, t, summary))
  }

  // ---------------------------------------------------------------- the loop's own state

  /**
   * What holds of the list before every iteration: the caching pass can run,
   * and every marker sits where the pass of this copy can find it.
   */
  predicate Inv(v: Variant, msgs: seq<Message>)
  {
    CacheReady(msgs)
    && if v.perCallTurns then AllMarksOnLast(msgs) else MarksWithin(msgs, BREAKPOINTS + 1)
  }

  /**
   * What the loop's surroundings supply for one iteration: the model's reply,
   * what each tool call returned, the operator's answer when the loop asks for
   * one, and the summary model's text when the list is summarised.
   */
  datatype Round = Round(response: seq<ResponseBlock>, outcomes: seq<Outcome>, answer: string, summary: string)

  /** One outcome for every tool call of the reply. */
  predicate Answered(r: Round)
  {
    |r.outcomes| == |ToolCalls(ResponseParams(r.response))|
  }

  /** A round the loop can run: the tool calls of its reply were all run. */
  type AnsweredRound = r: Round | Answered(r) witness Round([], [], "", "")

  /**
   * The state after the loop has consumed `rounds`, iteration by iteration,
   * until the operator stops it.
   */
  function Run(v: Variant, msgs: seq<Message>, rounds: seq<AnsweredRound>): LoopState
    requires Inv(v, msgs)
    decreases |rounds|
  {
    if rounds == [] then LoopState(msgs, true)
    else
      var r := rounds[0];
      IterateKeepsInv(v, msgs, r.response, r.outcomes, r.answer, r.summary);
      var s := Iterate(v, msgs, r.response, r.outcomes, r.answer, r.summary);
      if !s.running then s else Run(v, s.messages, rounds[1..])
  }

  /** Every state the loop passes through keeps `Inv`, so every request it sends obeys `RequestMarkers`. */
  lemma {:induction false} RunKeepsInv(v: Variant, msgs: seq<Message>, rounds: seq<AnsweredRound>)
    requires Inv(v, msgs)
    ensures Inv(v, Run(v, msgs, rounds).messages)
    decreases |rounds|
  {
    if rounds != [] {
      var r := rounds[0];
      IterateKeepsInv(v, msgs, r.response, r.outcomes, r.answer, r.summary);
      var s := Iterate(v, msgs, r.response, r.outcomes, r.answer, r.summary);
      if s.running {
        RunKeepsInv(v, s.messages, rounds[1..]);
      }
    }
  }

  /**
   * The states the loop passes through: the initial list, then the state after
   * each round, up to the one where the operator stops it.
   */
  function Trace(v: Variant, msgs: seq<Message>, rounds: seq<AnsweredRound>): seq<LoopState>
    requires Inv(v, msgs)
    decreases |rounds|
  {
    [LoopState(msgs, true)]
    + if rounds == [] then []
      else
        var r := rounds[0];
        IterateKeepsInv(v, msgs, r.response, r.outcomes, r.answer, r.summary);
        var s := Iterate(v, msgs, r.response, r.outcomes, r.answer, r.summary);
        if s.running then Trace(v, s.messages, rounds[1..]) else [s]
  }

  /** A running state of the trace with a round left is followed by that round's iteration. */
  lemma {:induction false} TraceStep(v: Variant, msgs: seq<Message>, rounds: seq<AnsweredRound>, k: nat)
    requires Inv(v, msgs)
    requires k < |Trace(v, msgs, rounds)| && k < |rounds| && Trace(v, msgs, rounds)[k].running
    ensures var t := Trace(v, msgs, rounds);
      var r := rounds[k];
      && Inv(v, t[k].messages) && k + 1 < |t|
      && t[k + 1] == Iterate(v, t[k].messages, r.response, r.outcomes, r.answer, r.summary)
    decreases k
  {
    var r := rounds[0];
    IterateKeepsInv(v, msgs, r.response, r.outcomes, r.answer, r.summary);
    var s := Iterate(v, msgs, r.response, r.outcomes, r.answer, r.summary);
    if k > 0 && s.running {
      TraceStep(v, s.messages, rounds[1..], k - 1);
      assert rounds[1..][k - 1] == rounds[k];
    }
  }

  /** The trace ends where the loop ends: at a stop, or when the rounds run out. */
  lemma TraceEnd(v: Variant, msgs: seq<Message>, rounds: seq<AnsweredRound>, k: nat)
    requires Inv(v, msgs)
    requires k < |Trace(v, msgs, rounds)| && (!Trace(v, msgs, rounds)[k].running || k == |rounds|)
    ensures Trace(v, msgs, rounds)[k] == Run(v, msgs, rounds)
  {
    TraceShape(v, msgs, rounds);
  }

  /**
   * The shape of a trace of a loop given `n` rounds: every state but the last
   * is running; the last is `last`, and it is running only when every round
   * was used.
   */
  ghost predicate Shaped(t: seq<LoopState>, last: LoopState, n: nat)
  {
    && 1 <= |t| <= n + 1
    && (forall i :: 0 <= i < |t| - 1 ==> t[i].running)
    && t[|t| - 1] == last
    && (last.running ==> |t| == n + 1)
  }

  /** A running state in front of a trace of `n` rounds gives a trace of `n + 1`. */
  lemma ShapedCons(first: LoopState, t: seq<LoopState>, last: LoopState, n: nat)
    requires first.running && Shaped(t, last, n)
    ensures Shaped([first] + t, last, n + 1)
  {
    var u := [first] + t;
    forall i | 0 <= i < |u| - 1
      ensures u[i].running
    {
      if i > 0 {
        assert u[i] == t[i - 1];
      }
    }
  }

  /** The trace has the shape of its rounds, and its last state is what `Run` returns. */
  lemma {:induction false} TraceShape(v: Variant, msgs: seq<Message>, rounds: seq<AnsweredRound>)
    requires Inv(v, msgs)
    ensures Shaped(Trace(v, msgs, rounds), Run(v, msgs, rounds), |rounds|)
    decreases |rounds|
  {
    if rounds == [] {
      assert Trace(v, msgs, rounds) == [LoopState(msgs, true)];
    } else {
      var r := rounds[0];
      IterateKeepsInv(v, msgs, r.response, r.outcomes, r.answer, r.summary);
      var s := Iterate(v, msgs, r.response, r.outcomes, r.answer, r.summary);
      if s.running {
        TraceRunning(v, msgs, rounds);
        TraceShape(v, s.messages, rounds[1..]);
        ShapedCons(LoopState(msgs, true), Trace(v, s.messages, rounds[1..]), Run(v, s.messages, rounds[1..]), |rounds| - 1);
      } else {
        TraceStopped(v, msgs, rounds);
      }
    }
  }

  /** When the first round keeps the loop running, the trace and the run go on from its state. */
  lemma TraceRunning(v: Variant, msgs: seq<Message>, rounds: seq<AnsweredRound>)
    requires Inv(v, msgs) && rounds != []
    requires Iterate(v, msgs, rounds[0].response, rounds[0].outcomes, rounds[0].answer, rounds[0].summary).running
    ensures var s := Iterate(v, msgs, rounds[0].response, rounds[0].outcomes, rounds[0].answer, rounds[0].summary);
      && Inv(v, s.messages)
      && Trace(v, msgs, rounds) == [LoopState(msgs, true)] + Trace(v, s.messages, rounds[1..])
      && Run(v, msgs, rounds) == Run(v, s.messages, rounds[1..])
  {
    var r := rounds[0];
    IterateKeepsInv(v, msgs, r.response, r.outcomes, r.answer, r.summary);
  }

  /** When the first round stops the loop, the trace is the initial state and that round's. */
  lemma TraceStopped(v: Variant, msgs: seq<Message>, rounds: seq<AnsweredRound>)
    requires Inv(v, msgs) && rounds != []
    requires !Iterate(v, msgs, rounds[0].response, rounds[0].outcomes, rounds[0].answer, rounds[0].summary).running
    ensures var s := Iterate(v, msgs, rounds[0].response, rounds[0].outcomes, rounds[0].answer, rounds[0].summary);
      Trace(v, msgs, rounds) == [LoopState(msgs, true), s] && Run(v, msgs, rounds) == s
  {
  }

  /** The total number of messages in the rendered windows. */
  function Shown(windows: seq<seq<Message>>): nat
  {
    if windows == [] then 0 else Shown(windows[..|windows| - 1]) + |windows[|windows| - 1]|
  }

  /**
   * `sampling_loop`: iterates while `running`, over the rounds its surroundings
   * supply. The final list and flag are `Run` of the initial list. The copy that
   * renders shows every message exactly once, in order, except the closing user
   * turn, which the next iteration would show.
   */
  method SamplingLoop(v: Variant, messages: MessageList, rounds: seq<AnsweredRound>)
    returns (final: MessageList, running: bool, windows: seq<seq<Message>>)
    requires Inv(v, messages.items)
    requires v.rendersWindow ==> !v.perCallTurns && v.summaryThreshold.None?
    modifies messages
    ensures final == messages || fresh(final)
    ensures LoopState(final.items, running) == Run(v, old(messages.items), rounds)
    ensures !v.rendersWindow ==> windows == []
    ensures v.rendersWindow && windows != [] ==> Shown(windows) + 1 == |final.items|
  {
    ghost var initial := messages.items;
    ghost var trace := Trace(v, initial, rounds);
    final := messages;
    running := true;
    windows := [];
    var rendered: nat := 0;
    var k := 0;
    while running && k < |rounds|
      invariant k <= |rounds| && k < |trace| && trace[k] == LoopState(final.items, running)
      invariant final == messages || fresh(final)
      invariant rendered == Shown(windows) <= |final.items|
      invariant !v.rendersWindow ==> windows == [] && rendered == 0
      invariant v.rendersWindow && windows != [] ==> rendered + 1 == |final.items|
      decreases |rounds| - k
    {
      var next, window, stop := Advance(v, final, rendered, rounds, k, initial, trace);
      if v.rendersWindow {
        assert Shown(windows + [window]) == Shown(windows) + |window| by {
          assert (windows + [window])[..|windows|] == windows;
        }
        windows := windows + [window];
        rendered := rendered + |window|;
      }
      final := next;
      running := !stop;
      k := k + 1;
    }
    TraceEnd(v, initial, rounds, k);
  }

  /** One pass of the loop body: round `k` takes the trace from its `k`-th state to the next. */
  method Advance(v: Variant, conv: MessageList, rendered: nat, rounds: seq<AnsweredRound>, k: nat,
                 ghost initial: seq<Message>, ghost trace: seq<LoopState>)
    returns (next: MessageList, window: seq<Message>, stop: bool)
    requires Inv(v, initial) && trace == Trace(v, initial, rounds)
    requires k < |trace| && k < |rounds| && trace[k] == LoopState(conv.items, true)
    requires rendered <= |conv.items|
    requires v.rendersWindow ==> !v.perCallTurns && v.summaryThreshold.None?
    modifies conv
    ensures next == conv || fresh(next)
    ensures k + 1 < |trace| && trace[k + 1] == LoopState(next.items, !stop)
    ensures v.rendersWindow ==> |next.items| == |old(conv.items)| + 2 && |window| == |old(conv.items)| + 1 - rendered
    ensures !v.rendersWindow ==> window == []
  {
    var r := rounds[k];
    TraceStep(v, initial, rounds, k);
    next, window, stop := RunIteration(v, conv, rendered, r.response, r.outcomes, r.answer, r.summary);
  }

  /**
   * One iteration on the shared list, as the loop body runs it. Returns the list
   * the loop holds afterwards (a new one when it was summarised), the messages
   * rendered from `rendered` on, and whether the operator stopped the loop.
   */
  method RunIteration(v: Variant, conv: MessageList, rendered: nat, response: seq<ResponseBlock>,
                      outcomes: seq<Outcome>, answer: string, summary: string)
    returns (next: MessageList, window: seq<Message>, stop: bool)
    requires Inv(v, conv.items) && rendered <= |conv.items|
    requires v.rendersWindow ==> !v.perCallTurns && v.summaryThreshold.None?
    requires |outcomes| == |ToolCalls(ResponseParams(response))|
    modifies conv
    ensures next == conv || fresh(next)
    ensures LoopState(next.items, !stop) == Iterate(v, old(conv.items), response, outcomes, answer, summary)
    ensures v.rendersWindow ==>
      |next.items| == |old(conv.items)| + 2 && window == next.items[rendered..|old(conv.items)| + 1]
    ensures !v.rendersWindow ==> window == []
  {
    ghost var before := conv.items;
    RequestMarkers(v, before);
    var params := BeginTurn(v, conv, response);
    window := [];
    if v.rendersWindow {
      window := conv.items[rendered..];
    }
    ghost var turn := conv.items;
    stop := FinishTurn(v, conv, params, outcomes, answer);
    ghost var closed := LoopState(conv.items, !stop);
    next := conv;
    if v.summaryThreshold.Some? && |conv.items| > v.summaryThreshold.value {
      next := new MessageList(Summarize(conv.items, v.summaryThreshold.value, summary));
    }
    IterateIs(v, before, response, outcomes, answer, summary, closed);
    if v.rendersWindow {
      ClosingTurnsReady(v, turn, ToolCalls(params), outcomes, answer);
      assert next.items[..|turn|] == turn;
      assert window == next.items[..|turn|][rendered..];
    }
  }

  lemma IterateIs(v: Variant, msgs: seq<Message>, response: seq<ResponseBlock>, outcomes: seq<Outcome>,
                  answer: string, summary: string, closed: LoopState)
    requires CacheReady(msgs)
    requires |outcomes| == |ToolCalls(ResponseParams(response))|
    requires closed == CloseTurn(v, Prepare(v, msgs) + [AssistantTurn(response)], ToolCalls(ResponseParams(response)), outcomes, answer)
    ensures v.summaryThreshold.None? ==> Iterate(v, msgs, response, outcomes, answer, summary) == closed
    ensures v.summaryThreshold.Some? ==>
      Iterate(v, msgs, response, outcomes, answer, summary)
      == closed.(messages := Summarize(closed.messages, v.summaryThreshold.value, summary))
  {
  }

  /** Everything before the tool calls: the passes over the list and the assistant turn. */
  method BeginTurn(v: Variant, conv: MessageList, response: seq<ResponseBlock>) returns (params: seq<Block>)
    requires CacheReady(conv.items)
    modifies conv
    ensures params == ResponseParams(response)
    ensures conv.items == Prepare(v, old(conv.items)) + [AssistantTurn(response)]
  {
    PrepareRequest(v, conv);
    params := CollectParams(response);
    conv.Append(Message("assistant", Blocks(params)));
  }

  /** Everything after the assistant turn: the tool calls and the closing turn. Returns whether the loop stops. */
  method FinishTurn(v: Variant, conv: MessageList, params: seq<Block>, outcomes: seq<Outcome>, answer: string)
    returns (stop: bool)
    requires |outcomes| == |ToolCalls(params)|
    modifies conv
    ensures LoopState(conv.items, !stop) == CloseTurn(v, old(conv.items), ToolCalls(params), outcomes, answer)
  {
    ghost var turn := conv.items;
    var results;
    if v.perCallTurns {
      results := DispatchPerCall(conv, params, outcomes);
    } else {
      results := CollectToolResults(params, outcomes);
    }
    stop := CloseTurnIn(v, conv, turn, results, ToolCalls(params), outcomes, answer);
  }

  /** The passes that run on the shared list before each request. */
  method PrepareRequest(v: Variant, conv: MessageList)
    requires CacheReady(conv.items)
    modifies conv
    ensures conv.items == Prepare(v, old(conv.items))
  {
    if v.perCallTurns {
      InjectPromptCachingCleared(conv);
    } else {
      InjectPromptCaching(conv);
    }
    FilterToMostRecentImages(conv, Some(IMAGES_TO_KEEP), 1);
    if v.rewriteEmpty {
      RewriteEmptyContent(conv);
    }
  }

  /**
   * The end of an iteration, after the tool calls ran: the operator's answer, the
   * merged results, or (corrected) `"continue"`. Returns whether the loop stops.
   */
  method CloseTurnIn(v: Variant, conv: MessageList, ghost turn: seq<Message>, results: seq<Block>,
                     ghost calls: seq<ToolCall>, outcomes: seq<Outcome>, answer: string)
    returns (stop: bool)
    requires |calls| == |outcomes| && results == ToolResultsFor(calls, outcomes)
    requires conv.items == turn + (if v.perCallTurns then CallTurns(calls, outcomes) else [])
    modifies conv
    ensures CloseTurn(v, turn, calls, outcomes, answer) == LoopState(conv.items, !stop)
  {
    stop := false;
    if v.perCallTurns {
      if results == [] {
        stop := Stops(answer);
        conv.Append(Message("user", Str(answer)));
      }
    } else if results == [] && Prompts(v, |conv.items|) {
      stop := Stops(answer);
      conv.Append(Message("user", Str(answer)));
    } else if results == [] {
      conv.Append(Message("user", Str(CONTINUE)));
    } else {
      conv.Append(Message("user", Blocks(results)));
    }
  }

  /** The loop over `response.content` that builds the assistant turn. */
  method CollectParams(response: seq<ResponseBlock>) returns (params: seq<Block>)
    ensures params == ResponseParams(response)
  {
    params := [];
    var i := 0;
    while i < |response|
      invariant 0 <= i <= |response| && params == ResponseParams(response[..i])
    {
      assert response[..i + 1][..i] == response[..i];
      params := params + ResponseParam(response[i]);
      i := i + 1;
    }
    assert response[..i] == response;
  }

  lemma ToolCallsStep(params: seq<Block>, i: nat)
    requires i < |params|
    ensures ToolCalls(params[..i + 1]) == ToolCalls(params[..i]) + CallOf(params[i])
    ensures |ToolCalls(params[..i])| + |CallOf(params[i])| <= |ToolCalls(params)|
  {
    assert params[..i + 1][..i] == params[..i];
    var head, tail := params[..i + 1], params[i + 1..];
    assert head + tail == params;
    ToolCallsAppend(head, tail);
  }

  /**
   * One step of the dispatch loops over the assistant turn: a `tool_use` block
   * adds its call, its result block and its per-call turn; any other block adds nothing.
   */
  lemma DispatchStep(params: seq<Block>, outcomes: seq<Outcome>, i: nat, calls: seq<ToolCall>)
    requires |outcomes| == |ToolCalls(params)|
    requires i < |params| && calls == ToolCalls(params[..i])
    ensures var b := params[i];
      && (!b.ToolUseBlock? ==> ToolCalls(params[..i + 1]) == calls)
      && (b.ToolUseBlock? ==>
            var k := |calls|;
            && k < |outcomes|
            && ToolCalls(params[..i + 1]) == calls + [ToolCall(b.id, b.name, b.input)]
            && outcomes[..k + 1] == outcomes[..k] + [outcomes[k]])
  {
    ToolCallsStep(params, i);
  }

  lemma ResultsSnoc(calls: seq<ToolCall>, os: seq<Outcome>, c: ToolCall, o: Outcome)
    requires |calls| == |os|
    ensures ToolResultsFor(calls + [c], os + [o]) == ToolResultsFor(calls, os) + [MakeApiToolResult(o, c.id)]
  {
  }

  lemma TurnsSnoc(calls: seq<ToolCall>, os: seq<Outcome>, c: ToolCall, o: Outcome)
    requires |calls| == |os|
    ensures CallTurns(calls + [c], os + [o]) == CallTurns(calls, os) + [CallTurn(c, o)]
  {
  }

  /** The loop over the assistant turn that runs each tool call, in order, and collects its `tool_result`. */
  method CollectToolResults(params: seq<Block>, outcomes: seq<Outcome>) returns (results: seq<Block>)
    requires |outcomes| == |ToolCalls(params)|
    ensures results == ToolResultsFor(ToolCalls(params), outcomes)
  {
    results := [];
    ghost var calls: seq<ToolCall> := [];
    var k := 0;
    var i := 0;
    while i < |params|
      invariant 0 <= i <= |params| && calls == ToolCalls(params[..i])
      invariant k == |calls| <= |outcomes|
      invariant results == ToolResultsFor(calls, outcomes[..k])
    {
      DispatchStep(params, outcomes, i, calls);
      var b := params[i];
      if b.ToolUseBlock? {
        var call := ToolCall(b.id, b.name, b.input);
        ResultsSnoc(calls, outcomes[..k], call, outcomes[k]);
        results := results + [MakeApiToolResult(outcomes[k], b.id)];
        calls := calls + [call];
        k := k + 1;
      }
      i := i + 1;
    }
    assert params[..i] == params;
    assert outcomes[..k] == outcomes;
  }

  /**
   * The same loop in `loop_live.py`: after each call it also appends a user turn
   * holding that call's result and a description of the call.
   */
  method DispatchPerCall(conv: MessageList, params: seq<Block>, outcomes: seq<Outcome>) returns (results: seq<Block>)
    requires |outcomes| == |ToolCalls(params)|
    modifies conv
    ensures results == ToolResultsFor(ToolCalls(params), outcomes)
    ensures conv.items == old(conv.items) + CallTurns(ToolCalls(params), outcomes)
  {
    ghost var start := conv.items;
    ghost var turns: seq<Message> := [];
    results := [];
    var k := 0;
    var i := 0;
    assert params[..0] == [] && outcomes[..0] == [];
    while i < |params|
      invariant conv.items == start + turns
      invariant Dispatched(params, outcomes, i, k, results, turns)
    {
      DispatchedStep(params, outcomes, i, k, results, turns);
      var b := params[i];
      if b.ToolUseBlock? {
        var call := ToolCall(b.id, b.name, b.input);
        var turn := CallTurn(call, outcomes[k]);
        results := results + [MakeApiToolResult(outcomes[k], b.id)];
        conv.Append(turn);
        turns := turns + [turn];
        k := k + 1;
      }
      i := i + 1;
    }
    DispatchedAll(params, outcomes, k, results, turns);
  }

  /** After the first `i` blocks: `k` calls run, their results and their turns collected in order. */
  ghost predicate Dispatched(params: seq<Block>, outcomes: seq<Outcome>, i: nat, k: nat,
                             results: seq<Block>, turns: seq<Message>)
  {
    && i <= |params| && k == |ToolCalls(params[..i])| <= |outcomes|
    && results == ToolResultsFor(ToolCalls(params[..i]), outcomes[..k])
    && turns == CallTurns(ToolCalls(params[..i]), outcomes[..k])
  }

  lemma DispatchedStep(params: seq<Block>, outcomes: seq<Outcome>, i: nat, k: nat,
                       results: seq<Block>, turns: seq<Message>)
    requires |outcomes| == |ToolCalls(params)| && i < |params|
    requires Dispatched(params, outcomes, i, k, results, turns)
    ensures var b := params[i];
      && (!b.ToolUseBlock? ==> Dispatched(params, outcomes, i + 1, k, results, turns))
      && (b.ToolUseBlock? ==>
            && k < |outcomes|
            && Dispatched(params, outcomes, i + 1, k + 1, results + [MakeApiToolResult(outcomes[k], b.id)],
                          turns + [CallTurn(ToolCall(b.id, b.name, b.input), outcomes[k])]))
  {
    var calls := ToolCalls(params[..i]);
    DispatchStep(params, outcomes, i, calls);
    var b := params[i];
    if b.ToolUseBlock? {
      var c := ToolCall(b.id, b.name, b.input);
      ResultsSnoc(calls, outcomes[..k], c, outcomes[k]);
      TurnsSnoc(calls, outcomes[..k], c, outcomes[k]);
    }
  }

  lemma DispatchedAll(params: seq<Block>, outcomes: seq<Outcome>, k: nat, results: seq<Block>, turns: seq<Message>)
    requires |outcomes| == |ToolCalls(params)|
    requires Dispatched(params, outcomes, |params|, k, results, turns)
    ensures results == ToolResultsFor(ToolCalls(params), outcomes)
    ensures turns == CallTurns(ToolCalls(params), outcomes)
  {
    assert params[..|params|] == params;
    assert outcomes[..k] == outcomes;
  }

  // ---------------------------------------------------------------- what an iteration does

  /** Two lists with the same roles, content kinds, block counts and markers. */
  predicate SameSkeleton(a: seq<Message>, b: seq<Message>)
  {
    |a| == |b|
    && forall i :: 0 <= i < |a| ==>
      a[i].role == b[i].role && a[i].content.Blocks? == b[i].content.Blocks?
      && (a[i].content.Blocks? ==>
        |a[i].content.blocks| == |b[i].content.blocks|
        && forall j :: 0 <= j < |a[i].content.blocks| ==> a[i].content.blocks[j].cached == b[i].content.blocks[j].cached)
  }

  lemma {:induction false} CachedCountSame(x: seq<Block>, y: seq<Block>)
    requires |x| == |y| && forall j :: 0 <= j < |x| ==> x[j].cached == y[j].cached
    ensures CachedCount(x) == CachedCount(y)
  {
    if x != [] {
      CachedCountSame(x[1..], y[1..]);
    }
  }

  lemma {:induction false} MarksSame(a: seq<Message>, b: seq<Message>)
    requires SameSkeleton(a, b)
    ensures Marks(a) == Marks(b)
  {
    if a != [] {
      if a[0].content.Blocks? {
        CachedCountSame(a[0].content.blocks, b[0].content.blocks);
      }
      assert SameSkeleton(a[1..], b[1..]);
      MarksSame(a[1..], b[1..]);
    }
  }

  /** Whatever keeps the skeleton keeps everything the caching rules look at. */
  lemma SkeletonKeepsMarkers(a: seq<Message>, b: seq<Message>, k: nat)
    requires SameSkeleton(a, b)
    ensures CacheReady(a) <==> CacheReady(b)
    ensures CountQ(a) == CountQ(b) && Marks(a) == Marks(b)
    ensures AllMarksOnLast(a) <==> AllMarksOnLast(b)
    ensures MarksWithin(a, k) <==> MarksWithin(b, k)
  {
    CountQSamePattern(a, b);
    MarksSame(a, b);
    forall i | 0 <= i < |a| ensures Rank(a, i) == Rank(b, i) && MessageMarks(a[i]) == MessageMarks(b[i]) {
      CountQSamePattern(a[i + 1..], b[i + 1..]);
      if a[i].content.Blocks? {
        CachedCountSame(a[i].content.blocks, b[i].content.blocks);
      }
    }
  }

  /** Image pruning changes only the parts of tool results. */
  lemma PruningKeepsSkeleton(msgs: seq<Message>, keep: int)
    ensures SameSkeleton(FilterImages(msgs, Some(keep)), msgs)
  {
    var r := FilterImages(msgs, Some(keep));
    DropImagesKeepsOthers(msgs, ToRemove(|Images(msgs)|, keep));
    forall i | 0 <= i < |msgs| && msgs[i].content.Blocks?
      ensures r[i].content.Blocks? && |r[i].content.blocks| == |msgs[i].content.blocks|
      ensures forall j :: 0 <= j < |r[i].content.blocks| ==> r[i].content.blocks[j].cached == msgs[i].content.blocks[j].cached
    {
      var x := MessageWithoutImages(r[i]);
      assert x == MessageWithoutImages(msgs[i]);
      forall j | 0 <= j < |r[i].content.blocks|
        ensures r[i].content.blocks[j].cached == msgs[i].content.blocks[j].cached
      {
        assert x.content.blocks[j] == BlockWithoutImages(r[i].content.blocks[j]);
        assert x.content.blocks[j] == BlockWithoutImages(msgs[i].content.blocks[j]);
      }
    }
    forall i | 0 <= i < |msgs| ensures r[i].role == msgs[i].role && r[i].content.Blocks? == msgs[i].content.Blocks? {
      assert MessageWithoutImages(r[i]) == MessageWithoutImages(msgs[i]);
    }
  }

  /**
   * The bound on cache breakpoints. Whatever list the loop holds before an
   * iteration, the request carries markers on exactly the newest two user turns
   * with list content, so `min(2, such turns)` of them.
   */
  lemma RequestMarkers(v: Variant, msgs: seq<Message>)
    requires Inv(v, msgs)
    ensures |Prepare(v, msgs)| == |msgs| && CacheReady(Prepare(v, msgs))
    ensures MarksWithin(Prepare(v, msgs), BREAKPOINTS)
    ensures Marks(Prepare(v, msgs)) == if CountQ(msgs) < BREAKPOINTS then CountQ(msgs) else BREAKPOINTS
  {
    CachePassMarkers(v, msgs);
    PassesAfterCachingKeepSkeleton(CachePass(v, msgs), v.rewriteEmpty);
    SkeletonKeepsMarkers(Prepare(v, msgs), CachePass(v, msgs), BREAKPOINTS);
  }

  /** The caching pass of either kind leaves markers on exactly the newest two qualifying turns. */
  lemma CachePassMarkers(v: Variant, msgs: seq<Message>)
    requires Inv(v, msgs)
    ensures var c := CachePass(v, msgs);
      && |c| == |msgs| && CacheReady(c) && MarksWithin(c, BREAKPOINTS)
      && Marks(c) == if CountQ(msgs) < BREAKPOINTS then CountQ(msgs) else BREAKPOINTS
  {
    if v.perCallTurns {
      ClearedPlacesNewestTwo(msgs);
    } else {
      CachingPlacesNewestTwo(msgs);
      PassKeepsRanks(msgs);
      CountQSamePattern(WithBreakpoints(msgs), msgs);
    }
  }

  /** Image pruning and the rewrite of empty content change no role, no list length and no marker. */
  lemma PassesAfterCachingKeepSkeleton(c: seq<Message>, rewrite: bool)
    ensures var pruned := FilterImages(c, Some(IMAGES_TO_KEEP));
      SameSkeleton(if rewrite then RewriteEmpty(pruned) else pruned, c)
  {
    var pruned := FilterImages(c, Some(IMAGES_TO_KEEP));
    PruningKeepsSkeleton(c, IMAGES_TO_KEEP);
    if rewrite {
      RewriteEmptyKeeps(pruned);
      assert SameSkeleton(RewriteEmpty(pruned), pruned);
      SkeletonTransitive(RewriteEmpty(pruned), pruned, c);
    }
  }

  lemma SkeletonTransitive(a: seq<Message>, b: seq<Message>, c: seq<Message>)
    requires SameSkeleton(a, b) && SameSkeleton(b, c)
    ensures SameSkeleton(a, c)
  {
  }

  lemma {:induction false} CountQAppend(a: seq<Message>, b: seq<Message>)
    ensures CountQ(a + b) == CountQ(a) + CountQ(b)
  {
    if a == [] {
      assert a + b == b;
    } else {
      assert (a + b)[1..] == a[1..] + b;
      CountQAppend(a[1..], b);
    }
  }

  /**
   * Appending turns without markers pushes every old marker back by the number
   * of qualifying turns appended.
   */
  lemma AppendUnmarked(p: seq<Message>, extra: seq<Message>, k: nat)
    requires forall e :: 0 <= e < |extra| ==> NoMarkers(extra[e])
    ensures AllMarksOnLast(p) ==> AllMarksOnLast(p + extra)
    ensures MarksWithin(p, k) ==> MarksWithin(p + extra, k + CountQ(extra))
  {
    var q := p + extra;
    forall i | |p| <= i < |q| ensures MarkOnLastOnly(q[i]) && MessageMarks(q[i]) == 0 {
      assert q[i] == extra[i - |p|];
      if q[i].content.Blocks? {
        CachedCountNone(q[i].content.blocks);
      }
    }
    forall i | 0 <= i < |p| ensures Rank(q, i) == Rank(p, i) + CountQ(extra) {
      assert q[i + 1..] == p[i + 1..] + extra;
      CountQAppend(p[i + 1..], extra);
    }
  }

  /** The turns an iteration appends carry no marker and never have an empty list. */
  lemma ClosingTurnsReady(v: Variant, msgs: seq<Message>, calls: seq<ToolCall>, outcomes: seq<Outcome>, answer: string)
    requires |calls| == |outcomes|
    ensures var r := CloseTurn(v, msgs, calls, outcomes, answer).messages;
      |r| >= |msgs| && r[..|msgs|] == msgs
      && (forall e :: |msgs| <= e < |r| ==> NoMarkers(r[e]) && r[e].role == "user"
                                            && (r[e].content.Blocks? ==> |r[e].content.blocks| > 0))
      && (!v.perCallTurns ==> |r| == |msgs| + 1 && CountQ(r[|msgs|..]) <= 1)
  {
    var r := CloseTurn(v, msgs, calls, outcomes, answer).messages;
    var extra := r[|msgs|..];
    assert r == msgs + extra;
    if !v.perCallTurns {
      assert |extra| == 1;
      assert extra[1..] == [];
    }
  }

  /** The closing turns keep the invariant of a prepared list with the assistant turn appended. */
  lemma CloseKeepsInv(v: Variant, p: seq<Message>, a: Message, calls: seq<ToolCall>, outcomes: seq<Outcome>,
                      answer: string)
    requires CacheReady(p) && MarksWithin(p, BREAKPOINTS)
    requires NoMarkers(a) && !Qualifies(a)
    requires |calls| == |outcomes|
    ensures Inv(v, CloseTurn(v, p + [a], calls, outcomes, answer).messages)
  {
    ClosingTurnsReady(v, p + [a], calls, outcomes, answer);
    ExtendKeepsInv(v, p, a, CloseTurn(v, p + [a], calls, outcomes, answer).messages);
  }

  /**
   * A prepared list, then an unmarked assistant turn, then user turns without
   * markers and with non-empty lists (at most one of them qualifying unless
   * this copy clears stale markers) satisfies the invariant.
   */
  lemma ExtendKeepsInv(v: Variant, p: seq<Message>, a: Message, closed: seq<Message>)
    requires CacheReady(p) && MarksWithin(p, BREAKPOINTS)
    requires NoMarkers(a) && !Qualifies(a)
    requires |closed| >= |p| + 1 && closed[..|p| + 1] == p + [a]
    requires forall e :: |p| + 1 <= e < |closed| ==>
      NoMarkers(closed[e]) && (closed[e].content.Blocks? ==> |closed[e].content.blocks| > 0)
    requires !v.perCallTurns ==> CountQ(closed[|p| + 1..]) <= 1
    ensures Inv(v, closed)
  {
    var extra := closed[|p|..];
    assert closed == p + extra;
    assert extra == [a] + closed[|p| + 1..];
    assert forall e :: 0 <= e < |extra| ==> NoMarkers(extra[e]) by {
      forall e | 0 <= e < |extra| ensures NoMarkers(extra[e]) {
        if e > 0 {
          assert extra[e] == closed[|p| + e];
        }
      }
    }
    AppendUnmarked(p, extra, BREAKPOINTS);
    CountQAppend([a], closed[|p| + 1..]);
    assert CountQ([a]) == 0;
    forall i | 0 <= i < |closed| && Qualifies(closed[i]) ensures |closed[i].content.blocks| > 0 {
      if i < |p| {
        assert closed[i] == p[i];
      }
    }
  }

  /** Summarising keeps the invariant: the first message keeps its markers, the summary has none. */
  lemma SummarizeKeepsInv(v: Variant, msgs: seq<Message>, t: nat, summary: string)
    requires Inv(v, msgs)
    ensures Inv(v, Summarize(msgs, t, summary))
  {
    var r := Summarize(msgs, t, summary);
    if r != msgs {
      assert r == [msgs[0], SummaryMessage(summary)];
      SummarizeKeepsCacheReady(msgs, t, summary);
      CachedCountNone(r[1].content.blocks);
      assert r[1..] == [r[1]] && r[2..] == [];
      assert CountQ([r[1]]) == 1 + CountQ([r[1]][1..]);
      assert [r[1]][1..] == [];
    }
  }

  /**
   * Every iteration keeps the invariant, so the caching pass never meets an empty
   * list and the bound of `RequestMarkers` holds at every request.
   */
  lemma IterateKeepsInv(v: Variant, msgs: seq<Message>, response: seq<ResponseBlock>, outcomes: seq<Outcome>,
                        answer: string, summary: string)
    requires Inv(v, msgs)
    requires |outcomes| == |ToolCalls(ResponseParams(response))|
    ensures Inv(v, Iterate(v, msgs, response, outcomes, answer, summary).messages)
  {
    RequestMarkers(v, msgs);
    ResponseParamsPlain(response);
    var a := AssistantTurn(response);
    var calls := ToolCalls(ResponseParams(response));
    CloseKeepsInv(v, Prepare(v, msgs), a, calls, outcomes, answer);
    var closed := CloseTurn(v, Prepare(v, msgs) + [a], calls, outcomes, answer).messages;
    if v.summaryThreshold.Some? {
      SummarizeKeepsInv(v, closed, v.summaryThreshold.value, summary);
    }
  }

  // ---------------------------------------------------------------- what an iteration promises

  /** A copy that appends one turn per tool call asks the operator whenever no tool ran. */
  predicate Gated(v: Variant)
  {
    v.perCallTurns ==> v.promptGate.None?
  }

  /**
   * The end of an iteration stops the loop exactly when no tool ran, the list is
   * long enough for the operator to be asked, and the answer is `no` or `n`. It
   * only appends to the list.
   */
  lemma CloseTurnStops(v: Variant, msgs: seq<Message>, calls: seq<ToolCall>, outcomes: seq<Outcome>, answer: string)
    requires |calls| == |outcomes| && Gated(v)
    ensures var s := CloseTurn(v, msgs, calls, outcomes, answer);
      && (!s.running <==> calls == [] && Prompts(v, |msgs|) && Stops(answer))
      && |s.messages| > |msgs| && s.messages[..|msgs|] == msgs
  {
    var s := CloseTurn(v, msgs, calls, outcomes, answer);
    if v.perCallTurns {
      assert s.messages[..|msgs|] == msgs;
    }
  }

  /**
   * When the operator is asked, the answer is appended verbatim as the user turn,
   * whatever it says.
   */
  lemma AnswerAppended(v: Variant, msgs: seq<Message>, answer: string)
    requires Gated(v) && Prompts(v, |msgs|)
    ensures CloseTurn(v, msgs, [], [], answer).messages == msgs + [Message("user", Str(answer))]
  {
    if v.perCallTurns {
      assert CallTurns([], []) == [];
    }
  }

  /**
   * After tool calls, the merged copies append one user turn holding one
   * `tool_result` per call, in call order, each answering its call's id and
   * marked as an error exactly when the tool failed with a string.
   */
  lemma MergedTurnHoldsResults(v: Variant, msgs: seq<Message>, calls: seq<ToolCall>, outcomes: seq<Outcome>,
                               answer: string)
    requires |calls| == |outcomes| && calls != [] && !v.perCallTurns
    ensures var s := CloseTurn(v, msgs, calls, outcomes, answer);
      && s.running && |s.messages| == |msgs| + 1 && s.messages[..|msgs|] == msgs
      && var last := s.messages[|msgs|];
      && last.role == "user" && last.content.Blocks? && |last.content.blocks| == |calls|
      && forall i :: 0 <= i < |calls| ==>
        var b := last.content.blocks[i];
        b.ToolResultBlock? && b.toolUseId == calls[i].id && (b.isError <==> outcomes[i].Raw?)
  {
    forall i | 0 <= i < |calls| {
      ToolResultShape(outcomes[i], calls[i].id);
    }
  }

  /**
   * After tool calls, the per-call copy appends one user turn per call, in call
   * order, each opening with the `tool_result` of its call, and goes on.
   */
  lemma PerCallTurnsFollowCalls(v: Variant, msgs: seq<Message>, calls: seq<ToolCall>, outcomes: seq<Outcome>,
                                answer: string)
    requires |calls| == |outcomes| && calls != [] && v.perCallTurns
    ensures var s := CloseTurn(v, msgs, calls, outcomes, answer);
      && s.running && |s.messages| == |msgs| + |calls| && s.messages[..|msgs|] == msgs
      && forall i :: 0 <= i < |calls| ==>
        var m := s.messages[|msgs| + i];
        m.role == "user" && m.content.Blocks? && |m.content.blocks| == 2
        && m.content.blocks[0].ToolResultBlock? && m.content.blocks[0].toolUseId == calls[i].id
        && (m.content.blocks[0].isError <==> outcomes[i].Raw?)
  {
    var s := CloseTurn(v, msgs, calls, outcomes, answer);
    assert s.messages == msgs + CallTurns(calls, outcomes);
    forall i | 0 <= i < |calls|
      ensures s.messages[|msgs| + i] == CallTurn(calls[i], outcomes[i])
    {
      ToolResultShape(outcomes[i], calls[i].id);
    }
  }

  /**
   * A whole iteration stops the loop exactly when the reply has no tool call,
   * the list with the assistant turn is longer than the gate, and the operator
   * answers `no` or `n`. Without summarising, the prepared list keeps its length
   * and the assistant turn comes right after it.
   */
  lemma IterateStops(v: Variant, msgs: seq<Message>, response: seq<ResponseBlock>, outcomes: seq<Outcome>,
                     answer: string, summary: string)
    requires Inv(v, msgs) && Gated(v)
    requires |outcomes| == |ToolCalls(ResponseParams(response))|
    ensures var s := Iterate(v, msgs, response, outcomes, answer, summary);
      && (!s.running <==> ToolCalls(ResponseParams(response)) == [] && Prompts(v, |msgs| + 1) && Stops(answer))
      && (v.summaryThreshold.None? ==> |s.messages| > |msgs| + 1 && s.messages[|msgs|] == AssistantTurn(response))
  {
    RequestMarkers(v, msgs);
    var turn := Prepare(v, msgs) + [AssistantTurn(response)];
    CloseTurnStops(v, turn, ToolCalls(ResponseParams(response)), outcomes, answer);
    var closed := CloseTurn(v, turn, ToolCalls(ResponseParams(response)), outcomes, answer).messages;
    assert closed[|msgs|] == closed[..|turn|][|msgs|];
  }

  /** With a summary threshold, the list after an iteration is never longer than the threshold allows. */
  lemma IterateSummarizes(v: Variant, msgs: seq<Message>, response: seq<ResponseBlock>, outcomes: seq<Outcome>,
                          answer: string, summary: string)
    requires Inv(v, msgs) && v.summaryThreshold.Some? && v.summaryThreshold.value >= 2
    requires |outcomes| == |ToolCalls(ResponseParams(response))|
    ensures |Iterate(v, msgs, response, outcomes, answer, summary).messages| <= v.summaryThreshold.value
  {
    var turn := Prepare(v, msgs) + [AssistantTurn(response)];
    var closed := CloseTurn(v, turn, ToolCalls(ResponseParams(response)), outcomes, answer).messages;
    SummarizeIdempotent(closed, v.summaryThreshold.value, summary, summary);
  }

  // ---------------------------------------------------------------- the empty tool-result turn

  /**
   * As written, a gated copy whose reply has no tool call and whose list is still
   * short appends a user turn whose content is an empty list. That list is not
   * ready for the caching pass: `content[-1]` of it fails at the next request.
   */
  lemma GateAppendsEmptyTurn(msgs: seq<Message>, answer: string)
    requires |msgs| <= PROMPT_GATE
    ensures var s := CloseTurnAsWritten(WEB, msgs, [], [], answer);
      && s.running && s.messages == msgs + [Message("user", Blocks([]))]
      && !CacheReady(s.messages)
  {
    assert ToolResultsFor([], []) == [];
    var s := CloseTurnAsWritten(WEB, msgs, [], [], answer);
    assert Qualifies(s.messages[|msgs|]);
  }

  /**
   * The corrected end of the iteration goes on with `"continue"` instead, and the
   * list stays ready for the caching pass.
   */
  lemma GateContinues(v: Variant, msgs: seq<Message>, answer: string)
    requires !v.perCallTurns && !Prompts(v, |msgs|) && CacheReady(msgs)
    ensures var s := CloseTurn(v, msgs, [], [], answer);
      && s.running && s.messages == msgs + [Message("user", Str(CONTINUE))]
      && CacheReady(s.messages)
  {
  }

  // ---------------------------------------------------------------- loop_live.py's display step

  /** Content with no first item, `""` or `[]`: `content[0]` raises IndexError on it. */
  predicate EmptyContent(c: Content)
  {
    (c.Str? && c.s == "") || (c.Blocks? && c.blocks == [])
  }

  /**
   * Whether `loop_live.py`'s display step after the closing turn raises: it
   * reads `message["content"][0]` for the newest two messages (the newest one
   * when the list has one), and the loop re-raises what that throws.
   */
  predicate LiveDisplayRaises(msgs: seq<Message>)
  {
    || (|msgs| >= 1 && EmptyContent(msgs[|msgs| - 1].content))
    || (|msgs| >= 2 && EmptyContent(msgs[|msgs| - 2].content))
  }

  /** The display step over an abstract assistant turn and its calls. */
  lemma LiveDisplayClose(msgs: seq<Message>, params: seq<Block>, calls: seq<ToolCall>, outcomes: seq<Outcome>,
                         answer: string)
    requires |outcomes| == |calls| && |calls| <= |params|
    ensures LiveDisplayRaises(CloseTurnAsWritten(LIVE, msgs + [Message("assistant", Blocks(params))], calls, outcomes, answer).messages)
      <==> calls == [] && (answer == "" || params == [])
  {
    var a := Message("assistant", Blocks(params));
    var closed := CloseTurnAsWritten(LIVE, msgs + [a], calls, outcomes, answer).messages;
    var turns := CallTurns(calls, outcomes);
    if calls == [] {
      assert closed == msgs + [a] + [Message("user", Str(answer))];
    } else {
      assert closed == msgs + [a] + turns;
      assert closed[|closed| - 1] == turns[|calls| - 1];
      if |calls| == 1 {
        assert closed[|closed| - 2] == a;
      } else {
        assert closed[|closed| - 2] == turns[|calls| - 2];
      }
    }
  }

  /**
   * In `loop_live.py` the display step after an iteration's closing turn raises
   * exactly when the reply made no tool call and either the operator's answer
   * is empty or the reply gave no text or tool block.
   */
  lemma LiveDisplayStep(msgs: seq<Message>, response: seq<ResponseBlock>, outcomes: seq<Outcome>, answer: string)
    requires |outcomes| == |ToolCalls(ResponseParams(response))|
    ensures var calls := ToolCalls(ResponseParams(response));
      LiveDisplayRaises(CloseTurnAsWritten(LIVE, msgs + [AssistantTurn(response)], calls, outcomes, answer).messages)
      <==> calls == [] && (answer == "" || ResponseParams(response) == [])
  {
    LiveDisplayClose(msgs, ResponseParams(response), ToolCalls(ResponseParams(response)), outcomes, answer);
  }
}

=== FILE: summary.dfy ===
/**
 * Compressing and journaling the conversation.
 *
 * `summarize_messages` keeps the list when it has at most `MAX_SUMMARY_MESSAGES`
 * entries and otherwise replaces it by the first message plus one user message
 * holding a model-written summary of a plain-text transcript of the rest. The
 * journal helpers build the "Summarize this interaction" prompt from the
 * conversation, write entries headed `Entry #n`, and count those headers when a
 * session starts. Model replies and the clock are parameters.
 */
module Summary {
  import opened Wrappers
  import opened Text
  import opened JsonValue
  import opened Conversation
  import CachePolicy
  import ImagePolicy
  import ToolResults

  // ---------------------------------------------------------------- the transcript the summary reads

  function PartsTranscript(role: string, ps: seq<Part>): string
  {
    if ps == [] then ""
    else (if ps[0].TextPart? then "\n" + role + " (Tool Result): " + ps[0].text else "")
         + PartsTranscript(role, ps[1..])
  }

  /** One block's lines: text blocks and the text parts of tool results; tool calls and images add nothing. */
  function BlockTranscript(role: string, b: Block): string
  {
    match b
    case TextBlock(t, _) => "\n" + role + ": " + t
    case ToolUseBlock(_, _, _, _) => ""
    case ToolResultBlock(_, ps, _, _) => PartsTranscript(role, ps)
  }

  function BlocksTranscript(role: string, bs: seq<Block>): string
  {
    if bs == [] then "" else BlockTranscript(role, bs[0]) + BlocksTranscript(role, bs[1..])
  }

  function MessageTranscript(m: Message): string
  {
    var role := Upper(m.role);
    match m.content
    case Str(s) => "\n" + role + ": " + s
    case Blocks(bs) => BlocksTranscript(role, bs)
  }

  /** `conversation_text` for a list of messages, built message after message. */
  function Transcript(msgs: seq<Message>): string
  {
    if msgs == [] then "" else MessageTranscript(msgs[0]) + Transcript(msgs[1..])
  }

  const SUMMARY_TEMPLATE_HEAD := "Please provide a detailed technical summary of this conversation. Include:\n1. All file names and paths mentioned\n2. Directory structures created or modified\n3. Specific actions taken and their outcomes\n4. Any technical decisions or solutions implemented\n5. Current status of the task\n6. Any pending or incomplete items\n7. Code that was written or modified\n\nOriginal task prompt for context:\n"
  const SUMMARY_TEMPLATE_MIDDLE := "\n\nConversation to summarize:\n"

  /** The request sent to the summary model: the first message's content, then the transcript of the rest. */
  function SummaryPrompt(msgs: seq<Message>): string
    requires |msgs| >= 1
  {
    SUMMARY_TEMPLATE_HEAD + PyStr(ContentJson(msgs[0].content)) + SUMMARY_TEMPLATE_MIDDLE + Transcript(msgs[1..])
  }

  const SUMMARY_PREFIX := "[CONVERSATION SUMMARY]\n\n"

  function SummaryMessage(summary: string): Message
  {
    Message("user", Blocks([TextBlock(SUMMARY_PREFIX + summary, false)]))
  }

  /**
   * `summarize_messages` with the model's summary as a parameter: at most
   * `threshold` messages are kept as they are; a longer list becomes its first
   * message followed by the summary.
   */
  function Summarize(msgs: seq<Message>, threshold: nat, summary: string): seq<Message>
  {
    if |msgs| <= threshold then msgs else [msgs[0], SummaryMessage(summary)]
  }

  /**
   * A list within the threshold is kept; a longer one becomes its first message
   * and one user turn whose text is the summary after its prefix.
   */
  lemma SummarizeShape(msgs: seq<Message>, threshold: nat, summary: string)
    ensures var r := Summarize(msgs, threshold, summary);
      && (|msgs| <= threshold ==> r == msgs)
      && (|msgs| > threshold ==>
            |r| == 2 && r[0] == msgs[0] && r[1].role == "user"
            && ToolResults.ExtractText(r[1].content) == SUMMARY_PREFIX + summary)
  {
    var m := SummaryMessage(summary);
    assert ToolResults.BlocksTexts(m.content.blocks) == [SUMMARY_PREFIX + summary] + ToolResults.BlocksTexts([]);
  }

  /** With a threshold of at least 2, the summarised list is never summarised again. */
  lemma SummarizeIdempotent(msgs: seq<Message>, threshold: nat, summary: string, later: string)
    requires threshold >= 2
    ensures Summarize(Summarize(msgs, threshold, summary), threshold, later) == Summarize(msgs, threshold, summary)
    ensures |Summarize(msgs, threshold, summary)| <= threshold
  {
  }

  /** The summary turn has a non-empty list, so a summarised list stays ready for the caching pass. */
  lemma SummarizeKeepsCacheReady(msgs: seq<Message>, threshold: nat, summary: string)
    requires CachePolicy.CacheReady(msgs)
    ensures CachePolicy.CacheReady(Summarize(msgs, threshold, summary))
  {
  }

  // ---------------------------------------------------------------- what the transcript ignores

  lemma {:induction false} TranscriptAppend(a: seq<Message>, b: seq<Message>)
    ensures Transcript(a + b) == Transcript(a) + Transcript(b)
    decreases |a|
  {
    if a == [] {
      assert a + b == b;
    } else {
      assert (a + b)[1..] == a[1..] + b;
      TranscriptAppend(a[1..], b);
    }
  }

  lemma {:induction false} BlocksTranscriptAppend(role: string, a: seq<Block>, b: seq<Block>)
    ensures BlocksTranscript(role, a + b) == BlocksTranscript(role, a) + BlocksTranscript(role, b)
    decreases |a|
  {
    if a == [] {
      assert a + b == b;
    } else {
      assert (a + b)[1..] == a[1..] + b;
      BlocksTranscriptAppend(role, a[1..], b);
    }
  }

  /** Two lists whose messages read the same, one by one, have the same transcript. */
  lemma {:induction false} TranscriptPointwise(a: seq<Message>, b: seq<Message>)
    requires |a| == |b|
    requires forall i :: 0 <= i < |a| ==> MessageTranscript(a[i]) == MessageTranscript(b[i])
    ensures Transcript(a) == Transcript(b)
    decreases |a|
  {
    if a != [] {
      TranscriptPointwise(a[1..], b[1..]);
    }
  }

  lemma {:induction false} PartsTranscriptWithoutImages(role: string, ps: seq<Part>)
    ensures PartsTranscript(role, ImagePolicy.PartsWithoutImages(ps)) == PartsTranscript(role, ps)
    decreases |ps|
  {
    if ps != [] {
      PartsTranscriptWithoutImages(role, ps[1..]);
      var rest := ImagePolicy.PartsWithoutImages(ps[1..]);
      if !ps[0].ImagePart? {
        assert ImagePolicy.PartsWithoutImages(ps) == [ps[0]] + rest;
        assert ([ps[0]] + rest)[1..] == rest;
      } else {
        assert ImagePolicy.PartsWithoutImages(ps) == rest;
        assert PartsTranscript(role, ps) == PartsTranscript(role, ps[1..]);
      }
    }
  }

  lemma {:induction false} BlocksTranscriptWithoutImages(role: string, bs: seq<Block>)
    ensures BlocksTranscript(role, seq(|bs|, j requires 0 <= j < |bs| => ImagePolicy.BlockWithoutImages(bs[j])))
         == BlocksTranscript(role, bs)
    decreases |bs|
  {
    if bs != [] {
      var ws := seq(|bs|, j requires 0 <= j < |bs| => ImagePolicy.BlockWithoutImages(bs[j]));
      var tail := bs[1..];
      assert ws[1..] == seq(|tail|, j requires 0 <= j < |tail| => ImagePolicy.BlockWithoutImages(tail[j]));
      BlocksTranscriptWithoutImages(role, tail);
      if bs[0].ToolResultBlock? {
        PartsTranscriptWithoutImages(role, bs[0].parts);
      }
    }
  }

  lemma MessageTranscriptWithoutImages(m: Message)
    ensures MessageTranscript(ImagePolicy.MessageWithoutImages(m)) == MessageTranscript(m)
  {
    if m.content.Blocks? {
      BlocksTranscriptWithoutImages(Upper(m.role), m.content.blocks);
    }
  }

  /** Image pruning never changes what the summary model is shown. */
  lemma TranscriptIgnoresImagePruning(msgs: seq<Message>, keep: Option<int>)
    ensures Transcript(ImagePolicy.FilterImages(msgs, keep)) == Transcript(msgs)
  {
    if keep.Some? {
      var budget := ImagePolicy.ToRemove(|ImagePolicy.Images(msgs)|, keep.value);
      var pruned := ImagePolicy.DropImages(msgs, budget);
      ImagePolicy.DropImagesKeepsOthers(msgs, budget);
      forall i | 0 <= i < |msgs| ensures MessageTranscript(pruned[i]) == MessageTranscript(msgs[i]) {
        MessageTranscriptWithoutImages(pruned[i]);
        MessageTranscriptWithoutImages(msgs[i]);
      }
      TranscriptPointwise(pruned, msgs);
    }
  }

  /** Cache markers never change what the summary model is shown. */
  lemma TranscriptIgnoresCaching(msgs: seq<Message>)
    requires CachePolicy.CacheReady(msgs)
    ensures Transcript(CachePolicy.WithBreakpoints(msgs)) == Transcript(msgs)
  {
    var marked := CachePolicy.WithBreakpoints(msgs);
    forall i | 0 <= i < |msgs| ensures MessageTranscript(marked[i]) == MessageTranscript(msgs[i]) {
      var m := msgs[i];
      if CachePolicy.Qualifies(m) && CachePolicy.Rank(msgs, i) <= CachePolicy.BREAKPOINTS {
        var bs := m.content.blocks;
        var n := |bs| - 1;
        var role := Upper(m.role);
        assert bs == bs[..n] + [bs[n]];
        BlocksTranscriptAppend(role, bs[..n], [bs[n]]);
        BlocksTranscriptAppend(role, bs[..n], [bs[n].(cached := CachePolicy.Rank(msgs, i) < CachePolicy.BREAKPOINTS)]);
      }
    }
    TranscriptPointwise(marked, msgs);
  }

  // ---------------------------------------------------------------- the per-interaction journal

  /** The text of the oldest user message, `""` when there is none. */
  function OldestUserText(msgs: seq<Message>): string
  {
    if msgs == [] then ""
    else if msgs[0].role == "user" then ToolResults.ExtractText(msgs[0].content)
    else OldestUserText(msgs[1..])
  }

  /** The texts of a response's text blocks joined by one space. */
  function ResponseText(response: seq<ResponseBlock>): string
  {
    Join(ResponseTexts(response), " ")
  }

  function ResponseTexts(response: seq<ResponseBlock>): seq<string>
  {
    if response == [] then []
    else (if response[0].RText? then [response[0].text] else []) + ResponseTexts(response[1..])
  }

  predicate HasAssistant(msgs: seq<Message>)
  {
    exists i :: 0 <= i < |msgs| && msgs[i].role == "assistant"
  }

  /**
   * The scan of `create_journal_entry`, walking the list from newest to oldest
   * and overwriting on every match: the user text that survives is the OLDEST
   * user message's, and the assistant text is the response's text as soon as
   * any assistant message exists and the response has content.
   */
  method ScanInteraction(msgs: seq<Message>, response: seq<ResponseBlock>) returns (userText: string, assistantText: string)
    ensures userText == OldestUserText(msgs)
    ensures assistantText == if HasAssistant(msgs) && response != [] then ResponseText(response) else ""
  {
    userText, assistantText := "", "";
    var i := |msgs|;
    while i > 0
      invariant 0 <= i <= |msgs|
      invariant userText == OldestUserText(msgs[i..])
      invariant assistantText == if HasAssistant(msgs[i..]) && response != [] then ResponseText(response) else ""
    {
      i := i - 1;
      assert msgs[i..][1..] == msgs[i + 1..];
      if msgs[i].role == "user" {
        userText := ToolResults.ExtractText(msgs[i].content);
      }
      if msgs[i].role == "assistant" && response != [] {
        assistantText := ResponseText(response);
      }
      if HasAssistant(msgs[i + 1..]) {
        var j :| 0 <= j < |msgs[i + 1..]| && msgs[i + 1..][j].role == "assistant";
        assert msgs[i..][j + 1].role == "assistant";
      }
      if HasAssistant(msgs[i..]) && msgs[i].role != "assistant" {
        var j :| 0 <= j < |msgs[i..]| && msgs[i..][j].role == "assistant";
        assert msgs[i + 1..][j - 1].role == "assistant";
      }
    }
    assert msgs[0..] == msgs;
  }

  function JournalPrompt(userText: string, assistantText: string): string
  {
    "Summarize this interaction:\nUser: " + userText + "\nAssistant: " + assistantText
  }

  function EntryHeader(entryNumber: int, timestamp: string): string
  {
    "Entry #" + IntToString(entryNumber) + " - " + timestamp
  }

  const RULE := "-------------------"

  /** One journal entry: a header line `Entry #n - <timestamp>`, the summary, a rule. */
  function JournalEntry(entryNumber: int, timestamp: string, summary: string): string
  {
    "\n" + EntryHeader(entryNumber, timestamp) + "\n" + summary + "\n" + RULE + "\n"
  }

  // ---------------------------------------------------------------- ftfy.fix_text and universal newlines

  /** `uncurl_quotes`: U+02BC and the curly single quotes become `'`, the curly double quotes `"`. */
  function UncurlChar(c: char): char
  {
    var n := c as int;
    if n == 0x02BC || 0x2018 <= n <= 0x201B then '\''
    else if 0x201C <= n <= 0x201F then '"'
    else c
  }

  function UncurlQuotes(s: string): (r: string)
    ensures |r| == |s| && forall i :: 0 <= i < |s| ==> r[i] == UncurlChar(s[i])
  {
    seq(|s|, i requires 0 <= i < |s| => UncurlChar(s[i]))
  }

  /** The fixes of `ftfy.fix_text` that this model applies: `uncurl_quotes`, then `fix_line_breaks`. */
  function FixText(s: string): string
  {
    Breaks(UncurlQuotes(s), true)
  }

  lemma UncurlAppend(a: string, b: string)
    ensures UncurlQuotes(a + b) == UncurlQuotes(a) + UncurlQuotes(b)
  {
    assert forall i :: 0 <= i < |a + b| ==> UncurlQuotes(a + b)[i] == (UncurlQuotes(a) + UncurlQuotes(b))[i] by {
      forall i | 0 <= i < |a + b|
        ensures UncurlQuotes(a + b)[i] == (UncurlQuotes(a) + UncurlQuotes(b))[i]
      {
        if i >= |a| {
          assert (a + b)[i] == b[i - |a|];
        }
      }
    }
  }

  /** After a piece that ends at a line break, one more piece and a `\n` are fixed separately. */
  lemma BreaksPiece(p: string, x: string, unicode: bool)
    requires p != [] && p[|p| - 1] == '\n'
    requires x == [] || x[|x| - 1] != '\r'
    ensures Breaks(p + x + "\n", unicode) == Breaks(p, unicode) + Breaks(x, unicode) + "\n"
  {
    BreaksAppend(p, x, unicode);
    var q := p + x;
    assert q[|q| - 1] != '\r';
    BreaksAppend(q, "\n", unicode);
    BreaksFixed("\n", unicode);
  }

  /** The fix of a framed text `\n a \n b \n c \n` is the frame around the fixed pieces. */
  lemma BreaksFrame(a: string, b: string, c: string, unicode: bool)
    requires a == [] || a[|a| - 1] != '\r'
    requires b == [] || b[|b| - 1] != '\r'
    requires c == [] || c[|c| - 1] != '\r'
    ensures Breaks("\n" + a + "\n" + b + "\n" + c + "\n", unicode)
         == "\n" + Breaks(a, unicode) + "\n" + Breaks(b, unicode) + "\n" + Breaks(c, unicode) + "\n"
  {
    var nl := "\n";
    BreaksFixed(nl, unicode);
    BreaksPiece(nl, a, unicode);
    var p1 := nl + a + nl;
    assert p1[|p1| - 1] == '\n';
    BreaksPiece(p1, b, unicode);
    var p2 := p1 + b + nl;
    assert p2[|p2| - 1] == '\n';
    BreaksPiece(p2, c, unicode);
  }

  /** Uncurling a framed text uncurls its pieces. */
  lemma UncurlFrame(a: string, b: string, c: string)
    ensures UncurlQuotes("\n" + a + "\n" + b + "\n" + c + "\n")
         == "\n" + UncurlQuotes(a) + "\n" + UncurlQuotes(b) + "\n" + UncurlQuotes(c) + "\n"
  {
    var nl := "\n";
    assert UncurlQuotes(nl) == nl;
    UncurlAppend(nl, a);
    UncurlAppend(nl + a, nl);
    UncurlAppend(nl + a + nl, b);
    UncurlAppend(nl + a + nl + b, nl);
    UncurlAppend(nl + a + nl + b + nl, c);
    UncurlAppend(nl + a + nl + b + nl + c, nl);
  }

  /** A one-line timestamp: no `\n` and no character a line-break fix rewrites. */
  predicate OneLineText(t: string)
  {
    forall i :: 0 <= i < |t| ==> t[i] != '\n' && !IsBreak(t[i], true)
  }

  /** The header holds no line break of any kind and starts with `Entry #`. */
  lemma HeaderFree(entryNumber: int, timestamp: string)
    requires OneLineText(timestamp)
    ensures OneLineText(EntryHeader(entryNumber, timestamp))
    ensures EntryHeader(entryNumber, timestamp)[..7] == "Entry #"
  {
    var num := IntToString(entryNumber);
    var header := EntryHeader(entryNumber, timestamp);
    forall k | 0 <= k < |header| ensures header[k] != '\n' && !IsBreak(header[k], true) {
      if 7 <= k < 7 + |num| {
        assert header[k] == num[k - 7];
      } else if k >= 10 + |num| {
        assert header[k] == timestamp[k - 10 - |num|];
      }
    }
  }

  /** Uncurling a one-line text keeps it one line, and keeps a leading `Entry #`. */
  lemma UncurlOneLine(t: string)
    requires OneLineText(t)
    ensures OneLineText(UncurlQuotes(t))
    ensures |t| >= 7 && t[..7] == "Entry #" ==> UncurlQuotes(t)[..7] == "Entry #"
  {
  }

  /** A line-break fix leaves no break character, and brings in no quote `UncurlChar` would change. */
  lemma {:induction false} BreaksClean(s: string, unicode: bool)
    requires forall i :: 0 <= i < |s| ==> UncurlChar(s[i]) == s[i]
    ensures forall i :: 0 <= i < |Breaks(s, unicode)| ==>
              !IsBreak(Breaks(s, unicode)[i], unicode) && UncurlChar(Breaks(s, unicode)[i]) == Breaks(s, unicode)[i]
    decreases |s|
  {
    if s != [] {
      if s[0] == '\r' && |s| >= 2 && s[1] == '\n' {
        BreaksClean(s[2..], unicode);
      } else {
        BreaksClean(s[1..], unicode);
      }
    }
  }

  /** `FixText` is idempotent: fixing a fixed text changes nothing. */
  lemma FixTextIdempotent(s: string)
    ensures FixText(FixText(s)) == FixText(s)
  {
    var f := FixText(s);
    BreaksClean(UncurlQuotes(s), true);
    assert UncurlQuotes(f) == f;
    BreaksFixed(f, true);
  }

  /** `FixText` of a framed text whose outer pieces are one line each. */
  lemma FixFrame(a: string, b: string, c: string)
    requires OneLineText(a) && OneLineText(c)
    requires b == [] || b[|b| - 1] != '\r'
    ensures FixText("\n" + a + "\n" + b + "\n" + c + "\n")
         == "\n" + UncurlQuotes(a) + "\n" + FixText(b) + "\n" + UncurlQuotes(c) + "\n"
  {
    var ua, ub, uc := UncurlQuotes(a), UncurlQuotes(b), UncurlQuotes(c);
    UncurlFrame(a, b, c);
    UncurlOneLine(a);
    UncurlOneLine(c);
    BreaksFixed(ua, true);
    BreaksFixed(uc, true);
    BreaksFrame(ua, ub, uc, true);
  }

  /**
   * What `create_journal_entry` writes: the f-string entry after `ftfy.fix_text`,
   * which is the frame around the uncurled header and the fixed summary.
   */
  lemma FixedEntry(entryNumber: int, timestamp: string, summary: string)
    requires OneLineText(timestamp)
    requires summary == [] || summary[|summary| - 1] != '\r'
    ensures FixText(JournalEntry(entryNumber, timestamp, summary))
         == "\n" + UncurlQuotes(EntryHeader(entryNumber, timestamp)) + "\n" + FixText(summary) + "\n" + RULE + "\n"
  {
    HeaderFree(entryNumber, timestamp);
    assert OneLineText(RULE) && UncurlQuotes(RULE) == RULE by {
      assert forall i :: 0 <= i < |RULE| ==> RULE[i] == '-';
    }
    FixFrame(EntryHeader(entryNumber, timestamp), summary, RULE);
  }

  /** What one call produced: nothing, a prompt with no usable summary, or a prompt and an entry. */
  datatype JournalOutcome =
    | Skipped
    | NoSummary(prompt: string)
    | Written(prompt: string, entry: string)

  /**
   * `create_journal_entry`: skip without calling the model when the user or the
   * assistant text is empty; otherwise ask for a summary (`reply`) and write an
   * entry unless the stripped reply is empty. The entry passes through
   * `ftfy.fix_text` before it is appended to the journal.
   */
  method CreateJournalEntry(entryNumber: int, msgs: seq<Message>, response: seq<ResponseBlock>,
                            reply: string, timestamp: string) returns (r: JournalOutcome)
    ensures r.Skipped? <==> OldestUserText(msgs) == "" || !HasAssistant(msgs) || response == [] || ResponseText(response) == ""
    ensures !r.Skipped? ==> r.prompt == JournalPrompt(OldestUserText(msgs), ResponseText(response))
    ensures r.Written? <==> !r.Skipped? && Strip(reply) != ""
    ensures r.Written? ==> r.entry == FixText(JournalEntry(entryNumber, timestamp, Strip(reply)))
  {
    var userText, assistantText := ScanInteraction(msgs, response);
    if userText == "" || assistantText == "" {
      return Skipped;
    }
    var prompt := JournalPrompt(userText, assistantText);
    var summary := Strip(reply);
    if summary == "" {
      return NoSummary(prompt);
    }
    return Written(prompt, FixText(JournalEntry(entryNumber, timestamp, summary)));
  }

  // ---------------------------------------------------------------- counting entries

  function CountEntryLines(lines: seq<string>): nat
  {
    if lines == [] then 0
    else (if StartsWith(lines[0], "Entry #") then 1 else 0) + CountEntryLines(lines[1..])
  }

  /**
   * `journal_entry_count` at start-up: 1 plus the lines starting with `Entry #`,
   * or 1 with no file. The file is read in text mode, so its lines are split
   * after universal-newline translation.
   */
  function JournalEntryCount(file: Option<string>): nat
  {
    match file
    case None => 1
    case Some(text) => 1 + CountEntryLines(Split(UniversalNewlines(text), '\n'))
  }

  lemma {:induction false} CountEntryLinesAppend(a: seq<string>, b: seq<string>)
    ensures CountEntryLines(a + b) == CountEntryLines(a) + CountEntryLines(b)
    decreases |a|
  {
    if a == [] {
      assert a + b == b;
    } else {
      assert (a + b)[1..] == a[1..] + b;
      CountEntryLinesAppend(a[1..], b);
    }
  }

  lemma HeaderOneLine(entryNumber: int, timestamp: string)
    requires '\n' !in timestamp
    ensures '\n' !in EntryHeader(entryNumber, timestamp)
    ensures StartsWith(EntryHeader(entryNumber, timestamp), "Entry #")
  {
    var num := IntToString(entryNumber);
    var header := EntryHeader(entryNumber, timestamp);
    forall k | 0 <= k < |header| ensures header[k] != '\n' {
      if 7 <= k < 7 + |num| {
        assert header[k] == num[k - 7];
      }
    }
  }

  /** The lines of `"\n" + a + "\n" + b + "\n" + c + "\n"` for one-line `a` and `c`. */
  lemma FramedLines(a: string, b: string, c: string)
    requires '\n' !in a && '\n' !in c
    ensures Split("\n" + a + "\n" + b + "\n" + c + "\n", '\n') == [""] + [a] + Split(b, '\n') + [c] + [""]
  {
    SplitOfFree(a, '\n');
    SplitOfFree(c, '\n');
    var nl := "\n";
    var e0 := nl + a;
    assert e0 == [] + nl + a;
    SplitAtSeparator([], a, '\n');
    var e1 := e0 + nl + b;
    SplitAtSeparator(e0, b, '\n');
    var e2 := e1 + nl + c;
    SplitAtSeparator(e1, c, '\n');
    assert e2 + nl == e2 + nl + [];
    SplitAtSeparator(e2, [], '\n');
  }

  /** The lines of one entry: an empty line, the header, the summary's lines, the rule, an empty tail. */
  lemma EntryLines(entryNumber: int, timestamp: string, summary: string)
    requires '\n' !in timestamp
    ensures Split(JournalEntry(entryNumber, timestamp, summary), '\n')
         == [""] + [EntryHeader(entryNumber, timestamp)] + Split(summary, '\n') + [RULE] + [""]
  {
    HeaderOneLine(entryNumber, timestamp);
    FramedLines(EntryHeader(entryNumber, timestamp), summary, RULE);
  }

  /** A text that ends at a line break contributes its lines, then the next text's. */
  lemma CountAfterLineBreak(file: string, more: string)
    requires file == [] || file[|file| - 1] == '\n'
    ensures CountEntryLines(Split(file + more, '\n'))
         == CountEntryLines(Split(file, '\n')) + CountEntryLines(Split(more, '\n'))
  {
    if file == [] {
      assert file + more == more;
    } else {
      var front := file[..|file| - 1];
      assert file == front + "\n" + "";
      SplitAtSeparator(front, "", '\n');
      assert file + more == front + "\n" + more;
      SplitAtSeparator(front, more, '\n');
      CountEntryLinesAppend(Split(front, '\n'), [""]);
      CountEntryLinesAppend(Split(front, '\n'), Split(more, '\n'));
    }
  }

  /**
   * Appending what `create_journal_entry` writes to a journal raises the next
   * session's count by exactly one, provided the journal so far ends at a line
   * break, the timestamp is one line and no line of the fixed summary starts
   * with `Entry #`.
   */
  lemma JournalEntryCounted(file: string, entryNumber: int, timestamp: string, reply: string)
    requires file == [] || file[|file| - 1] == '\n'
    requires OneLineText(timestamp)
    requires CountEntryLines(Split(FixText(Strip(reply)), '\n')) == 0
    ensures JournalEntryCount(Some(file + FixText(JournalEntry(entryNumber, timestamp, Strip(reply)))))
         == JournalEntryCount(Some(file)) + 1
  {
    var summary := Strip(reply);
    var header := UncurlQuotes(EntryHeader(entryNumber, timestamp));
    var fixed := FixText(summary);
    var written := FixText(JournalEntry(entryNumber, timestamp, summary));
    FixedEntry(entryNumber, timestamp, summary);
    HeaderFree(entryNumber, timestamp);
    UncurlOneLine(EntryHeader(entryNumber, timestamp));
    // the lines of the written entry
    FramedLines(header, fixed, RULE);
    CountEntryLinesAppend([""], [header]);
    CountEntryLinesAppend([""] + [header], Split(fixed, '\n'));
    CountEntryLinesAppend([""] + [header] + Split(fixed, '\n'), [RULE]);
    CountEntryLinesAppend([""] + [header] + Split(fixed, '\n') + [RULE], [""]);
    assert CountEntryLines([header]) == 1 + CountEntryLines([]);
    assert RULE[..7] != "Entry #" by {
      assert RULE[0] == '-';
    }
    assert CountEntryLines([RULE]) == 0 + CountEntryLines([]);
    assert CountEntryLines([""]) == 0 + CountEntryLines([]);
    // reading the file back in text mode
    BreaksNoCR(UncurlQuotes(JournalEntry(entryNumber, timestamp, summary)), true);
    BreaksFixed(written, false);
    BreaksAppend(file, written, false);
    if file != [] {
      BreaksEndsWithNewline(file, false);
    }
    CountAfterLineBreak(Breaks(file, false), written);
  }
}

=== FILE: test_bash_tool.dfy ===
/**
 * `tools/test_bash.py`, the stand-alone variant of the bash tool: the script's
 * type is decided by which label occurs anywhere in the model's reply, the
 * code is the first fenced block anywhere, and `bash_command` turns every
 * exception into an error entry. The model's reply and what running the
 * script did are parameters, as in `BashTool`.
 */
module TestBashTool {
  import opened Wrappers
  import opened Text
  import B = BashTool

  const NO_TYPE := "No script type identifier found in response"
  const NO_BLOCK := "No valid code block found in the response"
  const PYTHON_LABEL := "Python Script:"
  const POWERSHELL_LABEL := "PowerShell Script:"
  const FENCE := "```"
  const API_ERROR := "Error during OpenAI API call: "

  // ---------------------------------------------------------------- parse_llm_response

  /** An occurrence of `sub` anywhere makes `sub in s` hold. */
  lemma OccursContains(s: string, sub: string, j: nat)
    requires OccursAt(s, sub, j)
    ensures Contains(s, sub)
  {
  }

  /** What a suffix contains, the whole text contains. */
  lemma ContainsInSuffix(p: string, rest: string, sub: string)
    requires Contains(rest, sub)
    ensures Contains(p + rest, sub)
  {
    var s := p + rest;
    var j := Find(rest, sub);
    assert s[|p|..|s|] == rest;
    B.OccursInSlice(s, |p|, |s|, sub, |p| + j);
    OccursContains(s, sub, |p| + j);
  }

  /** The type the labels name: Python whenever its label occurs, else PowerShell when its label does. */
  function ScriptType(response: string): Result<string>
  {
    if Contains(response, PYTHON_LABEL) then Ok(B.PYTHON_SCRIPT)
    else if Contains(response, POWERSHELL_LABEL) then Ok(B.POWERSHELL_SCRIPT)
    else Err(NO_TYPE)
  }

  /** The pattern tried at `i`: an opening fence, an optional tag, a newline, the code up to the first closing fence. */
  function BlockAt(s: string, i: nat): Option<string>
  {
    if OccursAt(s, FENCE, i) then B.FencedCode(s, i + 3) else None
  }

  /** `re.search` from `i`: the code of the leftmost block. */
  function FirstBlock(s: string, i: nat): (r: Option<string>)
    ensures r.Some? ==> exists j :: i <= j <= |s| && BlockAt(s, j) == r && forall k :: i <= k < j ==> BlockAt(s, k).None?
    ensures r.None? ==> forall k :: i <= k <= |s| ==> BlockAt(s, k).None?
    decreases |s| + 1 - i
  {
    if i > |s| then None
    else if BlockAt(s, i).Some? then BlockAt(s, i)
    else FirstBlock(s, i + 1)
  }

  /**
   * `parse_llm_response`: a missing label is reported first, then a missing
   * block; the code is the leftmost block, stripped, wherever the label is.
   */
  function ParseLlmResponse(response: string): (r: Result<B.Script>)
    ensures !Contains(response, PYTHON_LABEL) && !Contains(response, POWERSHELL_LABEL) ==> r == Err(NO_TYPE)
    ensures ((Contains(response, PYTHON_LABEL) || Contains(response, POWERSHELL_LABEL))
      && forall k :: 0 <= k <= |response| ==> BlockAt(response, k).None?) ==> r == Err(NO_BLOCK)
    ensures r.Ok? ==> (r.value.kind == B.PYTHON_SCRIPT <==> Contains(response, PYTHON_LABEL))
    ensures r.Ok? ==> r.value.kind == B.PYTHON_SCRIPT || r.value.kind == B.POWERSHELL_SCRIPT
    ensures r.Ok? ==> exists j :: (0 <= j <= |response| && BlockAt(response, j).Some?
      && r.value.code == Strip(BlockAt(response, j).value) && forall k :: 0 <= k < j ==> BlockAt(response, k).None?)
  {
    var kind := ScriptType(response);
    if kind.Err? then Err(kind.error)
    else
      var code := FirstBlock(response, 0);
      if code.None? then Err(NO_BLOCK) else Ok(B.Script(kind.value, Strip(code.value)))
  }

  /** A fenced block at the very start, with no closing fence inside its code, matches there. */
  lemma BlockAtStart(tag: string, code: string, rest: string)
    requires tag == "" || tag == "python" || tag == "powershell"
    requires !Contains(code, B.CLOSING_FENCE)
    ensures BlockAt(FENCE + tag + "\n" + (code + B.CLOSING_FENCE + rest), 0) == Some(code)
  {
    var p := FENCE + tag + "\n";
    var t := code + B.CLOSING_FENCE + rest;
    var s := p + t;
    B.CodeStartAfter(FENCE, tag, t);
    B.PiecesAt(p, code, B.CLOSING_FENCE, rest);
    B.ClosingFenceFirst(s, |p|, code);
    assert s[..3] == FENCE;
  }

  /**
   * A reply that opens with a fenced block, tagged or not, and names a script
   * type only after it, still parses to that block's stripped code.
   */
  lemma BlockBeforeLabel(tag: string, code: string, rest: string)
    requires tag == "" || tag == "python" || tag == "powershell"
    requires !Contains(code, B.CLOSING_FENCE)
    requires Contains(rest, PYTHON_LABEL) || Contains(rest, POWERSHELL_LABEL)
    ensures var r := ParseLlmResponse(FENCE + tag + "\n" + code + B.CLOSING_FENCE + rest);
      r.Ok? && r.value.code == Strip(code)
  {
    var p := FENCE + tag + "\n" + code + B.CLOSING_FENCE;
    var s := p + rest;
    assert s == FENCE + tag + "\n" + (code + B.CLOSING_FENCE + rest);
    BlockAtStart(tag, code, rest);
    assert FirstBlock(s, 0) == Some(code);
    if Contains(rest, PYTHON_LABEL) {
      ContainsInSuffix(p, rest, PYTHON_LABEL);
    } else {
      ContainsInSuffix(p, rest, POWERSHELL_LABEL);
    }
  }

  // ---------------------------------------------------------------- execute_script

  /** The dictionary `execute_script` returns: the captured streams, with no success flag. */
  datatype Output = Output(output: string, error: string)

  /**
   * What running a script yields: a failing Python run is reported in the
   * error entry; a PowerShell run that exits non-zero is reported like one
   * that exits zero, and any other error it meets propagates.
   */
  function Executed(scriptType: string, python: B.PythonRun, shell: B.ShellRun): Result<Output>
  {
    if scriptType == B.PYTHON_SCRIPT then
      if python.Ran? then Ok(Output(python.stdout, python.stderr))
      else Ok(Output("", "Error: " + python.message + "\n" + python.trace))
    else if scriptType == B.POWERSHELL_SCRIPT then
      if shell.Failed? then Err(shell.message) else Ok(Output(shell.stdout, shell.stderr))
    else Err("Unsupported script type: " + scriptType)
  }

  /**
   * Against `BashTool`'s runner: the same streams are captured for every run
   * both report, and only a PowerShell run that fails without exiting is
   * reported here as an error instead of in the dictionary.
   */
  lemma ExecutedAgreesWithBashTool(scriptType: string, python: B.PythonRun, shell: B.ShellRun)
    requires B.Supported(scriptType)
    ensures var e := Executed(scriptType, python, shell);
      && (e.Err? <==> scriptType == B.POWERSHELL_SCRIPT && shell.Failed?)
      && (e.Ok? ==> (e.value.output == B.Captured(scriptType, python, shell).output
                     && e.value.error == B.Captured(scriptType, python, shell).error))
  {
  }

  /** `execute_script`: the type decides how the script is run; any other type raises. */
  method ExecuteScript(scriptType: string, python: B.PythonRun, shell: B.ShellRun) returns (r: Result<Output>)
    ensures r == Executed(scriptType, python, shell)
    ensures r.Err? <==> !B.Supported(scriptType) || (scriptType == B.POWERSHELL_SCRIPT && shell.Failed?)
    ensures !B.Supported(scriptType) ==> r == Err("Unsupported script type: " + scriptType)
  {
    if scriptType == B.PYTHON_SCRIPT {
      var output, error;
      match python {
        case Ran(out, err) =>
          output, error := out, err;
        case Threw(message, trace) =>
          error, output := "Error: " + message + "\n" + trace, "";
      }
      return Ok(Output(output, error));
    } else if scriptType == B.POWERSHELL_SCRIPT {
      match shell {
        case Exited(out, err) =>
          return Ok(Output(out, err));
        case ExitedNonZero(out, err) =>
          return Ok(Output(out, err));
        case Failed(message, _) =>
          return Err(message);
      }
    }
    r := Err("Unsupported script type: " + scriptType);
  }

  // ---------------------------------------------------------------- bash_command

  /** The dictionary `bash_command` returns: both streams, or only the error. */
  datatype Reply = Done(output: string, error: string) | Raised(error: string)

  /**
   * `bash_command`: `reply` is the model's answer or the error its call
   * raised. Every exception on the way, from the call, the parser or the
   * runner, becomes an error entry with its message; nothing escapes.
   */
  method BashCommand(reply: Result<string>, python: B.PythonRun, shell: B.ShellRun) returns (r: Reply)
    ensures r.Raised? <==> (reply.Err? || ParseLlmResponse(reply.value).Err?
      || (ParseLlmResponse(reply.value).value.kind == B.POWERSHELL_SCRIPT && shell.Failed?))
    ensures reply.Err? ==> r == Raised(API_ERROR + reply.error)
    ensures reply.Ok? && ParseLlmResponse(reply.value).Err? ==> r == Raised(ParseLlmResponse(reply.value).error)
    ensures reply.Ok? && ParseLlmResponse(reply.value).Ok? ==>
      var e := Executed(ParseLlmResponse(reply.value).value.kind, python, shell);
      r == if e.Err? then Raised(e.error) else Done(e.value.output, e.value.error)
  {
    if reply.Err? {
      return Raised(API_ERROR + reply.error);
    }
    var parsed := ParseLlmResponse(reply.value);
    if parsed.Err? {
      return Raised(parsed.error);
    }
    var result := ExecuteScript(parsed.value.kind, python, shell);
    if result.Err? {
      return Raised(result.error);
    }
    r := Done(result.value.output, result.value.error);
  }
}

=== FILE: test_edit_tool.dfy ===
/**
 * The `EditTool` of `tools/test_edit.py` and its `edit_file` entry point.
 * Unlike the tool of `tools/edit.py`, this one rewrites every path into the
 * `C:/repo/` tree, answers with a dictionary holding either an `output` or an
 * `error`, and catches most errors instead of raising them. Each method
 * normalises the path it is given, and `read_file`/`write_file` normalise it
 * again; `NormalizeIdempotent` is what makes all of them agree on one key.
 */
module TestEditTool {
  import opened Wrappers
  import opened Text
  import opened ToolResults
  import opened Editing

  const BASE := "C:/repo/"
  const EMPTY_PATH := "Path cannot be empty"
  const NO_FILE_TEXT := "Parameter `file_text` is required for command: create"
  const NO_OLD_STR := "Parameter `old_str` is required for command: str_replace"
  const NO_INSERT_LINE := "Parameter `insert_line` is required for command: insert"
  const NO_NEW_STR := "Parameter `new_str` is required for command: insert"

  function Unrecognized(command: string): string
  {
    "Unrecognized command " + command + ". The allowed commands are: view, create, str_replace, insert, undo_edit"
  }

  /** The dictionary every method answers with. */
  datatype Reply = Output(output: string) | Error(error: string)

  // ------------------------------------------------------------ normalize_path

  /** `s.replace('\\', '/')`. */
  function Slashed(s: string): (r: string)
    ensures |r| == |s| && '\\' !in r
    ensures '\\' !in s ==> r == s
  {
    seq(|s|, i requires 0 <= i < |s| => if s[i] == '\\' then '/' else s[i])
  }

  /** `re.sub(r'/+', '/', s)`: every run of slashes becomes one. */
  function CollapseSlashes(s: string): string
    decreases |s|
  {
    if s == [] then []
    else if |s| >= 2 && s[0] == '/' && s[1] == '/' then CollapseSlashes(s[1..])
    else [s[0]] + CollapseSlashes(s[1..])
  }

  predicate NoDoubleSlash(s: string)
  {
    forall i :: 0 <= i < |s| - 1 ==> !(s[i] == '/' && s[i + 1] == '/')
  }

  function DropPrefix(s: string, prefix: string): string
  {
    if StartsWith(s, prefix) then s[|prefix|..] else s
  }

  /** `re.sub(r'^[cC]:', '', s)`. */
  function DropDrive(s: string): string
  {
    if |s| >= 2 && (s[0] == 'c' || s[0] == 'C') && s[1] == ':' then s[2..] else s
  }

  /** What `normalize_path` puts after `C:/repo/`, the rewrites taken in the source's order. */
  function Relative(path: string): string
  {
    DropPrefix(DropPrefix(DropDrive(CollapseSlashes(Strip(Slashed(path)))), "/repo/"), "/")
  }

  /** `normalize_path`: an absent or empty path is refused, any other lands under `C:/repo/`. */
  function NormalizePath(path: Option<string>): (r: Result<string>)
    ensures r.Err? <==> !Truthy(path)
    ensures r.Err? ==> r.error == EMPTY_PATH
    ensures r.Ok? ==> StartsWith(r.value, BASE)
  {
    if !Truthy(path) then Err(EMPTY_PATH) else Ok(BASE + Relative(path.value))
  }

  lemma {:induction false} CollapseSlashesFacts(s: string)
    ensures var c := CollapseSlashes(s);
      && NoDoubleSlash(c)
      && ('\\' !in s ==> '\\' !in c)
      && (s != [] ==> c != [] && c[0] == s[0] && c[|c| - 1] == s[|s| - 1])
    decreases |s|
  {
    if s != [] {
      CollapseSlashesFacts(s[1..]);
      var t := CollapseSlashes(s[1..]);
      if |s| >= 2 && s[0] == '/' && s[1] == '/' {
      } else {
        var c := [s[0]] + t;
        assert c == CollapseSlashes(s);
        forall i | 0 <= i < |c| - 1
          ensures !(c[i] == '/' && c[i + 1] == '/')
        {
          if i > 0 {
            assert c[i] == t[i - 1] && c[i + 1] == t[i];
          }
        }
      }
    }
  }

  lemma {:induction false} LStripFacts(s: string)
    ensures var t := LStrip(s);
      && |t| <= |s| && t == s[|s| - |t|..]
      && (t != [] ==> !IsSpace(t[0]))
    decreases |s|
  {
    if s != [] && IsSpace(s[0]) {
      LStripFacts(s[1..]);
    }
  }

  lemma {:induction false} RStripFacts(s: string)
    ensures var t := RStrip(s);
      && |t| <= |s| && t == s[..|t|]
      && (t != [] ==> !IsSpace(t[|t| - 1]))
    decreases |s|
  {
    if s != [] && IsSpace(s[|s| - 1]) {
      RStripFacts(s[..|s| - 1]);
    }
  }

  /** The text after `C:/repo/` as a normalised path leaves it. */
  predicate Clean(n: string)
  {
    && '\\' !in n && NoDoubleSlash(n)
    && (n != [] ==> n[0] != '/' && !IsSpace(n[|n| - 1]))
  }

  lemma SuffixKeepsClean(c: string, k: nat)
    requires k <= |c| && '\\' !in c && NoDoubleSlash(c)
    requires c != [] ==> !IsSpace(c[|c| - 1])
    ensures var n := c[k..];
      '\\' !in n && NoDoubleSlash(n) && (n != [] ==> !IsSpace(n[|n| - 1]))
  {
    var n := c[k..];
    forall i | 0 <= i < |n| - 1
      ensures !(n[i] == '/' && n[i + 1] == '/')
    {
      assert n[i] == c[k + i] && n[i + 1] == c[k + i + 1];
    }
  }

  lemma StripFacts(a: string)
    ensures var t := Strip(a);
      && ('\\' !in a ==> '\\' !in t)
      && (t != [] ==> !IsSpace(t[|t| - 1]))
  {
    LStripFacts(a);
    RStripFacts(LStrip(a));
    var t := Strip(a);
    assert t == a[|a| - |LStrip(a)|..][..|t|];
  }

  lemma StripFixed(r: string)
    requires r != [] && !IsSpace(r[0]) && !IsSpace(r[|r| - 1])
    ensures Strip(r) == r
  {
    assert LStrip(r) == r;
  }

  /** The three prefix drops keep a collapsed, stripped text clean and leave no leading slash. */
  lemma DropsKeepClean(c: string)
    requires '\\' !in c && NoDoubleSlash(c)
    requires c != [] ==> !IsSpace(c[|c| - 1])
    ensures Clean(DropPrefix(DropPrefix(DropDrive(c), "/repo/"), "/"))
  {
    var e := DropPrefix(DropDrive(c), "/repo/");
    var k := |c| - |e|;
    assert e == c[k..];
    SuffixKeepsClean(c, k);
    var n := DropPrefix(e, "/");
    if StartsWith(e, "/") {
      SuffixKeepsClean(e, 1);
      if n != [] {
        assert e[0] == '/' && n[0] == e[1];
      }
    } else if e != [] {
      assert e[..1] == [e[0]];
    }
  }

  lemma RelativeIsClean(path: string)
    ensures Clean(Relative(path))
  {
    var t := Strip(Slashed(path));
    StripFacts(Slashed(path));
    CollapseSlashesFacts(t);
    DropsKeepClean(CollapseSlashes(t));
  }

  lemma BaseJoinNoDoubleSlash(n: string)
    requires Clean(n)
    ensures NoDoubleSlash(BASE + n)
  {
    var r := BASE + n;
    forall i | 0 <= i < |r| - 1
      ensures !(r[i] == '/' && r[i + 1] == '/')
    {
      if i >= |BASE| {
        assert r[i] == n[i - |BASE|] && r[i + 1] == n[i - |BASE| + 1];
      } else if i == |BASE| - 1 {
        assert r[i + 1] == n[0];
      }
    }
  }

  lemma BaseJoinStripped(n: string)
    requires Clean(n)
    ensures Strip(Slashed(BASE + n)) == BASE + n
  {
    var r := BASE + n;
    assert Slashed(r) == r;
    assert !IsSpace(r[|r| - 1]) by {
      if n == [] { assert r[|r| - 1] == '/'; } else { assert r[|r| - 1] == n[|n| - 1]; }
    }
    StripFixed(r);
  }

  lemma BaseJoinDrops(n: string)
    requires Clean(n)
    ensures DropPrefix(DropPrefix(DropDrive(BASE + n), "/repo/"), "/") == n
  {
    assert DropDrive(BASE + n) == "/repo/" + n;
    assert DropPrefix("/repo/" + n, "/repo/") == n;
    if n != [] {
      assert n[..1] != "/";
    }
  }

  lemma CleanIsFixed(n: string)
    requires Clean(n)
    ensures Relative(BASE + n) == n
  {
    BaseJoinStripped(n);
    BaseJoinNoDoubleSlash(n);
    CollapseSlashesFixed(BASE + n);
    BaseJoinDrops(n);
  }

  lemma {:induction false} CollapseSlashesFixed(s: string)
    requires NoDoubleSlash(s)
    ensures CollapseSlashes(s) == s
    decreases |s|
  {
    if s != [] {
      assert NoDoubleSlash(s[1..]) by {
        forall i | 0 <= i < |s[1..]| - 1
          ensures !(s[1..][i] == '/' && s[1..][i + 1] == '/')
        {
          assert s[1..][i] == s[i + 1] && s[1..][i + 1] == s[i + 2];
        }
      }
      CollapseSlashesFixed(s[1..]);
      if |s| >= 2 {
        assert !(s[0] == '/' && s[1] == '/');
      }
    }
  }

  /**
   * A normalised path is left as it is by a second normalisation, has no
   * backslash and no run of slashes, and does not end in white space.
   */
  lemma NormalizeIdempotent(path: string)
    requires path != ""
    ensures var r := NormalizePath(Some(path)).value;
      && NormalizePath(Some(r)) == Ok(r)
      && '\\' !in r && NoDoubleSlash(r) && !IsSpace(r[|r| - 1])
  {
    RelativeIsClean(path);
    CleanJoinNormal(Relative(path));
  }

  /** `C:/repo/` followed by a clean text is a normalised path, and normalises to itself. */
  lemma CleanJoinNormal(n: string)
    requires Clean(n)
    ensures var r := BASE + n;
      && NormalizePath(Some(r)) == Ok(r)
      && '\\' !in r && NoDoubleSlash(r) && !IsSpace(r[|r| - 1])
  {
    CleanIsFixed(n);
    BaseJoinNoDoubleSlash(n);
    var r := BASE + n;
    if n == [] { assert r[|r| - 1] == '/'; } else { assert r[|r| - 1] == n[|n| - 1]; }
  }

  // ------------------------------------------------------------ the tool

  /** The reply of a transition whose error the tool catches. */
  function Replied(st: Step): Reply
  {
    if st.failed then Error(AnswerText(st.answer)) else Output(AnswerText(st.answer))
  }

  /** The reply of `view` on a file under the normalised path `key`. */
  function ViewReply(files: map<string, string>, key: string, range: Option<seq<int>>): Reply
  {
    if key !in files then Error(AnswerText(ReadFailed(key)))
    else
      var v := ViewContent(ReadText(files[key]), if range.Some? then range.value else []);
      if v.Shown? then Output(MakeOutput(v.text, key, v.first)) else Error(AnswerText(v.why))
  }

  class EditTool {
    var files: map<string, string>
    var history: map<string, seq<string>>

    function State(): EditorState
      reads this
    {
      EditorState(files, history)
    }

    /** A fresh tool over the disk `disk`, with no edit history. */
    constructor (disk: map<string, string>)
      ensures files == disk && history == map[]
    {
      files := disk;
      history := map[];
    }

    /** `read_file`: normalises the path again, then reads or fails. */
    method ReadFile(path: string) returns (r: Result<string>)
      requires path != ""
      ensures var key := NormalizePath(Some(path)).value;
        r == if key in files then Ok(ReadText(files[key])) else Err(AnswerText(ReadFailed(key)))
    {
      var key := NormalizePath(Some(path)).value;
      if key !in files {
        return Err(AnswerText(ReadFailed(key)));
      }
      r := Ok(ReadText(files[key]));
    }

    /** `write_file`: normalises the path again, then writes. */
    method WriteFile(path: string, text: string)
      requires path != ""
      modifies this
      ensures files == old(files)[NormalizePath(Some(path)).value := text]
      ensures history == old(history)
    {
      files := files[NormalizePath(Some(path)).value := text];
    }

    /** `view` of a file: the path check raises, every later error is answered. */
    method View(path: string, range: Option<seq<int>>) returns (r: Result<Reply>)
      ensures path == "" ==> r == Err(EMPTY_PATH)
      ensures path != "" ==> r == Ok(ViewReply(files, NormalizePath(Some(path)).value, range))
    {
      var normalized := NormalizePath(Some(path));
      if normalized.Err? {
        return Err(normalized.error);
      }
      var key := normalized.value;
      NormalizeIdempotent(path);
      var read := ReadFile(key);
      if read.Err? {
        return Ok(Error(read.error));
      }
      var content, first := read.value, 1;
      if range.Some? && range.value != [] {
        var v := ViewContent(content, range.value);
        if v.Refused? {
          return Ok(Error(AnswerText(v.why)));
        }
        content, first := v.text, v.first;
      }
      r := Ok(Output(MakeOutput(content, key, first)));
    }

    /** `str_replace`: every error, the path check included, is answered. */
    method StrReplace(path: string, oldStr: string, newStr: Option<string>) returns (r: Reply)
      modifies this
      ensures path == "" ==> State() == old(State()) && r == Error(EMPTY_PATH)
      ensures path != "" ==>
        var st := ReplaceStep(old(State()), NormalizePath(Some(path)).value, oldStr, newStr);
        State() == st.state && r == Replied(st)
    {
      var normalized := NormalizePath(Some(path));
      if normalized.Err? {
        return Error(normalized.error);
      }
      var key := normalized.value;
      NormalizeIdempotent(path);
      var read := ReadFile(key);
      if read.Err? {
        return Error(read.error);
      }
      var content := ExpandTabs(read.value);
      var pat := ExpandTabs(oldStr);
      var rep := if newStr.Some? then ExpandTabs(newStr.value) else "";
      var occurrences := Count(content, pat);
      if occurrences == 0 {
        return Error(AnswerText(NoMatch(pat, key)));
      } else if occurrences > 1 {
        return Error(AnswerText(ManyMatches(pat, OccurrenceLines(Split(content, '\n'), pat))));
      }
      var edited := Replace(content, pat, rep);
      WriteFile(key, edited);
      history := Push(history, key, content);
      if pat == [] {
        return Error(AnswerText(EmptySeparator));
      }
      r := Output(AnswerText(ReplacedAnswer(key, content, pat, rep, edited)));
    }

    /** `create`: no error is caught; the text is written and pushed. */
    method Create(path: string, fileText: string) returns (r: Result<Reply>)
      modifies this
      ensures path == "" ==> State() == old(State()) && r == Err(EMPTY_PATH)
      ensures path != "" ==>
        var key := NormalizePath(Some(path)).value;
        State() == CreateState(old(State()), key, fileText)
        && r == Ok(Output("File created successfully at: " + key))
    {
      var normalized := NormalizePath(Some(path));
      if normalized.Err? {
        return Err(normalized.error);
      }
      var key := normalized.value;
      NormalizeIdempotent(path);
      WriteFile(key, fileText);
      history := Push(history, key, fileText);
      r := Ok(Output("File created successfully at: " + key));
    }

    /** `insert`: every error, the path check included, is answered. */
    method Insert(path: string, line: int, newStr: string) returns (r: Reply)
      modifies this
      ensures path == "" ==> State() == old(State()) && r == Error(EMPTY_PATH)
      ensures path != "" ==>
        var st := InsertStep(old(State()), NormalizePath(Some(path)).value, line, newStr);
        State() == st.state && r == Replied(st)
    {
      var normalized := NormalizePath(Some(path));
      if normalized.Err? {
        return Error(normalized.error);
      }
      var key := normalized.value;
      NormalizeIdempotent(path);
      var read := ReadFile(key);
      if read.Err? {
        return Error(read.error);
      }
      var text := ExpandTabs(read.value);
      var lines := Split(text, '\n');
      if line < 0 || line > |lines| {
        return Error(AnswerText(BadInsertLine(line, |lines|)));
      }
      var added := Split(ExpandTabs(newStr), '\n');
      var before := if line < SNIPPET_LINES then 0 else line - SNIPPET_LINES;
      var snippet := Join(lines[before..line] + added + Slice(lines, line, line + SNIPPET_LINES), "\n");
      var first := if line - SNIPPET_LINES + 1 < 1 then 1 else line - SNIPPET_LINES + 1;
      WriteFile(key, Join(lines[..line] + added + lines[line..], "\n"));
      history := Push(history, key, text);
      r := Output(AnswerText(Inserted(key, snippet, first)));
    }

    /** `undo_edit`: the path check raises; an empty stack is answered as an error. */
    method UndoEdit(path: string) returns (r: Result<Reply>)
      modifies this
      ensures path == "" ==> State() == old(State()) && r == Err(EMPTY_PATH)
      ensures path != "" ==>
        var st := UndoStep(old(State()), NormalizePath(Some(path)).value);
        State() == st.state && r == Ok(Replied(st))
    {
      var normalized := NormalizePath(Some(path));
      if normalized.Err? {
        return Err(normalized.error);
      }
      var key := normalized.value;
      if key !in history || history[key] == [] {
        return Ok(Error(AnswerText(NoHistory(key))));
      }
      NormalizeIdempotent(path);
      var stack := history[key];
      var last := stack[|stack| - 1];
      history := history[key := stack[..|stack| - 1]];
      WriteFile(key, last);
      r := Ok(Output(AnswerText(Undone(key, last))));
    }
  }

  /** The commands `edit_file` recognises; any other name is kept for the error message. */
  datatype Command = ViewFile | CreateFile | ReplaceText | InsertText | UndoLast | Unknown(name: string)

  /** The chain of comparisons `edit_file` runs on its `command` argument. */
  function ParseCommand(command: string): (c: Command)
    ensures c.Unknown? <==> command !in ["view", "create", "str_replace", "insert", "undo_edit"]
    ensures c.Unknown? ==> c.name == command
  {
    if command == "view" then ViewFile
    else if command == "create" then CreateFile
    else if command == "str_replace" then ReplaceText
    else if command == "insert" then InsertText
    else if command == "undo_edit" then UndoLast
    else Unknown(command)
  }

  /** `create` on a fresh tool: needs a non-empty `file_text`. */
  function CreateCommand(files: map<string, string>, key: string, fileText: Option<string>): (map<string, string>, Reply)
  {
    if !Truthy(fileText) then (files, Error(NO_FILE_TEXT))
    else (CreateState(EditorState(files, map[]), key, fileText.value).files, Output("File created successfully at: " + key))
  }

  /** `str_replace` on a fresh tool: needs a non-empty `old_str`. */
  function ReplaceCommand(files: map<string, string>, key: string, oldStr: Option<string>, newStr: Option<string>): (map<string, string>, Reply)
  {
    if !Truthy(oldStr) then (files, Error(NO_OLD_STR))
    else var st := ReplaceStep(EditorState(files, map[]), key, oldStr.value, newStr); (st.state.files, Replied(st))
  }

  /** `insert` on a fresh tool: needs an `insert_line` and a non-empty `new_str`. */
  function InsertCommand(files: map<string, string>, key: string, newStr: Option<string>, insertLine: Option<int>): (map<string, string>, Reply)
  {
    if insertLine.None? then (files, Error(NO_INSERT_LINE))
    else if !Truthy(newStr) then (files, Error(NO_NEW_STR))
    else var st := InsertStep(EditorState(files, map[]), key, insertLine.value, newStr.value); (st.state.files, Replied(st))
  }

  /** `undo_edit` on a fresh tool. */
  function UndoCommand(files: map<string, string>, key: string): (map<string, string>, Reply)
  {
    var st := UndoStep(EditorState(files, map[]), key); (st.state.files, Replied(st))
  }

  /**
   * What `edit_file` does once the path is normalised to `key`: the disk
   * afterwards and the reply. Each call starts a tool with no edit history.
   */
  function Dispatch(files: map<string, string>, command: Command, key: string,
                    fileText: Option<string>, viewRange: Option<seq<int>>,
                    oldStr: Option<string>, newStr: Option<string>, insertLine: Option<int>): (map<string, string>, Reply)
  {
    match command
    case ViewFile => (files, ViewReply(files, key, viewRange))
    case CreateFile => CreateCommand(files, key, fileText)
    case ReplaceText => ReplaceCommand(files, key, oldStr, newStr)
    case InsertText => InsertCommand(files, key, newStr, insertLine)
    case UndoLast => UndoCommand(files, key)
    case Unknown(name) => (files, Error(Unrecognized(name)))
  }

  /** The `try` block of `edit_file`: the parameter checks, then the command on the tool. */
  method RunCommand(tool: EditTool, command: Command, key: string,
                    fileText: Option<string>, viewRange: Option<seq<int>>,
                    oldStr: Option<string>, newStr: Option<string>, insertLine: Option<int>)
    returns (r: Reply)
    requires tool.history == map[] && key != "" && NormalizePath(Some(key)) == Ok(key)
    modifies tool
    ensures (tool.files, r) == Dispatch(old(tool.files), command, key, fileText, viewRange, oldStr, newStr, insertLine)
  {
    match command {
    case ViewFile =>
      var v := tool.View(key, viewRange);
      r := v.value;
    case CreateFile =>
      r := RunCreate(tool, key, fileText);
    case ReplaceText =>
      r := RunReplace(tool, key, oldStr, newStr);
    case InsertText =>
      r := RunInsert(tool, key, newStr, insertLine);
    case UndoLast =>
      r := RunUndo(tool, key);
    case Unknown(name) =>
      r := Error(Unrecognized(name));
    }
  }

  /** The `create` branch: `file_text` is checked, then the file is created. */
  method RunCreate(tool: EditTool, key: string, fileText: Option<string>) returns (r: Reply)
    requires tool.history == map[] && key != "" && NormalizePath(Some(key)) == Ok(key)
    modifies tool
    ensures (tool.files, r) == CreateCommand(old(tool.files), key, fileText)
  {
    if !Truthy(fileText) {
      return Error(NO_FILE_TEXT);
    }
    ghost var s0 := tool.State();
    var c := tool.Create(key, fileText.value);
    r := c.value;
    assert tool.files == CreateState(s0, key, fileText.value).files;
  }

  /** The `str_replace` branch: `old_str` is checked, then the text is replaced. */
  method RunReplace(tool: EditTool, key: string, oldStr: Option<string>, newStr: Option<string>) returns (r: Reply)
    requires tool.history == map[] && key != "" && NormalizePath(Some(key)) == Ok(key)
    modifies tool
    ensures (tool.files, r) == ReplaceCommand(old(tool.files), key, oldStr, newStr)
  {
    if !Truthy(oldStr) {
      return Error(NO_OLD_STR);
    }
    ghost var st := ReplaceStep(tool.State(), key, oldStr.value, newStr);
    r := tool.StrReplace(key, oldStr.value, newStr);
    assert tool.files == st.state.files && r == Replied(st);
  }

  /** The `insert` branch: `insert_line` and `new_str` are checked, then the text is inserted. */
  method RunInsert(tool: EditTool, key: string, newStr: Option<string>, insertLine: Option<int>) returns (r: Reply)
    requires tool.history == map[] && key != "" && NormalizePath(Some(key)) == Ok(key)
    modifies tool
    ensures (tool.files, r) == InsertCommand(old(tool.files), key, newStr, insertLine)
  {
    if insertLine.None? {
      return Error(NO_INSERT_LINE);
    } else if !Truthy(newStr) {
      return Error(NO_NEW_STR);
    }
    ghost var st := InsertStep(tool.State(), key, insertLine.value, newStr.value);
    r := tool.Insert(key, insertLine.value, newStr.value);
    assert tool.files == st.state.files && r == Replied(st);
  }

  /** The `undo_edit` branch. */
  method RunUndo(tool: EditTool, key: string) returns (r: Reply)
    requires tool.history == map[] && key != "" && NormalizePath(Some(key)) == Ok(key)
    modifies tool
    ensures (tool.files, r) == UndoCommand(old(tool.files), key)
  {
    ghost var st := UndoStep(tool.State(), key);
    var u := tool.UndoEdit(key);
    r := u.value;
    assert tool.files == st.state.files && r == Replied(st);
  }

  /**
   * `edit_file`: a fresh tool per call, the path normalised before anything
   * else (its error is the only one that escapes), then the command run
   * against the disk `files`. Returns the disk afterwards and the reply.
   */
  method EditFile(files: map<string, string>, command: string, path: Option<string>,
                  fileText: Option<string>, viewRange: Option<seq<int>>,
                  oldStr: Option<string>, newStr: Option<string>, insertLine: Option<int>)
    returns (disk: map<string, string>, r: Result<Reply>)
    ensures !Truthy(path) ==> disk == files && r == Err(EMPTY_PATH)
    ensures Truthy(path) ==>
      var (after, reply) := Dispatch(files, ParseCommand(command), NormalizePath(path).value,
                                     fileText, viewRange, oldStr, newStr, insertLine);
      disk == after && r == Ok(reply)
  {
    var tool := new EditTool(files);
    var normalized := NormalizePath(path);
    if normalized.Err? {
      return files, Err(normalized.error);
    }
    var key := normalized.value;
    NormalizeIdempotent(path.value);
    var reply := RunCommand(tool, ParseCommand(command), key, fileText, viewRange, oldStr, newStr, insertLine);
    disk, r := tool.files, Ok(reply);
  }

  /** Since every call starts a fresh tool, `undo_edit` through `edit_file` never finds a history. */
  lemma EditFileCannotUndo(files: map<string, string>, key: string, fileText: Option<string>, viewRange: Option<seq<int>>,
                           oldStr: Option<string>, newStr: Option<string>, insertLine: Option<int>)
    ensures Dispatch(files, ParseCommand("undo_edit"), key, fileText, viewRange, oldStr, newStr, insertLine)
      == (files, Error("No edit history found for " + key + "."))
  {
    UndoEmptyFails(EditorState(files, map[]), key);
  }

  /** A command missing a parameter it needs is answered with an error and leaves the disk as it was. */
  lemma MissingParametersRefused(files: map<string, string>, command: Command, key: string,
                                 fileText: Option<string>, viewRange: Option<seq<int>>,
                                 oldStr: Option<string>, newStr: Option<string>, insertLine: Option<int>)
    ensures command == CreateFile && !Truthy(fileText) ==>
      Dispatch(files, command, key, fileText, viewRange, oldStr, newStr, insertLine) == (files, Error(NO_FILE_TEXT))
    ensures command == ReplaceText && !Truthy(oldStr) ==>
      Dispatch(files, command, key, fileText, viewRange, oldStr, newStr, insertLine) == (files, Error(NO_OLD_STR))
    ensures command == InsertText && insertLine.None? ==>
      Dispatch(files, command, key, fileText, viewRange, oldStr, newStr, insertLine) == (files, Error(NO_INSERT_LINE))
    ensures command == InsertText && insertLine.Some? && !Truthy(newStr) ==>
      Dispatch(files, command, key, fileText, viewRange, oldStr, newStr, insertLine) == (files, Error(NO_NEW_STR))
  {
  }

  /** A command other than the five names is answered with an error naming it, and the disk is left as it was. */
  lemma UnknownCommandRefused(files: map<string, string>, command: string, key: string,
                              fileText: Option<string>, viewRange: Option<seq<int>>,
                              oldStr: Option<string>, newStr: Option<string>, insertLine: Option<int>)
    requires command !in ["view", "create", "str_replace", "insert", "undo_edit"]
    ensures Dispatch(files, ParseCommand(command), key, fileText, viewRange, oldStr, newStr, insertLine)
      == (files, Error(Unrecognized(command)))
  {
  }
}

=== FILE: text.dfy ===
/**
 * Python's string and list primitives that the agent loop and its tools use, with
 * CPython's semantics: slices clamp their bounds, `count` is non-overlapping and
 * counts `len + 1` empty matches, `replace` replaces every occurrence, `split` on
 * a one-character separator keeps empty pieces, `expandtabs` uses tab size 8 and
 * restarts its column after `\n` and `\r`, and `strip` removes the characters for
 * which `str.isspace` holds.
 */
module Text {

  // ---------------------------------------------------------------- slicing

  /** The start or end of a Python slice bound, resolved against a length. */
  function Clamp(i: int, len: nat): (r: nat)
    ensures r <= len
  {
    if i < 0 then (if i + len < 0 then 0 else i + len)
    else if i > len then len
    else i
  }

  /** Python's `s[a:b]`. */
  function Slice<T>(s: seq<T>, a: int, b: int): seq<T>
  {
    var lo := Clamp(a, |s|);
    var hi := Clamp(b, |s|);
    if lo <= hi then s[lo..hi] else []
  }

  /** Python's `s[:n]`. */
  function Take<T>(s: seq<T>, n: int): seq<T>
  {
    Slice(s, 0, n)
  }

  /** Python's `s[-n:]` for a window of `n` items, as used for the display panels. */
  function LastN<T>(s: seq<T>, n: nat): seq<T>
  {
    if n == 0 then s else Slice(s, -(n as int), |s|)
  }

  lemma LastNWindow<T>(s: seq<T>, n: nat)
    requires n > 0
    ensures |LastN(s, n)| == if |s| < n then |s| else n
    ensures LastN(s, n) == s[|s| - |LastN(s, n)|..]
  {
  }

  lemma TakeIsPrefix<T>(s: seq<T>, n: int)
    ensures |Take(s, n)| <= |s|
    ensures Take(s, n) == s[..|Take(s, n)|]
    ensures 0 <= n ==> |Take(s, n)| == if n < |s| then n else |s|
  {
  }

  // ---------------------------------------------------------------- join / split

  /** Python's `sep.join(parts)`. */
  function Join(parts: seq<string>, sep: string): string
    decreases |parts|
  {
    if |parts| == 0 then ""
    else if |parts| == 1 then parts[0]
    else parts[0] + sep + Join(parts[1..], sep)
  }

  /** Joining two non-empty lists puts one separator between their joins. */
  lemma {:induction false} JoinAppend(x: seq<string>, y: seq<string>, sep: string)
    requires |x| >= 1 && |y| >= 1
    ensures Join(x + y, sep) == Join(x, sep) + sep + Join(y, sep)
    decreases |x|
  {
    if |x| > 1 {
      assert (x + y)[1..] == x[1..] + y;
      JoinAppend(x[1..], y, sep);
    } else {
      assert (x + y)[1..] == y;
    }
  }

  /** Python's `s.split(c)` for a one-character separator: never empty, keeps empty pieces. */
  function Split(s: string, c: char): (r: seq<string>)
    ensures |r| >= 1
    decreases |s|
  {
    if s == [] then [""]
    else
      var rest := Split(s[1..], c);
      if s[0] == c then [""] + rest
      else [[s[0]] + rest[0]] + rest[1..]
  }

  /** Joining the pieces of a split with the same separator gives the text back. */
  lemma {:induction false} JoinSplit(s: string, c: char)
    ensures Join(Split(s, c), [c]) == s
    decreases |s|
  {
    if s != [] {
      var rest := Split(s[1..], c);
      JoinSplit(s[1..], c);
      if s[0] == c {
        assert Split(s, c) == [""] + rest;
        assert Join(Split(s, c), [c]) == "" + [c] + Join(rest, [c]);
        assert s == [s[0]] + s[1..];
      } else if |rest| == 1 {
        assert Join(rest, [c]) == rest[0];
        assert s == [s[0]] + s[1..];
      } else {
        var parts := Split(s, c);
        assert parts == [[s[0]] + rest[0]] + rest[1..];
        assert parts[1..] == rest[1..];
        assert Join(rest, [c]) == rest[0] + [c] + Join(rest[1..], [c]);
        assert s == [s[0]] + s[1..];
      }
    }
  }

  /** No piece of a split contains the separator. */
  lemma {:induction false} SplitPiecesFree(s: string, c: char)
    ensures forall i :: 0 <= i < |Split(s, c)| ==> c !in Split(s, c)[i]
    decreases |s|
  {
    if s != [] {
      SplitPiecesFree(s[1..], c);
    }
  }

  /** Splitting a join of separator-free pieces gives the pieces back. */
  lemma {:induction false} SplitJoin(parts: seq<string>, c: char)
    requires |parts| >= 1
    requires forall i :: 0 <= i < |parts| ==> c !in parts[i]
    ensures Split(Join(parts, [c]), c) == parts
    decreases |parts|, |parts[0]|
  {
    if |parts| == 1 {
      SplitOfFree(parts[0], c);
    } else if parts[0] == [] {
      SplitJoin(parts[1..], c);
      assert Join(parts, [c]) == [c] + Join(parts[1..], [c]);
      assert ([c] + Join(parts[1..], [c]))[1..] == Join(parts[1..], [c]);
    } else {
      var shorter := [parts[0][1..]] + parts[1..];
      assert shorter[1..] == parts[1..];
      SplitJoin(shorter, c);
      var j := Join(parts, [c]);
      assert j == [parts[0][0]] + Join(shorter, [c]);
      assert j[1..] == Join(shorter, [c]);
      assert j[0] != c;
      assert parts[0] == [parts[0][0]] + parts[0][1..];
      assert [[j[0]] + shorter[0]] + shorter[1..] == parts;
    }
  }

  lemma {:induction false} SplitOfFree(s: string, c: char)
    requires c !in s
    ensures Split(s, c) == [s]
    decreases |s|
  {
    if s != [] {
      SplitOfFree(s[1..], c);
      assert s == [s[0]] + s[1..];
    }
  }

  /** Splitting at one separator splits the two sides independently. */
  lemma {:induction false} SplitAtSeparator(a: string, b: string, c: char)
    ensures Split(a + [c] + b, c) == Split(a, c) + Split(b, c)
    decreases |a|
  {
    var s := a + [c] + b;
    if a == [] {
      assert s[1..] == b;
    } else {
      assert s[1..] == a[1..] + [c] + b;
      SplitAtSeparator(a[1..], b, c);
    }
  }

  // ---------------------------------------------------------------- find / count / replace

  /** `sub` occurs in `s` starting at index `j`. */
  predicate OccursAt(s: string, sub: string, j: int)
  {
    0 <= j && j + |sub| <= |s| && s[j..j + |sub|] == sub
  }

  /** The first index `>= i` where `sub` occurs in `s`, or -1. */
  function FindFrom(s: string, sub: string, i: nat): (r: int)
    ensures r == -1 || (i <= r && OccursAt(s, sub, r))
    ensures forall j :: i <= j < (if r < 0 then |s| + 1 else r) ==> !OccursAt(s, sub, j)
    decreases |s| + 1 - i
  {
    if i + |sub| > |s| then -1
    else if s[i..i + |sub|] == sub then i
    else FindFrom(s, sub, i + 1)
  }

  /** Python's `s.find(sub)`: the first index where `sub` occurs, or -1. */
  function Find(s: string, sub: string): (r: int)
    ensures -1 <= r <= |s|
    ensures r >= 0 ==> OccursAt(s, sub, r)
    ensures forall j :: 0 <= j < (if r < 0 then |s| + 1 else r) ==> !OccursAt(s, sub, j)
  {
    FindFrom(s, sub, 0)
  }

  /** Python's `sub in s`. */
  predicate Contains(s: string, sub: string)
  {
    Find(s, sub) >= 0
  }

  /** Python's `s.count(sub)`: leftmost, non-overlapping occurrences, found one after another. */
  function Count(s: string, sub: string): nat
    decreases |s|
  {
    if sub == [] then |s| + 1
    else
      var f := Find(s, sub);
      if f < 0 then 0 else 1 + Count(s[f + |sub|..], sub)
  }

  /** Python's `s.replace(pat, rep)`: every leftmost, non-overlapping occurrence. */
  function Replace(s: string, pat: string, rep: string): string
    decreases |s|
  {
    if pat == [] then (if s == [] then rep else rep + [s[0]] + Replace(s[1..], pat, rep))
    else
      var f := Find(s, pat);
      if f < 0 then s else s[..f] + rep + Replace(s[f + |pat|..], pat, rep)
  }

  /**
   * The unique-match replacement: when `pat` occurs exactly once, replacing it
   * rewrites that one occurrence and keeps the text around it.
   */
  lemma ReplaceUnique(s: string, pat: string, rep: string)
    requires pat != [] && Count(s, pat) == 1
    ensures Find(s, pat) >= 0
    ensures Replace(s, pat, rep) == s[..Find(s, pat)] + rep + s[Find(s, pat) + |pat|..]
  {
    var f := Find(s, pat);
    assert Count(s[f + |pat|..], pat) == 0;
    assert Replace(s[f + |pat|..], pat, rep) == s[f + |pat|..];
  }

  // ---------------------------------------------------------------- expandtabs / strip / case

  function Repeat(c: char, n: nat): (r: string)
    ensures |r| == n && forall i :: 0 <= i < n ==> r[i] == c
  {
    if n == 0 then "" else [c] + Repeat(c, n - 1)
  }

  /** Python's `s.expandtabs()` continued from column `col`. */
  function ExpandTabsFrom(s: string, col: nat): string
    decreases |s|
  {
    if s == [] then ""
    else if s[0] == '\t' then
      var pad := 8 - col % 8;
      Repeat(' ', pad) + ExpandTabsFrom(s[1..], col + pad)
    else if s[0] == '\n' || s[0] == '\r' then [s[0]] + ExpandTabsFrom(s[1..], 0)
    else [s[0]] + ExpandTabsFrom(s[1..], col + 1)
  }

  /** Python's `s.expandtabs()` (tab size 8). */
  function ExpandTabs(s: string): string
  {
    ExpandTabsFrom(s, 0)
  }

  lemma {:induction false} ExpandTabsFromNoTabs(s: string, col: nat)
    ensures '\t' !in ExpandTabsFrom(s, col)
    ensures '\t' !in s ==> ExpandTabsFrom(s, col) == s
    decreases |s|
  {
    if s != [] {
      var pad := 8 - col % 8;
      ExpandTabsFromNoTabs(s[1..], if s[0] == '\t' then col + pad else if s[0] == '\n' || s[0] == '\r' then 0 else col + 1);
      if s[0] != '\t' {
        assert s == [s[0]] + s[1..];
      }
    }
  }

  /** Expanding tabs leaves no tab and is idempotent. */
  lemma ExpandTabsIdempotent(s: string)
    ensures '\t' !in ExpandTabs(s)
    ensures ExpandTabs(ExpandTabs(s)) == ExpandTabs(s)
  {
    ExpandTabsFromNoTabs(s, 0);
    ExpandTabsFromNoTabs(ExpandTabs(s), 0);
  }

  /** Python's `str.isspace` for one character. */
  predicate IsSpace(c: char)
  {
    var n := c as int;
    (9 <= n <= 13) || (28 <= n <= 32) || n == 0x85 || n == 0xA0 || n == 0x1680
    || (0x2000 <= n <= 0x200A) || n == 0x2028 || n == 0x2029 || n == 0x202F
    || n == 0x205F || n == 0x3000
  }

  function LStrip(s: string): string
    decreases |s|
  {
    if s != [] && IsSpace(s[0]) then LStrip(s[1..]) else s
  }

  function RStrip(s: string): (r: string)
    ensures r == [] || !IsSpace(r[|r| - 1])
    decreases |s|
  {
    if s != [] && IsSpace(s[|s| - 1]) then RStrip(s[..|s| - 1]) else s
  }

  /** Python's `s.strip()`. */
  function Strip(s: string): string
  {
    RStrip(LStrip(s))
  }

  function LowerChar(c: char): char
  {
    if 'A' <= c <= 'Z' then (c as int + 32) as char else c
  }

  function UpperChar(c: char): char
  {
    if 'a' <= c <= 'z' then (c as int - 32) as char else c
  }

  /** Python's `s.lower()` on ASCII letters. */
  function Lower(s: string): (r: string)
    ensures |r| == |s|
  {
    seq(|s|, i requires 0 <= i < |s| => LowerChar(s[i]))
  }

  /** Python's `s.upper()` on ASCII letters. */
  function Upper(s: string): (r: string)
    ensures |r| == |s|
  {
    seq(|s|, i requires 0 <= i < |s| => UpperChar(s[i]))
  }

  predicate StartsWith(s: string, prefix: string)
  {
    |prefix| <= |s| && s[..|prefix|] == prefix
  }

  // ---------------------------------------------------------------- numbers

  function DigitChar(d: nat): char
    requires d < 10
  {
    "0123456789"[d]
  }

  /** Python's `str(n)` for a natural number. */
  function NatToString(n: nat): (r: string)
    ensures |r| >= 1
    decreases n
  {
    if n < 10 then [DigitChar(n)] else NatToString(n / 10) + [DigitChar(n % 10)]
  }

  lemma {:induction false} NatToStringDigits(n: nat)
    ensures forall k :: 0 <= k < |NatToString(n)| ==> '0' <= NatToString(n)[k] <= '9'
    decreases n
  {
    if n >= 10 {
      NatToStringDigits(n / 10);
    }
  }

  /** Python's `str(i)` for any integer. */
  function IntToString(i: int): (r: string)
    ensures forall k :: 0 <= k < |r| ==> r[k] == '-' || '0' <= r[k] <= '9'
  {
    NatToStringDigits(if i < 0 then -i else i);
    if i < 0 then "-" + NatToString(-i) else NatToString(i)
  }

  /** Python's `f"{s:>w}"`: right-aligned in a field of width `w`. */
  function PadLeft(s: string, w: nat): (r: string)
    ensures |r| == if |s| < w then w else |s|
  {
    if |s| < w then Repeat(' ', w - |s|) + s else s
  }


  // ---------------------------------------------------------------- line breaks

  /** A character a line-break fix turns into `\n`: `\r`, and with `unicode` also U+2028 and U+2029. */
  predicate IsBreak(c: char, unicode: bool)
  {
    c == '\r' || (unicode && (c as int == 0x2028 || c as int == 0x2029))
  }

  /**
   * `\r\n` and every other break character become `\n`: ftfy's
   * `fix_line_breaks` with `unicode`, Python's universal-newline reading of a
   * text file without it.
   */
  function Breaks(s: string, unicode: bool): string
    decreases |s|
  {
    if s == [] then []
    else if s[0] == '\r' && |s| >= 2 && s[1] == '\n' then "\n" + Breaks(s[2..], unicode)
    else if IsBreak(s[0], unicode) then "\n" + Breaks(s[1..], unicode)
    else [s[0]] + Breaks(s[1..], unicode)
  }

  /** Python's text-mode read with universal newlines: `\r\n` and a lone `\r` become `\n`. */
  function UniversalNewlines(s: string): string
  {
    Breaks(s, false)
  }

  /** No carriage return survives a line-break fix. */
  lemma {:induction false} BreaksNoCR(s: string, unicode: bool)
    ensures '\r' !in Breaks(s, unicode)
    decreases |s|
  {
    if s != [] {
      if s[0] == '\r' && |s| >= 2 && s[1] == '\n' {
        BreaksNoCR(s[2..], unicode);
      } else {
        BreaksNoCR(s[1..], unicode);
      }
    }
  }

  /** A text without break characters is left as it is. */
  lemma {:induction false} BreaksFixed(s: string, unicode: bool)
    requires forall i :: 0 <= i < |s| ==> !IsBreak(s[i], unicode)
    ensures Breaks(s, unicode) == s
    decreases |s|
  {
    if s != [] {
      BreaksFixed(s[1..], unicode);
      assert [s[0]] + s[1..] == s;
    }
  }

  /** The fix works piece by piece when the first piece does not end inside a `\r\n` pair. */
  lemma {:induction false} BreaksAppend(a: string, b: string, unicode: bool)
    requires a == [] || a[|a| - 1] != '\r'
    ensures Breaks(a + b, unicode) == Breaks(a, unicode) + Breaks(b, unicode)
    decreases |a|
  {
    if a == [] {
      assert a + b == b;
    } else if a[0] == '\r' && |a| >= 2 && a[1] == '\n' {
      var ab := a + b;
      assert ab[0] == a[0] && ab[1] == a[1];
      assert ab[2..] == a[2..] + b;
      calc {
        Breaks(ab, unicode);
        "\n" + Breaks(a[2..] + b, unicode);
        { BreaksAppend(a[2..], b, unicode); }
        "\n" + (Breaks(a[2..], unicode) + Breaks(b, unicode));
        ("\n" + Breaks(a[2..], unicode)) + Breaks(b, unicode);
      }
    } else {
      var ab := a + b;
      var head := if IsBreak(a[0], unicode) then "\n" else [a[0]];
      assert ab[0] == a[0];
      assert !(ab[0] == '\r' && |ab| >= 2 && ab[1] == '\n') by {
        if |a| >= 2 {
          assert ab[1] == a[1];
        }
      }
      assert ab[1..] == a[1..] + b;
      calc {
        Breaks(ab, unicode);
        head + Breaks(a[1..] + b, unicode);
        { BreaksAppend(a[1..], b, unicode); }
        head + (Breaks(a[1..], unicode) + Breaks(b, unicode));
        (head + Breaks(a[1..], unicode)) + Breaks(b, unicode);
      }
    }
  }

  /** A text that ends with `\n` still does after the fix. */
  lemma {:induction false} BreaksEndsWithNewline(s: string, unicode: bool)
    requires s != [] && s[|s| - 1] == '\n'
    ensures Breaks(s, unicode) != [] && Breaks(s, unicode)[|Breaks(s, unicode)| - 1] == '\n'
    decreases |s|
  {
    if s[0] == '\r' && |s| >= 2 && s[1] == '\n' {
      if |s| > 2 {
        BreaksEndsWithNewline(s[2..], unicode);
      }
    } else if |s| > 1 {
      BreaksEndsWithNewline(s[1..], unicode);
    }
  }

  /** A line-break fix brings in no character but `\n`. */
  lemma {:induction false} BreaksFrom(s: string, unicode: bool)
    ensures forall i :: 0 <= i < |Breaks(s, unicode)| ==> Breaks(s, unicode)[i] == '\n' || Breaks(s, unicode)[i] in s
    decreases |s|
  {
    if s != [] {
      if s[0] == '\r' && |s| >= 2 && s[1] == '\n' {
        BreaksFrom(s[2..], unicode);
      } else {
        BreaksFrom(s[1..], unicode);
      }
    }
  }
}

=== FILE: token_tracker.dfy ===
/**
 * `TokenTracker`: per-response token usage, kept as the latest figures
 * (`recent_*`) and running totals (`total_*`). `loop_gfix.py` and `looptemp.py`
 * keep the totals only; the other loops keep both, as modelled here.
 */
module TokenTracking {

  /** The four counters of a response's `usage`. */
  datatype Usage = Usage(cacheCreation: nat, cacheRead: nat, input: nat, output: nat)

  const ZERO := Usage(0, 0, 0, 0)

  function Plus(a: Usage, b: Usage): Usage
  {
    Usage(a.cacheCreation + b.cacheCreation, a.cacheRead + b.cacheRead, a.input + b.input, a.output + b.output)
  }

  /** The field-wise sum of a sequence of usages. */
  function Sum(us: seq<Usage>): Usage
  {
    if us == [] then ZERO else Plus(Sum(us[..|us| - 1]), us[|us| - 1])
  }

  /** The "Total Tokens Used" figure: the four totals added up. */
  function Grand(u: Usage): nat
  {
    u.cacheCreation + u.cacheRead + u.input + u.output
  }

  /** The grand total of a sequence of responses is the sum of their grand totals. */
  lemma {:induction false} GrandOfSum(us: seq<Usage>)
    ensures Grand(Sum(us)) == GrandEach(us)
    decreases |us|
  {
    if us != [] {
      GrandOfSum(us[..|us| - 1]);
    }
  }

  function GrandEach(us: seq<Usage>): nat
  {
    if us == [] then 0 else GrandEach(us[..|us| - 1]) + Grand(us[|us| - 1])
  }

  /** Summing a concatenation sums the two parts. */
  lemma {:induction false} SumAppend(a: seq<Usage>, b: seq<Usage>)
    ensures Sum(a + b) == Plus(Sum(a), Sum(b))
    decreases |b|
  {
    if b == [] {
      assert a + b == a;
    } else {
      var b' := b[..|b| - 1];
      var ab := a + b;
      assert ab[..|ab| - 1] == a + b';
      assert ab[|ab| - 1] == b[|b| - 1];
      SumAppend(a, b');
      assert Sum(ab) == Plus(Sum(a + b'), b[|b| - 1]);
      assert Sum(b) == Plus(Sum(b'), b[|b| - 1]);
    }
  }

  class TokenTracker {
    var totalCacheCreation: nat
    var totalCacheRetrieval: nat
    var totalInput: nat
    var totalOutput: nat
    var recentCacheCreation: nat
    var recentCacheRetrieval: nat
    var recentInput: nat
    var recentOutput: nat
    /** Every usage passed to `update`, oldest first. */
    ghost var history: seq<Usage>

    function Totals(): Usage
      reads this
    {
      Usage(totalCacheCreation, totalCacheRetrieval, totalInput, totalOutput)
    }

    function Recent(): Usage
      reads this
    {
      Usage(recentCacheCreation, recentCacheRetrieval, recentInput, recentOutput)
    }

    /** The totals are the sum of every update; the recent figures are the last one (zero before any). */
    ghost predicate Valid()
      reads this
    {
      Totals() == Sum(history)
      && Recent() == (if history == [] then ZERO else history[|history| - 1])
    }

    constructor ()
      ensures Valid() && history == []
    {
      totalCacheCreation, totalCacheRetrieval, totalInput, totalOutput := 0, 0, 0, 0;
      recentCacheCreation, recentCacheRetrieval, recentInput, recentOutput := 0, 0, 0, 0;
      history := [];
    }

    method Update(usage: Usage)
      requires Valid()
      modifies this
      ensures Valid() && history == old(history) + [usage]
      ensures Recent() == usage && Totals() == Plus(old(Totals()), usage)
    {
      recentCacheCreation := usage.cacheCreation;
      recentCacheRetrieval := usage.cacheRead;
      recentInput := usage.input;
      recentOutput := usage.output;
      totalCacheCreation := totalCacheCreation + recentCacheCreation;
      totalCacheRetrieval := totalCacheRetrieval + recentCacheRetrieval;
      totalInput := totalInput + recentInput;
      totalOutput := totalOutput + recentOutput;
      history := history + [usage];
      assert history[..|history| - 1] == old(history);
    }
  }
}

=== FILE: tool_collection.dfy ===
/**
 * `ToolCollection` (`tools/collection.py`): the tools the loop offers, a map
 * from each tool's declared name to the tool, the parameter list sent to the
 * model, and dispatch of a call by name. What a tool does when called is not
 * part of this model: `run` takes it as a function from the tool and its input
 * to what the call returned or raised.
 */
module ToolDispatch {
  import opened Wrappers
  import opened Text
  import opened JsonValue
  import opened ToolResults

  /** A tool, seen through what its `to_params()` returns. */
  datatype Tool = Tool(params: seq<(string, Json)>)

  /** `to_params()["name"]` exists and is a string. */
  predicate Named(t: Tool)
  {
    HasKey(t.params, "name") && Get(t.params, "name").JStr?
  }

  predicate AllNamed(tools: seq<Tool>)
  {
    forall i :: 0 <= i < |tools| ==> Named(tools[i])
  }

  function NameOf(t: Tool): string
    requires Named(t)
  {
    Get(t.params, "name").s
  }

  // ---------------------------------------------------------------- Python dict insertion

  /** `d[k] = v`: a present key keeps its place and takes the new value; a new key goes last. */
  function SetField<V>(d: seq<(string, V)>, k: string, v: V): (r: seq<(string, V)>)
    ensures |r| == |d| || |r| == |d| + 1
  {
    if d == [] then [(k, v)]
    else if d[0].0 == k then [(k, v)] + d[1..]
    else [d[0]] + SetField(d[1..], k, v)
  }

  function Lookup<V>(d: seq<(string, V)>, k: string): Option<V>
  {
    if d == [] then None else if d[0].0 == k then Some(d[0].1) else Lookup(d[1..], k)
  }

  function MapKeys<V>(d: seq<(string, V)>): seq<string>
  {
    seq(|d|, i requires 0 <= i < |d| => d[i].0)
  }

  predicate Distinct(names: seq<string>)
  {
    forall i, j :: 0 <= i < j < |names| ==> names[i] != names[j]
  }

  lemma {:induction false} SetFieldLookup<V>(d: seq<(string, V)>, k: string, v: V, q: string)
    ensures Lookup(SetField(d, k, v), q) == if q == k then Some(v) else Lookup(d, q)
    decreases |d|
  {
    if d != [] && d[0].0 != k {
      SetFieldLookup(d[1..], k, v, q);
    }
  }

  lemma {:induction false} SetFieldKeys<V>(d: seq<(string, V)>, k: string, v: V)
    ensures MapKeys(SetField(d, k, v)) == if k in MapKeys(d) then MapKeys(d) else MapKeys(d) + [k]
    decreases |d|
  {
    if d != [] {
      var r := SetField(d, k, v);
      assert MapKeys(d) == [d[0].0] + MapKeys(d[1..]);
      if d[0].0 == k {
        assert MapKeys(r) == MapKeys(d);
      } else {
        SetFieldKeys(d[1..], k, v);
        assert MapKeys(r) == [d[0].0] + MapKeys(SetField(d[1..], k, v));
        assert (k in MapKeys(d)) == (k in MapKeys(d[1..]));
      }
    } else {
      assert MapKeys(SetField(d, k, v)) == [k];
    }
  }

  lemma DistinctSnoc(names: seq<string>, k: string)
    requires Distinct(names)
    ensures Distinct(if k in names then names else names + [k])
  {
  }

  // ---------------------------------------------------------------- the collection

  /** `{tool.to_params()["name"]: tool for tool in tools}`, built in constructor order. */
  function ToolMap(tools: seq<Tool>): seq<(string, Tool)>
    requires AllNamed(tools)
  {
    if tools == [] then []
    else SetField(ToolMap(tools[..|tools| - 1]), NameOf(tools[|tools| - 1]), tools[|tools| - 1])
  }

  /** The last of `tools` with that name, if any. */
  function LastNamed(tools: seq<Tool>, name: string): Option<Tool>
    requires AllNamed(tools)
  {
    if tools == [] then None
    else if NameOf(tools[|tools| - 1]) == name then Some(tools[|tools| - 1])
    else LastNamed(tools[..|tools| - 1], name)
  }

  /** Names in the order they first appear. */
  function FirstSeenNames(tools: seq<Tool>): seq<string>
    requires AllNamed(tools)
  {
    if tools == [] then []
    else
      var earlier := FirstSeenNames(tools[..|tools| - 1]);
      var n := NameOf(tools[|tools| - 1]);
      if n in earlier then earlier else earlier + [n]
  }

  /**
   * Looking a name up finds the last tool registered under it: a later tool
   * with the same name replaces an earlier one. The keys are the distinct names
   * in the order each was first registered.
   */
  lemma {:induction false} ToolMapLookup(tools: seq<Tool>, name: string)
    requires AllNamed(tools)
    ensures Lookup(ToolMap(tools), name) == LastNamed(tools, name)
    ensures Distinct(MapKeys(ToolMap(tools))) && MapKeys(ToolMap(tools)) == FirstSeenNames(tools)
    decreases |tools|
  {
    if tools != [] {
      var front := tools[..|tools| - 1];
      assert AllNamed(front);
      ToolMapLookup(front, name);
      var last := tools[|tools| - 1];
      SetFieldLookup(ToolMap(front), NameOf(last), last, name);
      SetFieldKeys(ToolMap(front), NameOf(last), last);
      DistinctSnoc(MapKeys(ToolMap(front)), NameOf(last));
    }
  }

  const EPHEMERAL := JObj([("type", JStr("ephemeral"))])

  /** `to_params`: every tool's params in order, the last with `cache_control` set. */
  function ToParams(tools: seq<Tool>): (r: seq<seq<(string, Json)>>)
    ensures |r| == |tools|
    ensures forall i :: 0 <= i < |tools| - 1 ==> r[i] == tools[i].params
    ensures tools != [] ==> Lookup(r[|r| - 1], "cache_control") == Some(EPHEMERAL)
  {
    var params := seq(|tools|, i requires 0 <= i < |tools| => tools[i].params);
    if params == [] then []
    else
      var last := |params| - 1;
      SetFieldLookup(params[last], "cache_control", EPHEMERAL, "cache_control");
      params[last := SetField(params[last], "cache_control", EPHEMERAL)]
  }

  /** The last tool keeps every other key and value; only `cache_control` is added or replaced. */
  lemma ToParamsLastKeepsKeys(tools: seq<Tool>, key: string)
    requires tools != [] && key != "cache_control"
    ensures Lookup(ToParams(tools)[|tools| - 1], key) == Lookup(tools[|tools| - 1].params, key)
  {
    SetFieldLookup(tools[|tools| - 1].params, "cache_control", EPHEMERAL, key);
  }

  /** What calling a tool did: returned a result, raised `ToolError`, or raised anything else. */
  datatype Reply = Returned(result: ToolResult) | RaisedToolError(message: string) | Raised(error: string)

  /** What `run` gives the loop: a result, or an exception that propagates. */
  datatype RunOutcome = Done(result: ToolResult) | Propagates(error: string)

  function Failure(error: string): ToolResult
  {
    ToolResult(None, Some(error), None, true)
  }

  /** `run`: look the name up; an unknown name fails; a `ToolError` becomes a failure; other exceptions propagate. */
  function Run(tools: seq<Tool>, name: string, input: seq<(string, Json)>,
               invoke: (Tool, seq<(string, Json)>) -> Reply): RunOutcome
    requires AllNamed(tools)
  {
    match Lookup(ToolMap(tools), name)
    case None => Done(Failure("Tool " + name + " is invalid"))
    case Some(tool) =>
      match invoke(tool, input)
      case Returned(r) => Done(r)
      case RaisedToolError(m) => Done(Failure(m))
      case Raised(e) => Propagates(e)
  }

  /** An unregistered name fails with `Tool <name> is invalid`, whatever the tools would have done. */
  lemma RunUnknown(tools: seq<Tool>, name: string, input: seq<(string, Json)>,
                   invoke: (Tool, seq<(string, Json)>) -> Reply, other: (Tool, seq<(string, Json)>) -> Reply)
    requires AllNamed(tools) && LastNamed(tools, name).None?
    ensures Run(tools, name, input, invoke) == Run(tools, name, input, other)
          == Done(Failure("Tool " + name + " is invalid"))
  {
    ToolMapLookup(tools, name);
  }

  /**
   * A registered name calls the last tool registered under it, once, with the
   * given input: its result comes back unchanged, a `ToolError` becomes a
   * failure carrying the message, and any other exception propagates.
   */
  lemma RunKnown(tools: seq<Tool>, name: string, input: seq<(string, Json)>,
                 invoke: (Tool, seq<(string, Json)>) -> Reply)
    requires AllNamed(tools) && LastNamed(tools, name).Some?
    ensures var reply := invoke(LastNamed(tools, name).value, input);
      Run(tools, name, input, invoke)
      == match reply
         case Returned(r) => Done(r)
         case RaisedToolError(m) => Done(ToolResult(None, Some(m), None, true))
         case Raised(e) => Propagates(e)
  {
    ToolMapLookup(tools, name);
  }

  /** `get_tool_names_as_string`: the distinct names, first-registered first, joined by `", "`. */
  function ToolNames(tools: seq<Tool>): string
    requires AllNamed(tools)
  {
    Join(MapKeys(ToolMap(tools)), ", ")
  }

  /** Registering a name twice lists it once, at its first position. */
  lemma ToolNamesFirstSeen(tools: seq<Tool>)
    requires AllNamed(tools)
    ensures ToolNames(tools) == Join(FirstSeenNames(tools), ", ")
  {
    ToolMapLookup(tools, "");
  }
}

=== FILE: tool_results.dfy ===
/**
 * What a tool call hands back to the loop, and the three pure helpers the loop
 * applies to it and to message content: `_make_api_tool_result` (a tool outcome
 * as a `tool_result` block), `_extract_text_from_content` (the text of a
 * content value) and `truncate_message_content` (cut every string, keep the
 * structure and anything under `source`).
 */
module ToolResults {
  import opened Wrappers
  import opened Text
  import opened JsonValue
  import opened Conversation
  import ImagePolicy

  /**
   * A tool's result object. `ToolFailure` is the same record with `failure`
   * set; the base classes live in a module this model does not include.
   */
  datatype ToolResult = ToolResult(
    output: Option<string>,
    error: Option<string>,
    base64Image: Option<string>,
    failure: bool)

  /** What a tool call returned: a bare string (a failure message) or a result object. */
  datatype Outcome = Raw(s: string) | Result(r: ToolResult)

  /** Python truthiness of an optional string: present and non-empty. */
  predicate Truthy(o: Option<string>)
  {
    o.Some? && o.value != []
  }

  const IMAGE_MEDIA_TYPE := "image/png"

  /** `_make_api_tool_result`: the block the loop sends back for one `tool_use`. */
  function MakeApiToolResult(outcome: Outcome, toolUseId: string): Block
  {
    match outcome
    case Raw(s) => ToolResultBlock(toolUseId, [TextPart(s)], true, false)
    case Result(res) =>
      var text := if Truthy(res.output) then [TextPart(res.output.value)] else [];
      var image := if Truthy(res.base64Image) then [ImagePart(IMAGE_MEDIA_TYPE, res.base64Image.value)] else [];
      ToolResultBlock(toolUseId, text + image, false, false)
  }

  /**
   * The block answers the call it is given, carries no cache marker, is an
   * error exactly for a failure string, which it holds as its only part, and
   * has at most a text and a PNG image.
   */
  lemma ToolResultShape(outcome: Outcome, toolUseId: string)
    ensures var r := MakeApiToolResult(outcome, toolUseId);
      && r.ToolResultBlock? && r.toolUseId == toolUseId && !r.cached
      && (r.isError <==> outcome.Raw?)
      && (outcome.Raw? ==> r.parts == [TextPart(outcome.s)])
      && |r.parts| <= 2
      && forall k :: 0 <= k < |r.parts| && r.parts[k].ImagePart? ==> r.parts[k].mediaType == IMAGE_MEDIA_TYPE
  {
  }

  // ---------------------------------------------------------------- the text of a content value

  function PartTexts(ps: seq<Part>): seq<string>
  {
    if ps == [] then []
    else (if ps[0].TextPart? then [ps[0].text] else []) + PartTexts(ps[1..])
  }

  /** The strings one block contributes: its text, or the text parts of a tool result. */
  function BlockTexts(b: Block): seq<string>
  {
    match b
    case TextBlock(t, _) => [t]
    case ToolUseBlock(_, _, _, _) => []
    case ToolResultBlock(_, ps, _, _) => PartTexts(ps)
  }

  function BlocksTexts(bs: seq<Block>): seq<string>
  {
    if bs == [] then [] else BlockTexts(bs[0]) + BlocksTexts(bs[1..])
  }

  /** `_extract_text_from_content`: a string as is; for a list, its texts joined by one space. */
  function ExtractText(c: Content): string
  {
    match c
    case Str(s) => s
    case Blocks(bs) => Join(BlocksTexts(bs), " ")
  }

  lemma {:induction false} BlocksTextsAppend(a: seq<Block>, b: seq<Block>)
    ensures BlocksTexts(a + b) == BlocksTexts(a) + BlocksTexts(b)
    decreases |a|
  {
    if a == [] {
      assert a + b == b;
    } else {
      assert (a + b)[1..] == a[1..] + b;
      BlocksTextsAppend(a[1..], b);
    }
  }

  /**
   * Texts are taken in block order: the text of a list is the text of its first
   * part, one space, and the text of the rest, whenever both have some text.
   */
  lemma ExtractTextInOrder(a: seq<Block>, b: seq<Block>)
    requires BlocksTexts(a) != [] && BlocksTexts(b) != []
    ensures ExtractText(Blocks(a + b)) == ExtractText(Blocks(a)) + " " + ExtractText(Blocks(b))
  {
    BlocksTextsAppend(a, b);
    JoinAppend(BlocksTexts(a), BlocksTexts(b), " ");
  }

  /** The text of a list without text blocks or text parts is empty. */
  lemma ExtractTextWithoutTexts(bs: seq<Block>)
    requires BlocksTexts(bs) == []
    ensures ExtractText(Blocks(bs)) == ""
  {
  }

  /**
   * Converting an outcome and reading its text back gives the failure string,
   * or the result's `output` when it is non-empty, and nothing else: images and
   * the `error` field contribute no text.
   */
  lemma ExtractTextOfToolResult(outcome: Outcome, toolUseId: string)
    ensures ExtractText(Blocks([MakeApiToolResult(outcome, toolUseId)]))
         == match outcome
            case Raw(s) => s
            case Result(res) => if Truthy(res.output) then res.output.value else ""
  {
    var b := MakeApiToolResult(outcome, toolUseId);
    assert BlocksTexts([b]) == BlockTexts(b) + BlocksTexts([]);
    if outcome.Result? {
      var ps := b.parts;
      var texts := if Truthy(outcome.r.output) then [outcome.r.output.value] else [];
      if ps != [] {
        assert PartTexts(ps) == (if ps[0].TextPart? then [ps[0].text] else []) + PartTexts(ps[1..]);
        if |ps| == 2 {
          assert PartTexts(ps[1..]) == [] + PartTexts(ps[2..]);
        } else {
          assert PartTexts(ps[1..]) == [];
        }
      }
      assert PartTexts(ps) == texts;
    } else {
      assert PartTexts(b.parts) == [outcome.s] + PartTexts([]);
    }
  }

  /**
   * A result carries exactly one image, holding its `base64_image`, when that
   * field is non-empty, and none otherwise; a failure string carries none.
   */
  lemma ToolResultImages(outcome: Outcome, toolUseId: string)
    ensures var imgs := ImagePolicy.BlockImages(MakeApiToolResult(outcome, toolUseId));
      if outcome.Result? && Truthy(outcome.r.base64Image)
      then imgs == [ImagePart(IMAGE_MEDIA_TYPE, outcome.r.base64Image.value)]
      else imgs == []
  {
    var ps := MakeApiToolResult(outcome, toolUseId).parts;
    if ps != [] {
      assert ImagePolicy.PartImages(ps) == (if ps[0].ImagePart? then [ps[0]] else []) + ImagePolicy.PartImages(ps[1..]);
      if |ps| == 2 {
        assert ImagePolicy.PartImages(ps[1..]) == [ps[1]] + ImagePolicy.PartImages(ps[2..]);
      }
    }
  }

  /** The `error` field of a result object is not copied into the block. */
  lemma ToolResultIgnoresError(res: ToolResult, e: Option<string>, toolUseId: string)
    ensures MakeApiToolResult(Result(res.(error := e)), toolUseId) == MakeApiToolResult(Result(res), toolUseId)
  {
  }

  // ---------------------------------------------------------------- truncation

  /** `truncate_message_content(v, max_length)`: every string outside `source` cut to `s[:max_length]`. */
  function Truncate(v: Json, maxLength: int): Json
    decreases v
  {
    match v
    case JStr(s) => JStr(Take(s, maxLength))
    case JArr(items) => JArr(TruncateItems(items, maxLength))
    case JObj(fields) => JObj(TruncateFields(fields, maxLength))
    case _ => v
  }

  function TruncateItems(items: seq<Json>, maxLength: int): (r: seq<Json>)
    ensures |r| == |items|
    decreases items
  {
    if items == [] then [] else [Truncate(items[0], maxLength)] + TruncateItems(items[1..], maxLength)
  }

  function TruncateFields(fields: seq<(string, Json)>, maxLength: int): (r: seq<(string, Json)>)
    ensures |r| == |fields|
    decreases fields
  {
    if fields == [] then []
    else
      assert fields[0].1 < fields[0];
      var (k, v) := fields[0];
      [(k, if k != "source" then Truncate(v, maxLength) else v)] + TruncateFields(fields[1..], maxLength)
  }

  /** No string outside a `source` value is longer than `n`. */
  predicate Fits(v: Json, n: nat)
    decreases v
  {
    match v
    case JStr(s) => |s| <= n
    case JArr(items) => ItemsFit(items, n)
    case JObj(fields) => FieldsFit(fields, n)
    case _ => true
  }

  predicate ItemsFit(items: seq<Json>, n: nat)
    decreases items
  {
    items == [] || (Fits(items[0], n) && ItemsFit(items[1..], n))
  }

  predicate FieldsFit(fields: seq<(string, Json)>, n: nat)
    decreases fields
  {
    fields == []
    || (assert fields[0].1 < fields[0];
        (fields[0].0 == "source" || Fits(fields[0].1, n)) && FieldsFit(fields[1..], n))
  }

  /** The same tree up to string contents: kinds, lengths, keys and `source` values agree. */
  predicate SameShape(a: Json, b: Json)
    decreases a
  {
    match a
    case JStr(_) => b.JStr?
    case JArr(xs) => b.JArr? && |xs| == |b.items| && ItemsShape(xs, b.items)
    case JObj(fs) => b.JObj? && |fs| == |b.fields| && FieldsShape(fs, b.fields)
    case _ => a == b
  }

  predicate ItemsShape(xs: seq<Json>, ys: seq<Json>)
    requires |xs| == |ys|
    decreases xs
  {
    xs == [] || (SameShape(xs[0], ys[0]) && ItemsShape(xs[1..], ys[1..]))
  }

  predicate FieldsShape(fs: seq<(string, Json)>, gs: seq<(string, Json)>)
    requires |fs| == |gs|
    decreases fs
  {
    fs == []
    || (assert fs[0].1 < fs[0];
        fs[0].0 == gs[0].0
        && (if fs[0].0 == "source" then gs[0].1 == fs[0].1 else SameShape(fs[0].1, gs[0].1))
        && FieldsShape(fs[1..], gs[1..]))
  }

  /**
   * Truncation keeps the structure: lists keep their length, dicts their keys in
   * order, the value under `source` is untouched and every other value keeps its kind.
   */
  lemma {:induction false} TruncateKeepsShape(v: Json, maxLength: int)
    ensures SameShape(v, Truncate(v, maxLength))
    decreases v
  {
    match v
    case JArr(items) => TruncateItemsShape(items, maxLength);
    case JObj(fields) => TruncateFieldsShape(fields, maxLength);
    case _ =>
  }

  lemma {:induction false} TruncateItemsShape(items: seq<Json>, maxLength: int)
    ensures ItemsShape(items, TruncateItems(items, maxLength))
    decreases items
  {
    if items != [] {
      TruncateKeepsShape(items[0], maxLength);
      TruncateItemsShape(items[1..], maxLength);
    }
  }

  lemma {:induction false} TruncateFieldsShape(fields: seq<(string, Json)>, maxLength: int)
    ensures FieldsShape(fields, TruncateFields(fields, maxLength))
    decreases fields
  {
    if fields != [] {
      assert fields[0].1 < fields[0];
      TruncateKeepsShape(fields[0].1, maxLength);
      TruncateFieldsShape(fields[1..], maxLength);
    }
  }

  /** Every string left, outside `source`, is at most `max_length` long, and is a prefix of the original. */
  lemma {:induction false} TruncateFits(v: Json, maxLength: nat)
    ensures Fits(Truncate(v, maxLength), maxLength)
    ensures v.JStr? ==> StartsWith(v.s, Truncate(v, maxLength).s)
    decreases v
  {
    match v
    case JStr(s) => TakeIsPrefix(s, maxLength);
    case JArr(items) => TruncateItemsFit(items, maxLength);
    case JObj(fields) => TruncateFieldsFit(fields, maxLength);
    case _ =>
  }

  lemma {:induction false} TruncateItemsFit(items: seq<Json>, maxLength: nat)
    ensures ItemsFit(TruncateItems(items, maxLength), maxLength)
    decreases items
  {
    if items != [] {
      TruncateFits(items[0], maxLength);
      TruncateItemsFit(items[1..], maxLength);
    }
  }

  lemma {:induction false} TruncateFieldsFit(fields: seq<(string, Json)>, maxLength: nat)
    ensures FieldsFit(TruncateFields(fields, maxLength), maxLength)
    decreases fields
  {
    if fields != [] {
      assert fields[0].1 < fields[0];
      TruncateFits(fields[0].1, maxLength);
      TruncateFieldsFit(fields[1..], maxLength);
    }
  }

  /** A value whose strings already fit comes back unchanged. */
  lemma {:induction false} TruncateFitting(v: Json, maxLength: nat)
    requires Fits(v, maxLength)
    ensures Truncate(v, maxLength) == v
    decreases v
  {
    match v
    case JArr(items) => TruncateItemsFitting(items, maxLength);
    case JObj(fields) => TruncateFieldsFitting(fields, maxLength);
    case _ =>
  }

  lemma {:induction false} TruncateItemsFitting(items: seq<Json>, maxLength: nat)
    requires ItemsFit(items, maxLength)
    ensures TruncateItems(items, maxLength) == items
    decreases items
  {
    if items != [] {
      TruncateFitting(items[0], maxLength);
      TruncateItemsFitting(items[1..], maxLength);
    }
  }

  lemma {:induction false} TruncateFieldsFitting(fields: seq<(string, Json)>, maxLength: nat)
    requires FieldsFit(fields, maxLength)
    ensures TruncateFields(fields, maxLength) == fields
    decreases fields
  {
    if fields != [] {
      assert fields[0].1 < fields[0];
      if fields[0].0 != "source" {
        TruncateFitting(fields[0].1, maxLength);
      }
      TruncateFieldsFitting(fields[1..], maxLength);
    }
  }

  /** With a non-negative limit, truncating twice is truncating once. */
  lemma TruncateIdempotent(v: Json, maxLength: nat)
    ensures Truncate(Truncate(v, maxLength), maxLength) == Truncate(v, maxLength)
  {
    TruncateFits(v, maxLength);
    TruncateFitting(Truncate(v, maxLength), maxLength);
  }

  /**
   * A negative limit counts from the end, as in Python: `"abcdef"[:-2]` is
   * `"abcd"`, so a second pass cuts again and the function is not idempotent there.
   */
  lemma TruncateNegativeCutsAgain()
    ensures Truncate(JStr("abcdef"), -2) == JStr("abcd")
    ensures Truncate(Truncate(JStr("abcdef"), -2), -2) == JStr("ab")
  {
    assert Take("abcdef", -2) == "abcdef"[0..4];
    assert Take("abcd", -2) == "abcd"[0..2];
  }
}

=== FILE: wrappers.dfy ===
/**
 * Optional values, used wherever the Python code has `None`, and results that
 * are either a value or the message of the exception raised instead.
 */
module Wrappers {
  datatype Option<T> = None | Some(value: T)
  {
    function GetOr(default: T): T
    {
      match this
      case Some(v) => v
      case None => default
    }
  }

  datatype Result<T> = Ok(value: T) | Err(error: string)
}
